=== FILE: README.md ===
# S-Core backend, modelled in Dafny

S-Core is a study assistant. A user creates a deck, attaches a syllabus and
uploads course material. The backend then does three things:

- **Ingestion.** It extracts text from PDF, Word, PowerPoint, text and image
  files, OCR and a language-model description included. It cuts the text
  into chunks and keeps the chunks that map to syllabus topics. It embeds
  them and stores them in a per-deck vector collection, and records the
  file on the deck document.
- **Questions.** It answers questions against the stored material. A domain
  guard, a coverage check and an internet fallback are involved.
- **Teaching.** It runs a session-based teaching flow that walks the
  learner through the syllabus topic by topic.

This project models that core as pure functions over immutable state:

- The vector store is a map of named collections (`Chroma.Client`).
- The document database is a map of users and a map of decks (`Mongo.Db`).
- Sessions live in a `Session.Store`.
- An HTTP request is one function from the state it reads to its result.

Everything the backend does not decide itself becomes a parameter: the
language model, the embedding model, OCR, the file parsers, web search, the
clock and identifiers. Where the source catches a failing call, the call
returns a `Result` and the model takes the source's fallback. The
language-model calls of the teaching flow, which the source does not catch,
are total functions; "## Left out" says what that leaves out. A Python
exception that FastAPI turns into a 500 is `Auth.Crash`, and an
`HTTPException` is `Auth.HttpError(status, detail)`.

Modules:

- **`Chunker`** (`chunk.dfy`) covers sentence and paragraph boundaries,
  semantic chunking with overlap, paragraph chunking, smart chunking and
  merging small chunks.
- **`Extract`**, **`ImageToText`**, **`SyllabusMap`**, **`Pipeline`** and
  **`Replies`** cover the ingestion path. `Replies` holds the comma-list and
  code-fence handling of model replies.
- **`Expand`**, **`Retrieve`**, **`Coverage`**, **`Domain`**, **`Internet`**,
  **`Classify`**, **`Pace`**, **`Practice`**, **`Session`** and **`Teach`**
  cover the runtime.
- **`Chroma`** and **`Mongo`** cover the two stores.
- **`Auth`** covers password preparation, token payloads and the
  current-user dependency.
- **`Api`** covers the request handlers' decisions in `main.py`: the
  ownership gate and its status codes, the three answer branches of
  `/ask`, topic coverage, the session endpoints, chat routing, and the
  legacy single-deck endpoints.
- **`Text`**, **`Seqs`** and **`Wrappers`** hold the string, sequence and
  `Option`/`Result` vocabulary that Python's standard library provides. They
  have no rows below.

Where the code and its own documentation disagree, the model follows the
code, with the exceptions listed under "## Left out" and "## Findings".
In particular:

- Collection naming is a parameter, `Chroma.Naming`. `EightChars` is the
  code's name, built from the first 8 characters of each id. `FullIds` is
  the corrected name, which keeps the whole ids. Isolation between decks
  is proved under `FullIds` only. Under `EightChars`, the model shows how
  one deck's deletion or upload reaches another's.
- `ObjectId(...)` on a string that is not 24 hexadecimal digits raises
  InvalidId. Every database call that converts an id is modelled with that
  failure, at the point in the call where it happens. The unique
  (user, name) index on decks is modelled as a DuplicateKeyError.
- `get_collection_stats` reports the collection name. Like every
  collection access, it creates the collection when it is missing.
- Python's `list.index` and `str.find` semantics are kept.
- Several imports name things their modules do not define. main.py:29
  imports `ingestion.pipeline`, whose line 9 asks `ingestion/syllabus_map.py`
  for `parse_syllabus` and `MappedChunk`; that file defines only
  `map_to_syllabus(chunk, syllabus)`. main.py:34-36 ask for
  `RetrievalResult` and `retrieve_for_topic`, for `generate_quick_answer`
  and `respond_with_history` (runtime/respond.py defines only `respond`),
  and for `coverage_check_detailed` and `get_coverage_warning`.
  runtime/teach.py:22 asks for `retrieve_for_topic` too. Some calls also
  pass argument lists their definitions do not accept: `retrieve` in
  main.py, and `map_to_syllabus` at ingestion/pipeline.py:101-104. The
  handlers are modelled as intended. The values those names and calls
  would produce are inputs: `Pipeline.Services.parse` and
  `Pipeline.Services.mapper`, `Api.AskFacts`, and
  `Teach.Services.retrieve` (the lesson context that teach.py:258, 422,
  453 and 498 fetch through `retrieve_for_topic`). `Retrieve.Retrieve` and
  `SyllabusMap.ParseTopics` model the definitions that do exist. What the
  code does instead is listed under "## Left out".

## Model

| member | source | states |
|---|---|---|
| Chunker.FindSentenceBoundary | ingestion/chunk.py:24-43 | Forward: the end of the first `[.!?]` plus whitespace at or after the target, or the text length when none follows. Backward: the end of the last such pair wholly before the target, or 0. No sentence end lies strictly between the target and the result. |
| Chunker.NextSentenceEndIsFirst | ingestion/chunk.py:31-36 | The forward search stops at the first sentence end. When it returns the text length, there is no sentence end after the target at all. |
| Chunker.LastSentenceEndIsLast | ingestion/chunk.py:37-43 | The backward search returns the last sentence end before the target: none lies between the result and the target. |
| Chunker.FindParagraphBoundary | ingestion/chunk.py:45-52 | Forward: two past the first "\n\n" at or after the target, or the length when there is none. Backward: two past the last "\n\n" that ends before the target, or 0. Both directions are characterised by the absence of a break in between. |
| Chunker.WindowEnd | ingestion/chunk.py:96-105 | The cut after `cur` lies past `cur` and within the text. A window is never longer than 1.5 times the chunk size. A window longer than the chunk size ends at a sentence end or at the text's end. A window shorter than the chunk size ends at a sentence end. |
| Chunker.NextStart | ingestion/chunk.py:119-122 | The next start is `end - overlap`, clamped at 0. With a non-negative overlap it never passes the previous end. |
| Chunker.Windows | ingestion/chunk.py:79-122 | With the corrected progress rule, the windows of the semantic loop have strictly increasing starts. Each is a legal window. There is at least one exactly when there is text left, and the first starts where the loop starts. |
| Chunker.WindowsCover | ingestion/chunk.py:79-122 | Every position from the start to the end of the text lies inside some window. |
| Chunker.WindowsReachEnd | ingestion/chunk.py:83-94 | The last window ends at the end of the text. |
| Chunker.AgreeWhenAdvancing | ingestion/chunk.py:79-122 | When, at every window the loop visits, the next start as written (`overlap` before the cut) lies past the window's start, the loop as written finishes and produces exactly the windows of the corrected loop. |
| Chunker.AgreeOnlyWhenAdvancing | ingestion/chunk.py:79-122 | Conversely, when the loop as written finishes with the corrected windows, it advanced at every window it visited. |
| Chunker.SemanticChunk | ingestion/chunk.py:54-124 | `semantic_chunk` with guaranteed progress: blank text gives no chunks. |
| Chunker.SemanticChunkWellFormed | ingestion/chunk.py:54-124 | Every chunk is the stripped slice of the stripped text between its recorded `char_start` and `char_end`, and is numbered by its position. Chunk starts strictly increase. |
| Chunker.SemanticChunkCovers | ingestion/chunk.py:54-124 | Every non-whitespace character of the stripped text lies inside some chunk's span: no content is lost. |
| Chunker.SemanticChunkSpans | ingestion/chunk.py:76-94 | For non-blank text, the first chunk starts at 0 and the last ends at the stripped text's length. |
| Chunker.StallingTextFacts | ingestion/chunk.py:97-105 | The counterexample text: 1604 characters with a single sentence end, at the very beginning. |
| Chunker.SemanticChunkAsWrittenStalls | ingestion/chunk.py:97-122 | On that text, with the default size 1000 and overlap 200, the loop as written never terminates: it returns to position 0 forever. |
| Chunker.NoOverlapAgrees | ingestion/chunk.py:54-124 | Without overlap, the code as written always terminates and agrees with the corrected `SemanticChunk`. |
| Chunker.SplitParagraphs | ingestion/chunk.py:139 | `re.split(r'\n\n+')` yields at least one piece, and no piece contains "\n\n". |
| Chunker.SplitParagraphsRebuild | ingestion/chunk.py:139 | The pieces, interleaved with the runs of two or more newlines that separated them, rebuild the text exactly. |
| Chunker.ParagraphGroups | ingestion/chunk.py:139-166 | The groups of paragraphs, concatenated, are the non-blank stripped paragraphs in order. No group is empty. |
| Chunker.GroupsFit | ingestion/chunk.py:147-166 | A group of two or more paragraphs, joined with "\n\n", is at most the maximum size. Only a single oversized paragraph can exceed it. |
| Chunker.GroupsGreedy | ingestion/chunk.py:150 | A group is closed only when the next paragraph would push its running length past the maximum. |
| Chunker.ChunkByParagraphs | ingestion/chunk.py:126-179 | Blank text gives no chunks. Otherwise there is one chunk per paragraph group. |
| Chunker.ChunkByParagraphsAt | ingestion/chunk.py:151-177 | Chunk k joins group k with "\n\n" and is numbered k. Its span is its length plus 2. Spans are contiguous from 0, as the running `char_pos` bookkeeping gives. |
| Chunker.ChunkByParagraphsFit | ingestion/chunk.py:150-166 | A chunk built from two or more paragraphs is at most `max_chunk_size` long. |
| Chunker.ChunkByParagraphsGreedy | ingestion/chunk.py:150 | Each chunk but the last, plus the separator and the next paragraph, would exceed the maximum. |
| Chunker.HasParagraphsIffCount | ingestion/chunk.py:201 | The paragraph test holds exactly when there are more than two non-overlapping "\n\n" occurrences. |
| Chunker.BlockChunks | ingestion/chunk.py:196-206 | A blank block contributes no chunks. |
| Chunker.SmartChunk | ingestion/chunk.py:185-213 | `smart_chunk` is the concatenation of each block's chunks, in block order, unchanged except that indices are renumbered globally from 0. |
| Chunker.MergeSmallChunks | ingestion/chunk.py:215-245 | The result is empty exactly when the input is, and is never longer than it. |
| Chunker.MergeSmallChunksBigEnough | ingestion/chunk.py:226-243 | Every merged chunk except the last has content of at least `min_size` characters. |
| Chunker.MergeSmallChunksRuns | ingestion/chunk.py:226-243 | The input splits into consecutive non-empty runs whose concatenation is the input. Each output chunk fuses one run: the contents are joined with "\n\n", and it keeps the first chunk's source, index and start and the last chunk's end. |
| Extract.Lookup | ingestion/extract.py:221-236 | An extension has an extractor exactly when it is one of the 14 supported extensions. |
| Extract.KeysDistinct | ingestion/extract.py:221-236 | No extension appears twice in the extractor table. |
| Extract.LookupEntry | ingestion/extract.py:221-236 | Looking up a table key finds that key's own extractor. |
| Extract.SupportedExtensions | ingestion/extract.py:250-252 | The supported extensions are the table's 14 keys, in table order. |
| Extract.ExtensionAfterLastDot | ingestion/extract.py:240 | The extension is the lower-cased text after the last '.'. It contains no dot, and is the whole name when there is no dot. |
| Extract.TxtChunks | ingestion/extract.py:188-204 | A text file's blocks are its non-blank stripped "\n\n"-separated paragraphs. When there are none, the content is the single block. |
| Extract.OneParagraph | ingestion/extract.py:188-204 | Non-blank text without a paragraph break is one stripped block. |
| Extract.ParagraphGroupsShape | ingestion/extract.py:91-140 | The Word paragraph groups contain no empty group or empty paragraph. Concatenated, they are the non-blank stripped paragraphs in order. |
| Extract.BlankClosesGroup | ingestion/extract.py:91-140 | A blank Word paragraph closes the current group: grouping splits around it. |
| Extract.NoBlankOneGroup | ingestion/extract.py:91-140 | Without blank paragraphs, the whole document is one group. |
| Extract.RowText | ingestion/extract.py:91-140 | A table row gives text exactly when it has a non-blank cell, namely its non-blank stripped cells joined with " \| ". |
| Extract.TableText | ingestion/extract.py:91-140 | A table gives a block exactly when some row has a non-blank cell. The block is its non-empty row texts joined with newlines. |
| Extract.RelImages | ingestion/extract.py:91-140 | A relationship contributes an image exactly when its target mentions "image" and its blob can be read. |
| Extract.DocxContent | ingestion/extract.py:91-140 | A Word file's blocks are its paragraph groups, each joined with newlines, followed by its non-empty tables. Its images are the readable image relationships in order. |
| Extract.SlideChunk | ingestion/extract.py:142-186 | A slide gives a block exactly when it has text lines, namely the "[Slide n]" header followed by the lines. |
| Extract.PptxContent | ingestion/extract.py:142-186 | A presentation's blocks are its slides' blocks in order, numbered from 1, skipping slides without text. |
| Extract.SlideBlocks | ingestion/extract.py:142-186 | Every block comes from a slide with text. |
| Extract.SlideWithTextKept | ingestion/extract.py:142-186 | Every slide with text contributes a block. |
| Extract.PageText | ingestion/extract.py:44-89 | A PDF page gives its stripped text exactly when it has non-blank text. |
| Extract.PdfContent | ingestion/extract.py:44-89 | A PDF's images are its pages' images. Its text blocks are stated page by page in the next three rows. |
| Extract.PdfPagesInOrder | ingestion/extract.py:44-89 | Every text block is the non-blank stripped text of some page, and blocks keep the page order. |
| Extract.PdfPageWithTextKept | ingestion/extract.py:44-89 | Every page with non-blank text contributes its stripped text as a block. |
| Extract.BlankPageSkipped | ingestion/extract.py:44-89 | A page without text, or with only whitespace, contributes no block: removing it leaves the blocks as they were. |
| Extract.ExtractFile | ingestion/extract.py:238-248 | An unsupported extension is an error naming it. A supported one runs its table extractor. |
| Extract.ExtractFollowsTable | ingestion/extract.py:221-248 | A file whose extension is table entry k is extracted by entry k's extractor. |
| Extract.ExtractKind | ingestion/extract.py:221-236 | Any extractor's result is labelled with the file's base name. An image gives one image and no text. A text file gives no images. |
| Extract.ExtractPdf | ingestion/extract.py:44-89 | A reader failure is the result's error. Otherwise the blocks are the pages' non-blank texts and the images are the pages' images, under the base name. |
| Extract.ExtractDocx | ingestion/extract.py:91-140 | Without the Word library the fixed "not installed" error. Otherwise a reader failure propagates, and success carries the readable image relationships under the base name. |
| Extract.ExtractPptx | ingestion/extract.py:142-186 | Without the PowerPoint library the fixed "not installed" error. Otherwise a reader failure propagates, and success carries the slides' blocks under the base name. |
| Extract.ExtractTxt | ingestion/extract.py:188-204 | A reader failure propagates. Otherwise at least one block, no images, under the base name. |
| Extract.ExtractImage | ingestion/extract.py:206-219 | A reader failure propagates. Otherwise the file's bytes are the one image, with no text, under the base name. |
| ImageToText.OcrImage | ingestion/image_to_text.py:27-38 | The OCR text is stripped, and is empty when OCR fails. |
| ImageToText.BlankInsufficient | ingestion/image_to_text.py:40-46 | With a positive minimum, text that is only whitespace is never sufficient. |
| ImageToText.SufficientExtends | ingestion/image_to_text.py:40-46 | Appending text never makes sufficient text insufficient. |
| ImageToText.DescribeImage | ingestion/image_to_text.py:52-95 | The description is the stripped model reply. When the model call fails, it is the OCR text. |
| ImageToText.ImageText | ingestion/image_to_text.py:101-134 | The ladder: sufficient OCR text is labelled "[Image Text]". Otherwise a non-empty description is labelled "[Image Description]", else non-empty OCR is labelled "[Partial Image Text]", else the result is empty. |
| ImageToText.SufficientSkipsModel | ingestion/image_to_text.py:120-126 | With sufficient OCR text, the model's answer does not matter. |
| ImageToText.PartialOnlyAfterBlankReply | ingestion/image_to_text.py:92-132 | Partial OCR text is reported only when the model answered blank. When the model call fails, its OCR fallback is labelled a description. |
| ImageToText.EmptyOnlyWhenNothingFound | ingestion/image_to_text.py:101-134 | The result is empty exactly when OCR found nothing and the description is empty. |
| ImageToText.ProcessImagesOrigins | ingestion/image_to_text.py:136-146 | Every result is the non-empty text of some image, and results keep the images' order. |
| ImageToText.ProcessImagesKeeps | ingestion/image_to_text.py:136-146 | Every image with non-empty text contributes it. |
| ImageToText.ProcessImages | ingestion/image_to_text.py:136-146 | There are never more texts than images. Their origin and order are stated in the two rows above. |
| Replies.CommaList | ingestion/syllabus_map.py:21-24 | A reply splits into one more piece than it has commas after stripping. |
| Replies.CommaListPieces | ingestion/syllabus_map.py:21-24 | Every piece is stripped and comma-free. A piece is empty exactly when the corresponding raw piece was whitespace. |
| Replies.CommaListRoundTrip | ingestion/syllabus_map.py:21-24 | Joining stripped, comma-free topics with "," and parsing back gives the same topics. |
| Replies.StripFenceRoundTrip | runtime/classify.py:96-99 | A body wrapped in a "```" or "```json" fence comes back unchanged after fence stripping. |
| Replies.StripFenceUnfenced | runtime/classify.py:96-99 | A reply that does not start with a fence is left alone. |
| SyllabusMap.ParseTopics | ingestion/syllabus_map.py:4-25 | The reply "NONE" (after stripping) means no topics, and only it does. Otherwise there is one topic per comma-separated piece. |
| SyllabusMap.ParseTopicsRoundTrip | ingestion/syllabus_map.py:4-25 | Stripped, comma-free topics other than the single topic "NONE" survive encoding as a reply and parsing back. |
| SyllabusMap.NoneIsCaseSensitive | ingestion/syllabus_map.py:23 | "None" is not the no-topic reply: it is one topic. |
| SyllabusMap.PaddedNoneIsNoTopic | ingestion/syllabus_map.py:21-23 | Surrounding whitespace does not stop "NONE" from meaning no topics. |
| Pipeline.MergeStreams | ingestion/pipeline.py:66-87 | The merged chunks are empty exactly when smart chunking produced nothing. Every chunk but the last reaches the minimum size. |
| Pipeline.TextBeforeImages | ingestion/pipeline.py:66-87 | Chunking text blocks followed by image texts gives the text chunks' contents, then the image chunks' contents. |
| Pipeline.MergeStreamsRuns | ingestion/pipeline.py:66-87 | Each merged chunk fuses a consecutive run of the smart chunks, and the runs cover them exactly. |
| Pipeline.FilterBySyllabus | ingestion/pipeline.py:89-111 | The mapper's failure is the filter's failure. On success it returns the mapped chunks and the number filtered out, which together account for every chunk. |
| Pipeline.ChunkMeta | ingestion/pipeline.py:113-150 | Stored metadata has exactly the source file, topics and relevance keys. Topics are joined into one string. |
| Pipeline.TopicsReadBack | ingestion/pipeline.py:113-150 | A non-empty list of topics without the separator reads back from the metadata unchanged. |
| Pipeline.NoTopicsReadBackEmpty | ingestion/pipeline.py:113-150 | An empty topic list reads back as one empty topic. |
| Pipeline.EmbedAndStore | ingestion/pipeline.py:113-150 | Nothing to store leaves the store alone and reports 0. A failing embedding is an error and touches no collection. Otherwise the chunks, their embeddings and their metadata go to the deck's collection, which exists afterwards even if the add fails. The count stored is the number of chunks. Only the deck's collection can change. |
| Pipeline.StoredRequest | ingestion/pipeline.py:113-150 | The add request pairs chunk k's content with chunk k's metadata. |
| Pipeline.IngestSingleFile | ingestion/pipeline.py:152-207 | A file result carries its name and succeeds exactly when it has no error. A failure creates no chunks and leaves the database unchanged, and only the deck's collection may differ. A success records the file and its chunk count on the deck. A deck id that is not an ObjectId never succeeds. An unreadable file is reported with the reader's error and changes nothing. |
| Pipeline.FileTarget | ingestion/pipeline.py:245-257 | An upload is read from the temporary directory under its own name. A path on disk is read in place, under its base name. |
| Pipeline.LoopEach | ingestion/pipeline.py:236-281 | Each file's result is computed on the state left by the files before it. |
| Pipeline.IngestFiles | ingestion/pipeline.py:209-303 | A deck id that is not an ObjectId fails with InvalidId, and only it does. Otherwise the result names the deck and counts every file, carries the parsed syllabus topics and one result per file, named after it, in order. Its totals are the sums of the per-file counts. The deck's collection exists afterwards, since the statistics call creates it. |
| Pipeline.MapperFailureFailsEveryFile | ingestion/pipeline.py:152-201 | As written, the mapper call raises for every file. Then no file succeeds, the total of created chunks is 0, and the deck records change only by the saved syllabus topics. |
| Pipeline.SameTopicsForEveryFile | ingestion/pipeline.py:234-270 | When ingestion runs, the syllabus is parsed once, and every file is filtered against those topics after they are recorded on the deck. |
| Pipeline.UnreadableFileSkipped | ingestion/pipeline.py:236-281 | A file that cannot be read changes nothing, and the remaining files are processed as if it were absent. |
| Pipeline.FailedFileKeepsDb | ingestion/pipeline.py:236-281 | Any failing file leaves the database as it was and touches at most the deck's collection. The files after it run on that state. |
| Pipeline.IngestSingleFileCounts | ingestion/pipeline.py:152-207 | Ingesting one file keeps every deck's chunk count equal to the sum over its recorded files. |
| Pipeline.IngestFilesCounts | ingestion/pipeline.py:209-303 | When ingestion runs, the deck's chunk count grows by exactly the reported total and all decks' counts still agree with their files. The deck's topics are the parsed ones. |
| Pipeline.IngestFilesLegacy | ingestion/pipeline.py:305-317 | The legacy entry point ingests into the legacy user's "default" deck. It fails exactly when that ingestion fails; on success it returns that deck's collection. |
| Pipeline.LegacyIngestFails | ingestion/pipeline.py:305-317 | "default" is not an ObjectId, so the legacy entry point always fails with InvalidId. |
| Expand.ExpandTopics | runtime/expand.py:4-23 | One subtopic per comma-separated piece of the stripped reply. |
| Expand.ExpandTopicsRoundTrip | runtime/expand.py:4-23 | A comma-joined list of stripped, comma-free subtopics parses back to itself. |
| Expand.ExpandTopicsBlankPieces | runtime/expand.py:21-22 | An empty reply is one empty subtopic, and blank pieces become empty subtopics. |
| Retrieve.RetrieveShape | runtime/retrieve.py:13-34 | The documents are the depth-N query's documents followed by one 3-document batch per subtopic, of which there is at least one. |
| Retrieve.RetrieveIgnoresSubtopicText | runtime/retrieve.py:26-32 | Only the number of subtopics matters, since every subtopic reuses the query vector. |
| Retrieve.DepthTablesAgreeOnPaces | runtime/retrieve.py:3-10 | `retrieval_depth` agrees with the pace table on the three paces. Other text gives 10 here and 12 in the pace table. |
| Retrieve.Retrieve | runtime/retrieve.py:13-34 | The result opens with the primary query's documents at the pace's depth, in store order. |
| Coverage.CoverageCheck | runtime/coverage.py:3-13 | No documents means `max()` of nothing, which is an error. That is the only error. |
| Coverage.CoverageCheckIff | runtime/coverage.py:3-13 | Coverage fails exactly when every document's similarity is below 0.25. |
| Coverage.CoverageCheckOrderFree | runtime/coverage.py:3-13 | Reordering the documents does not change the verdict. |
| Domain.RaisingThresholdNarrows | runtime/domain.py:19-42 | Raising the threshold can only turn in-scope into out-of-scope. |
| Domain.DomainGuard | runtime/domain.py:19-42 | A query is in scope exactly when the syllabus similarity reaches 0.35, inclusive. |
| Domain.BestTopic | runtime/domain.py:60-68 | The reported topic is the first topic of highest positive similarity. There is none when no similarity is positive. |
| Domain.DomainGuardDetailed | runtime/domain.py:44-77 | The detailed verdict's scope and similarity are those of the plain guard. It carries the out-of-scope explanation exactly when it is out of scope. |
| Domain.TopicsDoNotDecideScope | runtime/domain.py:44-77 | The topic list affects only the explanation, never the scope or the similarity. |
| Domain.InScopeExplanation | runtime/domain.py:60-75 | In scope, the explanation names the best topic when there is a non-empty one. |
| Domain.OutOfScopeResponse | runtime/domain.py:79-113 | The model's reply, or the fixed fallback text when the call fails. |
| Internet.FirstWhitelisted | runtime/internet.py:34-57 | The matched domain is whitelisted and occurs in the link. No earlier whitelist entry occurs in it. |
| Internet.SearchInternet | runtime/internet.py:34-57 | There are never more results than hits. Which hits are kept, and in what order, is stated in the next two rows. |
| Internet.SearchKeepsWhitelisted | runtime/internet.py:34-57 | Every hit whose link contains a whitelisted domain is kept. |
| Internet.SearchResultsOrigin | runtime/internet.py:34-57 | Every result comes from a hit with a whitelisted link, and results keep the hits' order. |
| Internet.SummarizeResults | runtime/internet.py:59-103 | No results gives the fixed message. With results, a working model gives its reply. |
| Internet.SummaryFallback | runtime/internet.py:97-99 | When the model fails, the summary is the first three bodies, one per line. |
| Internet.InternetOracle | runtime/internet.py:105-127 | No results gives the fixed message. Otherwise the result is the summary. |
| Internet.InternetOracleDetailed | runtime/internet.py:129-149 | It is reliable exactly when there are at least two results. The sources are the results' domains. |
| Internet.SourcesWhitelisted | runtime/internet.py:34-149 | Every reported source domain is on the whitelist. |
| Internet.FormatLayout | runtime/internet.py:151-170 | The formatted response is the notice block, the content, the optional sources line and a closing rule of 50 '='. |
| Internet.FormatKeepsContent | runtime/internet.py:151-170 | The content appears verbatim right after the fixed preamble, and the response ends with the rule. |
| Classify.Classify | runtime/classify.py:29-64 | The intent is always a valid intent. A valid reply (stripped, lower-cased) is taken as given. |
| Classify.ClassifyIff | runtime/classify.py:29-64 | A non-default intent is returned exactly when the model replied with it. |
| Classify.ClassifyRoundTrip | runtime/classify.py:29-64 | A valid intent with surrounding whitespace classifies as itself, and classifying the result again gives it again. |
| Classify.Fallback | runtime/classify.py:110-117 | The fallback is the default intent with no subtopics. Its topic is a prefix of the query of at most 50 characters. |
| Classify.ClassifyDetailed | runtime/classify.py:66-117 | A failing call or an undecodable reply gives the fallback. |
| Classify.ClassifyDetailedFields | runtime/classify.py:101-108 | A decoded reply's fields are used, with defaults for missing ones. |
| Classify.ClassifyDetailedUnfences | runtime/classify.py:93-108 | A reply fenced as "```json" is decoded from its body. |
| Pace.PaceConfigOf | runtime/pace.py:30-40 | Unknown paces get the medium settings. Theory and practice ratios add up to 1. |
| Pace.ValidatePace | runtime/pace.py:88-96 | The result is always a pace: the normalised input when that is one, "medium" otherwise. |
| Pace.ValidatePaceIdempotent | runtime/pace.py:88-96 | Validation is idempotent, and fixes exactly the three paces. |
| Pace.QuestionsFollowPracticeRatio | runtime/pace.py:66-75 | A pace with a higher practice ratio asks more questions. |
| Pace.LookupAfterValidation | runtime/pace.py:30-40 | Lookup is by exact key: "SLOW" gets the medium settings unless it is validated first. |
| Pace.MaxTokens | runtime/pace.py:77-86 | Unknown paces get 2000 tokens. |
| Practice.ToQuestions | runtime/practice.py:85-96 | Raw questions convert exactly when all are complete. The conversion keeps their order and count. |
| Practice.GenerateQuestions | runtime/practice.py:39-232 | Every generated question has the requested type and topic. A failing call gives none. |
| Practice.GenerateQuestionsDecoded | runtime/practice.py:76-100 | A decoded reply with only complete questions gives them all, with default steps and difficulty. One incomplete question gives none, since the KeyError is swallowed. |
| Practice.PracticeCountsAgree | runtime/practice.py:234-277 | The practice set's counts are the pace table's. Unknown paces get the medium counts. |
| Practice.PracticeSetOrdered | runtime/practice.py:234-277 | A practice set lists conceptual, then application, then numerical questions, all on its topic. |
| Practice.GeneratePracticeSet | runtime/practice.py:234-277 | The set carries the topic and the theory summary. When every generator call fails, it has no questions. |
| Practice.TheorySummary | runtime/practice.py:279-320 | The summary is stripped, and empty when the call fails. |
| Practice.HeaderNumberReadsBack | runtime/practice.py:359-373 | A question header's number reads back as the question's position. |
| Practice.StepNumberReadsBack | runtime/practice.py:359-373 | A step line's number reads back as the step's number. |
| Practice.QuestionBlocksNumbered | runtime/practice.py:322-357 | The question blocks are the questions' formatted blocks numbered consecutively, in order. |
| Practice.FormatOpening | runtime/practice.py:322-357 | A formatted set opens with the rule, the topic line and the rule again. |
| Practice.FormatQuestion | runtime/practice.py:359-373 | A formatted question opens with its type and difficulty line, then the question text, then a blank line. |
| Session.CurrentTopic | runtime/session.py:80-83 | There is a current topic exactly while the index is within the syllabus, and it is the topic at the index. |
| Session.RemainingTopics | runtime/session.py:92-93 | The remaining topics are those after the current one. |
| Session.RemainingCount | runtime/session.py:92-93 | With a current topic, the count is the topics after it. Otherwise there are none. |
| Session.ProgressPercent | runtime/session.py:86-89 | Progress is 0 without topics, lies between 0 and 100 while the index is in range, and is 100 at the end. |
| Session.AddMessage | runtime/session.py:122-134 | The message is appended and nothing else changes. Without a topic of its own, it is tagged with the current topic. |
| Session.RecentMessagesLast | runtime/session.py:136-139 | For a positive count, the recent messages are the last that many, or all of them when there are fewer. |
| Session.ZeroWindowIsEverything | runtime/session.py:136-139 | A zero window returns every message, because `[-0:]` is the whole list. |
| Session.SliceStart | runtime/session.py:136-139 | A negative slice start counts from the end, clamped at 0. |
| Session.NewSession | runtime/session.py:109-120 | A new session has no messages and no recent messages, is idle and inactive, has no current topic and 0 progress, and carries its ids. |
| Session.ConversationContext | runtime/session.py:141-152 | The context is empty exactly when there are no recent messages. |
| Session.ContextIsHeaderThenLines | runtime/session.py:141-152 | Otherwise it is the header followed by one line per recent message, in order. |
| Session.ContextLines | runtime/session.py:141-152 | Line k is the role-labelled line of the k-th message. |
| Session.GetOrCreate | runtime/session.py:196-218 | The deck's key is indexed afterwards. In a consistent store, the returned session is stored under its id and indexed under the key. |
| Session.GetOrCreateConsistent | runtime/session.py:196-218 | Creating a session with a fresh id keeps the store consistent. |
| Session.GetOrCreateStable | runtime/session.py:196-218 | Asking again for the same deck returns the same session and changes nothing. |
| Session.GetOrCreateOwned | runtime/session.py:196-218 | With an injective key, the session returned belongs to the user and deck asked for. |
| Session.GetSession | runtime/session.py:220-222 | A session is found exactly when its id is stored. |
| Session.GetSessionByDeck | runtime/session.py:224-230 | A session is found exactly when the deck's key is indexed with a non-empty id that is stored, and it is the stored session. |
| Session.DeleteSession | runtime/session.py:232-239 | Deleting removes exactly that session, and all others are kept. |
| Session.DeleteConsistent | runtime/session.py:232-239 | Deleting keeps the store consistent and drops the deck's index entry. |
| Session.ClearDeckOnlyThatDeck | runtime/session.py:241-246 | Clearing a deck's session leaves no session for that deck and keeps every other deck's session. |
| Session.ClearDeckSession | runtime/session.py:241-246 | An unindexed deck leaves the store alone. Otherwise the indexed session is gone, exactly that id is removed, and every other session is kept. |
| Session.ListUserSessions | runtime/session.py:248-253 | The listed sessions are exactly the user's. |
| Session.MakeKeyCollides | runtime/session.py:183-184 | The user:deck key collides for ("alice:x", "deck") and ("alice", "x:deck"), so the second user is handed the first user's session. |
| Session.PairKeyInjective | runtime/session.py:183-184 | The corrected key, the pair itself, is injective. |
| Session.FirstMatchPicks | runtime/session.py:267-307 | The action is that of the first keyword group with a keyword occurring in the input. Without one, it is a question. |
| Session.ParseTextIsFirstMatch | runtime/session.py:267-307 | The keyword cascade is the first-match table. |
| Session.ParseUserAction | runtime/session.py:267-307 | The action for any input is the first-match table applied to the lower-cased, stripped input. |
| Session.MoreIsAQuestion | runtime/session.py:267-325 | "more", which the action prompt offers, is parsed as a question. The corrected parser reads it as "explain more". |
| Session.ParseUserActionCorrected | runtime/session.py:267-325 | The correction changes only the input "more". |
| Session.NextCommand | runtime/session.py:267-307 | "next" moves to the next topic. |
| Session.QuestionWordMeansPractice | runtime/session.py:267-307 | The word "question" is parsed as a practice request, since "question" is a practice keyword. |
| Teach.IndexOf | runtime/teach.py:218-224 | `list.index`: the first position of the topic, and none exactly when it is absent. |
| Teach.LastLessonIsLatest | runtime/teach.py:489-551 | The lesson used for an answer is the latest lesson message on the current topic. |
| Teach.TeachCurrentTopic | runtime/teach.py:239-303 | Without a current topic the session is untouched and the step reports completion. Otherwise one lesson message on the current topic is appended and the session awaits input. |
| Teach.StartState | runtime/teach.py:200-237 | A new teaching state holds the topics, nothing completed, the pace as depth, and is active. It starts at the first occurrence of a given starting topic, or at 0. |
| Teach.StartTeaching | runtime/teach.py:200-237 | Starting sets the new state, adds the start message and, when there is a current topic, its lesson. |
| Teach.StartTeachingSession | runtime/teach.py:200-237 | The history is extended, its first new message is the assistant's start message counting the topics, and the state is the new teaching state. |
| Teach.Advance | runtime/teach.py:358-414 | Moving on marks the current topic completed and advances the index by one. |
| Teach.MoveToNextTopic | runtime/teach.py:358-414 | Past the last topic, the session ends: it is inactive and idle, and reports the completed syllabus. |
| Teach.MoveToNextTeachesNext | runtime/teach.py:358-414 | Before the last topic, moving on teaches the next topic. |
| Teach.FullWalk | runtime/teach.py:358-414 | Moving on once per topic from a fresh start completes every topic, in syllabus order. |
| Teach.ProvideExamples | runtime/teach.py:416-445 | Examples add one message and keep the teaching state. |
| Teach.ProvidePractice | runtime/teach.py:447-487 | Practice adds one practice message and keeps the state. It returns the practice prompt. |
| Teach.AnswerQuestion | runtime/teach.py:489-551 | An answer adds one message and keeps the state. |
| Teach.FindTopicIn | runtime/teach.py:553-586 | The topic jumped to is the first whose lower-cased name occurs in the input. |
| Teach.SkipToTopic | runtime/teach.py:553-586 | A match moves the index to it. No match keeps the state and mode and reports "topic_not_found" with the current topic, or "" when there is none. |
| Teach.ExitTeachingMode | runtime/teach.py:588-619 | Exiting deactivates the state and switches to free chat. |
| Teach.ResumeTeaching | runtime/teach.py:621-642 | Without topics there is nothing to resume. Otherwise the state is reactivated. |
| Teach.ExitThenResume | runtime/teach.py:588-642 | Exiting and then resuming restores the teaching state exactly. |
| Teach.HandleTeachingInput | runtime/teach.py:305-356 | The learner's input is logged first, and every reply extends the history. |
| Teach.HandleRoutesByAction | runtime/teach.py:305-356 | After logging, each parsed action goes to its handler: next, deeper, simpler with a review mark, examples, practice, repeat, exit, skip, or an answer to the question. |
| Teach.NextCommandAdvances | runtime/teach.py:305-414 | "Next" advances the index by one and marks the topic just taught as completed. |
| Teach.SlowerMarksReview | runtime/teach.py:305-356 | Asking for slower marks the current topic for review. |
| Mongo.CreateDeck | db/mongo.py:74-106 | A taken id or a name the user already has is a DuplicateKeyError and changes nothing. Otherwise the deck is stored; then an owner id that is not an ObjectId is an InvalidId error with the deck left behind. Only on success does the user's deck list gain it. Other users are unchanged. |
| Mongo.LegacyIdsInvalid | db/mongo.py:97-166 | The legacy ids "default_user" and "default" are not ObjectIds. |
| Mongo.CreateDeckKeepsNamesUnique | db/mongo.py:74-106 | Creating a deck keeps every user's deck names distinct. |
| Mongo.SameNameTwiceRefused | db/mongo.py:74-106 | After a create with a fresh id, a second deck of the same name for the same user is refused and changes nothing, whatever its id. |
| Mongo.GetDeck | db/mongo.py:108-114 | A malformed id is an InvalidId error. Otherwise a deck is found exactly when it exists. |
| Mongo.GetUserDecks | db/mongo.py:116-122 | The user's decks are exactly the decks they own. |
| Mongo.ApplyUpdate | db/mongo.py:124-132 | Given fields replace, missing fields keep their value, and the update time is set. |
| Mongo.UpdateDeck | db/mongo.py:124-132 | A malformed id is an InvalidId error, and a missing deck is unmodified. A rename to a name the user already has is a DuplicateKeyError. Otherwise only the named deck changes, and the flag says whether it changed. |
| Mongo.UpdateDeckKeepsNamesUnique | db/mongo.py:124-132 | A successful update keeps every user's deck names distinct. |
| Mongo.UpdateDeckSyllabusTopics | db/mongo.py:134-136 | A malformed id is an InvalidId error. Otherwise only the deck's topics and timestamp change. |
| Mongo.AddIngestedFile | db/mongo.py:138-153 | A malformed id is an InvalidId error. Otherwise the file is appended and its chunks are added to the deck's count. A missing deck is left alone. |
| Mongo.DeleteDeck | db/mongo.py:155-167 | A malformed user id fails before anything changes. Then the deck is pulled from the user's list, and a malformed deck id fails with the deck still stored. Otherwise exactly that deck is gone and the flag says whether it existed. Other users are unchanged. |
| Mongo.CreateDeckKeepsCounts | db/mongo.py:74-106 | Creating a deck keeps every chunk count equal to its files' sum. |
| Mongo.AddIngestedFileKeepsCounts | db/mongo.py:138-153 | Recording a file keeps every chunk count equal to its files' sum. |
| Mongo.UpdateTopicsKeepsCounts | db/mongo.py:134-136 | Updating topics keeps the count invariant. |
| Mongo.DeleteDeckKeepsCounts | db/mongo.py:155-167 | Deleting keeps the count invariant. |
| Mongo.RecordedTotal | db/mongo.py:138-153 | Recording several files on a deck with a valid id adds their chunk counts' sum. |
| Chroma.CollectionName | db/chroma.py:43-49 | The as-written name is "deck_", the first 8 characters of the user, "_", and the first 8 of the deck. |
| Chroma.NameLengthAllowed | db/chroma.py:43-49 | That name always has a length Chroma accepts. |
| Chroma.DistinctDecksShareACollection | db/chroma.py:43-49 | Two decks of one user whose ids share their first 8 characters get the same collection. |
| Chroma.FullCollectionName | db/chroma.py:43-49 | The corrected name keeps the full ids. |
| Chroma.FullNameInjective | db/chroma.py:43-49 | For user ids without '_', distinct (user, deck) pairs get distinct names. |
| Chroma.FullNameLengthAllowed | db/chroma.py:43-49 | With 24-character ObjectIds, the full name stays within 63 characters. |
| Chroma.FullIdsSeparate | db/chroma.py:43-49 | Under the corrected naming, distinct (user, deck) pairs with user ids without '_' get distinct collections. |
| Chroma.EightCharsShare | db/chroma.py:43-49 | Under the program's naming, the two decks of the Findings input share a collection. |
| Chroma.GetCollection | db/chroma.py:51-62 | Under either naming, an existing collection is returned unchanged. A missing one is created empty, with the owner metadata. No other collection changes. |
| Chroma.DeleteCollection | db/chroma.py:64-73 | Exactly the collection under the deck's name is removed. The flag says whether it existed. |
| Chroma.DeleteKeepsOtherDecks | db/chroma.py:64-73 | Under the corrected naming, deleting a deck's collection keeps every other deck's. |
| Chroma.DeleteLosesSibling | db/chroma.py:64-73 | Under the program's naming, deleting one deck of the Findings input removes the other deck's collection too. |
| Chroma.ChunkIdInjective | db/chroma.py:103-105 | Default ids "chunk_n" are distinct for distinct n. |
| Chroma.DefaultIds | db/chroma.py:103-105 | Default ids continue from the collection's current count. |
| Chroma.BuildAddRequest | db/chroma.py:79-119 | The request carries the documents and embeddings. Given ids are used, and otherwise ids are generated. |
| Chroma.AddDocuments | db/chroma.py:79-119 | Adding fetches or creates the deck's collection. A failing add keeps the created collection and passes the error on. A successful one stores the result and reports the number of documents. |
| Chroma.AddDocumentsTouchesOne | db/chroma.py:79-119 | Whether or not the add succeeds, only the collection under the deck's name can change. |
| Chroma.AddDocumentsIsolated | db/chroma.py:79-119 | Under the corrected naming, adding to one deck leaves every other deck's collection untouched. |
| Chroma.AddDocumentsReachesSibling | db/chroma.py:79-119 | Under the program's naming, chunks added to one deck of the Findings input are what the other deck reads. |
| Chroma.ShapeResults | db/chroma.py:121-158 | The answer holds the first query's documents, metadatas and distances, and counts the documents. |
| Chroma.EmptyResultsEmptyAnswer | db/chroma.py:121-158 | No documents gives an empty answer with count 0. |
| Chroma.ShapeResultsEmptyIff | db/chroma.py:121-158 | The count is 0 exactly when the database returned no documents for the query. |
| Chroma.QueryCollection | db/chroma.py:121-158 | The query goes to the deck's collection, created if needed, and the answer is the shaped result of searching it. |
| Chroma.QueryReadsOwnCollection | db/chroma.py:121-158 | The answer depends only on the deck's own collection. |
| Chroma.QueryChangesNothingElse | db/chroma.py:121-158 | A query creates at most the deck's collection and changes nothing else. |
| Chroma.TopicFilter | db/chroma.py:173-190 | Topic search filters on the "topics" field with "$contains". |
| Chroma.QueryByTopic | db/chroma.py:173-190 | A topic query is the plain query on the deck's collection with exactly the topic filter added. |
| Chroma.CollectionStats | db/chroma.py:160-167 | The stats give the deck's document count and the name it is stored under. A missing collection is created empty, with count 0. |
| Chroma.GetChroma | db/chroma.py:196-202 | The legacy accessor fetches or creates the legacy user's collection for the deck. |
| Chroma.LegacyCollectionShared | db/chroma.py:43-49 | Under the as-written naming, any user id starting "default_" shares the legacy collection. |
| Auth.Prep | auth.py:15-17 | The prepared password is a prefix of its UTF-8 encoding, of length min(encoding, 72). |
| Auth.HashPassword | auth.py:19-21 | The hash is bcrypt's hash of the whole encoding up to 72 bytes, and of its first 72 bytes beyond that. |
| Auth.VerifyPassword | auth.py:23-25 | The check runs on the whole encoding up to 72 bytes, and on its first 72 bytes beyond that. |
| Auth.PrepIgnoresTail | auth.py:15-17 | Once the encoding reaches 72 bytes, anything appended is ignored. |
| Auth.ShortPasswordWhole | auth.py:15-17 | A password of at most 72 bytes is used whole. |
| Auth.SamePrefixSameVerdict | auth.py:15-25 | Passwords sharing their first 72 bytes hash and verify alike. |
| Auth.LongPasswordsCollide | auth.py:15-25 | 72 'a's followed by any two different suffixes are the same password. |
| Auth.EncodeAscii | auth.py:15-17 | ASCII text encodes to one byte per character. |
| Auth.TokenPayload | auth.py:31-40 | The payload has exactly sub, username, email, exp (now plus the hours) and iat. |
| Auth.DecodeAccessToken | auth.py:42-50 | A decoded token gives its payload. An expired or invalid one gives none. Other failures propagate. |
| Auth.GetCurrentUser | auth.py:58-84 | No credentials or an invalid token is a 401. Success holds exactly when the token decodes with all three claims, which become the user. |
| Auth.IssuedTokenAuthenticates | auth.py:31-84 | A token issued for a user and read back unchanged authenticates that user. |
| Auth.ExpiredTokenRefused | auth.py:42-84 | An expired token is the "Invalid or expired token" 401. |
| Api.DeckGate | main.py:256-260 | A deck id that is not an ObjectId crashes with InvalidId (a 500). Otherwise the gate passes exactly for an existing deck the user owns. A missing deck is a 404 and another user's deck is a 403. |
| Api.GateMatchesUserDecks | main.py:247-260 | The gate passes exactly for the decks listed as the user's whose ids are ObjectIds. |
| Api.DeckInfo | main.py:253-266 | The gate's result, or the deck with its collection's document count and name. The stats call creates an empty collection for a deck without one. |
| Api.RemoveDeck | main.py:268-283 | After the gate, the deck's collection is deleted and every collection under another name is kept. With an owner id that is an ObjectId the deck is gone; otherwise the call crashes with InvalidId and the database is unchanged. Other decks are unchanged. |
| Api.RemoveDeckKeepsOtherDecks | main.py:268-283 | Under the corrected naming, removing a deck keeps every other deck's chunks. |
| Api.RemoveDeckLosesSibling | main.py:268-283 | Under the program's naming, removing one deck of the Findings input deletes the other deck's chunks while its record stays. |
| Api.Upload | main.py:289-348 | The gate, then a 400 for a deck without a syllabus. Otherwise the pipeline runs on the deck's syllabus, reports every file, and the deck's collection exists afterwards. |
| Api.AskPolicy | main.py:406-468 | Coverage holds exactly when in scope and covered. Internet enhancement is exactly its absence. Covered questions are answered from the material. Out-of-scope questions get the warning, the refusal and the web answer. Limited coverage gets the reason, then the material's answer if any, then the web answer. |
| Api.InternetEndsFallbacks | main.py:424-468 | Both fallback answers end with the internet text. |
| Api.OutOfScopeIgnoresMaterial | main.py:424-443 | An out-of-scope answer does not depend on the material or on the answering model. |
| Api.LimitedCoverageSections | main.py:445-468 | The material section appears exactly when there is material and the model answered. Without material, the model is not consulted. |
| Api.Ask | main.py:350-468 | The gate, then the answer policy for the deck. |
| Api.Practice | main.py:474-512 | The gate, then a 404 when no material is found for the topic. Otherwise the context is the material joined by blank lines. |
| Api.TopicCoverage | main.py:553-577 | One entry per syllabus topic with its document count. A topic is covered at two or more documents. The ratio is covered over total, and 0 without topics. |
| Api.CountIsPositions | main.py:553-576 | The covered count is the number of covered topic positions. |
| Api.CoverageExtremes | main.py:553-577 | The ratio is 1 exactly when all topics are covered, and 0 exactly when none is. |
| Api.GetTopicCoverage | main.py:539-577 | The gate, then one entry per syllabus topic. |
| Api.GetSessionView | main.py:583-603 | The gate, then the deck's session, created if needed, with its last five messages. |
| Api.ClearSession | main.py:606-610 | Clearing always succeeds and removes the deck's session. |
| Api.ClearSessionSkipsGate | main.py:583-610 | Unlike viewing, which refuses a stranger (a 403 for an ObjectId deck id), clearing performs no ownership check, so a user can clear another user's deck session. |
| Api.ConversationHistory | main.py:809-829 | Without a session, an empty history. Otherwise the last `limit` messages, or all of them for a limit of 0, with the total. |
| Api.TeachingProgress | main.py:784-806 | Progress is reported exactly when the deck has a session. |
| Api.StartTeaching | main.py:613-655 | The gate, then a 400 for a deck without topics, both with the store unchanged. Otherwise the deck's session is fetched or created, teaching starts on the deck's topics, and the changed session stays in the store. The answer carries the session id and the flow's response. In a consistent store, the progress endpoint then reports the deck's session teaching the deck's topics from the chosen starting topic. |
| Api.ChatRoute | main.py:687-732 | During a lesson every input is teaching input. Otherwise a start command with topics starts, a resume command with a session resumes, and anything else is free chat. |
| Api.TeachMeWithoutTopics | main.py:703-719 | "teach me" on a deck without topics falls through to free chat. |
| Api.TeachMeDuringLesson | main.py:687-699 | "teach me" during a lesson is teaching input. |
| Api.ChatHistory | main.py:735-738 | The model sees the last five earlier messages, never the new one. |
| Api.Exchange | main.py:735-771 | The reply is the model's when in scope and the refusal otherwise. Exactly the user and assistant messages are appended. |
| Api.InScopeChatFails | main.py:764-781 | As written, every in-scope free chat ends in a NameError after both messages are logged. |
| Api.FreeFormReply | main.py:764-781 | The corrected handler replies with the exchange's answer, without a topic, in the session's mode. |
| Api.FreeFormAgreesOutOfScope | main.py:746-781 | The correction changes nothing for out-of-scope messages. |
| Api.Chat | main.py:657-781 | The corrected chat: lessons go to the teaching handler and free chat to the corrected reply. Every message gets a reply for the session. |
| Api.ChatWith | main.py:657-732 | The stripped message is routed: lesson input, a lesson start on the deck's topics, a resume, or the free-question stage. |
| Api.ChatAsWritten | main.py:657-781 | Chat as written: free questions go to the as-written reply, and every other route answers. |
| Api.FreeFormAsWritten | main.py:735-781 | The as-written free reply logs the exchange's messages. |
| Api.ChatInScopeFails | main.py:657-781 | As written, an in-scope free question crashes with a NameError after both messages are logged. Every other message gets the corrected chat's answer. |
| Api.LegacyUpload | main.py:842-872 | Before any deck, the upload creates "Default Deck" for the legacy user. A refused or failed creation is a 500 that keeps the session state and whatever the database did. With a deck, the syllabus is remembered and one file is processed. Success needs valid ObjectIds throughout. |
| Api.LegacyAsk | main.py:874-890 | Asking before any upload is the "No deck uploaded yet." error. |
| Api.LegacyUploadAlwaysFails | main.py:837-872 | From the start, a legacy upload always fails, records no deck, and asking afterwards gets "No deck uploaded yet.". |
| Api.SecondLegacyUploadDuplicate | main.py:837-872 | The first upload leaves its deck behind, so the second is refused by the unique name index and changes nothing. |
| Api.LegacyDeckOnce | main.py:842-890 | With a valid recorded deck, or with ObjectId owner and deck ids and a free name, an upload succeeds. Asking then works, and a later upload keeps the same deck. |

## Left out

- The user endpoints `create_new_user`, `get_user_info` and `create_new_deck` (main.py:180-245) are not modelled: they are thin wrappers over database calls. `list_user_decks` (main.py:247-251) returns `Mongo.GetUserDecks` directly. The handlers take the user id from the path, and none of them uses `Auth.GetCurrentUser`. `create_user`, the user getters and `log_query` in db/mongo.py are not modelled either.
- FastAPI routing, request parsing, CORS, response serialisation and `print` logging are left out.
- Temporary files for uploads (ingestion/pipeline.py:244-281) are left out: an upload is read from its target path through the file readers.
- bcrypt, JWT signing and checking, the PDF/Word/PowerPoint parsers, Tesseract, the Groq model, sentence-transformers embeddings and DuckDuckGo search are parameters. ingestion/embed.py and runtime/respond.py are not part of this model.
- Prompt construction is modelled only where its text matters (the image description prompt). Elsewhere the model's reply is a parameter.
- Clocks, `uuid4`, ObjectId generation and the session store's TTL cleanup are left out. Times and fresh ids are parameters. Only string ids are modelled: `ObjectId` instances and 12-byte ids are not.
- The indexes created at startup (db/mongo.py:193-200, called from main.py:150-154) are assumed to exist. Only the unique (user, name) index on decks affects the modelled calls.
- Startup: the first import that fails is main.py:29, through ingestion/pipeline.py:9. main.py:34-36 and runtime/teach.py:22 (imported from main.py) would fail next. So the application as written stops with ImportError before serving any request. Every handler is modelled as if its imports had succeeded.
- `Pipeline.IngestFiles`: `parse_syllabus`, called at ingestion/pipeline.py:235, does not exist, so as written `ingestion/pipeline.py` cannot even be imported (line 9). The model takes the syllabus parser as the input `Services.parse`, and the topic list it returns is only constrained to be what that input gives.
- `Pipeline.FilterBySyllabus`: ingestion/pipeline.py:101-104 calls `map_to_syllabus(chunk_texts, syllabus, source_file, syllabus_topics=...)`, but ingestion/syllabus_map.py:4 takes only `(chunk, syllabus)`. That TypeError would be caught at :196, so every file would fail. The model takes the mapper as the input `Services.mapper`, and `MappedChunk` (never defined in the source) is given the fields the pipeline reads. `Pipeline.MapperFailureFailsEveryFile` states the as-written outcome: with a mapper that always raises, no file succeeds, no chunk is counted, and only the saved topics change the deck records.
- `Api.Ask`: main.py:388 calls `retrieve` with keyword arguments its definition does not take, so as written `/ask` raises TypeError after the gate. The model states the intended answer policy over the stages' findings, which are an input.
- `Api.GetTopicCoverage`: main.py:556 calls `retrieve` the same way, so as written `/topic-coverage` raises TypeError for a deck with topics. The model counts the documents per topic from an input.
- `Api.Chat`: models the corrected free-chat reply. The as-written reply is `Api.ChatAsWritten`, which crashes on in-scope questions (see "## Findings"). main.py:742 passes the user id where `retrieve` expects the collection, so free chat as written fails even earlier, before the domain guard. That earlier failure is not modelled.
- Writing a chat session back into the store is left out. Python mutates the stored `Session` object in place; `Api.Chat` returns the updated session.
- Cosine similarity and floating-point arithmetic are left out. Similarities and confidences are `real` inputs.
- `Api.Practice`: main.py:501 calls `retrieve` with keyword arguments its definition does not take, so as written `/practice` raises TypeError after the gate. The model takes the retrieved documents as an input. The practice-set generation that follows the context (main.py:513-537) is `Practice.GeneratePracticeSet`, and is not composed here.
- `Session.ListUserSessions`: returns a set, so the order of the returned list (the store's insertion order, runtime/session.py:250-253) is not modelled. No handler lists sessions.
- `ImageToText.DescribeImage`: `get_groq_key()` at ingestion/image_to_text.py:61 runs before the `try`, so an unset GROQ_API_KEY raises RuntimeError (config.py:10-14) instead of falling back to OCR. A failed model call always takes the OCR fallback.
- Configuration: `get_groq_key()` raises RuntimeError when GROQ_API_KEY is unset (config.py:10-14), and many callers look the key up outside any `try`. These are ingestion/image_to_text.py:61, runtime/classify.py:34 and :70, runtime/domain.py:84, runtime/internet.py:66, runtime/practice.py:45, :108, :170 and :285, and runtime/teach.py:46, :142 and :500. runtime/expand.py:5 and ingestion/syllabus_map.py:5 have no `try` at all. Configuration is not modelled: the key is assumed to be set, so none of these calls fails for a missing key.
- Teaching-flow model calls: `generate_lesson` (runtime/teach.py:46, :130), `generate_topic_example` (:142, :174) and `answer_question_in_context` (:500, :524) call the language model outside any `try`. A failure leaves `handle_teaching_input` and the handlers (main.py:638, :689) as a 500. The model's `Teach.Services` fields `lesson`, `examples` and `answer` are total, so it does not model that 500 or the session changes made before it. The lines below name each member that relies on this.
- `Teach.TeachCurrentTopic`: always appends the lesson. In the source a failing `generate_lesson` gives a 500 instead, with the session as the caller had left it.
- `Teach.StartTeaching`: always adds the first lesson. In the source a failing lesson call (:237 into :273) gives a 500 after the new state and the start message (:229) are already on the session.
- `Teach.StartTeachingSession`: the same 500 and the same kept changes as `Teach.StartTeaching`.
- `Teach.MoveToNextTeachesNext`: moving on always teaches the next topic. In the source a failing lesson call gives a 500 after the topic was marked completed (:364) and the index moved on (:367), so a retried "next" skips a topic that was never taught.
- `Teach.ProvideExamples`: always adds one message. In the source a failing `generate_topic_example` gives a 500 after the learner's input was logged.
- `Teach.AnswerQuestion`: always adds an answer. In the source a failing `answer_question_in_context` gives a 500 after the learner's input was logged.
- `Teach.HandleTeachingInput`: every reply extends the history. In the source a failing lesson, example or answer call gives a 500 after the input was logged (:317) and, for "next", after the index moved.
- `Api.Chat`: "every message gets a reply" (`r.1.Ok?`) rests on the total teaching services. In the source an uncaught teaching-flow failure at main.py:689 is a 500.
- `Api.ChatAsWritten`: every route but in-scope free chat answers only because the teaching services are total. The same 500 applies.
- `Api.StartTeaching`: the start succeeds whenever the deck has topics. In the source a failing first lesson (main.py:638-643) is a 500, with the session already created and switched to teaching in the store.
- The upper- and lower-casing in `Text` cover ASCII letters only.
- `Chunker.SemanticChunk`: requires a positive chunk size. A size of 0 or less never terminates in the source either.

## Findings

| source | as written | input that shows it | evidently intended | confidence | as-written member | corrected member |
|---|---|---|---|---|---|---|
| ingestion/chunk.py:97-122 | When the next sentence end is too far away, the cut falls back to the last sentence end before the target. That end may lie fewer than `overlap` characters past the current position, so the next start `cut - overlap`, clamped at 0, does not move forward and the loop repeats. | "Hi. " followed by 1600 'a', with chunk size 1000 and overlap 200 | every iteration moves forward | high (not executed) | Chunker.SemanticChunkAsWrittenStalls | Chunker.SemanticChunk |
| db/chroma.py:43-49 | The collection name keeps only the first 8 characters of the user and deck ids, and ObjectIds created in the same second share those 8. Deleting or uploading to one deck then reaches the other deck's chunks (`Chroma.DeleteLosesSibling`, `Chroma.AddDocumentsReachesSibling`). | user "64f1a2b3c4d5e6f708192a3b", decks "64f1a2b3aaaaaaaaaaaaaaaa" and "64f1a2b3bbbbbbbbbbbbbbbb" | one collection per deck | high (not executed) | Api.RemoveDeckLosesSibling | Api.RemoveDeckKeepsOtherDecks |
| runtime/session.py:267-325 | The action prompt offers "more", but no "explain more" keyword occurs in "more", so it parses as a question. | "more" | "more" means explain more | high (not executed) | Session.MoreIsAQuestion | Session.ParseUserActionCorrected |
| runtime/session.py:183-184 | The session key joins user and deck with ":", so ids containing ':' collide. | ("alice:x", "deck") and ("alice", "x:deck") | one session per (user, deck) | low, ObjectIds contain no ':' (not executed) | Session.MakeKeyCollides | Session.PairKeyInjective |
| main.py:775 | The free-chat reply reads `domain_result`, a name that is never defined. | any in-scope message outside a lesson | reply with the model's answer | high (not executed) | Api.ChatInScopeFails | Api.Chat |

=== FILE: api.dfy ===
/** The web application's request policy: which requests are refused and
    with what status, which stage of the runtime answers a question or a
    chat message, and how the answer is assembled. The language models,
    retrieval and search results are inputs; the database, the vector
    store and the session store are the immutable values of the other
    modules. */
module Api {
  import opened Wrappers
  import opened Text
  import Mongo
  import Chroma
  import Pipeline
  import S = Session
  import Teach
  import opened Auth

  // ---------------------------------------------------------------------------
  // the deck gate
  // ---------------------------------------------------------------------------

  const NOT_FOUND := 404
  const FORBIDDEN := 403
  const BAD_REQUEST := 400
  const DECK_NOT_FOUND := "Deck not found"
  const ACCESS_DENIED := "Access denied"

  /** The check every deck endpoint but the session-clearing, progress and
      history ones starts with: an id that is not an ObjectId fails inside
      `get_deck` (a server error), a missing deck is a 404, another user's
      deck a 403. */
  function DeckGate(db: Mongo.Db, userId: string, deckId: string): (r: Result<Mongo.Deck, Failure>)
    ensures r.Ok? <==> Mongo.ValidObjectId(deckId) && deckId in db.decks && db.decks[deckId].userId == userId
    ensures r.Ok? ==> r.value == db.decks[deckId]
    ensures !Mongo.ValidObjectId(deckId) ==> r == Err(Crash(Mongo.INVALID_ID))
    ensures Mongo.ValidObjectId(deckId) && deckId !in db.decks ==> r == Err(HttpError(NOT_FOUND, DECK_NOT_FOUND))
    ensures Mongo.ValidObjectId(deckId) && deckId in db.decks && db.decks[deckId].userId != userId ==>
              r == Err(HttpError(FORBIDDEN, ACCESS_DENIED))
  {
    match Mongo.GetDeck(db, deckId)
    case Err(e) => Err(Crash(e))
    case Ok(None) => Err(HttpError(NOT_FOUND, DECK_NOT_FOUND))
    case Ok(Some(deck)) => if deck.userId != userId then Err(HttpError(FORBIDDEN, ACCESS_DENIED)) else Ok(deck)
  }

  /** The gate lets a user through to exactly the decks listed as theirs
      whose ids are ObjectIds, which every id the database generates is. */
  lemma GateMatchesUserDecks(db: Mongo.Db, userId: string, deckId: string)
    ensures DeckGate(db, userId, deckId).Ok? <==> Mongo.ValidObjectId(deckId) && deckId in Mongo.GetUserDecks(db, userId)
  {
  }

  /** `get_deck_info`: the deck and its collection's size and name. The
      statistics call creates an empty collection for a deck without one. */
  function DeckInfo(w: Pipeline.World, userId: string, deckId: string)
    : (r: (Pipeline.World, Result<(Mongo.Deck, nat, string), Failure>))
    ensures DeckGate(w.db, userId, deckId).Err? ==> r == (w, Err(DeckGate(w.db, userId, deckId).error))
    ensures r.1.Ok? <==> DeckGate(w.db, userId, deckId).Ok?
    ensures r.1.Ok? ==> (&& var name := Chroma.NameOf(w.naming, userId, deckId);
                         && r.1.value.0 == w.db.decks[deckId]
                         && r.1.value.2 == name && name in r.0.chroma
                         && r.1.value.1 == (if name in w.chroma then w.chroma[name].count else 0)
                         && r.0 == w.(chroma := Chroma.GetCollection(w.chroma, w.naming, userId, deckId).0))
  {
    match DeckGate(w.db, userId, deckId)
    case Err(e) => (w, Err(e))
    case Ok(deck) =>
      var (c, n, name) := Chroma.CollectionStats(w.chroma, w.naming, userId, deckId);
      (w.(chroma := c), Ok((deck, n, name)))
  }

  /** `remove_deck`: past the gate the deck's collection is deleted, then
      the database deletes the deck and pulls its id from the owner's list.
      The owner id is converted there, so a deck filed under an owner id
      that is not an ObjectId (one left by a failed `create_deck`) fails
      after its collection is gone. */
  function RemoveDeck(w: Pipeline.World, userId: string, deckId: string)
    : (r: (Pipeline.World, Result<string, Failure>))
    ensures DeckGate(w.db, userId, deckId).Err? ==> r == (w, Err(DeckGate(w.db, userId, deckId).error))
    ensures r.1.Ok? <==> DeckGate(w.db, userId, deckId).Ok? && Mongo.ValidObjectId(userId)
    ensures r.1.Ok? ==> r.1.value == deckId
    ensures r.0.naming == w.naming
    ensures DeckGate(w.db, userId, deckId).Ok? ==>
              && r.0.chroma == Chroma.DeleteCollection(w.chroma, w.naming, userId, deckId).0
              && Chroma.NameOf(w.naming, userId, deckId) !in r.0.chroma
              && (forall n :: n in w.chroma && n != Chroma.NameOf(w.naming, userId, deckId) ==>
                    n in r.0.chroma && r.0.chroma[n] == w.chroma[n])
              && (Mongo.ValidObjectId(userId) ==> r.1 == Ok(deckId) && deckId !in r.0.db.decks)
              && (!Mongo.ValidObjectId(userId) ==> r.1 == Err(Crash(Mongo.INVALID_ID)) && r.0.db == w.db)
    ensures forall id :: id in w.db.decks && id != deckId ==> id in r.0.db.decks && r.0.db.decks[id] == w.db.decks[id]
  {
    match DeckGate(w.db, userId, deckId)
    case Err(e) => (w, Err(e))
    case Ok(_) =>
      var c := Chroma.DeleteCollection(w.chroma, w.naming, userId, deckId).0;
      var (db, deleted) := Mongo.DeleteDeck(w.db, deckId, userId);
      match deleted
      case Err(e) => (w.(chroma := c, db := db), Err(Crash(e)))
      case Ok(_) => (w.(chroma := c, db := db), Ok(deckId))
  }

  /** Under the corrected naming, removing a deck keeps every other deck's
      chunks, for owner ids without `_` (as ObjectIds are). */
  lemma RemoveDeckKeepsOtherDecks(w: Pipeline.World, userId: string, deckId: string, u2: string, d2: string)
    requires w.naming == Chroma.FullIds
    requires Excludes(userId, '_') && Excludes(u2, '_') && (userId, deckId) != (u2, d2)
    requires Chroma.NameOf(Chroma.FullIds, u2, d2) in w.chroma
    ensures var name := Chroma.NameOf(Chroma.FullIds, u2, d2);
            var c := RemoveDeck(w, userId, deckId).0.chroma;
            name in c && c[name] == w.chroma[name]
  {
    Chroma.FullIdsSeparate(userId, deckId, u2, d2);
  }

  /** Under the program's naming, removing one deck of the collision input
      also removes its sibling's chunks, though the sibling's deck record
      stays. */
  lemma RemoveDeckLosesSibling(w: Pipeline.World)
    requires w.naming == Chroma.EightChars
    ensures var u := "64f1a2b3c4d5e6f708192a3b";
            var d1, d2 := "64f1a2b3aaaaaaaaaaaaaaaa", "64f1a2b3bbbbbbbbbbbbbbbb";
            var w' := RemoveDeck(w, u, d1).0;
            && (d2 in w.db.decks ==> d2 in w'.db.decks)
            && (DeckGate(w.db, u, d1).Ok? ==> Chroma.NameOf(Chroma.EightChars, u, d2) !in w'.chroma)
  {
    Chroma.EightCharsShare();
  }

  // ---------------------------------------------------------------------------
  // upload
  // ---------------------------------------------------------------------------

  const NO_SYLLABUS := "Deck has no syllabus defined"

  /** `upload_files`: past the gate, a deck without a syllabus is a 400;
      otherwise the files go through the ingestion pipeline against the
      deck's own syllabus. */
  function Upload(w: Pipeline.World, userId: string, deckId: string, files: seq<Pipeline.Upload>,
                  s: Pipeline.Services): (r: Result<(Pipeline.World, Pipeline.PipelineResult), Failure>)
    ensures DeckGate(w.db, userId, deckId).Err? ==> r == Err(DeckGate(w.db, userId, deckId).error)
    ensures DeckGate(w.db, userId, deckId).Ok? && w.db.decks[deckId].syllabus == "" ==>
              r == Err(HttpError(BAD_REQUEST, NO_SYLLABUS))
    ensures r.Ok? <==> DeckGate(w.db, userId, deckId).Ok? && w.db.decks[deckId].syllabus != ""
    ensures r.Ok? ==> (&& r.value.1.deckId == deckId && r.value.1.filesProcessed == |files|
                       && r.value.1.syllabusTopics == s.parse(w.db.decks[deckId].syllabus)
                       && |r.value.1.results| == |files|
                       && Chroma.NameOf(w.naming, userId, deckId) in r.value.0.chroma)
  {
    match DeckGate(w.db, userId, deckId)
    case Err(e) => Err(e)
    case Ok(deck) =>
      if deck.syllabus == "" then Err(HttpError(BAD_REQUEST, NO_SYLLABUS))
      else
        match Pipeline.IngestFiles(w, files, deck.syllabus, userId, deckId, s)
        case Err(e) => Err(Crash(e))
        case Ok(res) => Ok(res)
  }

  // ---------------------------------------------------------------------------
  // asking a question
  // ---------------------------------------------------------------------------

  /** What the runtime stages found for one question: the intent, the domain
      guard's verdict, the coverage check's verdict, confidence and reason,
      the retrieved documents, the coverage warning ("" for none), the
      out-of-scope message and the formatted internet answer. */
  datatype AskFacts = AskFacts(
    intent: string,
    inScope: bool,
    coverageOk: bool,
    confidence: real,
    reason: string,
    docs: seq<string>,
    coverageWarning: string,
    outOfScopeMessage: string,
    internet: string)

  datatype QueryResponse = QueryResponse(
    intent: string,
    inScope: bool,
    coverage: bool,
    coverageConfidence: real,
    answer: string,
    warning: Option<string>,
    internetEnhanced: bool)

  const PARAGRAPH := "\n\n"
  const OUTSIDE_HEAD := "⚠️ **Topic Outside Syllabus Scope**\n\n"
  const LIMITED_HEAD := "⚠️ **Limited Coverage in Your Material**\n\n"
  const FROM_MATERIAL := "**From Your Material:**\n"
  const NOT_IN_SYLLABUS := "This topic is not in your current syllabus."

  /** The retrieved documents as one context, blank-line separated. */
  function Context(docs: seq<string>): string {
    Join(PARAGRAPH, docs)
  }

  /** The local answer of the limited-coverage branch: the model is asked
      only when there is context to give it. */
  function LocalAnswer(docs: seq<string>, respond: string -> string): (r: string)
    ensures Context(docs) == "" ==> r == ""
  {
    if Context(docs) != "" then respond(Context(docs)) else ""
  }

  /** The material section, present only for a non-empty local answer. */
  function MaterialSection(local: string): (r: string)
    ensures r == "" <==> local == ""
  {
    if local != "" then FROM_MATERIAL + local + PARAGRAPH else ""
  }

  /** The three outcomes of `ask_question` after the gate. */
  function AskPolicy(f: AskFacts, respond: string -> string): (r: QueryResponse)
    ensures r.intent == f.intent && r.inScope == f.inScope
    ensures r.coverage <==> f.inScope && f.coverageOk
    ensures r.internetEnhanced <==> !r.coverage
    ensures r.coverageConfidence == if f.inScope then f.confidence else 0.0
    ensures r.coverage ==> (&& r.answer == respond(Context(f.docs))
                            && (r.warning.None? <==> f.coverageWarning == ""))
    ensures !f.inScope ==> (&& r.warning == Some(NOT_IN_SYLLABUS)
                            && r.answer == OUTSIDE_HEAD + f.outOfScopeMessage + PARAGRAPH + f.internet)
    ensures f.inScope && !f.coverageOk ==>
              && r.warning == Some(f.reason)
              && r.answer == LIMITED_HEAD + f.reason + PARAGRAPH
                             + MaterialSection(LocalAnswer(f.docs, respond)) + f.internet
  {
    if f.inScope && f.coverageOk then
      QueryResponse(f.intent, true, true, f.confidence, respond(Context(f.docs)),
                    if f.coverageWarning != "" then Some(f.coverageWarning) else None, false)
    else if !f.inScope then
      QueryResponse(f.intent, false, false, 0.0,
                    OUTSIDE_HEAD + f.outOfScopeMessage + PARAGRAPH + f.internet,
                    Some(NOT_IN_SYLLABUS), true)
    else
      var local := LocalAnswer(f.docs, respond);
      var answer := LIMITED_HEAD + f.reason + PARAGRAPH + MaterialSection(local);
      QueryResponse(f.intent, true, false, f.confidence, answer + f.internet, Some(f.reason), true)
  }

  /** Whenever the local material does not answer alone, the internet
      answer closes the response. */
  lemma InternetEndsFallbacks(f: AskFacts, respond: string -> string)
    requires !(f.inScope && f.coverageOk)
    ensures var a := AskPolicy(f, respond).answer;
            |f.internet| <= |a| && a[|a| - |f.internet|..] == f.internet
  {
    var a := AskPolicy(f, respond).answer;
    var head := a[..|a| - |f.internet|];
    if !f.inScope {
      assert a == (OUTSIDE_HEAD + f.outOfScopeMessage + PARAGRAPH) + f.internet;
    } else {
      assert a == (LIMITED_HEAD + f.reason + PARAGRAPH + MaterialSection(LocalAnswer(f.docs, respond))) + f.internet;
    }
  }

  /** Out of scope, the retrieval and coverage results are ignored: two
      questions that agree on intent, message and internet answer get the
      same response. */
  lemma OutOfScopeIgnoresMaterial(f: AskFacts, g: AskFacts, respond: string -> string, respond': string -> string)
    requires !f.inScope && !g.inScope
    requires f.intent == g.intent && f.outOfScopeMessage == g.outOfScopeMessage && f.internet == g.internet
    ensures AskPolicy(f, respond) == AskPolicy(g, respond')
  {
  }

  /** With limited coverage the material section appears exactly when the
      local model, given some context, said something; without context the
      local model is never consulted. */
  lemma LimitedCoverageSections(f: AskFacts, respond: string -> string, respond': string -> string)
    requires f.inScope && !f.coverageOk
    ensures var a := AskPolicy(f, respond).answer;
            var head := LIMITED_HEAD + f.reason + PARAGRAPH;
            && (Context(f.docs) != "" && respond(Context(f.docs)) != "" <==>
                  a == head + FROM_MATERIAL + respond(Context(f.docs)) + PARAGRAPH + f.internet)
            && (Context(f.docs) == "" ==> AskPolicy(f, respond) == AskPolicy(f, respond'))
  {
    var head := LIMITED_HEAD + f.reason + PARAGRAPH;
    var local := LocalAnswer(f.docs, respond);
    SectionIff(head, FROM_MATERIAL, PARAGRAPH, f.internet, local, MaterialSection(local),
               respond(Context(f.docs)));
  }

  /** A present section shows up as itself; an absent one makes the text
      shorter than any text that has it. */
  lemma SectionIff(head: string, open: string, close: string, tail: string,
                   local: string, section: string, x: string)
    requires |open| > 0
    requires section == (if local != "" then open + local + close else "")
    requires local != "" ==> x == local
    ensures local != "" <==> head + section + tail == head + open + x + close + tail
  {
    if local == "" {
      assert |head + section + tail| < |head + open + x + close + tail|;
    } else {
      assert head + open + x + close + tail == head + (open + x + close) + tail;
    }
  }

  /** `ask_question`: the gate, then the policy on what the stages found
      for this deck. */
  function Ask(db: Mongo.Db, userId: string, deckId: string, facts: Mongo.Deck -> AskFacts,
               respond: string -> string): (r: Result<QueryResponse, Failure>)
    ensures r.Ok? <==> DeckGate(db, userId, deckId).Ok?
    ensures r.Err? ==> r.error == DeckGate(db, userId, deckId).error
    ensures r.Ok? ==> r.value == AskPolicy(facts(db.decks[deckId]), respond)
  {
    match DeckGate(db, userId, deckId)
    case Err(e) => Err(e)
    case Ok(deck) => Ok(AskPolicy(facts(deck), respond))
  }

  // ---------------------------------------------------------------------------
  // practice and coverage
  // ---------------------------------------------------------------------------

  const NO_MATERIAL := "No material found for topic: "

  /** `generate_practice`: past the gate, a topic without retrieved
      documents is a 404; otherwise the practice generator gets the
      documents as one context. */
  function Practice(db: Mongo.Db, userId: string, deckId: string, topic: string, docs: seq<string>)
    : (r: Result<string, Failure>)
    ensures r.Ok? <==> DeckGate(db, userId, deckId).Ok? && docs != []
    ensures DeckGate(db, userId, deckId).Err? ==> r == Err(DeckGate(db, userId, deckId).error)
    ensures DeckGate(db, userId, deckId).Ok? && docs == [] ==> r == Err(HttpError(NOT_FOUND, NO_MATERIAL + topic))
    ensures r.Ok? ==> r.value == Context(docs)
  {
    match DeckGate(db, userId, deckId)
    case Err(e) => Err(e)
    case Ok(_) => if docs == [] then Err(HttpError(NOT_FOUND, NO_MATERIAL + topic)) else Ok(Context(docs))
  }

  /** A topic counts as covered with at least this many documents found. */
  const MIN_COVERING_DOCS := 2

  datatype TopicEntry = TopicEntry(topic: string, documentsFound: nat, covered: bool)

  datatype CoverageReport = CoverageReport(totalTopics: nat, coveredTopics: nat, ratio: real, topics: seq<TopicEntry>)

  predicate Covered(topic: string, found: string -> nat) {
    found(topic) >= MIN_COVERING_DOCS
  }

  /** The number of covered topics at positions `from` onwards. */
  function CountFrom(topics: seq<string>, found: string -> nat, from: nat): (n: nat)
    requires from <= |topics|
    ensures n <= |topics| - from
    decreases |topics| - from
  {
    if from == |topics| then 0
    else (if Covered(topics[from], found) then 1 else 0) + CountFrom(topics, found, from + 1)
  }

  /** The positions, from `from` onwards, of covered topics. */
  function CoveredPositions(topics: seq<string>, found: string -> nat, from: nat): set<nat> {
    set i: nat | from <= i < |topics| && Covered(topics[i], found)
  }

  /** The count is the number of covered positions: a topic listed twice is
      counted twice. */
  lemma {:induction false} CountIsPositions(topics: seq<string>, found: string -> nat, from: nat)
    requires from <= |topics|
    ensures CountFrom(topics, found, from) == |CoveredPositions(topics, found, from)|
    decreases |topics| - from
  {
    if from == |topics| {
      assert CoveredPositions(topics, found, from) == {};
    } else {
      CountIsPositions(topics, found, from + 1);
      var rest := CoveredPositions(topics, found, from + 1);
      var here: set<nat> := if Covered(topics[from], found) then {from} else {};
      assert CoveredPositions(topics, found, from) == here + rest;
      assert here !! rest;
    }
  }

  /** `get_topic_coverage` after the gate: one entry per syllabus topic in
      order, the covered count, and the covered fraction (0 without topics). */
  function TopicCoverage(topics: seq<string>, found: string -> nat): (r: CoverageReport)
    ensures r.totalTopics == |topics| && |r.topics| == |topics|
    ensures forall i :: 0 <= i < |topics| ==>
              r.topics[i] == TopicEntry(topics[i], found(topics[i]), found(topics[i]) >= MIN_COVERING_DOCS)
    ensures r.coveredTopics == |CoveredPositions(topics, found, 0)|
    ensures r.ratio == if topics == [] then 0.0 else r.coveredTopics as real / |topics| as real
    ensures 0.0 <= r.ratio <= 1.0
  {
    var entries := seq(|topics|, i requires 0 <= i < |topics| =>
                         TopicEntry(topics[i], found(topics[i]), Covered(topics[i], found)));
    var n := CountFrom(topics, found, 0);
    CountIsPositions(topics, found, 0);
    if topics == [] then CoverageReport(0, n, 0.0, entries)
    else
      FractionBounded(n, |topics|);
      CoverageReport(|topics|, n, n as real / |topics| as real, entries)
  }

  lemma FractionBounded(n: nat, m: nat)
    requires 0 < m && n <= m
    ensures 0.0 <= n as real / m as real <= 1.0
  {
  }

  /** Every topic from `from` on is covered exactly when the count is the
      number of those topics, and none is exactly when the count is 0. */
  lemma {:induction false} CountExtremes(topics: seq<string>, found: string -> nat, from: nat)
    requires from <= |topics|
    ensures CountFrom(topics, found, from) == |topics| - from <==>
              forall i :: from <= i < |topics| ==> Covered(topics[i], found)
    ensures CountFrom(topics, found, from) == 0 <==>
              forall i :: from <= i < |topics| ==> !Covered(topics[i], found)
    decreases |topics| - from
  {
    if from < |topics| {
      CountExtremes(topics, found, from + 1);
    }
  }

  /** A quotient by a positive number is 1 exactly for the divisor itself
      and 0 exactly for 0. */
  lemma QuotientExtremes(x: real, m: real)
    requires m > 0.0
    ensures x / m == 1.0 <==> x == m
    ensures x / m == 0.0 <==> x == 0.0
  {
    assert x == (x / m) * m;
  }

  /** The ratio is 1 exactly when every topic is covered, and 0 exactly when
      none is. */
  lemma CoverageExtremes(topics: seq<string>, found: string -> nat)
    ensures topics != [] ==>
              (TopicCoverage(topics, found).ratio == 1.0 <==> forall i :: 0 <= i < |topics| ==> Covered(topics[i], found))
    ensures TopicCoverage(topics, found).ratio == 0.0 <==> forall i :: 0 <= i < |topics| ==> !Covered(topics[i], found)
  {
    CountIsPositions(topics, found, 0);
    CountExtremes(topics, found, 0);
    var n := CountFrom(topics, found, 0);
    if topics != [] {
      var m := |topics| as real;
      assert TopicCoverage(topics, found).ratio == n as real / m;
      QuotientExtremes(n as real, m);
    }
  }

  /** `get_topic_coverage`. */
  function GetTopicCoverage(db: Mongo.Db, userId: string, deckId: string, found: string -> nat)
    : (r: Result<CoverageReport, Failure>)
    ensures r.Ok? <==> DeckGate(db, userId, deckId).Ok?
    ensures r.Err? ==> r.error == DeckGate(db, userId, deckId).error
    ensures r.Ok? ==> r.value.totalTopics == |db.decks[deckId].syllabusTopics|
  {
    match DeckGate(db, userId, deckId)
    case Err(e) => Err(e)
    case Ok(deck) => Ok(TopicCoverage(deck.syllabusTopics, found))
  }

  // ---------------------------------------------------------------------------
  // sessions
  // ---------------------------------------------------------------------------

  /** How many recent messages the session endpoint shows. */
  const SHOWN_MESSAGES := 5

  /** `get_session`: past the gate, the deck's session (created when there
      is none) and its last five messages. */
  function GetSessionView<K>(db: Mongo.Db, st: S.Store<K>, key: (string, string) -> K,
                             userId: string, deckId: string, freshId: string)
    : (r: Result<(S.Store<K>, S.Session, seq<S.Message>), Failure>)
    ensures r.Ok? <==> DeckGate(db, userId, deckId).Ok?
    ensures r.Err? ==> r.error == DeckGate(db, userId, deckId).error
    ensures r.Ok? ==> (&& var (st', s, recent) := r.value;
                       && st'.index.Keys == st.index.Keys + {key(userId, deckId)}
                       && |recent| == (if |s.messages| < SHOWN_MESSAGES then |s.messages| else SHOWN_MESSAGES)
                       && recent == s.messages[|s.messages| - |recent|..])
  {
    match DeckGate(db, userId, deckId)
    case Err(e) => Err(e)
    case Ok(_) =>
      var (st', s) := S.GetOrCreate(st, key, userId, deckId, freshId);
      Ok((st', s, s.RecentMessages(Some(SHOWN_MESSAGES))))
  }

  /** `clear_session`: no gate at all, so any caller may clear any user's
      session for any deck, existing or not. */
  function ClearSession<K>(db: Mongo.Db, st: S.Store<K>, key: (string, string) -> K,
                           userId: string, deckId: string): (r: Result<S.Store<K>, Failure>)
    ensures r.Ok?
    ensures key(userId, deckId) in st.index && st.index[key(userId, deckId)] in st.sessions ==>
              st.index[key(userId, deckId)] !in r.value.sessions
  {
    Ok(S.ClearDeckSession(st, key, userId, deckId))
  }

  /** Where the gated session endpoint refuses a stranger, clearing goes ahead. */
  lemma ClearSessionSkipsGate<K>(db: Mongo.Db, st: S.Store<K>, key: (string, string) -> K,
                                 userId: string, deckId: string, freshId: string)
    requires deckId in db.decks && db.decks[deckId].userId != userId
    ensures GetSessionView(db, st, key, userId, deckId, freshId).Err?
    ensures Mongo.ValidObjectId(deckId) ==>
              GetSessionView(db, st, key, userId, deckId, freshId) == Err(HttpError(FORBIDDEN, ACCESS_DENIED))
    ensures ClearSession(db, st, key, userId, deckId).Ok?
  {
  }

  datatype HistoryView = HistoryView(messages: seq<S.Message>, count: nat, total: nat)

  /** `get_conversation_history`: no gate; the last `limit` messages as a
      Python slice `[-limit:]`, so a limit of 0 returns everything. */
  function ConversationHistory<K>(st: S.Store<K>, key: (string, string) -> K, userId: string, deckId: string,
                                  limit: int): (r: HistoryView)
    ensures S.GetSessionByDeck(st, key, userId, deckId).None? ==> r == HistoryView([], 0, 0)
    ensures r.count == |r.messages| <= r.total
    ensures S.GetSessionByDeck(st, key, userId, deckId).Some? ==>
              && var all := S.GetSessionByDeck(st, key, userId, deckId).value.messages;
              && r.total == |all| && r.messages == all[|all| - r.count..]
              && (limit == 0 ==> r.messages == all)
              && (0 < limit ==> r.count == if limit < |all| then limit else |all|)
  {
    match S.GetSessionByDeck(st, key, userId, deckId)
    case None => HistoryView([], 0, 0)
    case Some(s) =>
      var msgs := if s.messages == [] then [] else s.messages[S.SliceStart(-limit, |s.messages|)..];
      HistoryView(msgs, |msgs|, |s.messages|)
  }

  /** `get_teaching_progress`: no gate; the teaching state of the deck's
      session, if there is one, and the session's mode. */
  function TeachingProgress<K>(st: S.Store<K>, key: (string, string) -> K, userId: string, deckId: string)
    : (r: Option<(S.TeachingState, string)>)
    ensures r.Some? <==> S.GetSessionByDeck(st, key, userId, deckId).Some?
    ensures r.Some? ==> r.value == (S.GetSessionByDeck(st, key, userId, deckId).value.teachingState,
                                    S.GetSessionByDeck(st, key, userId, deckId).value.mode.Value())
  {
    match S.GetSessionByDeck(st, key, userId, deckId)
    case None => None
    case Some(s) => Some((s.teachingState, s.mode.Value()))
  }

  // ---------------------------------------------------------------------------
  // teaching
  // ---------------------------------------------------------------------------

  const NO_TOPICS := "Deck has no syllabus topics. Upload materials first."

  /** `start_teaching`: past the gate, a deck without topics is a 400.
      Otherwise the deck's session is fetched or created, the teaching flow
      starts on the deck's topics, and the session, changed in place, stays
      in the store. The answer is the session id with the flow's response.
      With a consistent store and non-empty session ids, the progress
      endpoint then finds the deck's session teaching the deck's topics. */
  function StartTeaching<K>(db: Mongo.Db, st: S.Store<K>, key: (string, string) -> K, userId: string,
                            deckId: string, freshId: string, startingTopic: Option<string>, pace: string,
                            t: Teach.Services)
    : (r: (S.Store<K>, Result<(string, Teach.TeachingResponse), Failure>))
    ensures r.1.Ok? <==> DeckGate(db, userId, deckId).Ok? && db.decks[deckId].syllabusTopics != []
    ensures r.1.Err? ==> r.0 == st
    ensures DeckGate(db, userId, deckId).Err? ==> r.1 == Err(DeckGate(db, userId, deckId).error)
    ensures DeckGate(db, userId, deckId).Ok? && db.decks[deckId].syllabusTopics == [] ==>
              r.1 == Err(HttpError(BAD_REQUEST, NO_TOPICS))
    ensures r.1.Ok? ==>
              var (st1, s) := S.GetOrCreate(st, key, userId, deckId, freshId);
              var started := Teach.StartTeachingSession(s, db.decks[deckId].syllabusTopics, startingTopic, pace, t);
              && r.1.value == (s.sessionId, started.1)
              && r.0.index == st1.index
              && r.0.sessions == st1.sessions[s.sessionId := started.0]
    ensures r.1.Ok? && S.Consistent(st, key) && freshId != "" && "" !in st.sessions ==>
              && TeachingProgress(r.0, key, userId, deckId).Some?
              && TeachingProgress(r.0, key, userId, deckId).value.0
                 == Teach.StartState(db.decks[deckId].syllabusTopics, startingTopic, pace)
  {
    match DeckGate(db, userId, deckId)
    case Err(e) => (st, Err(e))
    case Ok(deck) =>
      if deck.syllabusTopics == [] then (st, Err(HttpError(BAD_REQUEST, NO_TOPICS)))
      else
        var (st1, s) := S.GetOrCreate(st, key, userId, deckId, freshId);
        var (s', resp) := Teach.StartTeachingSession(s, deck.syllabusTopics, startingTopic, pace, t);
        (S.Store(st1.sessions[s.sessionId := s'], st1.index), Ok((s.sessionId, resp)))
  }

  // ---------------------------------------------------------------------------
  // chat
  // ---------------------------------------------------------------------------

  const START_COMMANDS: seq<string> := ["start teaching", "teach me", "begin lesson"]
  const RESUME_COMMANDS: seq<string> := ["continue teaching", "resume"]

  /** Which part of the program answers a chat message. */
  datatype Route = TeachingInput | StartLesson | ResumeLesson | FreeForm

  predicate InLesson(mode: S.TeachingMode) {
    mode == S.Teaching || mode == S.AwaitingInput
  }

  /** The chat dispatch on the stripped message: a session in a lesson
      takes every message as lesson input; otherwise a start command
      starts a lesson when the deck has topics, a resume command resumes
      when the session has topics, and anything else is a free question.
      Each route is taken exactly when its condition holds and no earlier
      one does; in particular commands are never read during a lesson. */
  function ChatRoute(mode: S.TeachingMode, input: string, deckTopics: seq<string>, sessionTopics: seq<string>)
    : (r: Route)
    ensures var start := S.AnyIn(Lower(input), START_COMMANDS) && deckTopics != [];
            var resume := S.AnyIn(Lower(input), RESUME_COMMANDS) && sessionTopics != [];
            && (r == TeachingInput <==> InLesson(mode))
            && (r == StartLesson <==> !InLesson(mode) && start)
            && (r == ResumeLesson <==> !InLesson(mode) && !start && resume)
            && (r == FreeForm <==> !InLesson(mode) && !start && !resume)
  {
    var low := Lower(input);
    if InLesson(mode) then TeachingInput
    else if S.AnyIn(low, START_COMMANDS) && deckTopics != [] then StartLesson
    else if S.AnyIn(low, RESUME_COMMANDS) && sessionTopics != [] then ResumeLesson
    else FreeForm
  }

  /** "teach me" with no topics on the deck or the session is a free question. */
  lemma TeachMeWithoutTopics(mode: S.TeachingMode)
    requires !InLesson(mode)
    ensures ChatRoute(mode, "teach me", [], []) == FreeForm
  {
  }

  /** "teach me" during a lesson is lesson input, whatever topics there are. */
  lemma TeachMeDuringLesson(deckTopics: seq<string>, sessionTopics: seq<string>)
    ensures ChatRoute(S.Teaching, "teach me", deckTopics, sessionTopics) == TeachingInput
  {
  }

  datatype ChatResponse = ChatResponse(
    message: string,
    topic: Option<string>,
    mode: string,
    awaitingInput: bool,
    prompt: Option<string>,
    progress: Option<S.TeachingState>,
    sessionId: string)

  /** The free-question stage's outside calls, each on the stripped message:
      the domain guard's verdict, the out-of-scope reply, and the model's
      answer given the earlier conversation. */
  datatype FreeServices = FreeServices(
    inScope: string -> bool,
    outOfScope: string -> string,
    respond: (string, seq<S.Message>) -> string)

  /** How many recent messages, the new one included, the history is cut from. */
  const HISTORY_WINDOW := 6

  /** The conversation the model sees: the recent messages after the user's
      message is added, less that message. */
  function ChatHistory(s: S.Session, input: string): (h: seq<S.Message>)
    ensures |h| == if |s.messages| < HISTORY_WINDOW - 1 then |s.messages| else HISTORY_WINDOW - 1
    ensures h == s.messages[|s.messages| - |h|..]
  {
    var s1 := s.AddMessage("user", input, None, "chat").0;
    var recent := s1.RecentMessages(Some(HISTORY_WINDOW));
    assert |recent| > 0 && recent[|recent| - 1] == s1.messages[|s1.messages| - 1];
    recent[..|recent| - 1]
  }

  /** The free-question exchange both versions share: the user's message
      and the reply are recorded, and the reply is the out-of-scope
      message or the model's answer. */
  function Exchange(s: S.Session, input: string, f: FreeServices): (r: (S.Session, string))
    ensures r.1 == if f.inScope(input) then f.respond(input, ChatHistory(s, input)) else f.outOfScope(input)
    ensures var topic := s.teachingState.CurrentTopic();
            r.0 == s.(messages := s.messages + [S.Message("user", input, topic, "chat"),
                                                S.Message("assistant", r.1, topic, "chat")])
  {
    var s1 := s.AddMessage("user", input, None, "chat").0;
    var answer := if f.inScope(input) then f.respond(input, ChatHistory(s, input)) else f.outOfScope(input);
    var s2 := s1.AddMessage("assistant", answer, None, "chat").0;
    (s2, answer)
  }

  const NAME_ERROR := "NameError: name 'domain_result' is not defined"

  /** The free-question stage as written: the in-scope reply is built from
      a variable that does not exist, so it fails after both messages are
      recorded. */
  function FreeFormAsWritten(s: S.Session, input: string, f: FreeServices): (r: (S.Session, Result<ChatResponse, Failure>))
    ensures r.0 == Exchange(s, input, f).0
  {
    var (s2, answer) := Exchange(s, input, f);
    if f.inScope(input) then (s2, Err(Crash(NAME_ERROR)))
    else (s2, Ok(ChatResponse(answer, None, s2.mode.Value(), false, None, None, s2.sessionId)))
  }

  /** Every in-scope free question fails as written, though the exchange is
      already in the session. */
  lemma InScopeChatFails(s: S.Session, input: string, f: FreeServices)
    requires f.inScope(input)
    ensures var (s2, r) := FreeFormAsWritten(s, input, f);
            && r == Err(Crash(NAME_ERROR))
            && |s2.messages| == |s.messages| + 2
  {
  }

  /** The free-question stage with the reply built as intended: the domain
      guard gets no topics here, so there is no matched topic to report. */
  function FreeFormReply(s: S.Session, input: string, f: FreeServices): (r: (S.Session, Result<ChatResponse, Failure>))
    ensures r.0 == Exchange(s, input, f).0
    ensures r.1.Ok?
    ensures r.1.value.message == Exchange(s, input, f).1 && r.1.value.topic.None?
    ensures r.1.value.mode == s.mode.Value() && !r.1.value.awaitingInput && r.1.value.sessionId == s.sessionId
  {
    var (s2, answer) := Exchange(s, input, f);
    (s2, Ok(ChatResponse(answer, None, s2.mode.Value(), false, None, None, s2.sessionId)))
  }

  /** The two versions agree on the session and on every out-of-scope reply. */
  lemma FreeFormAgreesOutOfScope(s: S.Session, input: string, f: FreeServices)
    ensures FreeFormReply(s, input, f).0 == FreeFormAsWritten(s, input, f).0
    ensures !f.inScope(input) ==> FreeFormReply(s, input, f) == FreeFormAsWritten(s, input, f)
  {
  }

  /** A teaching-flow response as a chat response. */
  function FromTeaching(t: Teach.TeachingResponse, sessionId: string): ChatResponse {
    ChatResponse(t.message, t.topic, t.mode, t.awaitingInput, t.prompt, Some(t.progress), sessionId)
  }

  /** `chat` after the gate, on the deck's session, with the free-question
      stage given: the message is stripped and routed. */
  function ChatWith(s: S.Session, deckTopics: seq<string>, message: string, pace: string, t: Teach.Services,
                    free: (S.Session, string) -> (S.Session, Result<ChatResponse, Failure>))
    : (r: (S.Session, Result<ChatResponse, Failure>))
    ensures var input := Strip(message);
            match ChatRoute(s.mode, input, deckTopics, s.teachingState.syllabusTopics)
            case TeachingInput => r == (Teach.HandleTeachingInput(s, input, t).0,
                                        Ok(FromTeaching(Teach.HandleTeachingInput(s, input, t).1, s.sessionId)))
            case StartLesson => r == (Teach.StartTeachingSession(s, deckTopics, None, pace, t).0,
                                      Ok(FromTeaching(Teach.StartTeachingSession(s, deckTopics, None, pace, t).1, s.sessionId)))
            case ResumeLesson => r == (Teach.ResumeTeaching(s, t).0,
                                       Ok(FromTeaching(Teach.ResumeTeaching(s, t).1, s.sessionId)))
            case FreeForm => r == free(s, input)
  {
    var input := Strip(message);
    match ChatRoute(s.mode, input, deckTopics, s.teachingState.syllabusTopics)
    case TeachingInput =>
      var (s', resp) := Teach.HandleTeachingInput(s, input, t);
      (s', Ok(FromTeaching(resp, s.sessionId)))
    case StartLesson =>
      var (s', resp) := Teach.StartTeachingSession(s, deckTopics, None, pace, t);
      (s', Ok(FromTeaching(resp, s.sessionId)))
    case ResumeLesson =>
      var (s', resp) := Teach.ResumeTeaching(s, t);
      (s', Ok(FromTeaching(resp, s.sessionId)))
    case FreeForm =>
      free(s, input)
  }

  /** `chat` with the free-question reply built as intended: every message
      gets an answer. */
  function Chat(s: S.Session, deckTopics: seq<string>, message: string, pace: string,
                t: Teach.Services, f: FreeServices): (r: (S.Session, Result<ChatResponse, Failure>))
    ensures InLesson(s.mode) ==> r.0 == Teach.HandleTeachingInput(s, Strip(message), t).0
    ensures ChatRoute(s.mode, Strip(message), deckTopics, s.teachingState.syllabusTopics) == FreeForm ==>
              r == FreeFormReply(s, Strip(message), f)
    ensures r.1.Ok? && r.1.value.sessionId == s.sessionId
  {
    ChatWith(s, deckTopics, message, pace, t, (s0: S.Session, input: string) => FreeFormReply(s0, input, f))
  }

  /** `chat` as written: the free-question stage fails for in-scope
      questions. */
  function ChatAsWritten(s: S.Session, deckTopics: seq<string>, message: string, pace: string,
                         t: Teach.Services, f: FreeServices): (r: (S.Session, Result<ChatResponse, Failure>))
    ensures ChatRoute(s.mode, Strip(message), deckTopics, s.teachingState.syllabusTopics) == FreeForm ==>
              r == FreeFormAsWritten(s, Strip(message), f)
    ensures ChatRoute(s.mode, Strip(message), deckTopics, s.teachingState.syllabusTopics) != FreeForm ==>
              r.1.Ok? && r.1.value.sessionId == s.sessionId
  {
    ChatWith(s, deckTopics, message, pace, t, (s0: S.Session, input: string) => FreeFormAsWritten(s0, input, f))
  }

  /** As written, every in-scope free question sent to the chat fails, after
      the exchange is already in the session; every other message gets the
      same answer as in the corrected chat. */
  lemma ChatInScopeFails(s: S.Session, deckTopics: seq<string>, message: string, pace: string,
                         t: Teach.Services, f: FreeServices)
    ensures var input := Strip(message);
            var r := ChatAsWritten(s, deckTopics, message, pace, t, f);
            && (ChatRoute(s.mode, input, deckTopics, s.teachingState.syllabusTopics) == FreeForm && f.inScope(input) ==>
                  r.1 == Err(Crash(NAME_ERROR)) && |r.0.messages| == |s.messages| + 2)
            && (ChatRoute(s.mode, input, deckTopics, s.teachingState.syllabusTopics) != FreeForm || !f.inScope(input) ==>
                  r == Chat(s, deckTopics, message, pace, t, f))
  {
    var input := Strip(message);
    if ChatRoute(s.mode, input, deckTopics, s.teachingState.syllabusTopics) == FreeForm {
      FreeFormAgreesOutOfScope(s, input, f);
      if f.inScope(input) {
        InScopeChatFails(s, input, f);
      }
    }
  }

  // ---------------------------------------------------------------------------
  // the single-deck entry points
  // ---------------------------------------------------------------------------

  /** The single-deck mode's state: a fixed user, and the deck and syllabus
      of the first upload. */
  datatype LegacyState = LegacyState(userId: string, deckId: Option<string>, syllabus: Option<string>)

  const LEGACY_START := LegacyState(Chroma.LEGACY_USER, None, None)
  const DEFAULT_DECK_NAME := "Default Deck"
  const DEFAULT_SUBJECT := "General"
  const NO_DECK_YET := "No deck uploaded yet."

  /** `legacy_upload`: the first upload creates the default deck under
      `newId` and records its id; every upload records its syllabus and
      ingests the file into that deck. A failing create leaves the state as
      it was (the id is never recorded) but keeps what the database did. */
  function LegacyUpload(st: LegacyState, w: Pipeline.World, file: Pipeline.Upload, syllabus: string,
                        newId: string, s: Pipeline.Services)
    : (r: (LegacyState, Pipeline.World, Result<Pipeline.PipelineResult, Failure>))
    ensures st.deckId.None? ==>
              var created := Mongo.CreateDeck(w.db, newId, st.userId, DEFAULT_DECK_NAME, DEFAULT_SUBJECT, syllabus, s.now);
              && (created.1.Err? ==> r == (st, w.(db := created.0), Err(Crash(created.1.error))))
              && (created.1.Ok? ==> r.0 == st.(deckId := Some(newId), syllabus := Some(syllabus)))
    ensures st.deckId.Some? ==> r.0 == st.(syllabus := Some(syllabus))
    ensures r.2.Ok? <==> (if st.deckId.Some? then Mongo.ValidObjectId(st.deckId.value)
                         else && newId !in w.db.decks && !Mongo.NameTaken(w.db, st.userId, DEFAULT_DECK_NAME)
                              && Mongo.ValidObjectId(st.userId) && Mongo.ValidObjectId(newId))
    ensures r.2.Ok? ==> (&& r.0.deckId.Some?
                         && r.2.value.deckId == r.0.deckId.value && r.2.value.filesProcessed == 1)
  {
    if st.deckId.Some? then
      var st' := st.(syllabus := Some(syllabus));
      match Pipeline.IngestFiles(w, [file], syllabus, st.userId, st.deckId.value, s)
      case Err(e) => (st', w, Err(Crash(e)))
      case Ok((w', pr)) => (st', w', Ok(pr))
    else
      var (db, created) := Mongo.CreateDeck(w.db, newId, st.userId, DEFAULT_DECK_NAME, DEFAULT_SUBJECT, syllabus, s.now);
      match created
      case Err(e) => (st, w.(db := db), Err(Crash(e)))
      case Ok(deckId) =>
        var st' := st.(deckId := Some(deckId), syllabus := Some(syllabus));
        match Pipeline.IngestFiles(w.(db := db), [file], syllabus, st.userId, deckId, s)
        case Err(e) => (st', w.(db := db), Err(Crash(e)))
        case Ok((w', pr)) => (st', w', Ok(pr))
  }

  /** `legacy_ask` up to the question: the fixed user and the default deck,
      or an error payload before any upload. */
  function LegacyAsk(st: LegacyState): (r: Result<(string, string), string>)
    ensures r.Err? <==> st.deckId.None?
    ensures r.Err? ==> r.error == NO_DECK_YET
    ensures r.Ok? ==> r.value == (st.userId, st.deckId.value)
  {
    if st.deckId.None? then Err(NO_DECK_YET) else Ok((st.userId, st.deckId.value))
  }

  /** "default_user" is not an ObjectId, so from the start every legacy
      upload fails: the state never records a deck and a question gets the
      "no deck" payload. */
  lemma LegacyUploadAlwaysFails(w: Pipeline.World, file: Pipeline.Upload, syllabus: string, newId: string,
                                s: Pipeline.Services)
    ensures var (st1, _, r) := LegacyUpload(LEGACY_START, w, file, syllabus, newId, s);
            && r.Err? && st1 == LEGACY_START
            && LegacyAsk(st1) == Err(NO_DECK_YET)
  {
    Mongo.LegacyIdsInvalid();
  }

  /** The first legacy upload leaves its "Default Deck" behind, so the
      second one is refused by the unique name index and changes nothing. */
  lemma SecondLegacyUploadDuplicate(w: Pipeline.World, file: Pipeline.Upload, syllabus: string, newId: string,
                                    file2: Pipeline.Upload, syllabus2: string, newId2: string, s: Pipeline.Services)
    requires newId !in w.db.decks
    ensures var (st1, w1, _) := LegacyUpload(LEGACY_START, w, file, syllabus, newId, s);
            LegacyUpload(st1, w1, file2, syllabus2, newId2, s) == (LEGACY_START, w1, Err(Crash(Mongo.DUPLICATE_KEY)))
  {
    LegacyUploadAlwaysFails(w, file, syllabus, newId, s);
    Mongo.SameNameTwiceRefused(w.db, newId, newId2, Chroma.LEGACY_USER, DEFAULT_DECK_NAME,
                               DEFAULT_SUBJECT, syllabus, s.now, DEFAULT_SUBJECT, syllabus2, s.now);
  }

  /** With an owner id that is an ObjectId, uploads after the first reuse
      its deck, and once an upload has succeeded questions go to that deck.
      The requires are exactly the conditions under which the first upload
      succeeds. */
  lemma LegacyDeckOnce(st: LegacyState, w: Pipeline.World, file: Pipeline.Upload, syllabus: string,
                       newId: string, s: Pipeline.Services, w2: Pipeline.World, file2: Pipeline.Upload,
                       syllabus2: string, newId2: string)
    requires st.deckId.Some? ==> Mongo.ValidObjectId(st.deckId.value)
    requires st.deckId.None? ==> && newId !in w.db.decks && !Mongo.NameTaken(w.db, st.userId, DEFAULT_DECK_NAME)
                                 && Mongo.ValidObjectId(st.userId) && Mongo.ValidObjectId(newId)
    ensures LegacyUpload(st, w, file, syllabus, newId, s).2.Ok?
    ensures var st1 := LegacyUpload(st, w, file, syllabus, newId, s).0;
            && LegacyAsk(st1).Ok?
            && LegacyUpload(st1, w2, file2, syllabus2, newId2, s).2.Ok?
            && LegacyUpload(st1, w2, file2, syllabus2, newId2, s).0.deckId == st1.deckId
  {
  }
}

=== FILE: auth.dfy ===
/** Password preparation for bcrypt, access-token payloads, and the decision
    of the request dependency that turns a bearer token into the current
    user. bcrypt and the JWT library are parameters. */
module Auth {
  import opened Wrappers
  import opened Text

  // ---------------------------------------------------------------------------
  // passwords
  // ---------------------------------------------------------------------------

  /** bcrypt reads at most this many bytes of a password. */
  const BCRYPT_MAX_BYTES := 72

  /** The UTF-8 encoding of one Unicode scalar value. */
  function EncodeChar(c: char): (r: seq<byte>)
    ensures 1 <= |r| <= 4
    ensures |r| == 1 <==> c as int < 0x80
  {
    var n := c as int;
    if n < 0x80 then [n as byte]
    else if n < 0x800 then [(0xC0 + n / 64) as byte, (0x80 + n % 64) as byte]
    else if n < 0x10000 then
      [(0xE0 + n / 4096) as byte, (0x80 + (n / 64) % 64) as byte, (0x80 + n % 64) as byte]
    else
      [(0xF0 + n / 262144) as byte, (0x80 + (n / 4096) % 64) as byte,
       (0x80 + (n / 64) % 64) as byte, (0x80 + n % 64) as byte]
  }

  /** `str.encode("utf-8")`. */
  function Encode(s: string): (r: seq<byte>)
    ensures |r| >= |s|
    decreases |s|
  {
    if |s| == 0 then [] else EncodeChar(s[0]) + Encode(s[1..])
  }

  lemma {:induction false} EncodeAppend(a: string, b: string)
    ensures Encode(a + b) == Encode(a) + Encode(b)
    decreases |a|
  {
    if |a| == 0 {
      assert a + b == b;
    } else {
      assert a + b == [a[0]] + (a[1..] + b);
      assert a == [a[0]] + a[1..];
      EncodeCons(a[0], a[1..] + b);
      EncodeCons(a[0], a[1..]);
      EncodeAppend(a[1..], b);
    }
  }

  lemma EncodeCons(c: char, s: string)
    ensures Encode([c] + s) == EncodeChar(c) + Encode(s)
  {
    assert ([c] + s)[1..] == s;
  }

  /** An ASCII string encodes to one byte per character, each its code. */
  lemma {:induction false} EncodeAscii(s: string)
    requires forall k :: 0 <= k < |s| ==> s[k] as int < 0x80
    ensures |Encode(s)| == |s|
    ensures forall k :: 0 <= k < |s| ==> Encode(s)[k] as int == s[k] as int
    decreases |s|
  {
    if |s| > 0 {
      EncodeAscii(s[1..]);
    }
  }

  /** `_prep`: the first at most 72 bytes of the UTF-8 encoding. */
  function Prep(password: string): (r: seq<byte>)
    ensures |r| <= BCRYPT_MAX_BYTES
    ensures r <= Encode(password)
    ensures |r| == if |Encode(password)| < BCRYPT_MAX_BYTES then |Encode(password)| else BCRYPT_MAX_BYTES
  {
    var e := Encode(password);
    if |e| <= BCRYPT_MAX_BYTES then e else e[..BCRYPT_MAX_BYTES]
  }

  /** Once a password's encoding reaches 72 bytes, whatever follows it is
      ignored. */
  lemma PrepIgnoresTail(password: string, tail: string)
    requires |Encode(password)| >= BCRYPT_MAX_BYTES
    ensures Prep(password + tail) == Prep(password)
  {
    EncodeAppend(password, tail);
    assert (Encode(password) + Encode(tail))[..BCRYPT_MAX_BYTES] == Encode(password)[..BCRYPT_MAX_BYTES];
  }

  lemma PrepLong(password: string)
    requires |Encode(password)| >= BCRYPT_MAX_BYTES
    ensures Prep(password) == Encode(password)[..BCRYPT_MAX_BYTES]
  {
  }

  /** A password of at most 72 bytes is passed on whole. */
  lemma ShortPasswordWhole(password: string)
    requires |Encode(password)| <= BCRYPT_MAX_BYTES
    ensures Prep(password) == Encode(password)
  {
  }

  /** `hash_password`, with bcrypt's hash and a salt as parameters. */
  function HashPassword(password: string, salt: seq<byte>,
                        hashpw: (seq<byte>, seq<byte>) -> string): (h: string)
    ensures |Encode(password)| <= 72 ==> h == hashpw(Encode(password), salt)
    ensures |Encode(password)| > 72 ==> h == hashpw(Encode(password)[..72], salt)
  {
    hashpw(Prep(password), salt)
  }

  /** `verify_password`, with bcrypt's check as a parameter. */
  function VerifyPassword(plain: string, hashed: string,
                          checkpw: (seq<byte>, seq<byte>) -> bool): (ok: bool)
    ensures |Encode(plain)| <= 72 ==> ok == checkpw(Encode(plain), Encode(hashed))
    ensures |Encode(plain)| > 72 ==> ok == checkpw(Encode(plain)[..72], Encode(hashed))
  {
    checkpw(Prep(plain), Encode(hashed))
  }

  /** Passwords whose encodings agree on their first 72 bytes hash and verify alike. */
  lemma SamePrefixSameVerdict(p1: string, p2: string, hashed: string, salt: seq<byte>,
                              hashpw: (seq<byte>, seq<byte>) -> string,
                              checkpw: (seq<byte>, seq<byte>) -> bool)
    requires |Encode(p1)| >= BCRYPT_MAX_BYTES && |Encode(p2)| >= BCRYPT_MAX_BYTES
    requires Encode(p1)[..BCRYPT_MAX_BYTES] == Encode(p2)[..BCRYPT_MAX_BYTES]
    ensures HashPassword(p1, salt, hashpw) == HashPassword(p2, salt, hashpw)
    ensures VerifyPassword(p1, hashed, checkpw) == VerifyPassword(p2, hashed, checkpw)
  {
    PrepLong(p1);
    PrepLong(p2);
  }

  /** Concretely: 72 'a's followed by different suffixes give one password. */
  lemma LongPasswordsCollide(suffix1: string, suffix2: string)
    ensures var base := seq(72, _ => 'a');
            Prep(base + suffix1) == Prep(base + suffix2)
  {
    var base := seq(72, _ => 'a');
    EncodeAscii(base);
    PrepIgnoresTail(base, suffix1);
    PrepIgnoresTail(base, suffix2);
  }

  // ---------------------------------------------------------------------------
  // tokens
  // ---------------------------------------------------------------------------

  datatype Claim = Str(s: string) | Time(t: int)

  type Payload = map<string, Claim>

  /** Why the JWT library refused a token. */
  datatype JwtError = ExpiredSignature | InvalidToken | OtherFailure(message: string)

  const DEFAULT_EXPIRY_HOURS := 72

  /** `create_access_token`'s payload: the user's claims, expiry `hours`
      after `now` (seconds), and the issue time. */
  function TokenPayload(userId: string, username: string, email: string, now: int, hours: int): (r: Payload)
    ensures r.Keys == {"sub", "username", "email", "exp", "iat"}
    ensures r["sub"] == Str(userId) && r["username"] == Str(username) && r["email"] == Str(email)
    ensures r["exp"] == Time(now + hours * 3600) && r["iat"] == Time(now)
  {
    map["sub" := Str(userId), "username" := Str(username), "email" := Str(email),
        "exp" := Time(now + hours * 3600), "iat" := Time(now)]
  }

  /** `decode_access_token`: an expired or otherwise invalid token gives
      `None`; any other failure of the library propagates. */
  function DecodeAccessToken(token: string, decode: string -> Result<Payload, JwtError>): (r: Result<Option<Payload>, string>)
    ensures decode(token).Ok? ==> r == Ok(Some(decode(token).value))
    ensures decode(token).Err? && !decode(token).error.OtherFailure? ==> r == Ok(None)
    ensures decode(token).Err? && decode(token).error.OtherFailure? ==> r == Err(decode(token).error.message)
  {
    match decode(token)
    case Ok(p) => Ok(Some(p))
    case Err(ExpiredSignature) => Ok(None)
    case Err(InvalidToken) => Ok(None)
    case Err(OtherFailure(m)) => Err(m)
  }

  datatype CurrentUser = CurrentUser(userId: Claim, username: Claim, email: Claim)

  /** An HTTP error response, or a failure the framework turns into a 500. */
  datatype Failure = HttpError(status: int, detail: string) | Crash(message: string)

  const UNAUTHORIZED := 401
  const NOT_AUTHENTICATED := "Not authenticated"
  const INVALID_TOKEN := "Invalid or expired token"

  /** `get_current_user`: no credentials and an undecodable token are both
      401s; otherwise the three user claims are copied (a missing claim is a
      `KeyError`). */
  function GetCurrentUser(credentials: Option<string>, decode: string -> Result<Payload, JwtError>): (r: Result<CurrentUser, Failure>)
    ensures credentials.None? ==> r == Err(HttpError(UNAUTHORIZED, NOT_AUTHENTICATED))
    ensures credentials.Some? && DecodeAccessToken(credentials.value, decode) == Ok(None)
            ==> r == Err(HttpError(UNAUTHORIZED, INVALID_TOKEN))
    ensures r.Ok? <==> (&& credentials.Some? && decode(credentials.value).Ok?
                        && var p := decode(credentials.value).value;
                        && "sub" in p && "username" in p && "email" in p)
    ensures r.Ok? ==> (&& var p := decode(credentials.value).value;
                       && r.value == CurrentUser(p["sub"], p["username"], p["email"]))
  {
    if credentials.None? then Err(HttpError(UNAUTHORIZED, NOT_AUTHENTICATED))
    else
      match DecodeAccessToken(credentials.value, decode)
      case Err(m) => Err(Crash(m))
      case Ok(None) => Err(HttpError(UNAUTHORIZED, INVALID_TOKEN))
      case Ok(Some(p)) =>
        if "sub" in p && "username" in p && "email" in p then
          Ok(CurrentUser(p["sub"], p["username"], p["email"]))
        else Err(Crash("KeyError"))
  }

  /** A token the library issued for a user and reads back unchanged
      authenticates exactly that user. */
  lemma IssuedTokenAuthenticates(userId: string, username: string, email: string, now: int, hours: int,
                                 encode: Payload -> string, decode: string -> Result<Payload, JwtError>)
    requires var p := TokenPayload(userId, username, email, now, hours); decode(encode(p)) == Ok(p)
    ensures var token := encode(TokenPayload(userId, username, email, now, hours));
            GetCurrentUser(Some(token), decode) == Ok(CurrentUser(Str(userId), Str(username), Str(email)))
  {
  }

  /** An expired token is refused with the "Invalid or expired token" 401. */
  lemma ExpiredTokenRefused(token: string, decode: string -> Result<Payload, JwtError>)
    requires decode(token) == Err(ExpiredSignature)
    ensures GetCurrentUser(Some(token), decode) == Err(HttpError(UNAUTHORIZED, INVALID_TOKEN))
  {
  }
}

=== FILE: chroma.dfy ===
/** The per-deck vector store: collection naming, the defaults `add_documents`
    fills in, and the shape of query answers. The vector database itself is
    a map from collection names to collections; what it does with an add or
    a query is a parameter. How a deck's collection is named is a
    parameter too: `EightChars` is the program's naming (`CollectionName`),
    `FullIds` the corrected one (`FullCollectionName`). */
module Chroma {
  import opened Wrappers
  import opened Text

  /** A metadata value: a string, an integer or a float. */
  datatype MetaValue = StrVal(s: string) | IntVal(i: int) | RealVal(x: real)

  type Meta = map<string, MetaValue>

  /** A stored collection: the metadata it was created with and its size. */
  datatype Collection = Collection(metadata: map<string, string>, count: nat)

  /** The persistent client: collections by name. */
  type Client = map<string, Collection>

  /** One `collection.add` call. */
  datatype AddRequest = AddRequest(
    documents: seq<string>,
    embeddings: seq<seq<real>>,
    metadatas: seq<Meta>,
    ids: seq<string>)

  /** A metadata filter `{field: {op: value}}`. */
  datatype Filter = Filter(field: string, op: string, value: string)

  /** One `collection.query` call for a single query vector. */
  datatype QueryRequest = QueryRequest(
    embedding: seq<real>,
    nResults: int,
    where: Option<Filter>,
    whereDocument: Option<Filter>)

  /** What the database answers: one list per query vector, or nothing. */
  datatype RawResults = RawResults(
    documents: Option<seq<seq<string>>>,
    metadatas: Option<seq<seq<Meta>>>,
    distances: Option<seq<seq<real>>>)

  /** The answer handed to callers. */
  datatype QueryAnswer = QueryAnswer(
    documents: seq<string>,
    metadatas: seq<Meta>,
    distances: seq<real>,
    count: nat)

  // ---------------------------------------------------------------------------
  // naming
  // ---------------------------------------------------------------------------

  const NAME_PREFIX := "deck_"
  const ID_CHARS := 8

  /** The collection name of a deck: the first eight characters of each id. */
  function CollectionName(userId: string, deckId: string): (r: string)
    ensures 6 <= |r| <= 22
    ensures r[..5] == NAME_PREFIX
  {
    NAME_PREFIX + Prefix(userId, ID_CHARS) + "_" + Prefix(deckId, ID_CHARS)
  }

  /** The name is within the 3 to 63 characters collection names allow. */
  lemma NameLengthAllowed(userId: string, deckId: string)
    ensures 3 <= |CollectionName(userId, deckId)| <= 63
  {
  }

  /** Ids that agree on their first eight characters share a collection. */
  lemma SamePrefixesSameName(u1: string, d1: string, u2: string, d2: string)
    requires Prefix(u1, ID_CHARS) == Prefix(u2, ID_CHARS)
    requires Prefix(d1, ID_CHARS) == Prefix(d2, ID_CHARS)
    ensures CollectionName(u1, d1) == CollectionName(u2, d2)
  {
  }

  /** Two ids of the same user that differ only after the eighth character
      (two MongoDB ObjectIds created in the same second share their
      leading timestamp hex digits) name the same collection. */
  lemma DistinctDecksShareACollection()
    ensures var u := "64f1a2b3c4d5e6f708192a3b";
            var d1 := "64f1a2b3aaaaaaaaaaaaaaaa";
            var d2 := "64f1a2b3bbbbbbbbbbbbbbbb";
            d1 != d2 && CollectionName(u, d1) == CollectionName(u, d2)
  {
    var u := "64f1a2b3c4d5e6f708192a3b";
    var d1 := "64f1a2b3aaaaaaaaaaaaaaaa";
    var d2 := "64f1a2b3bbbbbbbbbbbbbbbb";
    assert d1[8] != d2[8];
    SamePrefixesSameName(u, d1, u, d2);
  }

  /** The name with the full ids, which keeps decks apart. */
  function FullCollectionName(userId: string, deckId: string): (r: string)
    ensures |r| == 6 + |userId| + |deckId|
    ensures r[..5] == NAME_PREFIX
  {
    NAME_PREFIX + userId + "_" + deckId
  }

  /** Hexadecimal ObjectId strings have 24 characters. */
  predicate IsObjectId(s: string) {
    |s| == 24 && forall k :: 0 <= k < |s| ==> ('0' <= s[k] <= '9' || 'a' <= s[k] <= 'f')
  }

  /** With full ObjectIds the name stays within 63 characters. */
  lemma FullNameLengthAllowed(userId: string, deckId: string)
    requires IsObjectId(userId) && IsObjectId(deckId)
    ensures 3 <= |FullCollectionName(userId, deckId)| <= 63
  {
  }

  /** The `_` after the user id cannot fall inside a longer user id. */
  lemma UserLengthFixed(u1: string, d1: string, u2: string, d2: string)
    requires Excludes(u2, '_')
    requires FullCollectionName(u1, d1) == FullCollectionName(u2, d2)
    ensures |u2| <= |u1|
  {
    var n := FullCollectionName(u1, d1);
    assert n[5 + |u1|] == '_';
    assert forall k :: 0 <= k < |u2| ==> n[5 + k] == u2[k];
  }

  /** Ids without `_` are read back from the full name: distinct (user, deck)
      pairs get distinct collections. */
  lemma FullNameInjective(u1: string, d1: string, u2: string, d2: string)
    requires Excludes(u1, '_') && Excludes(u2, '_')
    requires FullCollectionName(u1, d1) == FullCollectionName(u2, d2)
    ensures u1 == u2 && d1 == d2
  {
    var n := FullCollectionName(u1, d1);
    UserLengthFixed(u1, d1, u2, d2);
    UserLengthFixed(u2, d2, u1, d1);
    assert u1 == n[5..5 + |u1|] == u2;
    assert d1 == n[6 + |u1|..] == d2;
  }

  /** Two ObjectIds with distinct leading halves never collide as written. */
  lemma DistinctPrefixesDistinctNames(u1: string, d1: string, u2: string, d2: string)
    requires Excludes(Prefix(u1, ID_CHARS), '_') && Excludes(Prefix(u2, ID_CHARS), '_')
    requires Prefix(u1, ID_CHARS) != Prefix(u2, ID_CHARS) || Prefix(d1, ID_CHARS) != Prefix(d2, ID_CHARS)
    ensures CollectionName(u1, d1) != CollectionName(u2, d2)
  {
    var p1, q1 := Prefix(u1, ID_CHARS), Prefix(d1, ID_CHARS);
    var p2, q2 := Prefix(u2, ID_CHARS), Prefix(d2, ID_CHARS);
    assert CollectionName(u1, d1) == FullCollectionName(p1, q1);
    assert CollectionName(u2, d2) == FullCollectionName(p2, q2);
    if FullCollectionName(p1, q1) == FullCollectionName(p2, q2) {
      FullNameInjective(p1, q1, p2, q2);
    }
  }

  // ---------------------------------------------------------------------------
  // collections
  // ---------------------------------------------------------------------------

  /** Which name a deck's collection is filed under. */
  datatype Naming = EightChars | FullIds

  function NameOf(naming: Naming, userId: string, deckId: string): string {
    match naming
    case EightChars => CollectionName(userId, deckId)
    case FullIds => FullCollectionName(userId, deckId)
  }

  /** Under the corrected naming, ids without `_` keep decks apart. */
  lemma FullIdsSeparate(u1: string, d1: string, u2: string, d2: string)
    requires Excludes(u1, '_') && Excludes(u2, '_') && (u1, d1) != (u2, d2)
    ensures NameOf(FullIds, u1, d1) != NameOf(FullIds, u2, d2)
  {
    if FullCollectionName(u1, d1) == FullCollectionName(u2, d2) {
      FullNameInjective(u1, d1, u2, d2);
    }
  }

  /** Under the program's naming, the decks of the collision input share a
      collection. */
  lemma EightCharsShare()
    ensures var u := "64f1a2b3c4d5e6f708192a3b";
            NameOf(EightChars, u, "64f1a2b3aaaaaaaaaaaaaaaa") == NameOf(EightChars, u, "64f1a2b3bbbbbbbbbbbbbbbb")
  {
    DistinctDecksShareACollection();
  }

  /** `get_or_create_collection`: the existing collection, or a new empty one
      carrying the owner and deck ids. */
  function GetCollection(c: Client, naming: Naming, userId: string, deckId: string): (r: (Client, Collection))
    ensures var name := NameOf(naming, userId, deckId);
            && name in r.0 && r.0[name] == r.1
            && (name in c ==> r.0 == c)
            && (name !in c ==> r.1.count == 0 && r.1.metadata == map["user_id" := userId, "deck_id" := deckId])
            && (forall n :: n in c ==> n in r.0 && r.0[n] == c[n])
            && (forall n :: n in r.0 ==> n in c || n == name)
  {
    var name := NameOf(naming, userId, deckId);
    if name in c then (c, c[name])
    else
      var coll := Collection(map["user_id" := userId, "deck_id" := deckId], 0);
      (c[name := coll], coll)
  }

  /** `delete_collection`: true when the deck had a collection to remove. */
  function DeleteCollection(c: Client, naming: Naming, userId: string, deckId: string): (r: (Client, bool))
    ensures r.1 <==> NameOf(naming, userId, deckId) in c
    ensures NameOf(naming, userId, deckId) !in r.0
    ensures forall n :: n in c && n != NameOf(naming, userId, deckId) ==> n in r.0 && r.0[n] == c[n]
    ensures forall n :: n in r.0 ==> n in c
  {
    var name := NameOf(naming, userId, deckId);
    if name in c then (c - {name}, true) else (c, false)
  }

  /** Deleting a deck's collection keeps every other deck's collection under
      the corrected naming. */
  lemma DeleteKeepsOtherDecks(c: Client, u1: string, d1: string, u2: string, d2: string)
    requires Excludes(u1, '_') && Excludes(u2, '_') && (u1, d1) != (u2, d2)
    requires NameOf(FullIds, u2, d2) in c
    ensures var r := DeleteCollection(c, FullIds, u1, d1).0;
            NameOf(FullIds, u2, d2) in r && r[NameOf(FullIds, u2, d2)] == c[NameOf(FullIds, u2, d2)]
  {
    FullIdsSeparate(u1, d1, u2, d2);
  }

  /** Under the program's naming, deleting one deck of the collision input
      deletes the other deck's chunks too. */
  lemma DeleteLosesSibling(c: Client)
    ensures var u := "64f1a2b3c4d5e6f708192a3b";
            var r := DeleteCollection(c, EightChars, u, "64f1a2b3aaaaaaaaaaaaaaaa").0;
            NameOf(EightChars, u, "64f1a2b3bbbbbbbbbbbbbbbb") !in r
  {
    EightCharsShare();
  }

  /** The legacy entry point files every deck under the user "default_user". */
  const LEGACY_USER := "default_user"

  function GetChroma(c: Client, naming: Naming, deckId: string): (r: (Client, Collection))
    ensures var name := NameOf(naming, LEGACY_USER, deckId);
            name in r.0 && r.0[name] == r.1 && (name in c ==> r.1 == c[name] && r.0 == c)
    ensures NameOf(naming, LEGACY_USER, deckId) !in c ==> r.1.metadata == map["user_id" := LEGACY_USER, "deck_id" := deckId]
  {
    GetCollection(c, naming, LEGACY_USER, deckId)
  }

  /** With eight-character prefixes, any user whose id starts with "default_"
      is named like the legacy user. */
  lemma LegacyCollectionShared(userId: string, deckId: string)
    requires |userId| >= 8 && userId[..8] == "default_"
    ensures CollectionName(LEGACY_USER, deckId) == CollectionName(userId, deckId)
    ensures CollectionName(userId, deckId) == NAME_PREFIX + "default__" + Prefix(deckId, ID_CHARS)
  {
    assert Prefix(LEGACY_USER, ID_CHARS) == "default_" == Prefix(userId, ID_CHARS);
  }

  // ---------------------------------------------------------------------------
  // adding documents
  // ---------------------------------------------------------------------------

  /** The generated id of the `n`-th chunk of a collection. */
  function ChunkId(n: nat): (r: string)
    ensures |r| > 6 && r[..6] == "chunk_" && r[6..] == NatToString(n)
  {
    "chunk_" + NatToString(n)
  }

  lemma ChunkIdInjective(a: nat, b: nat)
    requires ChunkId(a) == ChunkId(b)
    ensures a == b
  {
    NatToStringRoundTrip(a);
    NatToStringRoundTrip(b);
  }

  /** The ids `chunk_{count}`, `chunk_{count+1}`, ... for `n` documents. */
  function DefaultIds(count: nat, n: nat): (r: seq<string>)
    ensures |r| == n && forall i :: 0 <= i < n ==> r[i] == ChunkId(count + i)
  {
    seq(n, i requires 0 <= i => ChunkId(count + i))
  }

  /** The metadata `{"chunk_index": i}` for `n` documents. */
  function DefaultMetadatas(n: nat): (r: seq<Meta>)
    ensures |r| == n && forall i :: 0 <= i < n ==> r[i] == map["chunk_index" := IntVal(i)]
  {
    seq(n, i requires 0 <= i => map["chunk_index" := IntVal(i)])
  }

  /** Generated ids never repeat within one call. */
  lemma DefaultIdsDistinct(count: nat, n: nat, i: nat, j: nat)
    requires i < j < n
    ensures DefaultIds(count, n)[i] != DefaultIds(count, n)[j]
  {
    if DefaultIds(count, n)[i] == DefaultIds(count, n)[j] {
      ChunkIdInjective(count + i, count + j);
    }
  }

  /** The request `add_documents` sends: the caller's ids and metadata when
      given, otherwise the defaults. */
  function BuildAddRequest(count: nat, documents: seq<string>, embeddings: seq<seq<real>>,
                           metadatas: Option<seq<Meta>>, ids: Option<seq<string>>): (r: AddRequest)
    ensures r.documents == documents && r.embeddings == embeddings
    ensures ids.Some? ==> r.ids == ids.value
    ensures ids.None? ==> |r.ids| == |documents| && forall i :: 0 <= i < |documents| ==> r.ids[i] == ChunkId(count + i)
    ensures metadatas.Some? ==> r.metadatas == metadatas.value
    ensures metadatas.None? ==> (&& |r.metadatas| == |documents|
                                 && forall i :: 0 <= i < |documents| ==> r.metadatas[i] == map["chunk_index" := IntVal(i)])
  {
    AddRequest(documents, embeddings,
      if metadatas.Some? then metadatas.value else DefaultMetadatas(|documents|),
      if ids.Some? then ids.value else DefaultIds(count, |documents|))
  }

  /** `add_documents`: the request goes to the deck's collection, created
      if needed; the count of documents is returned. A failing add
      propagates, and the collection created for it stays. */
  function AddDocuments(c: Client, naming: Naming, userId: string, deckId: string, documents: seq<string>,
                        embeddings: seq<seq<real>>, metadatas: Option<seq<Meta>>,
                        ids: Option<seq<string>>,
                        add: (Collection, AddRequest) -> Result<Collection, string>): (r: (Client, Result<nat, string>))
    ensures var (c1, coll) := GetCollection(c, naming, userId, deckId);
            var req := BuildAddRequest(coll.count, documents, embeddings, metadatas, ids);
            && (add(coll, req).Err? <==> r.1.Err?)
            && (r.1.Err? ==> r.0 == c1 && r.1.error == add(coll, req).error)
            && (r.1.Ok? ==> r.1.value == |documents| && r.0 == c1[NameOf(naming, userId, deckId) := add(coll, req).value])
    ensures NameOf(naming, userId, deckId) in r.0
  {
    var (c1, coll) := GetCollection(c, naming, userId, deckId);
    var req := BuildAddRequest(coll.count, documents, embeddings, metadatas, ids);
    match add(coll, req)
    case Err(e) => (c1, Err(e))
    case Ok(coll') => (c1[NameOf(naming, userId, deckId) := coll'], Ok(|documents|))
  }

  /** Only the deck's own collection changes, whether or not the add
      succeeds. */
  lemma AddDocumentsTouchesOne(c: Client, naming: Naming, userId: string, deckId: string,
                               documents: seq<string>, embeddings: seq<seq<real>>,
                               metadatas: Option<seq<Meta>>, ids: Option<seq<string>>,
                               add: (Collection, AddRequest) -> Result<Collection, string>)
    ensures var r := AddDocuments(c, naming, userId, deckId, documents, embeddings, metadatas, ids, add).0;
            && (forall n :: n in c && n != NameOf(naming, userId, deckId) ==> n in r && r[n] == c[n])
            && (forall n :: n in r ==> n in c || n == NameOf(naming, userId, deckId))
  {
  }

  /** Under the corrected naming, adding to one deck leaves every other
      deck's collection as it was. */
  lemma AddDocumentsIsolated(c: Client, u1: string, d1: string, u2: string, d2: string,
                             documents: seq<string>, embeddings: seq<seq<real>>,
                             metadatas: Option<seq<Meta>>, ids: Option<seq<string>>,
                             add: (Collection, AddRequest) -> Result<Collection, string>)
    requires Excludes(u1, '_') && Excludes(u2, '_') && (u1, d1) != (u2, d2)
    requires NameOf(FullIds, u2, d2) in c
    ensures var r := AddDocuments(c, FullIds, u1, d1, documents, embeddings, metadatas, ids, add).0;
            && NameOf(FullIds, u2, d2) in r
            && r[NameOf(FullIds, u2, d2)] == c[NameOf(FullIds, u2, d2)]
  {
    FullIdsSeparate(u1, d1, u2, d2);
    AddDocumentsTouchesOne(c, FullIds, u1, d1, documents, embeddings, metadatas, ids, add);
  }

  /** Under the program's naming, chunks added to one deck of the collision
      input land in the collection the other deck reads. */
  lemma AddDocumentsReachesSibling(c: Client, documents: seq<string>, embeddings: seq<seq<real>>,
                                   metadatas: Option<seq<Meta>>, ids: Option<seq<string>>,
                                   add: (Collection, AddRequest) -> Result<Collection, string>)
    ensures var u := "64f1a2b3c4d5e6f708192a3b";
            var (c1, coll) := GetCollection(c, EightChars, u, "64f1a2b3aaaaaaaaaaaaaaaa");
            var req := BuildAddRequest(coll.count, documents, embeddings, metadatas, ids);
            var r := AddDocuments(c, EightChars, u, "64f1a2b3aaaaaaaaaaaaaaaa", documents, embeddings, metadatas, ids, add);
            r.1.Ok? ==> GetCollection(r.0, EightChars, u, "64f1a2b3bbbbbbbbbbbbbbbb").1 == add(coll, req).value
  {
    EightCharsShare();
  }

  // ---------------------------------------------------------------------------
  // queries
  // ---------------------------------------------------------------------------

  /** `results[key][0] if results[key] else []`. */
  function FirstList<T>(x: Option<seq<seq<T>>>): (r: seq<T>)
    ensures x.None? || x.value == [] ==> r == []
    ensures x.Some? && x.value != [] ==> r == x.value[0]
  {
    if x.Some? && |x.value| > 0 then x.value[0] else []
  }

  /** The answer built from the raw results: first lists, and the count of documents. */
  function ShapeResults(raw: RawResults): (r: QueryAnswer)
    ensures r.count == |r.documents|
    ensures r.documents == FirstList(raw.documents)
    ensures r.metadatas == FirstList(raw.metadatas)
    ensures r.distances == FirstList(raw.distances)
  {
    var docs := FirstList(raw.documents);
    QueryAnswer(docs, FirstList(raw.metadatas), FirstList(raw.distances), |docs|)
  }

  /** `query_collection`: the query goes to the deck's collection, created
      if needed. */
  function QueryCollection(c: Client, naming: Naming, userId: string, deckId: string, embedding: seq<real>,
                           nResults: int, where: Option<Filter>, whereDocument: Option<Filter>,
                           search: (Collection, QueryRequest) -> RawResults): (r: (Client, QueryAnswer))
    ensures r.0 == GetCollection(c, naming, userId, deckId).0
    ensures r.1.count == |r.1.documents|
    ensures r.1 == ShapeResults(search(GetCollection(c, naming, userId, deckId).1,
                                       QueryRequest(embedding, nResults, where, whereDocument)))
  {
    var (c1, coll) := GetCollection(c, naming, userId, deckId);
    (c1, ShapeResults(search(coll, QueryRequest(embedding, nResults, where, whereDocument))))
  }

  /** The answer depends only on the deck's own collection: two stores that
      agree on it give the same answer. */
  lemma QueryReadsOwnCollection(c: Client, c': Client, naming: Naming, userId: string, deckId: string,
                                embedding: seq<real>, nResults: int, where: Option<Filter>,
                                whereDocument: Option<Filter>, search: (Collection, QueryRequest) -> RawResults)
    requires NameOf(naming, userId, deckId) in c <==> NameOf(naming, userId, deckId) in c'
    requires NameOf(naming, userId, deckId) in c ==> c[NameOf(naming, userId, deckId)] == c'[NameOf(naming, userId, deckId)]
    ensures QueryCollection(c, naming, userId, deckId, embedding, nResults, where, whereDocument, search).1
         == QueryCollection(c', naming, userId, deckId, embedding, nResults, where, whereDocument, search).1
  {
  }

  /** Querying creates at most the deck's collection and changes nothing else. */
  lemma QueryChangesNothingElse(c: Client, naming: Naming, userId: string, deckId: string,
                                embedding: seq<real>, nResults: int, where: Option<Filter>,
                                whereDocument: Option<Filter>, search: (Collection, QueryRequest) -> RawResults)
    ensures var r := QueryCollection(c, naming, userId, deckId, embedding, nResults, where, whereDocument, search).0;
            && (forall n :: n in c ==> n in r && r[n] == c[n])
            && (forall n :: n in r ==> n in c || n == NameOf(naming, userId, deckId))
  {
  }

  /** The count is zero exactly when the database returned no documents for
      the query. */
  lemma ShapeResultsEmptyIff(raw: RawResults)
    ensures ShapeResults(raw).count == 0
        <==> raw.documents.None? || raw.documents.value == [] || raw.documents.value[0] == []
  {
  }

  /** An empty answer from the database gives empty lists and count 0. */
  lemma EmptyResultsEmptyAnswer(raw: RawResults)
    requires raw.documents.None? || raw.documents == Some([])
    ensures ShapeResults(raw).documents == [] && ShapeResults(raw).count == 0
  {
  }

  /** The topic filter `{"topics": {"$contains": topic}}`. */
  function TopicFilter(topic: string): (r: Filter)
    ensures r.field == "topics" && r.op == "$contains" && r.value == topic
  {
    Filter("topics", "$contains", topic)
  }

  /** `query_by_topic`: a plain query with exactly the topic filter added. */
  function QueryByTopic(c: Client, naming: Naming, userId: string, deckId: string, embedding: seq<real>,
                        topic: string, nResults: int,
                        search: (Collection, QueryRequest) -> RawResults): (r: (Client, QueryAnswer))
    ensures r.0 == GetCollection(c, naming, userId, deckId).0
    ensures r.1 == ShapeResults(search(GetCollection(c, naming, userId, deckId).1,
                                       QueryRequest(embedding, nResults, Some(TopicFilter(topic)), None)))
  {
    QueryCollection(c, naming, userId, deckId, embedding, nResults, Some(TopicFilter(topic)), None, search)
  }

  /** `get_collection_stats`: the collection's size and name. Like every
      access it goes through get-or-create, so a deck without a collection
      gets an empty one. */
  function CollectionStats(c: Client, naming: Naming, userId: string, deckId: string): (r: (Client, nat, string))
    ensures r.0 == GetCollection(c, naming, userId, deckId).0
    ensures r.2 == NameOf(naming, userId, deckId) && r.2 in r.0
    ensures r.2 in c ==> r.1 == c[r.2].count && r.0 == c
    ensures r.2 !in c ==> r.1 == 0 && r.0 == c[r.2 := Collection(map["user_id" := userId, "deck_id" := deckId], 0)]
  {
    var (c1, coll) := GetCollection(c, naming, userId, deckId);
    (c1, coll.count, NameOf(naming, userId, deckId))
  }
}

=== FILE: chunk.dfy ===
/** Text chunking (ingestion/chunk.py): sentence-aware windows with overlap for
    dense text, greedy paragraph packing for structured text, the per-block
    strategy choice, and the merging of small chunks. */
module Chunker {
  import opened Text
  import opened Wrappers
  import opened Seqs

  /** config.CHUNK_SIZE and config.CHUNK_OVERLAP. */
  const CHUNK_SIZE: int := 1000
  const CHUNK_OVERLAP: int := 200

  /** A piece of text with the offsets (in the stripped block it came from) it covers. */
  datatype Chunk = Chunk(
    content: string,
    sourceFile: string,
    chunkIndex: int,
    charStart: int,
    charEnd: int)

  // ---------------------------------------------------------------------------
  // boundaries
  // ---------------------------------------------------------------------------

  /** The pattern `[.!?]\s` matches at position `i` of `text`. */
  predicate SentenceEndAt(text: string, i: int) {
    0 <= i && i + 1 < |text| && (text[i] == '.' || text[i] == '!' || text[i] == '?')
    && IsSpace(text[i + 1])
  }

  /** `re.search` from `target`: the end of the first match at or after `target`, or |text|. */
  function NextSentenceEnd(text: string, target: nat): (r: nat)
    ensures r <= |text|
    ensures r == |text| || (target + 2 <= r && SentenceEndAt(text, r - 2))
    decreases |text| - target
  {
    if target + 1 >= |text| then |text|
    else if SentenceEndAt(text, target) then target + 2
    else NextSentenceEnd(text, target + 1)
  }

  /** NextSentenceEnd finds the first match: none starts between `target` and it. */
  lemma {:induction false} NextSentenceEndIsFirst(text: string, target: nat)
    ensures var r := NextSentenceEnd(text, target);
      forall k :: target <= k && k + 2 < r ==> !SentenceEndAt(text, k)
    ensures var r := NextSentenceEnd(text, target);
      !SentenceEndAt(text, r - 2) ==> forall k :: target <= k ==> !SentenceEndAt(text, k)
    decreases |text| - target
  {
    if target + 1 < |text| && !SentenceEndAt(text, target) {
      NextSentenceEndIsFirst(text, target + 1);
    }
  }

  /** The end of the last match of `[.!?]\s` lying wholly inside `text[..t]`, or 0.
      Two matches never overlap (a match's second character is whitespace, not
      punctuation), so the last match `finditer` reports is the last position that matches. */
  function LastSentenceEnd(text: string, t: nat): (r: nat)
    requires t <= |text|
    ensures r <= t
    ensures r == 0 || (2 <= r && SentenceEndAt(text, r - 2))
    decreases t
  {
    if t < 2 then 0
    else if SentenceEndAt(text, t - 2) then t
    else LastSentenceEnd(text, t - 1)
  }

  /** LastSentenceEnd finds the last match: none lies wholly between it and `t`. */
  lemma {:induction false} LastSentenceEndIsLast(text: string, t: nat)
    requires t <= |text|
    ensures var r := LastSentenceEnd(text, t);
      forall k :: r <= k + 1 && k + 2 <= t ==> !SentenceEndAt(text, k)
    decreases t
  {
    if 2 <= t && !SentenceEndAt(text, t - 2) {
      LastSentenceEndIsLast(text, t - 1);
    }
  }

  /** find_sentence_boundary: any direction other than "forward" searches backward. */
  function FindSentenceBoundary(text: string, target: nat, direction: string): (r: nat)
    ensures r <= |text|
    ensures direction == "forward" ==>
      (r == |text| || (target + 2 <= r && SentenceEndAt(text, r - 2)))
      && forall k :: target <= k && k + 2 < r ==> !SentenceEndAt(text, k)
    ensures direction == "forward" && !SentenceEndAt(text, r - 2) ==>
      r == |text| && forall k :: target <= k ==> !SentenceEndAt(text, k)
    ensures direction != "forward" ==>
      r <= target
      && (r == 0 || (2 <= r && SentenceEndAt(text, r - 2)))
      && forall k :: r <= k + 1 && k + 2 <= target ==> !SentenceEndAt(text, k)
  {
    if direction == "forward" then
      NextSentenceEndIsFirst(text, target);
      NextSentenceEnd(text, target)
    else
      var t := if target <= |text| then target else |text|;
      LastSentenceEndIsLast(text, t);
      LastSentenceEnd(text, t)
  }

  /** find_paragraph_boundary: just past the nearest blank-line separator "\n\n". */
  function FindParagraphBoundary(text: string, target: nat, direction: string): (r: nat)
    ensures r <= |text|
    ensures direction == "forward" ==>
      (r == |text| && forall k :: target <= k ==> !OccursAt(text, "\n\n", k))
      || (target + 2 <= r && OccursAt(text, "\n\n", r - 2)
          && forall k :: target <= k < r - 2 ==> !OccursAt(text, "\n\n", k))
    ensures direction != "forward" ==>
      (r == 0 && forall k :: 0 <= k && k + 2 <= target ==> !OccursAt(text, "\n\n", k))
      || (2 <= r <= target && OccursAt(text, "\n\n", r - 2)
          && forall k :: r - 2 < k && k + 2 <= target ==> !OccursAt(text, "\n\n", k))
  {
    if direction == "forward" then
      var idx := Find(text, "\n\n", target);
      if idx != -1 then idx + 2 else |text|
    else
      var end := if target <= |text| then target else |text|;
      var idx := RFind(text, "\n\n", end);
      if idx != -1 then idx + 2 else 0
  }

  // ---------------------------------------------------------------------------
  // semantic chunking
  // ---------------------------------------------------------------------------

  /** The cut point of a window that is not the last one: the sentence end after
      `cur + cs`, unless that makes the window longer than 1.5 * cs, in which case
      the last sentence end before `cur + cs`, or `cur + cs` itself when there is none. */
  function WindowEnd(text: string, cur: nat, cs: int): (se: nat)
    requires cs >= 1 && cur + cs < |text|
    ensures cur < se <= |text|
    ensures 2 * (se - cur) <= 3 * cs
    ensures se - cur > cs ==> se == |text| || SentenceEndAt(text, se - 2)
    ensures se - cur < cs ==> SentenceEndAt(text, se - 2)
  {
    var target := cur + cs;
    var fwd := NextSentenceEnd(text, target);
    if 2 * (fwd - cur) > 3 * cs then
      var back := LastSentenceEnd(text, target);
      if back <= cur then target else back
    else fwd
  }

  /** A window `text[start..end]` that the semantic loop visits. */
  datatype Window = Window(start: nat, end: nat)

  /** What every window of the semantic loop satisfies: it is non-empty, at most
      1.5 * cs long, and when it is longer than cs it ends at a sentence end or at
      the end of the block. */
  predicate WindowOf(text: string, w: Window, cs: int) {
    && w.start < w.end <= |text|
    && 2 * (w.end - w.start) <= 3 * cs
    && (w.end - w.start > cs ==> w.end == |text| || SentenceEndAt(text, w.end - 2))
  }

  /** Where the semantic loop cuts a block `text`: the window starting at `c`
      ends at WindowEnd unless it is the last one, which takes the rest. */
  function SemanticCut(text: string, cs: int): (cut: nat -> nat)
    requires cs >= 1
  {
    (c: nat) => if c + cs < |text| then WindowEnd(text, c, cs) else |text|
  }

  /** The loop over a block of length `n` is abstracted over where it cuts:
      every window that is not the last ends after its start and inside the block. */
  predicate CutsForward(n: nat, cs: int, cut: nat -> nat) {
    forall c: nat :: c + cs < n ==> c < cut(c) <= n
  }

  /** The window the loop visits at `cur`: the last one (when `cur + cs` reaches
      the end of the block) takes the rest of the block. */
  function WindowAt(n: nat, cs: int, cut: nat -> nat, cur: nat): Window {
    if cur + cs >= n then Window(cur, n) else Window(cur, cut(cur))
  }

  predicate IsWindow(n: nat, cs: int, cut: nat -> nat, w: Window) {
    w.start < n && w == WindowAt(n, cs, cut, w.start)
  }

  /** The while-loop of semantic_chunk as written, reduced to the windows it
      visits: the next window starts `overlap` characters before the cut,
      clamped at 0. `None` means the loop had not finished after `fuel` iterations. */
  function WindowsAsWritten(n: nat, cs: int, overlap: int, cut: nat -> nat, cur: nat, fuel: nat)
    : (r: Option<seq<Window>>)
    requires cs >= 1 && CutsForward(n, cs, cut)
    ensures r.Some? ==> forall k :: 0 <= k < |r.value| ==> IsWindow(n, cs, cut, r.value[k])
    decreases fuel
  {
    if cur >= n then Some([])
    else if fuel == 0 then None
    else if cur + cs >= n then Some([Window(cur, n)])
    else
      var se := cut(cur);
      var next := if se - overlap < 0 then 0 else se - overlap;
      match WindowsAsWritten(n, cs, overlap, cut, next, fuel - 1)
      case None => None
      case Some(rest) => Some([Window(cur, se)] + rest)
  }

  /** The corrected start of the next window: `overlap` characters before the
      cut when that still moves forward, otherwise the cut itself. */
  function NextStart(cur: nat, se: nat, overlap: int): (next: nat)
    requires cur < se
    ensures cur < next
    ensures overlap >= 0 ==> next <= se
    ensures next != se ==> next == se - overlap
    ensures se - overlap > cur ==> next == (if se - overlap < 0 then 0 else se - overlap)
  {
    if se - overlap > cur then se - overlap else se
  }

  /** The windows of the corrected loop from `cur` on: each a window of the
      block, the first at `cur`, with strictly increasing starts. */
  function Windows(n: nat, cs: int, overlap: int, cut: nat -> nat, cur: nat): (ws: seq<Window>)
    requires cs >= 1 && CutsForward(n, cs, cut)
    ensures forall k :: 0 <= k < |ws| ==> IsWindow(n, cs, cut, ws[k]) && cur <= ws[k].start
    ensures forall i, j :: 0 <= i < j < |ws| ==> ws[i].start < ws[j].start
    ensures cur < n <==> |ws| > 0
    ensures |ws| > 0 ==> ws[0].start == cur
    decreases n - cur
  {
    if cur >= n then []
    else if cur + cs >= n then [Window(cur, n)]
    else
      var se := cut(cur);
      [Window(cur, se)] + Windows(n, cs, overlap, cut, NextStart(cur, se, overlap))
  }

  /** One iteration of the corrected loop on a window that is not the last. */
  lemma WindowsStep(n: nat, cs: int, overlap: int, cut: nat -> nat, cur: nat)
    requires cs >= 1 && CutsForward(n, cs, cut) && cur + cs < n
    ensures Windows(n, cs, overlap, cut, cur)
      == [Window(cur, cut(cur))] + Windows(n, cs, overlap, cut, NextStart(cur, cut(cur), overlap))
  {
  }

  /** With a non-negative overlap every position from `cur` on lies in some
      window: window `j` of the result. */
  lemma {:induction false} WindowsCover(n: nat, cs: int, overlap: int, cut: nat -> nat, cur: nat, p: int)
    returns (j: nat)
    requires cs >= 1 && CutsForward(n, cs, cut) && overlap >= 0 && cur <= p < n
    ensures j < |Windows(n, cs, overlap, cut, cur)|
    ensures Windows(n, cs, overlap, cut, cur)[j].start <= p < Windows(n, cs, overlap, cut, cur)[j].end
    decreases n - cur
  {
    if cur + cs >= n {
      j := 0;
    } else {
      WindowsStep(n, cs, overlap, cut, cur);
      if p < cut(cur) {
        j := 0;
      } else {
        var i := WindowsCover(n, cs, overlap, cut, NextStart(cur, cut(cur), overlap), p);
        j := i + 1;
      }
    }
  }

  /** With a non-negative overlap the last window reaches the end of the block. */
  lemma {:induction false} WindowsReachEnd(n: nat, cs: int, overlap: int, cut: nat -> nat, cur: nat)
    requires cs >= 1 && CutsForward(n, cs, cut) && overlap >= 0 && cur < n
    ensures var ws := Windows(n, cs, overlap, cut, cur);
      |ws| > 0 && ws[|ws| - 1].end == n
    decreases n - cur
  {
    if cur + cs < n {
      var next := NextStart(cur, cut(cur), overlap);
      WindowsStep(n, cs, overlap, cut, cur);
      if next < n {
        WindowsReachEnd(n, cs, overlap, cut, next);
      }
    }
  }

  /** Every window that moves forward from `cur` on moves forward by more than
      `overlap`, so the loop as written never steps back. */
  predicate AlwaysAdvances(n: nat, cs: int, overlap: int, cut: nat -> nat, cur: nat) {
    forall c: nat :: cur <= c && c + cs < n ==> cut(c) - overlap > c
  }

  /** At every window the loop visits from `cur` on, the next start as written,
      `overlap` before the cut, lies past the window's start. */
  predicate AdvancesAlong(n: nat, cs: int, overlap: int, cut: nat -> nat, cur: nat)
    requires cs >= 1 && CutsForward(n, cs, cut)
    decreases n - cur
  {
    cur + cs >= n
    || (cut(cur) - overlap > cur && AdvancesAlong(n, cs, overlap, cut, NextStart(cur, cut(cur), overlap)))
  }

  /** Advancing at every position implies advancing at the visited ones. */
  lemma {:induction false} AlwaysAdvancesAlong(n: nat, cs: int, overlap: int, cut: nat -> nat, cur: nat)
    requires cs >= 1 && CutsForward(n, cs, cut) && AlwaysAdvances(n, cs, overlap, cut, cur)
    ensures AdvancesAlong(n, cs, overlap, cut, cur)
    decreases n - cur
  {
    if cur + cs < n {
      var next := NextStart(cur, cut(cur), overlap);
      assert AlwaysAdvances(n, cs, overlap, cut, next);
      AlwaysAdvancesAlong(n, cs, overlap, cut, next);
    }
  }

  /** Where the loop as written advances at every window it visits, it
      finishes within n - cur + 1 iterations with exactly the windows of the
      corrected loop. */
  lemma {:induction false} AgreeWhenAdvancing(n: nat, cs: int, overlap: int, cut: nat -> nat, cur: nat, fuel: nat)
    requires cs >= 1 && CutsForward(n, cs, cut)
    requires AdvancesAlong(n, cs, overlap, cut, cur) && fuel > n - cur
    ensures WindowsAsWritten(n, cs, overlap, cut, cur, fuel) == Some(Windows(n, cs, overlap, cut, cur))
    decreases fuel
  {
    if cur < n && cur + cs < n {
      var next := cut(cur) - overlap;
      AgreeWhenAdvancing(n, cs, overlap, cut, next, fuel - 1);
      WindowsStep(n, cs, overlap, cut, cur);
    }
  }

  /** Conversely, wherever the loop as written gives the corrected windows, it
      advanced at every window it visited. */
  lemma {:induction false} AgreeOnlyWhenAdvancing(n: nat, cs: int, overlap: int, cut: nat -> nat, cur: nat, fuel: nat)
    requires cs >= 1 && CutsForward(n, cs, cut)
    requires WindowsAsWritten(n, cs, overlap, cut, cur, fuel) == Some(Windows(n, cs, overlap, cut, cur))
    ensures AdvancesAlong(n, cs, overlap, cut, cur)
    decreases fuel
  {
    if cur + cs < n {
      var se := cut(cur);
      var next := if se - overlap < 0 then 0 else se - overlap;
      var rest := WindowsAsWritten(n, cs, overlap, cut, next, fuel - 1).value;
      var good := Windows(n, cs, overlap, cut, NextStart(cur, se, overlap));
      WindowsStep(n, cs, overlap, cut, cur);
      assert WindowsAsWritten(n, cs, overlap, cut, cur, fuel) == Some([Window(cur, se)] + rest);
      assert ([Window(cur, se)] + rest)[1..] == rest && ([Window(cur, se)] + good)[1..] == good;
      if se - overlap <= cur {
        assert false;
      }
      AgreeOnlyWhenAdvancing(n, cs, overlap, cut, next, fuel - 1);
    }
  }

  // ---------------------------------------------------------------------------
  // chunks of the semantic strategy
  // ---------------------------------------------------------------------------

  /** The windows of the block `text`: each satisfies WindowOf. */
  lemma SemanticWindowOf(text: string, cs: int, w: Window)
    requires cs >= 1 && IsWindow(|text|, cs, SemanticCut(text, cs), w)
    ensures WindowOf(text, w, cs)
  {
  }

  lemma SemanticCutsForward(text: string, cs: int)
    requires cs >= 1
    ensures CutsForward(|text|, cs, SemanticCut(text, cs))
  {
  }

  /** What every chunk of the semantic strategy satisfies with respect to the
      (stripped) block `text` it was cut from. */
  predicate ChunkOf(text: string, c: Chunk, src: string, cs: int) {
    && 0 <= c.charStart && 0 <= c.charEnd
    && WindowOf(text, Window(c.charStart, c.charEnd), cs)
    && c.content == Strip(text[c.charStart..c.charEnd])
    && c.content != []
    && c.sourceFile == src
  }

  /** The chunk the loop builds for window `w`, before numbering: none when the
      window holds only whitespace. */
  function ChunkFor(text: string, src: string, w: Window): (r: Option<Chunk>)
    requires w.start <= w.end <= |text|
    ensures r.None? <==> AllSpace(text[w.start..w.end])
    ensures r.Some? ==> r.value.charStart == w.start && r.value.charEnd == w.end
  {
    var c := Strip(text[w.start..w.end]);
    if c == [] then None else Some(Chunk(c, src, 0, w.start, w.end))
  }

  /** `cs` numbered consecutively from `first`, as smart_chunk does globally;
      nothing but the index changes. */
  function Renumber(cs: seq<Chunk>, first: int): (r: seq<Chunk>)
    ensures |r| == |cs|
    ensures forall k :: 0 <= k < |r| ==>
      && r[k].chunkIndex == first + k
      && r[k].content == cs[k].content && r[k].sourceFile == cs[k].sourceFile
      && r[k].charStart == cs[k].charStart && r[k].charEnd == cs[k].charEnd
  {
    seq(|cs|, k requires 0 <= k < |cs| => cs[k].(chunkIndex := first + k))
  }

  predicate InBlock(text: string, ws: seq<Window>) {
    forall k :: 0 <= k < |ws| ==> ws[k].start <= ws[k].end <= |text|
  }

  /** The candidate chunk of every window, in window order. */
  function Candidates(text: string, src: string, ws: seq<Window>): (s: seq<Option<Chunk>>)
    requires InBlock(text, ws)
    ensures |s| == |ws| && forall k :: 0 <= k < |ws| ==> s[k] == ChunkFor(text, src, ws[k])
  {
    seq(|ws|, k requires 0 <= k < |ws| => ChunkFor(text, src, ws[k]))
  }

  /** The chunks emitted for the windows `ws`: one per window that is not
      blank, numbered in emission order. */
  function Emit(text: string, src: string, ws: seq<Window>): (r: seq<Chunk>)
    requires InBlock(text, ws)
  {
    Renumber(Present(Candidates(text, src, ws)), 0)
  }

  /** The windows of the corrected loop over the block `text`: windows of the
      block with strictly increasing starts, the first at 0. */
  function SemanticWindows(text: string, cs: int, overlap: int): (ws: seq<Window>)
    requires cs >= 1
    ensures InBlock(text, ws) && forall k :: 0 <= k < |ws| ==> WindowOf(text, ws[k], cs)
    ensures forall i, j :: 0 <= i < j < |ws| ==> ws[i].start < ws[j].start
    ensures |text| > 0 ==> |ws| > 0 && ws[0].start == 0
  {
    SemanticWindowsAreWindows(text, cs, overlap);
    Windows(|text|, cs, overlap, SemanticCut(text, cs), 0)
  }

  lemma SemanticWindowsAreWindows(text: string, cs: int, overlap: int)
    requires cs >= 1
    ensures CutsForward(|text|, cs, SemanticCut(text, cs))
    ensures var ws := Windows(|text|, cs, overlap, SemanticCut(text, cs), 0);
      InBlock(text, ws) && forall k :: 0 <= k < |ws| ==> WindowOf(text, ws[k], cs)
  {
    SemanticCutsForward(text, cs);
    var ws := Windows(|text|, cs, overlap, SemanticCut(text, cs), 0);
    forall k | 0 <= k < |ws| ensures WindowOf(text, ws[k], cs) {
      SemanticWindowOf(text, cs, ws[k]);
    }
  }

  /** With a non-negative overlap the last window of a non-empty block ends at
      the end of the block. */
  lemma SemanticWindowsReachEnd(text: string, cs: int, overlap: int)
    requires cs >= 1 && overlap >= 0 && |text| > 0
    ensures var ws := SemanticWindows(text, cs, overlap);
      |ws| > 0 && ws[|ws| - 1].end == |text|
  {
    SemanticCutsForward(text, cs);
    WindowsReachEnd(|text|, cs, overlap, SemanticCut(text, cs), 0);
  }

  /** With a non-negative overlap every position of the block lies in some
      window: window `j`. */
  lemma SemanticWindowsCover(text: string, cs: int, overlap: int, p: int) returns (j: nat)
    requires cs >= 1 && overlap >= 0 && 0 <= p < |text|
    ensures j < |SemanticWindows(text, cs, overlap)|
    ensures SemanticWindows(text, cs, overlap)[j].start <= p < SemanticWindows(text, cs, overlap)[j].end
  {
    SemanticCutsForward(text, cs);
    j := WindowsCover(|text|, cs, overlap, SemanticCut(text, cs), 0, p);
  }

  /** semantic_chunk with the corrected loop. Offsets refer to `Strip(text)`. */
  function SemanticChunk(text: string, src: string, cs: int, overlap: int): (r: seq<Chunk>)
    requires cs >= 1
    ensures AllSpace(text) ==> r == []
  {
    if AllSpace(text) then []
    else
      var t := Strip(text);
      Emit(t, src, SemanticWindows(t, cs, overlap))
  }

  /** semantic_chunk as written; `None` when its loop had not finished after
      `fuel` iterations. */
  function SemanticChunkAsWritten(text: string, src: string, cs: int, overlap: int, fuel: nat)
    : Option<seq<Chunk>>
    requires cs >= 1
  {
    if AllSpace(text) then Some([])
    else
      var t := Strip(text);
      SemanticCutsForward(t, cs);
      match WindowsAsWritten(|t|, cs, overlap, SemanticCut(t, cs), 0, fuel)
      case None => None
      case Some(ws) =>
        assert InBlock(t, ws);
        Some(Emit(t, src, ws))
  }

  /** Chunk `k` emitted for windows of the block is the stripped text of one of
      them, numbered `k`. */
  lemma EmitChunkOf(text: string, src: string, cs: int, ws: seq<Window>, k: int)
    requires InBlock(text, ws) && forall m :: 0 <= m < |ws| ==> WindowOf(text, ws[m], cs)
    requires 0 <= k < |Emit(text, src, ws)|
    ensures ChunkOf(text, Emit(text, src, ws)[k], src, cs) && Emit(text, src, ws)[k].chunkIndex == k
  {
    var s := Candidates(text, src, ws);
    var m, _ := PresentOrigins(s, k, k);
    assert WindowOf(text, ws[m], cs);
  }

  /** Chunks emitted for windows with increasing starts have increasing starts. */
  lemma EmitOrdered(text: string, src: string, ws: seq<Window>, i: int, j: int)
    requires InBlock(text, ws) && forall a, b :: 0 <= a < b < |ws| ==> ws[a].start < ws[b].start
    requires 0 <= i < j < |Emit(text, src, ws)|
    ensures Emit(text, src, ws)[i].charStart < Emit(text, src, ws)[j].charStart
  {
    var s := Candidates(text, src, ws);
    var mi, mj := PresentOrigins(s, i, j);
  }

  /** The chunks emitted for windows of a block are chunks of the block,
      numbered in order, with increasing starts. */
  lemma EmitWellFormed(text: string, src: string, cs: int, ws: seq<Window>)
    requires InBlock(text, ws) && forall m :: 0 <= m < |ws| ==> WindowOf(text, ws[m], cs)
    requires forall a, b :: 0 <= a < b < |ws| ==> ws[a].start < ws[b].start
    ensures var r := Emit(text, src, ws);
      && (forall k :: 0 <= k < |r| ==> ChunkOf(text, r[k], src, cs) && r[k].chunkIndex == k)
      && (forall i, j :: 0 <= i < j < |r| ==> r[i].charStart < r[j].charStart)
  {
    var r := Emit(text, src, ws);
    forall k | 0 <= k < |r|
      ensures ChunkOf(text, r[k], src, cs) && r[k].chunkIndex == k
    {
      EmitChunkOf(text, src, cs, ws, k);
    }
    forall i, j | 0 <= i < j < |r|
      ensures r[i].charStart < r[j].charStart
    {
      EmitOrdered(text, src, ws, i, j);
    }
  }

  /** Every chunk of the semantic strategy is the stripped text of a window of
      the stripped block, with its offsets; chunks are numbered 0, 1, 2, ... and
      their starts strictly increase. */
  lemma SemanticChunkWellFormed(text: string, src: string, cs: int, overlap: int)
    requires cs >= 1
    ensures var r := SemanticChunk(text, src, cs, overlap);
      && (forall k :: 0 <= k < |r| ==> ChunkOf(Strip(text), r[k], src, cs) && r[k].chunkIndex == k)
      && (forall i, j :: 0 <= i < j < |r| ==> r[i].charStart < r[j].charStart)
  {
    if !AllSpace(text) {
      var t := Strip(text);
      EmitWellFormed(t, src, cs, SemanticWindows(t, cs, overlap));
    }
  }

  /** No non-whitespace character of a block is left out of every chunk:
      chunk `k` holds position `p` of the stripped block. */
  lemma SemanticChunkCovers(text: string, src: string, cs: int, overlap: int, p: int) returns (k: nat)
    requires cs >= 1 && overlap >= 0
    requires 0 <= p < |Strip(text)| && !IsSpace(Strip(text)[p])
    ensures k < |SemanticChunk(text, src, cs, overlap)|
    ensures SemanticChunk(text, src, cs, overlap)[k].charStart <= p < SemanticChunk(text, src, cs, overlap)[k].charEnd
  {
    var t := Strip(text);
    assert !AllSpace(text);
    var ws := SemanticWindows(t, cs, overlap);
    var s := Candidates(t, src, ws);
    var j := SemanticWindowsCover(t, cs, overlap, p);
    SliceNotAllSpace(t, ws[j].start, ws[j].end, p);
    k := PresentKeeps(s, j);
  }

  /** A non-blank first window gives the first chunk, with the window's start. */
  lemma EmitFirst(text: string, src: string, ws: seq<Window>)
    requires InBlock(text, ws) && |ws| > 0 && !AllSpace(text[ws[0].start..ws[0].end])
    ensures |Emit(text, src, ws)| > 0 && Emit(text, src, ws)[0].charStart == ws[0].start
  {
    var s := Candidates(text, src, ws);
    assert Present(s)[0] == s[0].value;
  }

  /** A non-blank last window gives the last chunk, with the window's end. */
  lemma EmitLast(text: string, src: string, ws: seq<Window>)
    requires InBlock(text, ws) && |ws| > 0
    requires !AllSpace(text[ws[|ws| - 1].start..ws[|ws| - 1].end])
    ensures var r := Emit(text, src, ws);
      |r| > 0 && r[|r| - 1].charEnd == ws[|ws| - 1].end
  {
    PresentLast(Candidates(text, src, ws));
  }

  /** The first chunk of a non-empty stripped block starts at its first character. */
  lemma EmitStartsBlock(t: string, src: string, cs: int, overlap: int)
    requires cs >= 1 && t != [] && IsStripped(t)
    ensures var r := Emit(t, src, SemanticWindows(t, cs, overlap));
      |r| > 0 && r[0].charStart == 0
  {
    var ws := SemanticWindows(t, cs, overlap);
    SliceNotAllSpace(t, ws[0].start, ws[0].end, 0);
    EmitFirst(t, src, ws);
  }

  /** With a non-negative overlap the last chunk of a non-empty stripped block
      ends at its last character. */
  lemma EmitEndsBlock(t: string, src: string, cs: int, overlap: int)
    requires cs >= 1 && overlap >= 0 && t != [] && IsStripped(t)
    ensures var r := Emit(t, src, SemanticWindows(t, cs, overlap));
      |r| > 0 && r[|r| - 1].charEnd == |t|
  {
    var ws := SemanticWindows(t, cs, overlap);
    SemanticWindowsReachEnd(t, cs, overlap);
    var last := ws[|ws| - 1];
    SliceNotAllSpace(t, last.start, last.end, |t| - 1);
    EmitLast(t, src, ws);
  }

  /** The chunks of a non-blank block start at its first character and end at
      its last. */
  lemma SemanticChunkSpans(text: string, src: string, cs: int, overlap: int)
    requires cs >= 1 && overlap >= 0 && !AllSpace(text)
    ensures var r := SemanticChunk(text, src, cs, overlap);
      |r| > 0 && r[0].charStart == 0 && r[|r| - 1].charEnd == |Strip(text)|
  {
    var t := Strip(text);
    assert t != [] && IsStripped(t);
    assert SemanticChunk(text, src, cs, overlap) == Emit(t, src, SemanticWindows(t, cs, overlap));
    EmitStartsBlock(t, src, cs, overlap);
    EmitEndsBlock(t, src, cs, overlap);
  }

  // ---------------------------------------------------------------------------
  // the loop as written does not always end
  // ---------------------------------------------------------------------------

  /** A block whose only sentence end is near its start and which runs on for
      more than 1.5 * CHUNK_SIZE characters. */
  function StallingText(): string {
    "Hi. " + Repeat('a', 1600)
  }

  lemma StallingTextFacts()
    ensures |StallingText()| == 1604
    ensures Strip(StallingText()) == StallingText()
    ensures SentenceEndAt(StallingText(), 2)
    ensures forall k :: 3 <= k ==> !SentenceEndAt(StallingText(), k)
  {
    var t := StallingText();
    assert forall k :: 4 <= k < |t| ==> t[k] == 'a';
    StripIsUniqueTrim(t, 0, |t|);
    assert t[0..|t|] == t;
  }

  /** The window of the stalling text that starts at 0 is cut at 4. */
  lemma StallingCut()
    ensures SemanticCut(StallingText(), CHUNK_SIZE)(0) == 4
  {
    var t := StallingText();
    StallingTextFacts();
    NextSentenceEndIsFirst(t, 1000);
    assert NextSentenceEnd(t, 1000) == 1604;
    LastSentenceEndIsLast(t, 1000);
    assert LastSentenceEnd(t, 1000) == 4;
  }

  /** Every window of the stalling text that starts at 0 is cut at 4, and the
      next one starts again at max(0, 4 - 200) = 0: the loop never ends. */
  lemma {:induction false} StallingWindows(fuel: nat)
    ensures CutsForward(1604, CHUNK_SIZE, SemanticCut(StallingText(), CHUNK_SIZE))
    ensures WindowsAsWritten(1604, CHUNK_SIZE, CHUNK_OVERLAP, SemanticCut(StallingText(), CHUNK_SIZE), 0, fuel) == None
    decreases fuel
  {
    StallingTextFacts();
    SemanticCutsForward(StallingText(), CHUNK_SIZE);
    if fuel > 0 {
      StallingCut();
      StallingWindows(fuel - 1);
    }
  }

  lemma SemanticChunkAsWrittenStalls(fuel: nat)
    ensures SemanticChunkAsWritten(StallingText(), "notes.txt", CHUNK_SIZE, CHUNK_OVERLAP, fuel) == None
  {
    StallingTextFacts();
    assert !AllSpace(StallingText()) by { assert !IsSpace(StallingText()[0]); }
    StallingWindows(fuel);
  }

  /** Without overlap the loop as written always ends, with the corrected chunks. */
  lemma NoOverlapAgrees(text: string, src: string, cs: int, overlap: int, fuel: nat)
    requires cs >= 1 && overlap <= 0 && fuel > |Strip(text)|
    ensures SemanticChunkAsWritten(text, src, cs, overlap, fuel) == Some(SemanticChunk(text, src, cs, overlap))
  {
    if !AllSpace(text) {
      var t := Strip(text);
      SemanticCutsForward(t, cs);
      AlwaysAdvancesAlong(|t|, cs, overlap, SemanticCut(t, cs), 0);
      AgreeWhenAdvancing(|t|, cs, overlap, SemanticCut(t, cs), 0, fuel);
    }
  }

  // ---------------------------------------------------------------------------
  // paragraph chunking
  // ---------------------------------------------------------------------------

  /** The end of the run of newlines starting at `k`. */
  function NewlineRunEnd(s: string, k: nat): (j: nat)
    requires k <= |s|
    ensures k <= j <= |s|
    ensures forall i :: k <= i < j ==> s[i] == '\n'
    ensures j < |s| ==> s[j] != '\n'
    decreases |s| - k
  {
    if k < |s| && s[k] == '\n' then NewlineRunEnd(s, k + 1) else k
  }

  /** Python's `re.split(r'\n\n+', s)`: the leftmost match absorbs the whole run
      of newlines it starts. */
  function SplitParagraphs(s: string): (r: seq<string>)
    ensures |r| >= 1
    ensures forall k :: 0 <= k < |r| ==> forall i :: !OccursAt(r[k], "\n\n", i)
    decreases |s|
  {
    var i := Find(s, "\n\n", 0);
    if i < 0 then [s]
    else
      var head := s[..i];
      var j := NewlineRunEnd(s, i + 2);
      forall q | 0 <= q && q + 2 <= |head| ensures !OccursAt(head, "\n\n", q) {
        assert !OccursAt(s, "\n\n", q);
        assert head[q..q + 2] == s[q..q + 2];
      }
      [head] + SplitParagraphs(s[j..])
  }

  /** A separator the paragraph split removes: two or more newlines. */
  predicate IsParagraphBreak(sep: string) {
    |sep| >= 2 && forall i :: 0 <= i < |sep| ==> sep[i] == '\n'
  }

  predicate AllBreaks(seps: seq<string>) {
    forall k :: 0 <= k < |seps| ==> IsParagraphBreak(seps[k])
  }

  /** `pieces[0] + seps[0] + pieces[1] + ... + pieces[n - 1]`. */
  function Interleave(pieces: seq<string>, seps: seq<string>): string
    requires |pieces| == |seps| + 1
    decreases |seps|
  {
    if |seps| == 0 then pieces[0]
    else pieces[0] + seps[0] + Interleave(pieces[1..], seps[1..])
  }

  /** The newline run a match of `\n\n+` at `i` absorbs is a paragraph break. */
  lemma ParagraphBreakAt(s: string, i: nat)
    requires OccursAt(s, "\n\n", i)
    ensures IsParagraphBreak(s[i..NewlineRunEnd(s, i + 2)])
  {
    var sep := s[i..NewlineRunEnd(s, i + 2)];
    assert s[i..i + 2] == "\n\n";
    assert s[i] == '\n' && s[i + 1] == '\n';
    forall q | 0 <= q < |sep| ensures sep[q] == '\n' {
      assert sep[q] == s[i + q];
    }
  }

  /** One step of the split: the text before the leftmost match, then the rest
      after the newline run. */
  lemma SplitParagraphsStep(s: string)
    requires Find(s, "\n\n", 0) >= 0
    ensures var i := Find(s, "\n\n", 0);
      var j := NewlineRunEnd(s, i + 2);
      SplitParagraphs(s) == [s[..i]] + SplitParagraphs(s[j..])
  {
  }

  /** The split loses nothing but the breaks between paragraphs: putting them
      back rebuilds `s`. The breaks are returned in order. */
  lemma {:induction false} SplitParagraphsRebuild(s: string) returns (seps: seq<string>)
    ensures |seps| + 1 == |SplitParagraphs(s)|
    ensures AllBreaks(seps)
    ensures Interleave(SplitParagraphs(s), seps) == s
    decreases |s|
  {
    var i := Find(s, "\n\n", 0);
    if i < 0 {
      seps := [];
    } else {
      var j := NewlineRunEnd(s, i + 2);
      var more := SplitParagraphsRebuild(s[j..]);
      seps := RebuildStep(s, more);
    }
  }

  /** The breaks of `s` are its first newline run followed by those of the rest. */
  lemma RebuildStep(s: string, more: seq<string>) returns (seps: seq<string>)
    requires Find(s, "\n\n", 0) >= 0
    requires var j := NewlineRunEnd(s, Find(s, "\n\n", 0) + 2);
      |more| + 1 == |SplitParagraphs(s[j..])| && AllBreaks(more)
      && Interleave(SplitParagraphs(s[j..]), more) == s[j..]
    ensures |seps| + 1 == |SplitParagraphs(s)|
    ensures AllBreaks(seps)
    ensures Interleave(SplitParagraphs(s), seps) == s
  {
    var i := Find(s, "\n\n", 0);
    var j := NewlineRunEnd(s, i + 2);
    ParagraphBreakAt(s, i);
    SplitParagraphsStep(s);
    seps := [s[i..j]] + more;
    assert AllBreaks(seps) by {
      assert forall k :: 0 < k < |seps| ==> seps[k] == more[k - 1];
    }
    InterleaveStep(s[..i], SplitParagraphs(s[j..]), s[i..j], more);
    Slices3(s, i, j);
  }

  lemma InterleaveStep(head: string, pieces: seq<string>, sep: string, seps: seq<string>)
    requires |pieces| == |seps| + 1
    ensures Interleave([head] + pieces, [sep] + seps) == head + sep + Interleave(pieces, seps)
  {
    assert ([head] + pieces)[1..] == pieces;
    assert ([sep] + seps)[1..] == seps;
  }

  /** The length the loop of chunk_by_paragraphs books for a group of
      paragraphs: each paragraph plus 2 for its separator. */
  function Weight(group: seq<string>): (w: nat)
    decreases |group|
  {
    if |group| == 0 then 0 else |group[0]| + 2 + Weight(group[1..])
  }

  lemma {:induction false} WeightAppend(group: seq<string>, p: string)
    ensures Weight(group + [p]) == Weight(group) + |p| + 2
    decreases |group|
  {
    if |group| > 0 {
      assert (group + [p])[1..] == group[1..] + [p];
      WeightAppend(group[1..], p);
    }
  }

  /** The joined text of a group is 2 shorter than the length booked for it. */
  lemma {:induction false} JoinWeight(group: seq<string>)
    requires |group| > 0
    ensures |Join("\n\n", group)| + 2 == Weight(group)
    decreases |group|
  {
    if |group| > 1 {
      JoinWeight(group[1..]);
    }
  }

  /** The paragraphs of the loop of chunk_by_paragraphs grouped as it closes
      chunks: `group` (booked at `groupLen`) is the chunk being filled; a
      paragraph that would take it past `max` closes it first. */
  function Groups(paras: seq<string>, max: int, group: seq<string>, groupLen: int): (gs: seq<seq<string>>)
    requires groupLen == Weight(group)
    ensures Flatten(gs) == group + paras
    ensures forall k :: 0 <= k < |gs| ==> gs[k] != []
    decreases |paras|
  {
    if |paras| == 0 then
      if group == [] then [] else [group]
    else
      var p := paras[0];
      assert group + paras == (group + [p]) + paras[1..];
      if groupLen + |p| > max && group != [] then
        WeightAppend([], p);
        var rest := Groups(paras[1..], max, [p], |p| + 2);
        assert [p] + paras[1..] == paras;
        [group] + rest
      else
        WeightAppend(group, p);
        Groups(paras[1..], max, group + [p], groupLen + |p| + 2)
  }

  /** Every group of several paragraphs fits in `max` once joined. */
  predicate GroupsWithin(gs: seq<seq<string>>, max: int) {
    forall k :: 0 <= k < |gs| && |gs[k]| > 1 ==> Weight(gs[k]) - 2 <= max
  }

  lemma {:induction false} GroupsFit(paras: seq<string>, max: int, group: seq<string>, groupLen: int)
    requires groupLen == Weight(group)
    requires |group| > 1 ==> Weight(group) - 2 <= max
    ensures GroupsWithin(Groups(paras, max, group, groupLen), max)
    decreases |paras|
  {
    var gs := Groups(paras, max, group, groupLen);
    if |paras| > 0 {
      var p := paras[0];
      if groupLen + |p| > max && group != [] {
        WeightAppend([], p);
        var rest := Groups(paras[1..], max, [p], |p| + 2);
        GroupsFit(paras[1..], max, [p], |p| + 2);
        assert gs == [group] + rest;
      } else {
        WeightAppend(group, p);
        GroupsFit(paras[1..], max, group + [p], groupLen + |p| + 2);
        assert gs == Groups(paras[1..], max, group + [p], groupLen + |p| + 2);
      }
    }
  }

  /** Greedy packing: a group is closed only when the next paragraph would not
      have fitted in it. */
  lemma {:induction false} GroupsGreedy(paras: seq<string>, max: int, group: seq<string>, groupLen: int)
    requires groupLen == Weight(group)
    ensures var gs := Groups(paras, max, group, groupLen);
      forall k :: 0 <= k < |gs| - 1 ==> Weight(gs[k]) + |gs[k + 1][0]| > max
    decreases |paras|
  {
    var gs := Groups(paras, max, group, groupLen);
    if |paras| > 0 {
      var p := paras[0];
      if groupLen + |p| > max && group != [] {
        WeightAppend([], p);
        var rest := Groups(paras[1..], max, [p], |p| + 2);
        GroupsGreedy(paras[1..], max, [p], |p| + 2);
        GroupsHead(paras[1..], max, [p], |p| + 2);
        assert gs == [group] + rest;
        assert forall k :: 0 < k < |gs| ==> gs[k] == rest[k - 1];
      } else {
        WeightAppend(group, p);
        GroupsGreedy(paras[1..], max, group + [p], groupLen + |p| + 2);
        assert gs == Groups(paras[1..], max, group + [p], groupLen + |p| + 2);
      }
    }
  }

  /** The first group starts with the first paragraph of the chunk being filled. */
  lemma {:induction false} GroupsHead(paras: seq<string>, max: int, group: seq<string>, groupLen: int)
    requires groupLen == Weight(group) && group != []
    ensures var gs := Groups(paras, max, group, groupLen);
      |gs| > 0 && gs[0] != [] && gs[0][0] == group[0]
    decreases |paras|
  {
    if |paras| > 0 {
      var p := paras[0];
      if !(groupLen + |p| > max && group != []) {
        WeightAppend(group, p);
        GroupsHead(paras[1..], max, group + [p], groupLen + |p| + 2);
      }
    }
  }

  /** The chunks for groups of paragraphs, the first starting at `pos` and
      numbered `idx`: each is its group joined by "\n\n", and spans the length
      booked for the group. */
  function GroupChunks(gs: seq<seq<string>>, src: string, pos: int, idx: int): (r: seq<Chunk>)
    ensures |r| == |gs|
    decreases |gs|
  {
    if |gs| == 0 then []
    else
      [Chunk(Join("\n\n", gs[0]), src, idx, pos, pos + Weight(gs[0]))]
      + GroupChunks(gs[1..], src, pos + Weight(gs[0]), idx + 1)
  }

  /** Chunk `k` holds group `k` joined, is numbered `idx + k`, and spans the
      length booked for the group, 2 more than its content; the chunks tile the
      offsets from `pos` on: each starts where the previous one ended. */
  lemma {:induction false} GroupChunkAt(gs: seq<seq<string>>, src: string, pos: int, idx: int, k: nat)
    requires k < |gs| && gs[k] != []
    ensures var r := GroupChunks(gs, src, pos, idx);
      && r[k].content == Join("\n\n", gs[k]) && r[k].sourceFile == src
      && r[k].chunkIndex == idx + k
      && r[k].charEnd - r[k].charStart == |r[k].content| + 2
      && (k == 0 ==> r[k].charStart == pos)
      && (k > 0 ==> r[k].charStart == r[k - 1].charEnd)
    decreases k
  {
    var rest := GroupChunks(gs[1..], src, pos + Weight(gs[0]), idx + 1);
    assert GroupChunks(gs, src, pos, idx)[1..] == rest;
    if k == 0 {
      JoinWeight(gs[0]);
    } else {
      GroupChunkAt(gs[1..], src, pos + Weight(gs[0]), idx + 1, k - 1);
    }
  }

  /** The paragraphs chunk_by_paragraphs works on: the stripped, non-empty
      pieces of the split. */
  function Paragraphs(text: string): seq<string> {
    NonBlankStripped(SplitParagraphs(text))
  }

  /** The groups chunk_by_paragraphs closes for `text`: a partition of its
      paragraphs into consecutive non-empty runs. */
  function ParagraphGroups(text: string, max: int): (gs: seq<seq<string>>)
    ensures Flatten(gs) == Paragraphs(text)
    ensures forall k :: 0 <= k < |gs| ==> gs[k] != []
  {
    assert [] + Paragraphs(text) == Paragraphs(text);
    Groups(Paragraphs(text), max, [], 0)
  }

  /** chunk_by_paragraphs: one chunk per group, in order. */
  function ChunkByParagraphs(text: string, src: string, max: int): (r: seq<Chunk>)
    ensures AllSpace(text) ==> r == []
    ensures !AllSpace(text) ==> |r| == |ParagraphGroups(text, max)|
  {
    if AllSpace(text) then []
    else GroupChunks(ParagraphGroups(text, max), src, 0, 0)
  }

  /** Chunk `k` is group `k` joined by "\n\n", numbered `k`; it is 2 shorter than
      the offsets it spans, and the offsets tile [0, ...) without gaps. */
  lemma ChunkByParagraphsAt(text: string, src: string, max: int, k: nat)
    requires !AllSpace(text) && k < |ChunkByParagraphs(text, src, max)|
    ensures var r := ChunkByParagraphs(text, src, max);
      && r[k].content == Join("\n\n", ParagraphGroups(text, max)[k])
      && r[k].sourceFile == src && r[k].chunkIndex == k
      && r[k].charEnd - r[k].charStart == |r[k].content| + 2
      && (k == 0 ==> r[k].charStart == 0)
      && (k > 0 ==> r[k].charStart == r[k - 1].charEnd)
  {
    GroupChunkAt(ParagraphGroups(text, max), src, 0, 0, k);
  }

  /** A chunk of several paragraphs is at most `max` long. */
  lemma ChunkByParagraphsFit(text: string, src: string, max: int, k: nat)
    requires !AllSpace(text) && k < |ChunkByParagraphs(text, src, max)|
    requires |ParagraphGroups(text, max)[k]| > 1
    ensures |ChunkByParagraphs(text, src, max)[k].content| <= max
  {
    var gs := ParagraphGroups(text, max);
    GroupsFit(Paragraphs(text), max, [], 0);
    assert gs == Groups(Paragraphs(text), max, [], 0);
    assert Weight(gs[k]) - 2 <= max;
    JoinWeight(gs[k]);
    ChunkByParagraphsAt(text, src, max, k);
  }

  /** A chunk other than the last was closed because the next paragraph would
      have taken it past `max`. */
  lemma ChunkByParagraphsGreedy(text: string, src: string, max: int, k: nat)
    requires !AllSpace(text) && k + 1 < |ChunkByParagraphs(text, src, max)|
    ensures var gs := ParagraphGroups(text, max);
      |ChunkByParagraphs(text, src, max)[k].content| + 2 + |gs[k + 1][0]| > max
  {
    var gs := ParagraphGroups(text, max);
    GroupsGreedy(Paragraphs(text), max, [], 0);
    assert gs == Groups(Paragraphs(text), max, [], 0);
    assert Weight(gs[k]) + |gs[k + 1][0]| > max;
    JoinWeight(gs[k]);
    ChunkByParagraphsAt(text, src, max, k);
  }

  // ---------------------------------------------------------------------------
  // strategy choice
  // ---------------------------------------------------------------------------

  /** smart_chunk's test for paragraph structure. */
  predicate HasParagraphs(text: string) {
    Contains(text, "\n\n") && Count(text, "\n\n") > 2
  }

  /** The containment test is implied by the count: the paragraph strategy is
      chosen exactly when "\n\n" occurs more than twice. */
  lemma HasParagraphsIffCount(text: string)
    ensures HasParagraphs(text) <==> Count(text, "\n\n") > 2
  {
    if Count(text, "\n\n") > 2 {
      var i := Find(text, "\n\n", 0);
      assert i >= 0;
      ContainsIffOccurs(text, "\n\n");
    }
  }

  /** The chunks smart_chunk takes from one block, before global renumbering:
      none for a blank block, else the strategy its structure selects. */
  function BlockChunks(text: string, src: string): (r: seq<Chunk>)
    ensures AllSpace(text) ==> r == []
  {
    if AllSpace(text) then []
    else if HasParagraphs(text) then ChunkByParagraphs(text, src, CHUNK_SIZE * 2)
    else SemanticChunk(text, src, CHUNK_SIZE, CHUNK_OVERLAP)
  }

  /** The loop of smart_chunk over the blocks' chunk lists `parts`, `count`
      chunks having been collected already: each chunk gets the number of
      chunks before it. */
  function NumberParts(parts: seq<seq<Chunk>>, count: int): (r: seq<Chunk>)
    decreases |parts|
  {
    if |parts| == 0 then []
    else Renumber(parts[0], count) + NumberParts(parts[1..], count + |parts[0]|)
  }

  /** The chunk lists of the blocks, one per block. */
  function BlockParts(blocks: seq<string>, src: string): (r: seq<seq<Chunk>>)
    ensures |r| == |blocks| && forall i :: 0 <= i < |blocks| ==> r[i] == BlockChunks(blocks[i], src)
  {
    seq(|blocks|, i requires 0 <= i < |blocks| => BlockChunks(blocks[i], src))
  }

  /** smart_chunk: the blocks' chunks in block order, numbered by their
      position in the output. */
  function SmartChunk(blocks: seq<string>, src: string): (r: seq<Chunk>)
    ensures SameButIndex(r, Flatten(BlockParts(blocks, src)))
    ensures forall k :: 0 <= k < |r| ==> r[k].chunkIndex == k
  {
    NumberPartsShape(BlockParts(blocks, src), 0);
    NumberParts(BlockParts(blocks, src), 0)
  }

  /** `a` and `b` hold the same chunks in the same order, whatever their numbers. */
  predicate SameButIndex(a: seq<Chunk>, b: seq<Chunk>) {
    |a| == |b|
    && forall k :: 0 <= k < |a| ==>
      && a[k].content == b[k].content && a[k].sourceFile == b[k].sourceFile
      && a[k].charStart == b[k].charStart && a[k].charEnd == b[k].charEnd
  }

  /** Numbering keeps every chunk of every part. */
  lemma {:induction false} NumberPartsLength(parts: seq<seq<Chunk>>, count: int)
    ensures |NumberParts(parts, count)| == |Flatten(parts)|
    decreases |parts|
  {
    if |parts| > 0 {
      NumberPartsLength(parts[1..], count + |parts[0]|);
    }
  }

  /** Chunk `k` of the numbered output is chunk `k` of the parts laid end to
      end, renumbered `count + k`. */
  predicate NumberedEntry(parts: seq<seq<Chunk>>, count: int, k: nat)
    requires k < |Flatten(parts)|
  {
    var r := NumberParts(parts, count);
    var c := Flatten(parts)[k];
    k < |r| && r[k].content == c.content && r[k].sourceFile == c.sourceFile
    && r[k].charStart == c.charStart && r[k].charEnd == c.charEnd
    && r[k].chunkIndex == count + k
  }

  lemma {:induction false} NumberPartsAt(parts: seq<seq<Chunk>>, count: int, k: nat)
    requires k < |Flatten(parts)|
    ensures NumberedEntry(parts, count, k)
    decreases |parts|
  {
    var cs := parts[0];
    NumberPartsLength(parts, count);
    var r := NumberParts(parts, count);
    var rest := NumberParts(parts[1..], count + |cs|);
    assert r == Renumber(cs, count) + rest;
    assert Flatten(parts) == cs + Flatten(parts[1..]);
    if k >= |cs| {
      NumberPartsAt(parts[1..], count + |cs|, k - |cs|);
      assert r[k] == rest[k - |cs|];
    }
  }

  /** Numbering lays the parts end to end and numbers each chunk by its
      position, starting from `count`. */
  lemma NumberPartsShape(parts: seq<seq<Chunk>>, count: int)
    ensures var r := NumberParts(parts, count);
      SameButIndex(r, Flatten(parts)) && forall k :: 0 <= k < |r| ==> r[k].chunkIndex == count + k
  {
    NumberPartsLength(parts, count);
    forall k: nat | k < |Flatten(parts)| ensures NumberedEntry(parts, count, k) {
      NumberPartsAt(parts, count, k);
    }
  }

  // ---------------------------------------------------------------------------
  // merging small chunks
  // ---------------------------------------------------------------------------

  function Contents(cs: seq<Chunk>): (r: seq<string>)
    ensures |r| == |cs| && forall k :: 0 <= k < |cs| ==> r[k] == cs[k].content
  {
    seq(|cs|, k requires 0 <= k < |cs| => cs[k].content)
  }

  /** A run of consecutive chunks merged into one: the contents joined by
      "\n\n", the first chunk's source, index and start, the last one's end. */
  function Fuse(run: seq<Chunk>): Chunk
    requires |run| > 0
  {
    Chunk(Join("\n\n", Contents(run)), run[0].sourceFile, run[0].chunkIndex,
          run[0].charStart, run[|run| - 1].charEnd)
  }

  /** The loop of merge_small_chunks from `chunks[0]` on, with `buffer` held. */
  function MergeFrom(chunks: seq<Chunk>, min: int, buffer: Chunk): (r: seq<Chunk>)
    ensures 1 <= |r| <= |chunks| + 1
    decreases |chunks|
  {
    if |chunks| == 0 then [buffer]
    else
      var c := chunks[0];
      if |buffer.content| < min then
        MergeFrom(chunks[1..], min,
          Chunk(buffer.content + "\n\n" + c.content, buffer.sourceFile, buffer.chunkIndex,
                buffer.charStart, c.charEnd))
      else [buffer] + MergeFrom(chunks[1..], min, c)
  }

  /** merge_small_chunks. */
  function MergeSmallChunks(chunks: seq<Chunk>, min: int): (r: seq<Chunk>)
    ensures r == [] <==> chunks == []
    ensures |r| <= |chunks|
  {
    if |chunks| == 0 then [] else MergeFrom(chunks[1..], min, chunks[0])
  }

  /** Every chunk but the last is at least `min` long. */
  predicate AllButLastBig(r: seq<Chunk>, min: int) {
    forall k :: 0 <= k < |r| - 1 ==> |r[k].content| >= min
  }

  lemma {:induction false} MergeFromBigEnough(chunks: seq<Chunk>, min: int, buffer: Chunk)
    ensures AllButLastBig(MergeFrom(chunks, min, buffer), min)
    decreases |chunks|
  {
    if |chunks| > 0 {
      var c := chunks[0];
      if |buffer.content| < min {
        MergeFromBigEnough(chunks[1..], min,
          Chunk(buffer.content + "\n\n" + c.content, buffer.sourceFile,
                buffer.chunkIndex, buffer.charStart, c.charEnd));
      } else {
        MergeFromBigEnough(chunks[1..], min, c);
      }
    }
  }

  /** Every merged chunk but the last is at least `min` long: a short chunk
      only survives at the end. */
  lemma MergeSmallChunksBigEnough(chunks: seq<Chunk>, min: int)
    ensures AllButLastBig(MergeSmallChunks(chunks, min), min)
  {
    if |chunks| > 0 {
      MergeFromBigEnough(chunks[1..], min, chunks[0]);
    }
  }

  /** Fusing one more chunk onto a run is what the loop does to its buffer. */
  lemma FuseAppend(run: seq<Chunk>, c: Chunk)
    requires |run| > 0
    ensures Fuse(run + [c])
      == Chunk(Fuse(run).content + "\n\n" + c.content, Fuse(run).sourceFile, Fuse(run).chunkIndex,
               Fuse(run).charStart, c.charEnd)
  {
    assert Contents(run + [c]) == Contents(run) + [c.content];
    JoinAppend("\n\n", Contents(run), c.content);
  }

  lemma FuseSingle(c: Chunk)
    ensures Fuse([c]) == c
  {
    assert Contents([c]) == [c.content];
  }

  /** The merged chunks are the fusions of a partition of the buffer's run and
      the remaining chunks into consecutive non-empty runs. */
  lemma {:induction false} MergeFromRuns(chunks: seq<Chunk>, min: int, run: seq<Chunk>)
    returns (runs: seq<seq<Chunk>>)
    requires |run| > 0
    ensures Flatten(runs) == run + chunks
    ensures forall k :: 0 <= k < |runs| ==> runs[k] != []
    ensures var r := MergeFrom(chunks, min, Fuse(run));
      |runs| == |r| && forall k :: 0 <= k < |r| ==> r[k] == Fuse(runs[k])
    decreases |chunks|
  {
    var buffer := Fuse(run);
    if |chunks| == 0 {
      runs := [run];
      assert Flatten(runs) == run + Flatten([]);
      assert run + chunks == run;
    } else {
      var c := chunks[0];
      assert run + chunks == (run + [c]) + chunks[1..];
      if |buffer.content| < min {
        FuseAppend(run, c);
        runs := MergeFromRuns(chunks[1..], min, run + [c]);
      } else {
        FuseSingle(c);
        var more := MergeFromRuns(chunks[1..], min, [c]);
        runs := [run] + more;
        assert runs[1..] == more;
        assert Flatten(runs) == run + Flatten(more);
        assert [c] + chunks[1..] == chunks;
        var rest := MergeFrom(chunks[1..], min, c);
        assert MergeFrom(chunks, min, buffer) == [buffer] + rest;
      }
    }
  }

  /** merge_small_chunks partitions its input into consecutive non-empty runs
      and fuses each: chunk `k` of the result is the fusion of run `k`. */
  lemma MergeSmallChunksRuns(chunks: seq<Chunk>, min: int) returns (runs: seq<seq<Chunk>>)
    ensures Flatten(runs) == chunks
    ensures forall k :: 0 <= k < |runs| ==> runs[k] != []
    ensures var r := MergeSmallChunks(chunks, min);
      |runs| == |r| && forall k :: 0 <= k < |r| ==> r[k] == Fuse(runs[k])
  {
    if |chunks| == 0 {
      runs := [];
    } else {
      FuseSingle(chunks[0]);
      runs := MergeFromRuns(chunks[1..], min, [chunks[0]]);
      assert [chunks[0]] + chunks[1..] == chunks;
    }
  }
}

=== FILE: classify.dfy ===
/** Intent classification of a query from the language model's reply. The
    model call and JSON decoding are outside the model: the reply (or the
    exception it raised) and a decoder are inputs. */
module Classify {
  import opened Wrappers
  import opened Text
  import opened Replies

  const VALID_INTENTS: seq<string> := ["explain", "practice", "revise", "question"]
  const DEFAULT_INTENT: string := "explain"

  /** classify: the reply stripped and lower-cased, kept when it names a
      known intent; unknown text and a failed call give "explain". */
  function Classify(reply: Result<string, string>): (intent: string)
    ensures intent in VALID_INTENTS
    ensures reply.Ok? && Lower(Strip(reply.value)) in VALID_INTENTS ==> intent == Lower(Strip(reply.value))
  {
    match reply
    case Err(_) => DEFAULT_INTENT
    case Ok(text) =>
      var intent := Lower(Strip(text));
      if intent in VALID_INTENTS then intent else DEFAULT_INTENT
  }

  /** A non-default intent comes out exactly when the normalised reply names it;
      everything else, including a failed call, comes out as "explain". */
  lemma ClassifyIff(reply: Result<string, string>, v: string)
    requires v in VALID_INTENTS && v != DEFAULT_INTENT
    ensures Classify(reply) == v <==> reply.Ok? && Lower(Strip(reply.value)) == v
  {
  }

  /** Each intent word survives surrounding whitespace, and classify's output
      read back is classified as itself. */
  lemma ClassifyRoundTrip(v: string, pre: string, post: string)
    requires v in VALID_INTENTS && AllSpace(pre) && AllSpace(post)
    ensures Classify(Ok(pre + v + post)) == v
    ensures Classify(Ok(Classify(Ok(pre + v + post)))) == v
  {
    assert IsStripped(v) && Lower(v) == v;
    StripPadded(pre, v, post);
    StrippedIsFixed(v);
  }

  datatype QueryClassification = QueryClassification(
    intent: string, topic: string, subtopics: seq<string>, complexity: string)

  /** The fields json.loads found in the reply, each present or absent. */
  datatype Fields = Fields(
    intent: Option<string>, topic: Option<string>, subtopics: Option<seq<string>>, complexity: Option<string>)

  /** The answer when the call or the parse fails: the query's first 50 characters as topic. */
  function Fallback(query: string): (c: QueryClassification)
    ensures c.intent == DEFAULT_INTENT && c.subtopics == [] && c.complexity == "moderate"
    ensures |c.topic| <= 50 && StartsWith(query, c.topic)
  {
    QueryClassification(DEFAULT_INTENT, Prefix(query, 50), [], "moderate")
  }

  /** classify_detailed: the stripped reply is unfenced, decoded, and its
      missing fields defaulted; the intent read is not validated. */
  function ClassifyDetailed(query: string, reply: Result<string, string>, decode: string -> Option<Fields>): (c: QueryClassification)
    ensures reply.Err? ==> c == Fallback(query)
    ensures reply.Ok? && decode(StripFence(Strip(reply.value))).None? ==> c == Fallback(query)
  {
    match reply
    case Err(_) => Fallback(query)
    case Ok(text) =>
      match decode(StripFence(Strip(text)))
      case None => Fallback(query)
      case Some(f) =>
        QueryClassification(
          f.intent.GetOr(DEFAULT_INTENT), f.topic.GetOr(""),
          f.subtopics.GetOr([]), f.complexity.GetOr("moderate"))
  }

  /** A decoded reply passes its fields through, even an intent outside the
      four known ones, and fills in only the missing ones. */
  lemma ClassifyDetailedFields(query: string, text: string, decode: string -> Option<Fields>)
    requires decode(StripFence(Strip(text))).Some?
    ensures var f := decode(StripFence(Strip(text))).value;
      var c := ClassifyDetailed(query, Ok(text), decode);
      && (f.intent.Some? ==> c.intent == f.intent.value)
      && (f.intent.None? ==> c.intent == DEFAULT_INTENT)
      && (f.topic.None? ==> c.topic == "")
      && (f.subtopics.None? ==> c.subtopics == [])
      && (f.complexity.None? ==> c.complexity == "moderate")
  {
  }

  /** A fenced, tagged reply reaches the decoder as the fenced text alone. */
  lemma ClassifyDetailedUnfences(query: string, body: string, decode: string -> Option<Fields>)
    requires Excludes(body, '`') && body != [] && !IsSpace(body[0]) && !IsSpace(body[|body| - 1])
    ensures ClassifyDetailed(query, Ok("```json" + body + "```"), decode)
      == match decode(body)
         case None => Fallback(query)
         case Some(f) => QueryClassification(
           f.intent.GetOr(DEFAULT_INTENT), f.topic.GetOr(""),
           f.subtopics.GetOr([]), f.complexity.GetOr("moderate"))
  {
    var s := "```json" + body + "```";
    assert s[0] == '`' && s[|s| - 1] == '`';
    StrippedIsFixed(s);
    assert "```" + "json" + body + "```" + "" == s;
    StripFenceRoundTrip("json", body, "");
  }
}

=== FILE: coverage.dfy ===
/** coverage_check: does any retrieved document lie close enough to the
    query? The embedding model and the cosine similarity are outside the
    model: `sim(d)` stands for the similarity of document `d`'s embedding to
    the fixed query vector. */
module Coverage {
  import opened Wrappers

  const COVERAGE_THRESHOLD: real := 0.25

  /** Python's `max(xs)` on a non-empty list. */
  function MaxOf(xs: seq<real>): (m: real)
    requires |xs| > 0
    ensures forall k :: 0 <= k < |xs| ==> xs[k] <= m
    decreases |xs|
  {
    if |xs| == 1 then xs[0]
    else
      var rest := MaxOf(xs[1..]);
      if xs[0] >= rest then xs[0] else rest
  }

  /** The maximum is one of the values. */
  lemma {:induction false} MaxOfAttained(xs: seq<real>) returns (k: nat)
    requires |xs| > 0
    ensures k < |xs| && xs[k] == MaxOf(xs)
    decreases |xs|
  {
    if |xs| == 1 || xs[0] >= MaxOf(xs[1..]) {
      k := 0;
    } else {
      var j := MaxOfAttained(xs[1..]);
      k := j + 1;
    }
  }

  /** One embedding call per document, each compared with the same query. */
  function Similarities(docs: seq<string>, sim: string -> real): (sims: seq<real>)
    ensures |sims| == |docs| && forall k :: 0 <= k < |docs| ==> sims[k] == sim(docs[k])
  {
    seq(|docs|, k requires 0 <= k < |docs| => sim(docs[k]))
  }

  /** coverage_check; `max()` of no similarities raises, which is `Err`. */
  function CoverageCheck(docs: seq<string>, sim: string -> real): (r: Result<bool, string>)
    ensures r.Err? <==> docs == []
  {
    if docs == [] then Err("ValueError")
    else Ok(!(MaxOf(Similarities(docs, sim)) < COVERAGE_THRESHOLD))
  }

  /** Coverage fails exactly when every document is below the threshold: a
      single close document is enough, whatever the others are. */
  lemma CoverageCheckIff(docs: seq<string>, sim: string -> real)
    requires docs != []
    ensures CoverageCheck(docs, sim) == Ok(false)
      <==> forall k :: 0 <= k < |docs| ==> sim(docs[k]) < COVERAGE_THRESHOLD
  {
    var k := MaxOfAttained(Similarities(docs, sim));
  }

  /** Every document is below the threshold. */
  predicate AllBelow(docs: seq<string>, sim: string -> real) {
    forall d :: d in docs ==> sim(d) < COVERAGE_THRESHOLD
  }

  /** The verdict does not depend on the order of the documents. */
  lemma CoverageCheckOrderFree(docs: seq<string>, docs': seq<string>, sim: string -> real)
    requires multiset(docs) == multiset(docs')
    ensures CoverageCheck(docs, sim) == CoverageCheck(docs', sim)
  {
    assert |docs| == |docs'| by {
      assert |multiset(docs)| == |docs| && |multiset(docs')| == |docs'|;
    }
    if docs != [] {
      CoverageCheckIff(docs, sim);
      CoverageCheckIff(docs', sim);
      assert forall d :: d in docs <==> d in docs' by {
        forall d ensures d in docs <==> d in docs' {
          assert d in docs <==> d in multiset(docs);
          assert d in docs' <==> d in multiset(docs');
        }
      }
      assert AllBelow(docs, sim) <==> AllBelow(docs', sim);
    }
  }
}

=== FILE: domain.dfy ===
/** The domain guard: is a query inside the deck's syllabus? Embeddings and
    cosine similarity are outside the model: `sim(t)` stands for the
    similarity of the query's embedding to that of text `t`. */
module Domain {
  import opened Wrappers

  const DOMAIN_THRESHOLD: real := 0.35
  const IN_SCOPE_EXPLANATION: string := "Query is within syllabus scope."
  const TOPIC_PREFIX: string := " Most relevant topic: "
  const OUT_OF_SCOPE_EXPLANATION: string := "This topic is not in the scope" + " of your current syllabus."
  const OUT_OF_SCOPE_FALLBACK: string := "This topic is not in your current syllabus scope."

  /** The scope test for a given threshold. */
  predicate InScopeAt(similarity: real, threshold: real) {
    similarity >= threshold
  }

  /** domain_guard. */
  function DomainGuard(syllabus: string, sim: string -> real): (r: bool)
    ensures r <==> sim(syllabus) >= 0.35
  {
    InScopeAt(sim(syllabus), DOMAIN_THRESHOLD)
  }

  /** Raising the threshold can only turn in-scope into out-of-scope. */
  lemma RaisingThresholdNarrows(similarity: real, low: real, high: real)
    requires low <= high && InScopeAt(similarity, high)
    ensures InScopeAt(similarity, low)
  {
  }

  /** The loop over the syllabus topics from position `i` on: `best` is the
      best similarity so far (starting at 0) and `found` the position of the
      topic that reached it. */
  function BestFrom(topics: seq<string>, sim: string -> real, i: nat, best: real, found: Option<nat>): (r: Option<nat>)
    requires i <= |topics|
    requires found.None? ==> best == 0.0
    requires found.Some? ==> found.value < i && best == sim(topics[found.value])
    decreases |topics| - i
  {
    if i == |topics| then found
    else if sim(topics[i]) > best then BestFrom(topics, sim, i + 1, sim(topics[i]), Some(i))
    else BestFrom(topics, sim, i + 1, best, found)
  }

  /** `j` holds the first strictly greatest positive similarity of `topics[..n]`. */
  predicate IsBest(topics: seq<string>, sim: string -> real, n: nat, j: nat)
    requires n <= |topics|
  {
    && j < n && sim(topics[j]) > 0.0
    && (forall k :: 0 <= k < n ==> sim(topics[k]) <= sim(topics[j]))
    && (forall k :: 0 <= k < j ==> sim(topics[k]) < sim(topics[j]))
  }

  /** No similarity among `topics[..n]` is positive. */
  predicate NonePositive(topics: seq<string>, sim: string -> real, n: nat)
    requires n <= |topics|
  {
    forall k :: 0 <= k < n ==> sim(topics[k]) <= 0.0
  }

  /** The loop keeps its accumulator honest, so it ends on the first topic of
      strictly greatest similarity, and only if that similarity is positive. */
  lemma {:induction false} BestFromCorrect(topics: seq<string>, sim: string -> real, i: nat, best: real, found: Option<nat>)
    requires i <= |topics|
    requires found.None? ==> best == 0.0 && NonePositive(topics, sim, i)
    requires found.Some? ==> IsBest(topics, sim, i, found.value) && best == sim(topics[found.value])
    ensures var r := BestFrom(topics, sim, i, best, found);
      (r.None? ==> NonePositive(topics, sim, |topics|))
      && (r.Some? ==> IsBest(topics, sim, |topics|, r.value))
    decreases |topics| - i
  {
    if i < |topics| {
      if sim(topics[i]) > best {
        BestFromCorrect(topics, sim, i + 1, sim(topics[i]), Some(i));
      } else {
        BestFromCorrect(topics, sim, i + 1, best, found);
      }
    }
  }

  /** The matched topic of domain_guard_detailed. */
  function BestTopic(topics: seq<string>, sim: string -> real): (r: Option<string>)
    ensures r.None? ==> NonePositive(topics, sim, |topics|)
    ensures r.Some? ==> exists j :: 0 <= j < |topics| && IsBest(topics, sim, |topics|, j) && topics[j] == r.value
  {
    BestFromCorrect(topics, sim, 0, 0.0, None);
    var r := BestFrom(topics, sim, 0, 0.0, None);
    if r.Some? then Some(topics[r.value]) else None
  }

  datatype Verdict = Verdict(inScope: bool, similarity: real, explanation: string)

  /** domain_guard_detailed. A matched topic is named only when its text is
      non-empty, since the code tests the string's truth. */
  function DomainGuardDetailed(syllabus: string, topics: seq<string>, sim: string -> real): (v: Verdict)
    ensures v.inScope == DomainGuard(syllabus, sim)
    ensures v.similarity == sim(syllabus)
    ensures !v.inScope <==> v.explanation == OUT_OF_SCOPE_EXPLANATION
  {
    var similarity := sim(syllabus);
    var topic := BestTopic(topics, sim);
    if InScopeAt(similarity, DOMAIN_THRESHOLD) then
      var named := if topic.Some? && topic.value != "" then TOPIC_PREFIX + topic.value else "";
      assert IN_SCOPE_EXPLANATION[0] == 'Q' && OUT_OF_SCOPE_EXPLANATION[0] == 'T';
      assert (IN_SCOPE_EXPLANATION + named)[0] == IN_SCOPE_EXPLANATION[0];
      Verdict(true, similarity, IN_SCOPE_EXPLANATION + named)
    else Verdict(false, similarity, OUT_OF_SCOPE_EXPLANATION)
  }

  /** Topic similarities never decide scope or the reported similarity: the
      verdict agrees with domain_guard for every topic list, and a topic is
      named only in scope. */
  lemma TopicsDoNotDecideScope(syllabus: string, t1: seq<string>, t2: seq<string>, sim: string -> real)
    ensures DomainGuardDetailed(syllabus, t1, sim).inScope == DomainGuardDetailed(syllabus, t2, sim).inScope
    ensures DomainGuardDetailed(syllabus, t1, sim).similarity == DomainGuardDetailed(syllabus, t2, sim).similarity
  {
  }

  /** The in-scope explanation names the best topic when there is one with a
      non-empty text, and is the bare sentence otherwise. */
  lemma InScopeExplanation(syllabus: string, topics: seq<string>, sim: string -> real)
    requires DomainGuard(syllabus, sim)
    ensures var v := DomainGuardDetailed(syllabus, topics, sim);
      var t := BestTopic(topics, sim);
      v.explanation == IN_SCOPE_EXPLANATION + (if t.Some? && t.value != "" then TOPIC_PREFIX + t.value else "")
  {
  }

  /** generate_out_of_scope_response after the model call: its text, or a
      fixed sentence when the call fails. */
  function OutOfScopeResponse(reply: Result<string, string>): (r: string)
    ensures reply.Err? ==> r == OUT_OF_SCOPE_FALLBACK
    ensures reply.Ok? ==> r == reply.value
  {
    match reply
    case Ok(text) => text
    case Err(_) => OUT_OF_SCOPE_FALLBACK
  }
}

=== FILE: expand.dfy ===
/** The reading of the language model's answer in expand_topics: the
    subtopics of a query. The reply text is the input. */
module Expand {
  import opened Text
  import opened Replies

  /** expand_topics after the model call: the reply read as a comma list,
      with no special "none" answer, no deduplication and no truncation. */
  function ExpandTopics(reply: string): (subtopics: seq<string>)
    ensures |subtopics| == CharCount(Strip(reply), ',') + 1
  {
    CommaList(reply)
  }

  /** A list of stripped, comma-free subtopics survives the trip through the
      reply unchanged, in order and with its duplicates. */
  lemma ExpandTopicsRoundTrip(subtopics: seq<string>)
    requires |subtopics| >= 1
    requires forall k :: 0 <= k < |subtopics| ==> IsStripped(subtopics[k]) && Excludes(subtopics[k], ',')
    ensures ExpandTopics(Join(",", subtopics)) == subtopics
  {
    CommaListRoundTrip(subtopics);
  }

  /** The result is never empty: an empty reply gives one empty subtopic, and
      a blank piece between commas becomes "" instead of being dropped. */
  lemma ExpandTopicsBlankPieces(reply: string)
    ensures ExpandTopics("") == [""]
    ensures var pieces := Split(Strip(reply), ",");
      forall k :: 0 <= k < |pieces| && AllSpace(pieces[k]) ==> ExpandTopics(reply)[k] == ""
  {
    CommaListRoundTrip([""]);
    CommaListPieces(reply);
  }
}

=== FILE: extract.dfy ===
/** Extraction of text blocks and images from uploaded files. The parsers
    (pdfplumber, python-docx, python-pptx, file reads) are parameters that
    return the document structure the extractors walk; a raising parser is
    an `Err`. */
module Extract {
  import opened Wrappers
  import opened Text
  import Seqs

  type Image = seq<byte>

  datatype Kind = Pdf | Docx | Pptx | PlainText | ImageFile

  /** The extension table, in its declaration order. */
  const EXTRACTORS: seq<(string, Kind)> := [
    ("pdf", Pdf), ("docx", Docx), ("doc", Docx), ("pptx", Pptx), ("ppt", Pptx),
    ("txt", PlainText), ("md", PlainText),
    ("png", ImageFile), ("jpg", ImageFile), ("jpeg", ImageFile), ("gif", ImageFile),
    ("bmp", ImageFile), ("tiff", ImageFile), ("tif", ImageFile)]

  /** A PDF page: its extracted text (`None` when there is none) and its
      images, each of which may fail to render. */
  datatype PdfPage = PdfPage(text: Option<string>, images: seq<Result<Image, string>>)

  /** A table as the texts of its cells, row by row. */
  datatype Table = Table(rows: seq<seq<string>>)

  /** A relationship of a Word document: its target and the blob behind it. */
  datatype Rel = Rel(targetRef: string, blob: Result<Image, string>)

  datatype DocxDoc = DocxDoc(paragraphs: seq<string>, tables: seq<Table>, rels: seq<Rel>)

  /** A slide shape: its text if it has one, its table, its picture. */
  datatype Shape = Shape(text: Option<string>, table: Option<Table>, image: Option<Result<Image, string>>)

  datatype Slide = Slide(shapes: seq<Shape>)

  /** The parsers behind the extractors, and whether the optional Word and
      PowerPoint libraries are installed. */
  datatype Readers = Readers(
    pdf: string -> Result<seq<PdfPage>, string>,
    docx: string -> Result<DocxDoc, string>,
    pptx: string -> Result<seq<Slide>, string>,
    text: string -> Result<string, string>,
    bytes: string -> Result<Image, string>,
    hasDocx: bool,
    hasPptx: bool)

  datatype Extracted = Extracted(textChunks: seq<string>, images: seq<Image>, sourceFile: string)

  // ---------------------------------------------------------------------------
  // extensions
  // ---------------------------------------------------------------------------

  function Keys(table: seq<(string, Kind)>): (r: seq<string>)
    ensures |r| == |table| && forall k :: 0 <= k < |table| ==> r[k] == table[k].0
  {
    seq(|table|, k requires 0 <= k < |table| => table[k].0)
  }

  /** `get_supported_extensions`: the table's keys, in order. */
  function SupportedExtensions(): (r: seq<string>)
    ensures |r| == 14 && forall k :: 0 <= k < |r| ==> r[k] == EXTRACTORS[k].0
  {
    Keys(EXTRACTORS)
  }

  /** The kind the table maps `ext` to, searching from entry `i`. */
  function LookupFrom(ext: string, i: nat): (r: Option<Kind>)
    requires i <= |EXTRACTORS|
    ensures r.Some? <==> exists k :: i <= k < |EXTRACTORS| && EXTRACTORS[k].0 == ext
    ensures r.Some? ==> exists k :: i <= k < |EXTRACTORS| && EXTRACTORS[k] == (ext, r.value)
    decreases |EXTRACTORS| - i
  {
    if i == |EXTRACTORS| then None
    else if EXTRACTORS[i].0 == ext then Some(EXTRACTORS[i].1)
    else LookupFrom(ext, i + 1)
  }

  function Lookup(ext: string): (r: Option<Kind>)
    ensures r.Some? <==> ext in SupportedExtensions()
  {
    LookupFrom(ext, 0)
  }

  /** No extension is listed twice. */
  lemma KeysDistinct()
    ensures forall i, j :: 0 <= i < j < |EXTRACTORS| ==> EXTRACTORS[i].0 != EXTRACTORS[j].0
  {
  }

  /** Every listed extension maps to its own entry's kind. */
  lemma LookupEntry(k: nat)
    requires k < |EXTRACTORS|
    ensures Lookup(EXTRACTORS[k].0) == Some(EXTRACTORS[k].1)
  {
    KeysDistinct();
    var r := Lookup(EXTRACTORS[k].0);
    var k' :| 0 <= k' < |EXTRACTORS| && EXTRACTORS[k'] == (EXTRACTORS[k].0, r.value);
  }

  /** The last item of a non-empty list. */
  function Last(s: seq<string>): string
    requires |s| > 0
  {
    s[|s| - 1]
  }

  /** `path.lower().split('.')[-1]`. */
  function Extension(path: string): string {
    Last(Split(Lower(path), "."))
  }

  /** `os.path.basename`: the text after the last "/". */
  function Basename(path: string): string {
    Last(Split(path, "/"))
  }

  /** The last piece of a split holds no separator and ends the text, right
      after an occurrence of the separator when there are other pieces. */
  lemma LastPiece(s: string, c: char)
    ensures var parts := Split(s, [c]);
            var last := Last(parts);
            && Excludes(last, c) && |last| <= |s| && s[|s| - |last|..] == last
            && (|parts| > 1 ==> |last| < |s| && s[|s| - |last| - 1] == c)
  {
    var parts := Split(s, [c]);
    var last := Last(parts);
    forall k | 0 <= k < |last| ensures last[k] != c {
      OccursCharAt(last, c, k);
    }
    if |parts| > 1 {
      var front := parts[..|parts| - 1];
      assert parts == front + [last];
      JoinAppend([c], front, last);
    }
  }

  /** The extension is the lower-cased text after the last ".", or the whole
      lower-cased path when it has no ".". */
  lemma ExtensionAfterLastDot(path: string)
    ensures var low, ext := Lower(path), Extension(path);
            && Excludes(ext, '.') && |ext| <= |low| && low[|low| - |ext|..] == ext
            && (|ext| < |low| ==> low[|low| - |ext| - 1] == '.')
            && (Excludes(low, '.') ==> ext == low)
  {
    var low := Lower(path);
    LastPiece(low, '.');
    if Excludes(low, '.') {
      SplitCharPieces(low, '.');
      NoCharNoCount(low, '.');
    }
  }

  // ---------------------------------------------------------------------------
  // plain text and image files
  // ---------------------------------------------------------------------------

  /** `extract_txt`'s blocks: the stripped non-blank paragraphs, or the whole
      content when there are none. */
  function TxtChunks(content: string): (r: seq<string>)
    ensures NonBlankStripped(Split(content, "\n\n")) != [] ==> r == NonBlankStripped(Split(content, "\n\n"))
    ensures NonBlankStripped(Split(content, "\n\n")) == [] ==> r == [content]
  {
    var paragraphs := NonBlankStripped(Split(content, "\n\n"));
    if paragraphs != [] then paragraphs else [content]
  }

  /** A text without a blank line is one block, stripped. */
  lemma OneParagraph(content: string)
    requires forall i :: !OccursAt(content, "\n\n", i)
    requires Strip(content) != []
    ensures TxtChunks(content) == [Strip(content)]
  {
    assert Find(content, "\n\n", 0) < 0;
    assert Split(content, "\n\n") == [content];
    assert NonBlankStripped([content]) == [Strip(content)];
  }

  // ---------------------------------------------------------------------------
  // Word documents
  // ---------------------------------------------------------------------------

  /** The paragraph loop of `extract_docx` over already stripped paragraphs
      `ps`, with the open group `current`: a non-empty paragraph joins the
      group, an empty one closes it. */
  function GroupFrom<T>(ps: seq<seq<T>>, current: seq<seq<T>>): (gs: seq<seq<seq<T>>>)
    decreases |ps|
  {
    if |ps| == 0 then (if current != [] then [current] else [])
    else if ps[0] != [] then GroupFrom(ps[1..], current + [ps[0]])
    else if current != [] then [current] + GroupFrom(ps[1..], [])
    else GroupFrom(ps[1..], [])
  }

  /** The non-empty items, in order. */
  function NonEmpty<T>(ps: seq<seq<T>>): (r: seq<seq<T>>)
    ensures forall k :: 0 <= k < |r| ==> r[k] != []
    decreases |ps|
  {
    if |ps| == 0 then [] else (if ps[0] != [] then [ps[0]] else []) + NonEmpty(ps[1..])
  }

  function StripAll(paras: seq<string>): (r: seq<string>)
    ensures |r| == |paras| && forall k :: 0 <= k < |paras| ==> r[k] == Strip(paras[k])
  {
    seq(|paras|, k requires 0 <= k < |paras| => Strip(paras[k]))
  }

  /** The paragraph groups of a Word document. */
  function ParagraphGroups(paras: seq<string>): seq<seq<string>> {
    GroupFrom(StripAll(paras), [])
  }

  /** No group is empty, and every member of a group is non-empty. */
  predicate NoEmptyGroup<T>(gs: seq<seq<seq<T>>>) {
    forall g :: 0 <= g < |gs| ==> gs[g] != [] && forall k :: 0 <= k < |gs[g]| ==> gs[g][k] != []
  }

  lemma {:induction false} GroupFromNoEmpty<T>(ps: seq<seq<T>>, current: seq<seq<T>>)
    requires forall k :: 0 <= k < |current| ==> current[k] != []
    ensures NoEmptyGroup(GroupFrom(ps, current))
    decreases |ps|
  {
    if |ps| > 0 {
      if ps[0] != [] {
        GroupFromNoEmpty(ps[1..], current + [ps[0]]);
      } else {
        GroupFromNoEmpty(ps[1..], []);
      }
    }
  }

  lemma {:induction false} GroupFromFlatten<T>(ps: seq<seq<T>>, current: seq<seq<T>>)
    ensures Flatten(GroupFrom(ps, current)) == current + NonEmpty(ps)
    decreases |ps|
  {
    if |ps| == 0 {
      if current != [] {
        assert [current][1..] == [];
      }
    } else {
      var rest := NonEmpty(ps[1..]);
      if ps[0] != [] {
        GroupFromFlatten(ps[1..], current + [ps[0]]);
        assert current + [ps[0]] + rest == current + ([ps[0]] + rest);
      } else {
        GroupFromFlatten(ps[1..], []);
        if current != [] {
          var more := GroupFrom(ps[1..], []);
          assert ([current] + more)[1..] == more;
        }
      }
    }
  }

  lemma {:induction false} NonEmptyStripAll(paras: seq<string>)
    ensures NonEmpty(StripAll(paras)) == NonBlankStripped(paras)
    decreases |paras|
  {
    if |paras| > 0 {
      assert StripAll(paras)[1..] == StripAll(paras[1..]);
      NonEmptyStripAll(paras[1..]);
    }
  }

  /** Grouping keeps exactly the stripped non-blank paragraphs, in order, and
      never makes an empty group. */
  lemma ParagraphGroupsShape(paras: seq<string>)
    ensures NoEmptyGroup(ParagraphGroups(paras))
    ensures Flatten(ParagraphGroups(paras)) == NonBlankStripped(paras)
  {
    GroupFromNoEmpty(StripAll(paras), []);
    GroupFromFlatten(StripAll(paras), []);
    NonEmptyStripAll(paras);
  }

  lemma {:induction false} EmptyClosesGroup<T>(a: seq<seq<T>>, b: seq<seq<T>>, current: seq<seq<T>>)
    ensures GroupFrom(a + [[]] + b, current) == GroupFrom(a, current) + GroupFrom(b, [])
    decreases |a|
  {
    var s := a + [[]] + b;
    if |a| == 0 {
      assert s[0] == [] && s[1..] == b;
    } else {
      assert s[0] == a[0] && s[1..] == a[1..] + [[]] + b;
      if a[0] != [] {
        EmptyClosesGroup(a[1..], b, current + [a[0]]);
      } else {
        EmptyClosesGroup(a[1..], b, []);
      }
    }
  }

  /** A blank paragraph closes the open group: the paragraphs before it and
      those after it are grouped independently. */
  lemma BlankClosesGroup(paras: seq<string>, i: nat)
    requires i < |paras| && Strip(paras[i]) == []
    ensures ParagraphGroups(paras) == ParagraphGroups(paras[..i]) + ParagraphGroups(paras[i + 1..])
  {
    assert StripAll(paras) == StripAll(paras[..i]) + [[]] + StripAll(paras[i + 1..]);
    EmptyClosesGroup(StripAll(paras[..i]), StripAll(paras[i + 1..]), []);
  }

  lemma {:induction false} NoEmptyOneGroup<T>(ps: seq<seq<T>>, current: seq<seq<T>>)
    requires forall k :: 0 <= k < |ps| ==> ps[k] != []
    requires current != [] || ps != []
    ensures GroupFrom(ps, current) == [current + ps]
    decreases |ps|
  {
    if |ps| == 0 {
      assert current + ps == current;
    } else {
      NoEmptyOneGroup(ps[1..], current + [ps[0]]);
      assert current + [ps[0]] + ps[1..] == current + ps;
    }
  }

  /** Paragraphs none of which is blank form one group of their stripped texts. */
  lemma NoBlankOneGroup(paras: seq<string>)
    requires |paras| > 0 && forall k :: 0 <= k < |paras| ==> Strip(paras[k]) != []
    ensures ParagraphGroups(paras) == [StripAll(paras)]
  {
    NoEmptyOneGroup(StripAll(paras), []);
    assert [] + StripAll(paras) == StripAll(paras);
  }

  /** The non-empty stripped cells of a row joined by " | ", if any. */
  function RowText(cells: seq<string>): (r: Option<string>)
    ensures r.None? <==> NonBlankStripped(cells) == []
    ensures r.Some? ==> r.value == Join(" | ", NonBlankStripped(cells))
  {
    var kept := NonBlankStripped(cells);
    if kept != [] then Some(Join(" | ", kept)) else None
  }

  function RowTexts(rows: seq<seq<string>>): (r: seq<Option<string>>)
    ensures |r| == |rows| && forall k :: 0 <= k < |rows| ==> r[k] == RowText(rows[k])
  {
    seq(|rows|, k requires 0 <= k < |rows| => RowText(rows[k]))
  }

  /** A table's block: its non-empty rows, one per line, if it has any. */
  function TableText(t: Table): (r: Option<string>)
    ensures r.None? <==> forall k :: 0 <= k < |t.rows| ==> NonBlankStripped(t.rows[k]) == []
    ensures r.Some? ==> r.value == Join("\n", Seqs.Present(RowTexts(t.rows)))
  {
    var lines := Seqs.Present(RowTexts(t.rows));
    Seqs.PresentEmpty(RowTexts(t.rows));
    if lines != [] then Some(Join("\n", lines)) else None
  }

  function TableTexts(tables: seq<Table>): (r: seq<Option<string>>)
    ensures |r| == |tables| && forall k :: 0 <= k < |tables| ==> r[k] == TableText(tables[k])
  {
    seq(|tables|, k requires 0 <= k < |tables| => TableText(tables[k]))
  }

  function JoinLines(gs: seq<seq<string>>): (r: seq<string>)
    ensures |r| == |gs| && forall k :: 0 <= k < |gs| ==> r[k] == Join("\n", gs[k])
  {
    seq(|gs|, k requires 0 <= k < |gs| => Join("\n", gs[k]))
  }

  /** The images among a document's relationships whose blob could be read. */
  function RelImages(rels: seq<Rel>): (r: seq<Option<Image>>)
    ensures |r| == |rels|
    ensures forall k :: 0 <= k < |rels| ==>
      r[k] == (if Contains(rels[k].targetRef, "image") && rels[k].blob.Ok? then Some(rels[k].blob.value) else None)
  {
    seq(|rels|, k requires 0 <= k < |rels| =>
      if Contains(rels[k].targetRef, "image") && rels[k].blob.Ok? then Some(rels[k].blob.value) else None)
  }

  /** `extract_docx` on a parsed document: paragraph groups, then tables. */
  function DocxContent(doc: DocxDoc, source: string): (r: Extracted)
    ensures r.textChunks == JoinLines(ParagraphGroups(doc.paragraphs)) + Seqs.Present(TableTexts(doc.tables))
    ensures r.images == Seqs.Present(RelImages(doc.rels))
  {
    Extracted(JoinLines(ParagraphGroups(doc.paragraphs)) + Seqs.Present(TableTexts(doc.tables)),
              Seqs.Present(RelImages(doc.rels)), source)
  }

  // ---------------------------------------------------------------------------
  // slides
  // ---------------------------------------------------------------------------

  /** The lines one shape adds to its slide: its stripped text, then its
      table's non-empty rows. */
  function ShapeLines(sh: Shape): seq<string> {
    (if sh.text.Some? && Strip(sh.text.value) != [] then [Strip(sh.text.value)] else [])
    + (if sh.table.Some? then Seqs.Present(RowTexts(sh.table.value.rows)) else [])
  }

  function SlideLines(shapes: seq<Shape>): seq<string>
    decreases |shapes|
  {
    if |shapes| == 0 then [] else ShapeLines(shapes[0]) + SlideLines(shapes[1..])
  }

  const SLIDE_OPEN := "[Slide "
  const SLIDE_CLOSE := "]\n"

  /** The block of the `number`-th slide (counting from 1), if it has text. */
  function SlideChunk(number: nat, s: Slide): (r: Option<string>)
    ensures r.None? <==> SlideLines(s.shapes) == []
    ensures r.Some? ==> r.value == SLIDE_OPEN + NatToString(number) + SLIDE_CLOSE + Join("\n", SlideLines(s.shapes))
  {
    var lines := SlideLines(s.shapes);
    if lines != [] then Some(SLIDE_OPEN + NatToString(number) + SLIDE_CLOSE + Join("\n", lines)) else None
  }

  function SlideChunks(slides: seq<Slide>): (r: seq<Option<string>>)
    ensures |r| == |slides| && forall k :: 0 <= k < |slides| ==> r[k] == SlideChunk(k + 1, slides[k])
  {
    seq(|slides|, k requires 0 <= k < |slides| => SlideChunk(k + 1, slides[k]))
  }

  function ShapeImages(shapes: seq<Shape>): seq<Image>
    decreases |shapes|
  {
    if |shapes| == 0 then []
    else
      var sh := shapes[0];
      (if sh.image.Some? && sh.image.value.Ok? then [sh.image.value.value] else []) + ShapeImages(shapes[1..])
  }

  function SlideImages(slides: seq<Slide>): seq<Image>
    decreases |slides|
  {
    if |slides| == 0 then [] else ShapeImages(slides[0].shapes) + SlideImages(slides[1..])
  }

  /** `extract_pptx` on parsed slides. */
  function PptxContent(slides: seq<Slide>, source: string): (r: Extracted)
    ensures r.textChunks == Seqs.Present(SlideChunks(slides)) && r.images == SlideImages(slides)
  {
    Extracted(Seqs.Present(SlideChunks(slides)), SlideImages(slides), source)
  }

  /** Every block of a presentation is the numbered block of a slide with
      text, and slides with text each give theirs, in slide order. */
  lemma SlideBlocks(slides: seq<Slide>, i: nat) returns (k: nat)
    requires i < |PptxContent(slides, "").textChunks|
    ensures k < |slides| && SlideLines(slides[k].shapes) != []
    ensures PptxContent(slides, "").textChunks[i]
      == SLIDE_OPEN + NatToString(k + 1) + SLIDE_CLOSE + Join("\n", SlideLines(slides[k].shapes))
  {
    var ki, _ := Seqs.PresentOrigins(SlideChunks(slides), i, i);
    k := ki;
  }

  lemma SlideWithTextKept(slides: seq<Slide>, k: nat) returns (i: nat)
    requires k < |slides| && SlideLines(slides[k].shapes) != []
    ensures i < |PptxContent(slides, "").textChunks|
    ensures PptxContent(slides, "").textChunks[i] == SlideChunk(k + 1, slides[k]).value
  {
    i := Seqs.PresentKeeps(SlideChunks(slides), k);
  }

  // ---------------------------------------------------------------------------
  // PDF
  // ---------------------------------------------------------------------------

  function PageText(p: PdfPage): (r: Option<string>)
    ensures r.Some? <==> p.text.Some? && Strip(p.text.value) != []
    ensures r.Some? ==> r.value == Strip(p.text.value)
  {
    if p.text.Some? && Strip(p.text.value) != [] then Some(Strip(p.text.value)) else None
  }

  function PageTexts(pages: seq<PdfPage>): (r: seq<Option<string>>)
    ensures |r| == |pages| && forall k :: 0 <= k < |pages| ==> r[k] == PageText(pages[k])
  {
    seq(|pages|, k requires 0 <= k < |pages| => PageText(pages[k]))
  }

  /** The images that rendered; a failing one is skipped. */
  function Rendered(imgs: seq<Result<Image, string>>): seq<Image>
    decreases |imgs|
  {
    if |imgs| == 0 then []
    else (if imgs[0].Ok? then [imgs[0].value] else []) + Rendered(imgs[1..])
  }

  function PageImages(pages: seq<PdfPage>): seq<Image>
    decreases |pages|
  {
    if |pages| == 0 then [] else Rendered(pages[0].images) + PageImages(pages[1..])
  }

  function PdfContent(pages: seq<PdfPage>, source: string): (r: Extracted)
    ensures r.textChunks == Seqs.Present(PageTexts(pages)) && r.images == PageImages(pages)
  {
    Extracted(Seqs.Present(PageTexts(pages)), PageImages(pages), source)
  }

  /** Every text block of a PDF is the stripped, non-blank text of a page,
      and blocks keep page order: of two blocks the earlier comes from the
      earlier page. */
  lemma PdfPagesInOrder(pages: seq<PdfPage>, i: nat, j: nat) returns (ki: nat, kj: nat)
    requires i <= j < |PdfContent(pages, "").textChunks|
    ensures ki <= kj < |pages|
    ensures var blocks := PdfContent(pages, "").textChunks;
            && pages[ki].text.Some? && blocks[i] == Strip(pages[ki].text.value) != []
            && pages[kj].text.Some? && blocks[j] == Strip(pages[kj].text.value) != []
    ensures i < j ==> ki < kj
  {
    ki, kj := Seqs.PresentOrigins(PageTexts(pages), i, j);
  }

  /** A page whose text is not blank contributes its stripped text. */
  lemma PdfPageWithTextKept(pages: seq<PdfPage>, k: nat) returns (i: nat)
    requires k < |pages| && pages[k].text.Some? && Strip(pages[k].text.value) != []
    ensures i < |PdfContent(pages, "").textChunks|
    ensures PdfContent(pages, "").textChunks[i] == Strip(pages[k].text.value)
  {
    i := Seqs.PresentKeeps(PageTexts(pages), k);
  }

  lemma PageTextsAppend(a: seq<PdfPage>, b: seq<PdfPage>)
    ensures PageTexts(a + b) == PageTexts(a) + PageTexts(b)
  {
    Seqs.PointwiseAppend(a, b, PageTexts(a), PageTexts(b), PageTexts(a + b), PageText);
  }

  /** A page without text, or with only whitespace, contributes no block:
      the blocks of the other pages are the blocks of the document. */
  lemma BlankPageSkipped(before: seq<PdfPage>, p: PdfPage, after: seq<PdfPage>)
    requires PageText(p).None?
    ensures PdfContent(before + [p] + after, "").textChunks == PdfContent(before + after, "").textChunks
  {
    PageTextsAppend(before + [p], after);
    PageTextsAppend(before, [p]);
    PageTextsAppend(before, after);
    assert PageTexts([p]) == [PageText(p)];
    Seqs.PresentSkipsNone(PageTexts(before), PageText(p), PageTexts(after));
  }

  // ---------------------------------------------------------------------------
  // dispatch
  // ---------------------------------------------------------------------------

  const DOCX_MISSING := "python-docx not installed. Run: pip install python-docx"
  const PPTX_MISSING := "python-pptx not installed. Run: pip install python-pptx"
  const UNSUPPORTED := "Unsupported file type: ."

  /** The extractor of one kind applied to a path. */
  function ExtractKind(kind: Kind, path: string, rd: Readers): (r: Result<Extracted, string>)
    ensures r.Ok? ==> r.value.sourceFile == Basename(path)
    ensures r.Ok? && kind == ImageFile ==> r.value.textChunks == [] && |r.value.images| == 1
    ensures r.Ok? && kind == PlainText ==> r.value.images == []
  {
    match kind
    case Pdf => ExtractPdf(path, rd)
    case Docx => ExtractDocx(path, rd)
    case Pptx => ExtractPptx(path, rd)
    case PlainText => ExtractTxt(path, rd)
    case ImageFile => ExtractImage(path, rd)
  }

  /** `extract_pdf`: a reader failure propagates; otherwise the page blocks and images. */
  function ExtractPdf(path: string, rd: Readers): (r: Result<Extracted, string>)
    ensures r.Ok? <==> rd.pdf(path).Ok?
    ensures r.Err? ==> r.error == rd.pdf(path).error
    ensures r.Ok? ==>
      && r.value.sourceFile == Basename(path)
      && r.value.textChunks == Seqs.Present(PageTexts(rd.pdf(path).value))
      && r.value.images == PageImages(rd.pdf(path).value)
  {
    match rd.pdf(path)
    case Ok(pages) => Ok(PdfContent(pages, Basename(path)))
    case Err(e) => Err(e)
  }

  /** `extract_docx`: refused when the Word library is missing. */
  function ExtractDocx(path: string, rd: Readers): (r: Result<Extracted, string>)
    ensures !rd.hasDocx ==> r == Err(DOCX_MISSING)
    ensures r.Ok? <==> rd.hasDocx && rd.docx(path).Ok?
    ensures rd.hasDocx && rd.docx(path).Err? ==> r == Err(rd.docx(path).error)
    ensures r.Ok? ==>
      && r.value.sourceFile == Basename(path)
      && r.value.images == Seqs.Present(RelImages(rd.docx(path).value.rels))
  {
    if !rd.hasDocx then Err(DOCX_MISSING)
    else
      match rd.docx(path)
      case Ok(doc) => Ok(DocxContent(doc, Basename(path)))
      case Err(e) => Err(e)
  }

  /** `extract_pptx`: refused when the PowerPoint library is missing. */
  function ExtractPptx(path: string, rd: Readers): (r: Result<Extracted, string>)
    ensures !rd.hasPptx ==> r == Err(PPTX_MISSING)
    ensures r.Ok? <==> rd.hasPptx && rd.pptx(path).Ok?
    ensures rd.hasPptx && rd.pptx(path).Err? ==> r == Err(rd.pptx(path).error)
    ensures r.Ok? ==>
      && r.value.sourceFile == Basename(path)
      && r.value.textChunks == Seqs.Present(SlideChunks(rd.pptx(path).value))
  {
    if !rd.hasPptx then Err(PPTX_MISSING)
    else
      match rd.pptx(path)
      case Ok(slides) => Ok(PptxContent(slides, Basename(path)))
      case Err(e) => Err(e)
  }

  /** `extract_txt`: a reader failure propagates; otherwise the paragraph blocks, no images. */
  function ExtractTxt(path: string, rd: Readers): (r: Result<Extracted, string>)
    ensures r.Ok? <==> rd.text(path).Ok?
    ensures r.Err? ==> r.error == rd.text(path).error
    ensures r.Ok? ==>
      && r.value.sourceFile == Basename(path)
      && r.value.images == []
      && |r.value.textChunks| >= 1
  {
    match rd.text(path)
    case Ok(content) => Ok(Extracted(TxtChunks(content), [], Basename(path)))
    case Err(e) => Err(e)
  }

  /** `extract_image`: the file's bytes as the one image, with no text. */
  function ExtractImage(path: string, rd: Readers): (r: Result<Extracted, string>)
    ensures r.Ok? <==> rd.bytes(path).Ok?
    ensures r.Err? ==> r.error == rd.bytes(path).error
    ensures r.Ok? ==> r.value == Extracted([], [rd.bytes(path).value], Basename(path))
  {
    match rd.bytes(path)
    case Ok(data) => Ok(Extracted([], [data], Basename(path)))
    case Err(e) => Err(e)
  }

  /** `extract_file`: an extension outside the table is refused; otherwise the
      table's extractor runs. */
  function ExtractFile(path: string, rd: Readers): (r: Result<Extracted, string>)
    ensures Extension(path) !in SupportedExtensions() ==> r == Err(UNSUPPORTED + Extension(path))
    ensures Lookup(Extension(path)).Some? ==> r == ExtractKind(Lookup(Extension(path)).value, path, rd)
  {
    var ext := Extension(path);
    match Lookup(ext)
    case None => Err(UNSUPPORTED + ext)
    case Some(kind) => ExtractKind(kind, path, rd)
  }

  /** A listed extension runs the extractor its table entry names. */
  lemma ExtractFollowsTable(path: string, rd: Readers, k: nat)
    requires k < |EXTRACTORS| && Extension(path) == EXTRACTORS[k].0
    ensures ExtractFile(path, rd) == ExtractKind(EXTRACTORS[k].1, path, rd)
  {
    LookupEntry(k);
  }
}

=== FILE: image_to_text.dfy ===
/** Turning images into text: OCR first, a language-model description when
    OCR finds too little, and OCR's partial text as the last resort. The OCR
    engine and the model are parameters; a failing call is an `Err`. */
module ImageToText {
  import opened Wrappers
  import opened Text
  import Seqs

  type Image = seq<byte>

  /** What the image-to-text step may call. */
  datatype Engines = Engines(
    ocr: Image -> Result<string, string>,
    describe: string -> Result<string, string>)

  const MIN_CHARS := 50

  const IMAGE_TEXT := "[Image Text]\n"
  const IMAGE_DESCRIPTION := "[Image Description]\n"
  const PARTIAL_TEXT := "[Partial Image Text]\n"

  /** `ocr_image`: the stripped OCR text, or "" when OCR fails. */
  function OcrImage(img: Image, e: Engines): (r: string)
    ensures IsStripped(r)
    ensures e.ocr(img).Err? ==> r == ""
  {
    match e.ocr(img)
    case Ok(t) => StripSpec(t); Strip(t)
    case Err(_) => ""
  }

  /** `''.join(text.split())`: the text with every whitespace character removed. */
  function Squeeze(s: string): (r: string)
    ensures |r| <= |s|
    ensures forall k :: 0 <= k < |r| ==> !IsSpace(r[k])
    decreases |s|
  {
    if |s| == 0 then []
    else if IsSpace(s[0]) then Squeeze(s[1..])
    else [s[0]] + Squeeze(s[1..])
  }

  lemma {:induction false} SqueezeAppend(a: string, b: string)
    ensures Squeeze(a + b) == Squeeze(a) + Squeeze(b)
    decreases |a|
  {
    if |a| == 0 {
      assert a + b == b;
    } else {
      assert (a + b)[0] == a[0] && (a + b)[1..] == a[1..] + b;
      SqueezeAppend(a[1..], b);
    }
  }

  /** Nothing is left exactly when the text is all whitespace. */
  lemma {:induction false} SqueezeEmpty(s: string)
    ensures Squeeze(s) == [] <==> AllSpace(s)
    decreases |s|
  {
    if |s| > 0 {
      SqueezeEmpty(s[1..]);
      assert forall k :: 1 <= k < |s| ==> s[k] == s[1..][k - 1];
    }
  }

  /** `is_text_sufficient`: empty text never is; otherwise at least
      `minChars` non-whitespace characters. */
  predicate IsTextSufficient(text: string, minChars: int) {
    text != [] && |Squeeze(text)| >= minChars
  }

  /** With a positive minimum, whitespace alone is never sufficient. */
  lemma BlankInsufficient(text: string, minChars: int)
    requires AllSpace(text) && minChars > 0
    ensures !IsTextSufficient(text, minChars)
  {
    SqueezeEmpty(text);
  }

  /** More text never makes a sufficient text insufficient. */
  lemma SufficientExtends(a: string, b: string, minChars: int)
    requires IsTextSufficient(a, minChars)
    ensures IsTextSufficient(a + b, minChars)
  {
    SqueezeAppend(a, b);
  }

  /** A lower minimum accepts everything a higher one accepts. */
  lemma LowerMinimumAccepts(text: string, low: int, high: int)
    requires low <= high && IsTextSufficient(text, high)
    ensures IsTextSufficient(text, low)
  {
  }

  // ---------------------------------------------------------------------------
  // the description prompt
  // ---------------------------------------------------------------------------

  const PROMPT_HEAD := "You are analyzing an academic image/diagram.\n\n"
    + "OCR detected text (may be partial or garbled):\n"
  const PROMPT_MID := "\n\nAdditional context:\n"
  const PROMPT_TAIL := "\n\nBased on this information, provide a detailed academic"
    + " description of what this image likely contains.\n"
    + "Focus on:\n"
    + "1. Type of diagram/image (flowchart, graph, table, formula, etc.)\n"
    + "2. Key concepts or data shown\n"
    + "3. Relationships between elements\n"
    + "4. Any numerical values or labels\n\n"
    + "If the OCR text is unclear, make reasonable inferences based on"
    + " common academic diagrams.\n"
    + "Write in clear, academic prose that could replace the image in"
    + " study notes.\n"
  const NO_TEXT := "No text detected"
  const NO_CONTEXT := "No additional context"

  /** The prompt: the OCR text and the context, each with its placeholder. */
  function DescribePrompt(ocrText: string, context: string): string {
    PROMPT_HEAD + (if ocrText != "" then ocrText else NO_TEXT)
      + PROMPT_MID + (if context != "" then context else NO_CONTEXT) + PROMPT_TAIL
  }

  /** `describe_image_with_llm`: the stripped reply, or the OCR text when the
      model call fails. */
  function DescribeImage(img: Image, context: string, e: Engines): (r: string)
    ensures var reply := e.describe(DescribePrompt(OcrImage(img, e), context));
            && (reply.Ok? ==> r == Strip(reply.value))
            && (reply.Err? ==> r == OcrImage(img, e))
  {
    var ocrText := OcrImage(img, e);
    match e.describe(DescribePrompt(ocrText, context))
    case Ok(t) => Strip(t)
    case Err(_) => if ocrText != "" then ocrText else ""
  }

  // ---------------------------------------------------------------------------
  // the ladder
  // ---------------------------------------------------------------------------

  /** `image_to_text`. */
  function ImageText(img: Image, context: string, e: Engines): (r: string)
    ensures var o := OcrImage(img, e);
            IsTextSufficient(o, MIN_CHARS) ==> r == IMAGE_TEXT + o
    ensures var o := OcrImage(img, e);
            var d := DescribeImage(img, context, e);
            && (!IsTextSufficient(o, MIN_CHARS) && d != "" ==> r == IMAGE_DESCRIPTION + d)
            && (!IsTextSufficient(o, MIN_CHARS) && d == "" && o != "" ==> r == PARTIAL_TEXT + o)
            && (!IsTextSufficient(o, MIN_CHARS) && d == "" && o == "" ==> r == "")
  {
    var ocrText := OcrImage(img, e);
    if IsTextSufficient(ocrText, MIN_CHARS) then IMAGE_TEXT + ocrText
    else
      var description := DescribeImage(img, context, e);
      if description != "" then IMAGE_DESCRIPTION + description
      else if ocrText != "" then PARTIAL_TEXT + ocrText
      else ""
  }

  /** Sufficient OCR text is used without asking the model: any other model
      gives the same answer. */
  lemma SufficientSkipsModel(img: Image, context: string, e: Engines,
                             describe': string -> Result<string, string>)
    requires IsTextSufficient(OcrImage(img, e), MIN_CHARS)
    ensures ImageText(img, context, e) == ImageText(img, context, e.(describe := describe'))
  {
  }

  /** The description falls back to OCR text, so partial OCR text is only
      reported as such when the model answered with nothing but whitespace;
      a failing model has its OCR fallback labelled a description. */
  lemma PartialOnlyAfterBlankReply(img: Image, context: string, e: Engines)
    requires var o := OcrImage(img, e); !IsTextSufficient(o, MIN_CHARS) && o != ""
    ensures var reply := e.describe(DescribePrompt(OcrImage(img, e), context));
            && (reply.Err? ==> ImageText(img, context, e) == IMAGE_DESCRIPTION + OcrImage(img, e))
            && (ImageText(img, context, e) == PARTIAL_TEXT + OcrImage(img, e) ==> reply.Ok? && Strip(reply.value) == "")
  {
    var o := OcrImage(img, e);
    var d := DescribeImage(img, context, e);
    assert (PARTIAL_TEXT + o)[1] != (IMAGE_DESCRIPTION + d)[1];
  }

  /** The result is empty only when OCR found nothing and the model said nothing. */
  lemma EmptyOnlyWhenNothingFound(img: Image, context: string, e: Engines)
    ensures ImageText(img, context, e) == "" <==> OcrImage(img, e) == "" && DescribeImage(img, context, e) == ""
  {
  }

  // ---------------------------------------------------------------------------
  // many images
  // ---------------------------------------------------------------------------

  /** Each image's text, `None` when it came out empty. */
  function Candidates(images: seq<Image>, context: string, e: Engines): (r: seq<Option<string>>)
    ensures |r| == |images|
    ensures forall i :: 0 <= i < |images| ==>
      r[i] == (if ImageText(images[i], context, e) != "" then Some(ImageText(images[i], context, e)) else None)
  {
    seq(|images|, i requires 0 <= i < |images| =>
      var t := ImageText(images[i], context, e);
      if t != "" then Some(t) else None)
  }

  /** `process_images`: the non-empty texts, in image order. */
  function ProcessImages(images: seq<Image>, context: string, e: Engines): (r: seq<string>)
    ensures |r| <= |images|
  {
    Seqs.Present(Candidates(images, context, e))
  }

  /** Every result is the non-empty text of some image, and results keep the
      images' order. */
  lemma ProcessImagesOrigins(images: seq<Image>, context: string, e: Engines, i: nat, j: nat)
    returns (ki: nat, kj: nat)
    requires i <= j < |ProcessImages(images, context, e)|
    ensures ki <= kj < |images|
    ensures ProcessImages(images, context, e)[i] == ImageText(images[ki], context, e) != ""
    ensures ProcessImages(images, context, e)[j] == ImageText(images[kj], context, e) != ""
    ensures i < j ==> ki < kj
  {
    ki, kj := Seqs.PresentOrigins(Candidates(images, context, e), i, j);
  }

  /** Every image whose text is non-empty contributes it. */
  lemma ProcessImagesKeeps(images: seq<Image>, context: string, e: Engines, k: nat) returns (j: nat)
    requires k < |images| && ImageText(images[k], context, e) != ""
    ensures j < |ProcessImages(images, context, e)|
    ensures ProcessImages(images, context, e)[j] == ImageText(images[k], context, e)
  {
    j := Seqs.PresentKeeps(Candidates(images, context, e), k);
  }

  /** No images, no texts. */
  lemma NoImagesNoTexts(context: string, e: Engines)
    ensures ProcessImages([], context, e) == []
  {
  }
}

=== FILE: internet.dfy ===
/** Internet enhancement: whitelisted web search results, summarised by the
    language model, always labelled and never stored. The search engine and
    the model are outside the model: the search hits delivered before any
    failure, and the summary reply (or the exception it raised), are inputs. */
module Internet {
  import opened Wrappers
  import opened Text
  import opened Seqs

  /** The configured whitelist, in order. */
  const WHITELIST_DOMAINS: seq<string> := ["wikipedia.org", "geeksforgeeks.org", "tutorialspoint.com"]

  const NO_RESULTS_SUMMARY: string := "No reliable external information found."
  const NO_RESULTS_ORACLE: string := "No reliable external information found" + " for this topic."
  const HEADER: string := "\U{1F310} [Internet Enhanced]"
  const NOTICE: string := "This information is from external sources" + " and is NOT stored."
  const SOURCES_LABEL: string := "\U{1F4DA} Sources: "

  /** `"=" * 50`. */
  function Rule(): (r: string)
    ensures |r| == 50
  {
    Repeat('=', 50)
  }

  /** One raw hit of the search engine; each field may be missing. */
  datatype RawHit = RawHit(title: Option<string>, body: Option<string>, href: Option<string>)

  datatype SearchResult = SearchResult(title: string, body: string, url: string, domain: string)

  datatype InternetResult = InternetResult(content: string, sources: set<string>, isReliable: bool)

  /** The first whitelisted domain the link contains, scanning from `i`. */
  function FirstWhitelisted(href: string, i: nat): (d: Option<string>)
    requires i <= |WHITELIST_DOMAINS|
    ensures d.Some? ==> d.value in WHITELIST_DOMAINS && Contains(href, d.value)
    ensures d.None? ==> forall k :: i <= k < |WHITELIST_DOMAINS| ==> !Contains(href, WHITELIST_DOMAINS[k])
    decreases |WHITELIST_DOMAINS| - i
  {
    if i == |WHITELIST_DOMAINS| then None
    else if Contains(href, WHITELIST_DOMAINS[i]) then Some(WHITELIST_DOMAINS[i])
    else FirstWhitelisted(href, i + 1)
  }

  /** The entry search_internet makes for one hit, if any. */
  function KeepHit(h: RawHit): (r: Option<SearchResult>)
    ensures r.Some? <==> FirstWhitelisted(h.href.GetOr(""), 0).Some?
  {
    var url := h.href.GetOr("");
    match FirstWhitelisted(url, 0)
    case None => None
    case Some(d) => Some(SearchResult(h.title.GetOr(""), h.body.GetOr(""), url, d))
  }

  /** search_internet over the hits the engine delivered. */
  function SearchInternet(hits: seq<RawHit>): (results: seq<SearchResult>)
    ensures |results| <= |hits|
  {
    Present(seq(|hits|, k requires 0 <= k < |hits| => KeepHit(hits[k])))
  }

  /** Every hit with a whitelisted link is kept, as its own entry. */
  lemma SearchKeepsWhitelisted(hits: seq<RawHit>, k: nat) returns (j: nat)
    requires k < |hits| && FirstWhitelisted(hits[k].href.GetOr(""), 0).Some?
    ensures j < |SearchInternet(hits)| && SearchInternet(hits)[j] == KeepHit(hits[k]).value
  {
    j := PresentKeeps(seq(|hits|, k requires 0 <= k < |hits| => KeepHit(hits[k])), k);
  }

  /** Every entry comes from a hit whose link contains its domain, the first
      whitelisted one; entries keep the order of their hits. */
  lemma SearchResultsOrigin(hits: seq<RawHit>, i: nat, j: nat) returns (ki: nat, kj: nat)
    requires i <= j < |SearchInternet(hits)|
    ensures ki <= kj < |hits| && (i < j ==> ki < kj)
    ensures var r := SearchInternet(hits)[i];
      r.url == hits[ki].href.GetOr("") && FirstWhitelisted(r.url, 0) == Some(r.domain)
      && r.domain in WHITELIST_DOMAINS && Contains(r.url, r.domain)
    ensures KeepHit(hits[kj]).Some? && SearchInternet(hits)[j] == KeepHit(hits[kj]).value
  {
    ki, kj := PresentOrigins(seq(|hits|, k requires 0 <= k < |hits| => KeepHit(hits[k])), i, j);
  }

  /** summarize_results after the model call. */
  function SummarizeResults(results: seq<SearchResult>, reply: Result<string, string>): (s: string)
    ensures results == [] ==> s == NO_RESULTS_SUMMARY
    ensures results != [] && reply.Ok? ==> s == reply.value
  {
    if results == [] then NO_RESULTS_SUMMARY
    else match reply
      case Ok(text) => text
      case Err(_) => Join("\n", Bodies(results[..if |results| < 3 then |results| else 3]))
  }

  function Bodies(results: seq<SearchResult>): (bs: seq<string>)
    ensures |bs| == |results| && forall k :: 0 <= k < |results| ==> bs[k] == results[k].body
  {
    seq(|results|, k requires 0 <= k < |results| => results[k].body)
  }

  /** When the model fails, the summary is the raw text of the first three
      bodies, one per line. */
  lemma SummaryFallback(results: seq<SearchResult>, e: string)
    requires |results| >= 3
    ensures SummarizeResults(results, Err(e))
      == results[0].body + "\n" + results[1].body + "\n" + results[2].body
  {
    var bs := Bodies(results[..3]);
    assert bs == [results[0].body] + [results[1].body, results[2].body];
    JoinCons("\n", results[0].body, [results[1].body, results[2].body]);
    JoinCons("\n", results[1].body, [results[2].body]);
  }

  /** The set of domains of the results. */
  function Domains(results: seq<SearchResult>): set<string> {
    set k | 0 <= k < |results| :: results[k].domain
  }

  /** internet_oracle: the summary, or a fixed message without results. */
  function InternetOracle(results: seq<SearchResult>, reply: Result<string, string>): (s: string)
    ensures results == [] ==> s == NO_RESULTS_ORACLE
    ensures results != [] ==> s == SummarizeResults(results, reply)
  {
    if results == [] then NO_RESULTS_ORACLE else SummarizeResults(results, reply)
  }

  /** internet_oracle_detailed. `list(set(...))` has no defined order, so the
      sources are a set. */
  function InternetOracleDetailed(results: seq<SearchResult>, reply: Result<string, string>): (r: InternetResult)
    ensures results == [] ==> r == InternetResult(NO_RESULTS_SUMMARY, {}, false)
    ensures r.isReliable <==> |results| >= 2
    ensures r.sources == Domains(results)
  {
    if results == [] then InternetResult(NO_RESULTS_SUMMARY, {}, false)
    else InternetResult(SummarizeResults(results, reply), Domains(results), |results| >= 2)
  }

  /** The sources cited for a search are whitelisted domains. */
  lemma SourcesWhitelisted(hits: seq<RawHit>, reply: Result<string, string>)
    ensures forall d :: d in InternetOracleDetailed(SearchInternet(hits), reply).sources ==> d in WHITELIST_DOMAINS
  {
    var results := SearchInternet(hits);
    forall d | d in Domains(results) ensures d in WHITELIST_DOMAINS {
      var i :| 0 <= i < |results| && results[i].domain == d;
      var _, _ := SearchResultsOrigin(hits, i, i);
    }
  }

  /** The lines of format_internet_response. */
  function ResponseLines(content: string, sources: seq<string>): seq<string> {
    [HEADER, Rule(), NOTICE, "", content, ""]
      + (if sources != [] then [SOURCES_LABEL + Join(", ", sources)] else [])
      + [Rule()]
  }

  /** format_internet_response. */
  function FormatInternetResponse(content: string, sources: seq<string>): string {
    Join("\n", ResponseLines(content, sources))
  }

  /** The text before the content. */
  function Preamble(): string {
    HEADER + "\n" + Rule() + "\n" + NOTICE + "\n" + "" + "\n"
  }

  /** The fixed opening lines and the content, joined. */
  lemma FrontLayout(content: string)
    ensures Join("\n", [HEADER, Rule(), NOTICE, "", content, ""]) == Preamble() + content + "\n"
  {
    JoinSix("\n", HEADER, Rule(), NOTICE, "", content, "");
    assert Preamble() + content + "\n" + "" == Preamble() + content + "\n";
  }

  /** Six lines joined, written out. */
  lemma JoinSix(sep: string, a: string, b: string, c: string, d: string, e: string, f: string)
    ensures Join(sep, [a, b, c, d, e, f]) == a + sep + b + sep + c + sep + d + sep + e + sep + f
  {
    JoinCons(sep, e, [f]);
    JoinCons(sep, d, [e, f]);
    JoinCons(sep, c, [d, e, f]);
    JoinCons(sep, b, [c, d, e, f]);
    JoinCons(sep, a, [b, c, d, e, f]);
  }

  /** The closing lines: the sources line when there are sources, then the rule. */
  lemma BackLayout(sources: seq<string>)
    ensures var src := if sources != [] then [SOURCES_LABEL + Join(", ", sources)] else [];
      Join("\n", src + [Rule()])
        == (if sources != [] then SOURCES_LABEL + Join(", ", sources) + "\n" else "") + Rule()
  {
    if sources != [] {
      JoinCons("\n", SOURCES_LABEL + Join(", ", sources), [Rule()]);
    }
  }

  /** The response always opens with the label and the not-stored notice,
      carries the content verbatim, lists the sources only when there are
      some, and closes with a rule of 50 "=". */
  lemma FormatLayout(content: string, sources: seq<string>)
    ensures FormatInternetResponse(content, sources)
      == Preamble() + content + "\n" + "\n"
         + (if sources != [] then SOURCES_LABEL + Join(", ", sources) + "\n" else "")
         + Rule()
  {
    var front := [HEADER, Rule(), NOTICE, "", content, ""];
    var src := if sources != [] then [SOURCES_LABEL + Join(", ", sources)] else [];
    assert ResponseLines(content, sources) == front + (src + [Rule()]);
    JoinConcat("\n", front, src + [Rule()]);
    FrontLayout(content);
    BackLayout(sources);
  }

  /** The content can be read back from the response at a fixed offset. */
  lemma FormatKeepsContent(content: string, sources: seq<string>)
    ensures var r := FormatInternetResponse(content, sources);
      var p := |Preamble()|;
      p + |content| <= |r| && r[p..p + |content|] == content
      && r[|r| - 50..] == Rule()
  {
    FormatLayout(content, sources);
  }
}

=== FILE: mongo.dfy ===
/** Deck records in the document database. The database is a pair of maps
    from ids to user and deck documents; ids the database would generate
    and the current time are parameters. Every call that converts an id
    with `ObjectId(...)` fails on an id that is not 24 hexadecimal digits,
    at the point where the conversion happens. */
module Mongo {
  import opened Wrappers

  datatype FileRecord = FileRecord(filename: string, ingestedAt: int, chunksCreated: int)

  datatype Deck = Deck(
    userId: string,
    name: string,
    subject: string,
    syllabus: string,
    syllabusTopics: seq<string>,
    createdAt: int,
    updatedAt: int,
    filesIngested: seq<FileRecord>,
    chunkCount: int,
    status: string)

  datatype User = User(username: string, email: string, passwordHash: string, decks: seq<string>)

  datatype Db = Db(users: map<string, User>, decks: map<string, Deck>)

  /** The fields a `$set` may carry besides `updated_at`. */
  datatype DeckUpdate = DeckUpdate(
    name: Option<string>,
    subject: Option<string>,
    syllabus: Option<string>,
    syllabusTopics: Option<seq<string>>,
    filesIngested: Option<seq<FileRecord>>,
    chunkCount: Option<int>,
    status: Option<string>)

  /** The sum of `chunks_created` over a deck's file records. */
  function ChunksRecorded(files: seq<FileRecord>): int
    decreases |files|
  {
    if |files| == 0 then 0 else ChunksRecorded(files[..|files| - 1]) + files[|files| - 1].chunksCreated
  }

  /** A deck's running chunk total agrees with its file records. */
  predicate CountsAgree(d: Deck) {
    d.chunkCount == ChunksRecorded(d.filesIngested)
  }

  predicate AllCountsAgree(db: Db) {
    forall id :: id in db.decks ==> CountsAgree(db.decks[id])
  }

  /** `$pull`: every occurrence of `x` removed. */
  function Pull(s: seq<string>, x: string): (r: seq<string>)
    ensures x !in r
    ensures forall y :: y in s && y != x ==> y in r
    ensures forall y :: y in r ==> y in s
    decreases |s|
  {
    if |s| == 0 then []
    else if s[0] == x then Pull(s[1..], x)
    else [s[0]] + Pull(s[1..], x)
  }

  /** `update_one` on a user: a missing user leaves the database as it is. */
  function UpdateUser(db: Db, userId: string, f: User -> User): (r: Db)
    ensures r.decks == db.decks
    ensures userId in db.users ==> r.users == db.users[userId := f(db.users[userId])]
    ensures userId !in db.users ==> r == db
  {
    if userId in db.users then db.(users := db.users[userId := f(db.users[userId])]) else db
  }

  // ---------------------------------------------------------------------------
  // ids
  // ---------------------------------------------------------------------------

  predicate IsHexDigit(c: char) {
    '0' <= c <= '9' || 'a' <= c <= 'f' || 'A' <= c <= 'F'
  }

  /** What `ObjectId(s)` accepts of a string: exactly 24 hexadecimal digits. */
  predicate ValidObjectId(s: string) {
    |s| == 24 && forall k :: 0 <= k < |s| ==> IsHexDigit(s[k])
  }

  /** The exception `ObjectId(...)` raises for anything else. */
  const INVALID_ID := "InvalidId"
  /** The exception a violated unique index raises. */
  const DUPLICATE_KEY := "DuplicateKeyError"

  /** The ids the legacy entry points use are not ObjectIds. */
  lemma LegacyIdsInvalid()
    ensures !ValidObjectId("default_user") && !ValidObjectId("default")
  {
  }

  // ---------------------------------------------------------------------------
  // decks
  // ---------------------------------------------------------------------------

  /** The unique index on (user_id, name) that the application creates at
      startup: some deck of the user already has the name. */
  predicate NameTaken(db: Db, userId: string, name: string) {
    exists id :: id in db.decks && db.decks[id].userId == userId && db.decks[id].name == name
  }

  /** No user has two decks of the same name. */
  predicate UniqueNames(db: Db) {
    forall a, b :: a in db.decks && b in db.decks && a != b ==>
      db.decks[a].userId != db.decks[b].userId || db.decks[a].name != db.decks[b].name
  }

  function NewDeck(userId: string, name: string, subject: string, syllabus: string, now: int): Deck {
    Deck(userId, name, subject, syllabus, [], now, now, [], 0, "created")
  }

  /** `create_deck`: the insert fails on a taken id or a taken (user, name)
      pair and changes nothing. Otherwise a new deck document with empty
      topics and files, count 0 and status "created" is stored; then the
      owner's id is converted, and only a valid one gets the deck id pushed
      onto its list. An invalid owner id fails after the deck is stored. */
  function CreateDeck(db: Db, newId: string, userId: string, name: string, subject: string,
                      syllabus: string, now: int): (r: (Db, Result<string, string>))
    ensures newId in db.decks || NameTaken(db, userId, name) ==> r == (db, Err(DUPLICATE_KEY))
    ensures r.1.Ok? <==> newId !in db.decks && !NameTaken(db, userId, name) && ValidObjectId(userId)
    ensures r.1.Ok? ==> r.1.value == newId
    ensures newId !in db.decks && !NameTaken(db, userId, name) ==>
              && r.0.decks == db.decks[newId := NewDeck(userId, name, subject, syllabus, now)]
              && (!ValidObjectId(userId) ==> r.0.users == db.users && r.1 == Err(INVALID_ID))
    ensures r.1.Ok? && userId in db.users ==> (&& userId in r.0.users
                                              && r.0.users[userId].decks == db.users[userId].decks + [newId])
    ensures forall u :: u in db.users && u != userId ==> u in r.0.users && r.0.users[u] == db.users[u]
    ensures forall u :: u in r.0.users <==> u in db.users
  {
    if newId in db.decks || NameTaken(db, userId, name) then (db, Err(DUPLICATE_KEY))
    else
      var db1 := db.(decks := db.decks[newId := NewDeck(userId, name, subject, syllabus, now)]);
      if !ValidObjectId(userId) then (db1, Err(INVALID_ID))
      else (UpdateUser(db1, userId, (u: User) => u.(decks := u.decks + [newId])), Ok(newId))
  }

  /** Creating a deck keeps every user's deck names distinct. */
  lemma CreateDeckKeepsNamesUnique(db: Db, newId: string, userId: string, name: string, subject: string,
                                   syllabus: string, now: int)
    requires UniqueNames(db)
    ensures UniqueNames(CreateDeck(db, newId, userId, name, subject, syllabus, now).0)
  {
    var r := CreateDeck(db, newId, userId, name, subject, syllabus, now).0;
    if newId !in db.decks && !NameTaken(db, userId, name) {
      forall a, b | a in r.decks && b in r.decks && a != b
        ensures r.decks[a].userId != r.decks[b].userId || r.decks[a].name != r.decks[b].name
      {
        if a == newId {
          assert b in db.decks && !(db.decks[b].userId == userId && db.decks[b].name == name);
        } else if b == newId {
          assert a in db.decks && !(db.decks[a].userId == userId && db.decks[a].name == name);
        }
      }
    }
  }

  /** After a create with a fresh id, a second deck of the same name for the
      same user is refused and changes nothing, whatever id it would get. */
  lemma SameNameTwiceRefused(db: Db, id1: string, id2: string, userId: string, name: string,
                             subject: string, syllabus: string, now: int,
                             subject2: string, syllabus2: string, now2: int)
    requires id1 !in db.decks
    ensures var db1 := CreateDeck(db, id1, userId, name, subject, syllabus, now).0;
            CreateDeck(db1, id2, userId, name, subject2, syllabus2, now2) == (db1, Err(DUPLICATE_KEY))
  {
    var db1 := CreateDeck(db, id1, userId, name, subject, syllabus, now).0;
    if !NameTaken(db, userId, name) {
      assert id1 in db1.decks && db1.decks[id1].userId == userId && db1.decks[id1].name == name;
    }
  }

  /** `get_deck`: the deck under a valid id, if any. */
  function GetDeck(db: Db, deckId: string): (r: Result<Option<Deck>, string>)
    ensures r.Err? <==> !ValidObjectId(deckId)
    ensures r.Err? ==> r.error == INVALID_ID
    ensures r.Ok? ==> (r.value.Some? <==> deckId in db.decks)
    ensures r.Ok? && r.value.Some? ==> r.value.value == db.decks[deckId]
  {
    if !ValidObjectId(deckId) then Err(INVALID_ID)
    else if deckId in db.decks then Ok(Some(db.decks[deckId]))
    else Ok(None)
  }

  /** `get_user_decks`: the decks whose owner is `userId`. */
  function GetUserDecks(db: Db, userId: string): (r: map<string, Deck>)
    ensures forall id :: id in r <==> id in db.decks && db.decks[id].userId == userId
    ensures forall id :: id in r ==> r[id] == db.decks[id]
  {
    map id | id in db.decks && db.decks[id].userId == userId :: db.decks[id]
  }

  /** `$set` of the update's present fields, and `updated_at`. */
  function ApplyUpdate(d: Deck, u: DeckUpdate, now: int): (r: Deck)
    ensures r.updatedAt == now && r.userId == d.userId && r.createdAt == d.createdAt
    ensures r.name == u.name.GetOr(d.name) && r.subject == u.subject.GetOr(d.subject)
    ensures r.syllabus == u.syllabus.GetOr(d.syllabus)
    ensures r.syllabusTopics == u.syllabusTopics.GetOr(d.syllabusTopics)
    ensures r.filesIngested == u.filesIngested.GetOr(d.filesIngested)
    ensures r.chunkCount == u.chunkCount.GetOr(d.chunkCount) && r.status == u.status.GetOr(d.status)
  {
    d.(name := u.name.GetOr(d.name),
       subject := u.subject.GetOr(d.subject),
       syllabus := u.syllabus.GetOr(d.syllabus),
       syllabusTopics := u.syllabusTopics.GetOr(d.syllabusTopics),
       filesIngested := u.filesIngested.GetOr(d.filesIngested),
       chunkCount := u.chunkCount.GetOr(d.chunkCount),
       status := u.status.GetOr(d.status),
       updatedAt := now)
  }

  /** Some deck other than `deckId` belongs to `userId` and is called `name`. */
  predicate NameTakenByOther(db: Db, deckId: string, userId: string, name: string) {
    exists id :: id in db.decks && id != deckId && db.decks[id].userId == userId && db.decks[id].name == name
  }

  /** `update_deck`: a deck id that is not an ObjectId fails, and so does a
      rename onto a name another deck of the same user has (the unique index
      is consulted only when the indexed name changes); otherwise the
      result is true when a deck matched and its document changed. */
  function UpdateDeck(db: Db, deckId: string, u: DeckUpdate, now: int): (r: Result<(Db, bool), string>)
    ensures !ValidObjectId(deckId) ==> r == Err(INVALID_ID)
    ensures ValidObjectId(deckId) && deckId !in db.decks ==> r == Ok((db, false))
    ensures ValidObjectId(deckId) && deckId in db.decks ==>
              var d' := ApplyUpdate(db.decks[deckId], u, now);
              if d'.name != db.decks[deckId].name && NameTakenByOther(db, deckId, d'.userId, d'.name)
              then r == Err(DUPLICATE_KEY)
              else && r.Ok? && r.value.0.users == db.users
                   && r.value.0.decks == db.decks[deckId := d']
                   && (r.value.1 <==> d' != db.decks[deckId])
  {
    if !ValidObjectId(deckId) then Err(INVALID_ID)
    else if deckId !in db.decks then Ok((db, false))
    else
      var d := db.decks[deckId];
      var d' := ApplyUpdate(d, u, now);
      if d'.name != d.name && NameTakenByOther(db, deckId, d'.userId, d'.name) then Err(DUPLICATE_KEY)
      else Ok((db.(decks := db.decks[deckId := d']), d' != d))
  }

  /** An update that succeeds keeps every user's deck names distinct. */
  lemma UpdateDeckKeepsNamesUnique(db: Db, deckId: string, u: DeckUpdate, now: int)
    requires UniqueNames(db)
    ensures var r := UpdateDeck(db, deckId, u, now);
            r.Ok? ==> UniqueNames(r.value.0)
  {
    var r := UpdateDeck(db, deckId, u, now);
    if r.Ok? && deckId in db.decks {
      var d := db.decks[deckId];
      var d' := ApplyUpdate(d, u, now);
      var dbr := r.value.0;
      forall a, b | a in dbr.decks && b in dbr.decks && a != b
        ensures dbr.decks[a].userId != dbr.decks[b].userId || dbr.decks[a].name != dbr.decks[b].name
      {
        if a == deckId && d'.name != d.name {
          assert b in db.decks && b != deckId && !(db.decks[b].userId == d'.userId && db.decks[b].name == d'.name);
        } else if b == deckId && d'.name != d.name {
          assert a in db.decks && a != deckId && !(db.decks[a].userId == d'.userId && db.decks[a].name == d'.name);
        }
      }
    }
  }

  const NO_UPDATE := DeckUpdate(None, None, None, None, None, None, None)

  /** `update_deck_syllabus_topics`: only the topic list (and the timestamp)
      changes; an invalid deck id fails. */
  function UpdateDeckSyllabusTopics(db: Db, deckId: string, topics: seq<string>, now: int): (r: Result<(Db, bool), string>)
    ensures r.Err? <==> !ValidObjectId(deckId)
    ensures r.Err? ==> r.error == INVALID_ID
    ensures r.Ok? ==> && r.value.0.users == db.users
                      && (forall id :: id in r.value.0.decks <==> id in db.decks)
                      && (forall id :: id in db.decks && id != deckId ==> r.value.0.decks[id] == db.decks[id])
                      && (deckId in db.decks ==>
                            r.value.0.decks[deckId] == db.decks[deckId].(syllabusTopics := topics, updatedAt := now))
  {
    UpdateDeck(db, deckId, NO_UPDATE.(syllabusTopics := Some(topics)), now)
  }

  /** `add_ingested_file`: one file record appended, its chunks added to the
      total, and the deck marked "active"; a missing deck is left alone and
      an invalid deck id fails. */
  function AddIngestedFile(db: Db, deckId: string, filename: string, chunkCount: int, now: int): (r: Result<Db, string>)
    ensures r.Err? <==> !ValidObjectId(deckId)
    ensures r.Err? ==> r.error == INVALID_ID
    ensures r.Ok? ==> r.value.users == db.users
    ensures r.Ok? && deckId !in db.decks ==> r.value == db
    ensures r.Ok? && deckId in db.decks ==>
              (&& deckId in r.value.decks && r.value.decks == db.decks[deckId := r.value.decks[deckId]]
               && var d, d' := db.decks[deckId], r.value.decks[deckId];
               && d'.filesIngested == d.filesIngested + [FileRecord(filename, now, chunkCount)]
               && d'.chunkCount == d.chunkCount + chunkCount
               && d'.status == "active" && d'.updatedAt == now
               && d'.syllabusTopics == d.syllabusTopics && d'.userId == d.userId)
  {
    if !ValidObjectId(deckId) then Err(INVALID_ID)
    else if deckId !in db.decks then Ok(db)
    else
      var d := db.decks[deckId];
      var d' := d.(filesIngested := d.filesIngested + [FileRecord(filename, now, chunkCount)],
                   chunkCount := d.chunkCount + chunkCount,
                   status := "active",
                   updatedAt := now);
      Ok(db.(decks := db.decks[deckId := d']))
  }

  /** `delete_deck`: the user id is converted first, and an invalid one fails
      with nothing changed. Then the deck id is pulled from the user's list
      and the deck id converted: an invalid one fails after the pull.
      Otherwise the deck is removed and the result says whether it was there. */
  function DeleteDeck(db: Db, deckId: string, userId: string): (r: (Db, Result<bool, string>))
    ensures !ValidObjectId(userId) ==> r == (db, Err(INVALID_ID))
    ensures r.1.Ok? <==> ValidObjectId(userId) && ValidObjectId(deckId)
    ensures r.1.Err? ==> r.1.error == INVALID_ID
    ensures r.1.Ok? ==> (r.1.value <==> deckId in db.decks)
    ensures r.1.Ok? ==> deckId !in r.0.decks && forall id :: id in r.0.decks <==> id in db.decks && id != deckId
    ensures r.1.Err? ==> r.0.decks == db.decks
    ensures forall id :: id in r.0.decks ==> id in db.decks && r.0.decks[id] == db.decks[id]
    ensures ValidObjectId(userId) && userId in db.users ==> userId in r.0.users && deckId !in r.0.users[userId].decks
    ensures forall u :: u in db.users && u != userId ==> u in r.0.users && r.0.users[u] == db.users[u]
    ensures forall u :: u in r.0.users <==> u in db.users
  {
    if !ValidObjectId(userId) then (db, Err(INVALID_ID))
    else
      var db1 := UpdateUser(db, userId, (u: User) => u.(decks := Pull(u.decks, deckId)));
      if !ValidObjectId(deckId) then (db1, Err(INVALID_ID))
      else (db1.(decks := db1.decks - {deckId}), Ok(deckId in db.decks))
  }

  // ---------------------------------------------------------------------------
  // the chunk total
  // ---------------------------------------------------------------------------

  /** Every deck operation used by the application keeps `chunk_count` equal
      to the sum of the recorded files' chunks. */
  lemma CreateDeckKeepsCounts(db: Db, newId: string, userId: string, name: string, subject: string,
                              syllabus: string, now: int)
    requires AllCountsAgree(db)
    ensures AllCountsAgree(CreateDeck(db, newId, userId, name, subject, syllabus, now).0)
  {
  }

  lemma AddIngestedFileKeepsCounts(db: Db, deckId: string, filename: string, chunkCount: int, now: int)
    requires AllCountsAgree(db)
    ensures var r := AddIngestedFile(db, deckId, filename, chunkCount, now);
            r.Ok? ==> AllCountsAgree(r.value)
  {
    if ValidObjectId(deckId) && deckId in db.decks {
      var files := db.decks[deckId].filesIngested + [FileRecord(filename, now, chunkCount)];
      assert files[..|files| - 1] == db.decks[deckId].filesIngested;
    }
  }

  lemma UpdateTopicsKeepsCounts(db: Db, deckId: string, topics: seq<string>, now: int)
    requires AllCountsAgree(db)
    ensures var r := UpdateDeckSyllabusTopics(db, deckId, topics, now);
            r.Ok? ==> AllCountsAgree(r.value.0)
  {
  }

  lemma DeleteDeckKeepsCounts(db: Db, deckId: string, userId: string)
    requires AllCountsAgree(db)
    ensures AllCountsAgree(DeleteDeck(db, deckId, userId).0)
  {
  }

  /** After the files f1..fn are recorded on a new deck its total is their sum. */
  lemma {:induction false} RecordedTotal(db: Db, deckId: string, names: seq<string>, counts: seq<int>, now: int)
    requires ValidObjectId(deckId) && deckId in db.decks && CountsAgree(db.decks[deckId]) && |names| == |counts|
    ensures var r := AddAll(db, deckId, names, counts, now);
            deckId in r.decks && CountsAgree(r.decks[deckId])
            && r.decks[deckId].chunkCount == db.decks[deckId].chunkCount + Sum(counts)
    decreases |names|
  {
    if |names| > 0 {
      var db1 := AddIngestedFile(db, deckId, names[0], counts[0], now).value;
      var files := db.decks[deckId].filesIngested + [FileRecord(names[0], now, counts[0])];
      assert files[..|files| - 1] == db.decks[deckId].filesIngested;
      RecordedTotal(db1, deckId, names[1..], counts[1..], now);
    }
  }

  function Sum(xs: seq<int>): int
    decreases |xs|
  {
    if |xs| == 0 then 0 else xs[0] + Sum(xs[1..])
  }

  /** Recording several files in turn under a valid deck id. */
  function AddAll(db: Db, deckId: string, names: seq<string>, counts: seq<int>, now: int): Db
    requires ValidObjectId(deckId) && |names| == |counts|
    decreases |names|
  {
    if |names| == 0 then db
    else AddAll(AddIngestedFile(db, deckId, names[0], counts[0], now).value, deckId, names[1..], counts[1..], now)
  }
}

=== FILE: pace.dfy ===
/** Pace settings: how deep explanations go and how many practice questions
    are asked. The table is the configuration's PACE_CONFIG. */
module Pace {
  import opened Text

  datatype PaceConfig = PaceConfig(theory: real, practice: real, depth: nat, description: string)

  /** Question counts per question type. */
  datatype QuestionCounts = QuestionCounts(conceptual: nat, application: nat, numerical: nat)

  const SLOW := PaceConfig(0.7, 0.3, 20, "Deep learning mode")
  const MEDIUM := PaceConfig(0.5, 0.5, 12, "Balanced mode")
  const FAST := PaceConfig(0.3, 0.7, 6, "Revision mode")

  /** The paces the table knows. */
  predicate IsPace(pace: string) {
    pace == "slow" || pace == "medium" || pace == "fast"
  }

  /** pace_config: the table entry for an exact key, the medium entry otherwise. */
  function PaceConfigOf(pace: string): (c: PaceConfig)
    ensures !IsPace(pace) ==> c == MEDIUM
    ensures c.theory + c.practice == 1.0
  {
    if pace == "slow" then SLOW else if pace == "fast" then FAST else MEDIUM
  }

  function TheoryRatio(pace: string): real { PaceConfigOf(pace).theory }
  function PracticeRatio(pace: string): real { PaceConfigOf(pace).practice }
  function RetrievalDepth(pace: string): nat { PaceConfigOf(pace).depth }
  function PaceDescription(pace: string): string { PaceConfigOf(pace).description }

  /** get_question_count. */
  function QuestionCount(pace: string): (c: QuestionCounts)
    ensures !IsPace(pace) ==> c == QuestionCounts(2, 2, 1)
  {
    if pace == "slow" then QuestionCounts(1, 1, 1)
    else if pace == "fast" then QuestionCounts(2, 3, 2)
    else QuestionCounts(2, 2, 1)
  }

  /** get_max_tokens. */
  function MaxTokens(pace: string): (n: nat)
    ensures !IsPace(pace) ==> n == 2000
  {
    if pace == "slow" then 3000 else if pace == "fast" then 1500 else 2000
  }

  /** validate_pace: lower-case, strip, and fall back to "medium". */
  function ValidatePace(pace: string): (p: string)
    ensures IsPace(p)
    ensures IsPace(Strip(Lower(pace))) ==> p == Strip(Lower(pace))
    ensures !IsPace(Strip(Lower(pace))) ==> p == "medium"
  {
    var q := Strip(Lower(pace));
    if IsPace(q) then q else "medium"
  }

  /** The three paces are fixed points of normalisation. */
  lemma PacesAreNormal(pace: string)
    requires IsPace(pace)
    ensures Strip(Lower(pace)) == pace
  {
    assert Lower(pace) == pace;
    assert IsStripped(pace);
    StrippedIsFixed(pace);
  }

  /** validate_pace is idempotent, and its fixed points are exactly the three paces. */
  lemma ValidatePaceIdempotent(pace: string)
    ensures ValidatePace(ValidatePace(pace)) == ValidatePace(pace)
    ensures ValidatePace(pace) == pace <==> IsPace(pace)
  {
    PacesAreNormal(ValidatePace(pace));
    if IsPace(pace) {
      PacesAreNormal(pace);
    }
  }

  /** More practice means more questions: the totals follow the practice ratio. */
  lemma QuestionsFollowPracticeRatio(p: string, q: string)
    requires IsPace(p) && IsPace(q) && PracticeRatio(p) < PracticeRatio(q)
    ensures var a, b := QuestionCount(p), QuestionCount(q);
      a.conceptual + a.application + a.numerical < b.conceptual + b.application + b.numerical
  {
  }

  /** Looking up a validated pace is looking up the normalised text; an
      unvalidated "SLOW" gets the medium settings. */
  lemma LookupAfterValidation(pace: string)
    ensures PaceConfigOf(ValidatePace(pace)) == PaceConfigOf(Strip(Lower(pace)))
    ensures PaceConfigOf("SLOW") == MEDIUM && PaceConfigOf(ValidatePace("SLOW")) == SLOW
  {
    PacesAreNormal("slow");
    assert Lower("SLOW") == "slow";
  }
}

=== FILE: pipeline.dfy ===
/** The ingestion pipeline: extraction, image text, chunking, syllabus
    filtering, embedding and storage for each file of a deck, and the
    per-deck totals. The vector store and the document database are the
    `World`; the language model, the embedder and the vector database's own
    add are parameters. */
module Pipeline {
  import opened Wrappers
  import opened Text
  import Chunker
  import Seqs
  import Extract
  import ImageToText
  import Chroma
  import Mongo

  /** A chunk that survived the syllabus filter, with its topics and relevance.
      The pipeline imports this type from the syllabus mapper, which does not
      define it; the fields are the ones the pipeline reads. */
  datatype MappedChunk = MappedChunk(content: string, sourceFile: string, topics: seq<string>, relevance: real)

  datatype IngestionResult = IngestionResult(
    filename: string,
    success: bool,
    chunksCreated: int,
    chunksFiltered: int,
    error: Option<string>)

  datatype PipelineResult = PipelineResult(
    deckId: string,
    filesProcessed: nat,
    totalChunks: int,
    totalFiltered: int,
    syllabusTopics: seq<string>,
    results: seq<IngestionResult>)

  /** The two stores the pipeline writes, and how the vector store names a
      deck's collection. */
  datatype World = World(chroma: Chroma.Client, naming: Chroma.Naming, db: Mongo.Db)

  /** What the pipeline calls out to: the file parsers, the image engines,
      the syllabus parser and mapper, the embedder, the vector database's
      add, and the current time. The syllabus mapper's module defines neither
      the parser nor a mapper taking these arguments, so those two are what
      the calls are meant to return. */
  datatype Services = Services(
    readers: Extract.Readers,
    engines: ImageToText.Engines,
    parse: string -> seq<string>,
    mapper: (seq<string>, string, string, seq<string>) -> Result<seq<MappedChunk>, string>,
    embed: seq<string> -> Result<seq<seq<real>>, string>,
    add: (Chroma.Collection, Chroma.AddRequest) -> Result<Chroma.Collection, string>,
    now: int)

  /** An uploaded file (saved under /tmp by its name) or a path on disk. */
  datatype Upload = Uploaded(name: string) | OnDisk(path: string)

  const MIN_CHUNK_SIZE := 100
  const TMP_DIR := "/tmp/"

  // ---------------------------------------------------------------------------
  // merging the streams
  // ---------------------------------------------------------------------------

  /** `merge_streams`: the text blocks then the image texts, chunked, with
      small chunks merged. */
  function MergeStreams(textChunks: seq<string>, imageTexts: seq<string>, source: string): (r: seq<Chunker.Chunk>)
    ensures r == [] <==> Chunker.SmartChunk(textChunks + imageTexts, source) == []
    ensures Chunker.AllButLastBig(r, MIN_CHUNK_SIZE)
  {
    var chunks := Chunker.SmartChunk(textChunks + imageTexts, source);
    Chunker.MergeSmallChunksBigEnough(chunks, MIN_CHUNK_SIZE);
    Chunker.MergeSmallChunks(chunks, MIN_CHUNK_SIZE)
  }

  lemma SameButIndexContents(a: seq<Chunker.Chunk>, b: seq<Chunker.Chunk>)
    requires Chunker.SameButIndex(a, b)
    ensures Chunker.Contents(a) == Chunker.Contents(b)
  {
  }

  lemma SameButIndexTrans(a: seq<Chunker.Chunk>, b: seq<Chunker.Chunk>, c: seq<Chunker.Chunk>)
    requires Chunker.SameButIndex(a, b) && Chunker.SameButIndex(b, c)
    ensures Chunker.SameButIndex(a, c)
  {
  }

  lemma ContentsAppend(a: seq<Chunker.Chunk>, b: seq<Chunker.Chunk>)
    ensures Chunker.Contents(a + b) == Chunker.Contents(a) + Chunker.Contents(b)
  {
  }

  /** Numbering the chunks does not change their texts. */
  lemma SmartChunkContents(blocks: seq<string>, source: string)
    ensures Chunker.Contents(Chunker.SmartChunk(blocks, source)) == Chunker.Contents(Flatten(Chunker.BlockParts(blocks, source)))
  {
    SameButIndexContents(Chunker.SmartChunk(blocks, source), Flatten(Chunker.BlockParts(blocks, source)));
  }

  lemma BlockPartsSplit(a: seq<string>, b: seq<string>, source: string)
    ensures Chunker.BlockParts(a + b, source) == Chunker.BlockParts(a, source) + Chunker.BlockParts(b, source)
  {
    var pa, pb, pab := Chunker.BlockParts(a, source), Chunker.BlockParts(b, source), Chunker.BlockParts(a + b, source);
    Seqs.PointwiseAppend(a, b, pa, pb, pab, (x: string) => Chunker.BlockChunks(x, source));
  }

  lemma BlockPartsAppend(a: seq<string>, b: seq<string>, source: string)
    ensures Flatten(Chunker.BlockParts(a + b, source))
         == Flatten(Chunker.BlockParts(a, source)) + Flatten(Chunker.BlockParts(b, source))
  {
    BlockPartsSplit(a, b, source);
    FlattenAppend(Chunker.BlockParts(a, source), Chunker.BlockParts(b, source));
  }

  /** The chunks of the combined stream are the text blocks' chunks followed
      by the image texts' chunks. */
  lemma TextBeforeImages(textChunks: seq<string>, imageTexts: seq<string>, source: string)
    ensures Chunker.Contents(Chunker.SmartChunk(textChunks + imageTexts, source))
         == Chunker.Contents(Chunker.SmartChunk(textChunks, source))
            + Chunker.Contents(Chunker.SmartChunk(imageTexts, source))
  {
    SmartChunkContents(textChunks + imageTexts, source);
    SmartChunkContents(textChunks, source);
    SmartChunkContents(imageTexts, source);
    BlockPartsAppend(textChunks, imageTexts, source);
    ContentsAppend(Flatten(Chunker.BlockParts(textChunks, source)), Flatten(Chunker.BlockParts(imageTexts, source)));
  }

  /** Each merged chunk fuses a run of consecutive chunks of the combined
      stream, and the runs together are that whole stream. */
  lemma MergeStreamsRuns(textChunks: seq<string>, imageTexts: seq<string>, source: string)
    returns (runs: seq<seq<Chunker.Chunk>>)
    ensures Flatten(runs) == Chunker.SmartChunk(textChunks + imageTexts, source)
    ensures forall k :: 0 <= k < |runs| ==> runs[k] != []
    ensures var r := MergeStreams(textChunks, imageTexts, source);
            |runs| == |r| && forall k :: 0 <= k < |r| ==> r[k] == Chunker.Fuse(runs[k])
  {
    runs := Chunker.MergeSmallChunksRuns(Chunker.SmartChunk(textChunks + imageTexts, source), MIN_CHUNK_SIZE);
  }

  // ---------------------------------------------------------------------------
  // syllabus filter and storage
  // ---------------------------------------------------------------------------

  /** `filter_by_syllabus`: the mapper sees the chunks' texts; what it drops
      is counted as filtered. */
  function FilterBySyllabus(chunks: seq<Chunker.Chunk>, syllabus: string, source: string, topics: seq<string>,
                            mapper: (seq<string>, string, string, seq<string>) -> Result<seq<MappedChunk>, string>)
    : (r: Result<(seq<MappedChunk>, int), string>)
    ensures var m := mapper(Chunker.Contents(chunks), syllabus, source, topics);
            && (r.Err? <==> m.Err?)
            && (r.Ok? ==> r.value.0 == m.value && r.value.1 + |r.value.0| == |chunks|)
  {
    match mapper(Chunker.Contents(chunks), syllabus, source, topics)
    case Err(e) => Err(e)
    case Ok(mapped) => Ok((mapped, |chunks| - |mapped|))
  }

  const TOPIC_SEP := ','

  /** The metadata stored with a chunk. */
  function ChunkMeta(m: MappedChunk): (r: Chroma.Meta)
    ensures r.Keys == {"source_file", "topics", "relevance"}
    ensures r["source_file"] == Chroma.StrVal(m.sourceFile) && r["relevance"] == Chroma.RealVal(m.relevance)
    ensures r["topics"].StrVal? && r["topics"].s == Join([TOPIC_SEP], m.topics)
  {
    map["source_file" := Chroma.StrVal(m.sourceFile),
        "topics" := Chroma.StrVal(Join([TOPIC_SEP], m.topics)),
        "relevance" := Chroma.RealVal(m.relevance)]
  }

  /** A chunk's topics are read back from its stored metadata by splitting on
      ",", as long as it has at least one topic and none contains a comma. */
  lemma TopicsReadBack(m: MappedChunk)
    requires |m.topics| >= 1 && forall k :: 0 <= k < |m.topics| ==> Excludes(m.topics[k], TOPIC_SEP)
    ensures Split(ChunkMeta(m)["topics"].s, [TOPIC_SEP]) == m.topics
  {
    SplitJoin(m.topics, TOPIC_SEP);
  }

  /** A chunk without topics stores "", which reads back as one empty topic. */
  lemma NoTopicsReadBackEmpty(m: MappedChunk)
    requires m.topics == []
    ensures Split(ChunkMeta(m)["topics"].s, [TOPIC_SEP]) == [""]
  {
    assert Find("", [TOPIC_SEP], 0) < 0;
  }

  function Documents(mapped: seq<MappedChunk>): (r: seq<string>)
    ensures |r| == |mapped| && forall k :: 0 <= k < |mapped| ==> r[k] == mapped[k].content
  {
    seq(|mapped|, k requires 0 <= k < |mapped| => mapped[k].content)
  }

  function Metadatas(mapped: seq<MappedChunk>): (r: seq<Chroma.Meta>)
    ensures |r| == |mapped| && forall k :: 0 <= k < |mapped| ==> r[k] == ChunkMeta(mapped[k])
  {
    seq(|mapped|, k requires 0 <= k < |mapped| => ChunkMeta(mapped[k]))
  }

  /** Every collection other than `name` is as it was, and no other
      collection appeared. */
  predicate OnlyTouches(c: Chroma.Client, c': Chroma.Client, name: string) {
    && (forall n :: n in c && n != name ==> n in c' && c'[n] == c[n])
    && (forall n :: n in c' ==> n in c || n == name)
  }

  /** `embed_and_store`: nothing to store stores nothing; an embedding
      failure happens before the store is touched; otherwise every mapped
      chunk goes to the deck's collection with its metadata, and a failing
      add keeps the collection it created. */
  function EmbedAndStore(c: Chroma.Client, naming: Chroma.Naming, userId: string, deckId: string,
                         mapped: seq<MappedChunk>,
                         embed: seq<string> -> Result<seq<seq<real>>, string>,
                         add: (Chroma.Collection, Chroma.AddRequest) -> Result<Chroma.Collection, string>)
    : (r: (Chroma.Client, Result<nat, string>))
    ensures mapped == [] ==> r == (c, Ok(0))
    ensures mapped != [] && embed(Documents(mapped)).Err? ==> r == (c, Err(embed(Documents(mapped)).error))
    ensures mapped != [] && embed(Documents(mapped)).Ok? ==>
              && Chroma.NameOf(naming, userId, deckId) in r.0
              && r == Chroma.AddDocuments(c, naming, userId, deckId, Documents(mapped), embed(Documents(mapped)).value,
                                          Some(Metadatas(mapped)), None, add)
    ensures r.1.Ok? ==> r.1.value == |mapped|
    ensures OnlyTouches(c, r.0, Chroma.NameOf(naming, userId, deckId))
  {
    if mapped == [] then (c, Ok(0))
    else
      var documents := Documents(mapped);
      match embed(documents)
      case Err(e) => (c, Err(e))
      case Ok(embeddings) =>
        Chroma.AddDocumentsTouchesOne(c, naming, userId, deckId, documents, embeddings, Some(Metadatas(mapped)), None, add);
        Chroma.AddDocuments(c, naming, userId, deckId, documents, embeddings, Some(Metadatas(mapped)), None, add)
  }

  /** The request that stores the chunks carries their texts and their
      metadata, in order. */
  lemma StoredRequest(c: Chroma.Client, naming: Chroma.Naming, userId: string, deckId: string,
                      mapped: seq<MappedChunk>, embeddings: seq<seq<real>>)
    ensures var coll := Chroma.GetCollection(c, naming, userId, deckId).1;
            var req := Chroma.BuildAddRequest(coll.count, Documents(mapped), embeddings, Some(Metadatas(mapped)), None);
            && |req.documents| == |req.metadatas| == |mapped|
            && forall k :: 0 <= k < |mapped| ==> req.documents[k] == mapped[k].content && req.metadatas[k] == ChunkMeta(mapped[k])
  {
  }

  // ---------------------------------------------------------------------------
  // one file
  // ---------------------------------------------------------------------------

  /** `process_image_content` with no context. */
  function ImageTexts(images: seq<Extract.Image>, e: ImageToText.Engines): seq<string> {
    if images == [] then [] else ImageToText.ProcessImages(images, "", e)
  }

  function Failed(filename: string, e: string): IngestionResult {
    IngestionResult(filename, false, 0, 0, Some(e))
  }

  /** `ingest_single_file`: every phase in turn, the last one recording the
      file on the deck; a failing phase makes the file's result a failure
      with no counts. A failure leaves the database as it was; only the
      deck's own collection may have changed, since a failing add or a
      failing record comes after the collection was created or written. */
  function IngestSingleFile(w: World, path: string, filename: string, syllabus: string,
                            userId: string, deckId: string, topics: seq<string>, s: Services)
    : (r: (World, IngestionResult))
    ensures r.1.filename == filename
    ensures r.1.success <==> r.1.error.None?
    ensures r.0.naming == w.naming
    ensures OnlyTouches(w.chroma, r.0.chroma, Chroma.NameOf(w.naming, userId, deckId))
    ensures !r.1.success ==> r.1.chunksCreated == 0 && r.1.chunksFiltered == 0 && r.0.db == w.db
    ensures r.1.success ==> (&& r.1.chunksCreated >= 0
                             && Mongo.AddIngestedFile(w.db, deckId, filename, r.1.chunksCreated, s.now) == Ok(r.0.db))
    ensures !Mongo.ValidObjectId(deckId) ==> !r.1.success
    ensures Extract.ExtractFile(path, s.readers).Err? ==> r == (w, Failed(filename, Extract.ExtractFile(path, s.readers).error))
  {
    match Extract.ExtractFile(path, s.readers)
    case Err(e) => (w, Failed(filename, e))
    case Ok(ex) =>
      var chunks := MergeStreams(ex.textChunks, ImageTexts(ex.images, s.engines), filename);
      match FilterBySyllabus(chunks, syllabus, filename, topics, s.mapper)
      case Err(e) => (w, Failed(filename, e))
      case Ok((mapped, filtered)) =>
        var (c, stored) := EmbedAndStore(w.chroma, w.naming, userId, deckId, mapped, s.embed, s.add);
        match stored
        case Err(e) => (w.(chroma := c), Failed(filename, e))
        case Ok(n) =>
          match Mongo.AddIngestedFile(w.db, deckId, filename, n, s.now)
          case Err(e) => (w.(chroma := c), Failed(filename, e))
          case Ok(db) => (w.(chroma := c, db := db), IngestionResult(filename, true, n, filtered, None))
  }

  // ---------------------------------------------------------------------------
  // many files
  // ---------------------------------------------------------------------------

  /** Where an upload is read from and the name it is recorded under. */
  function FileTarget(f: Upload): (r: (string, string))
    ensures f.Uploaded? ==> r == (TMP_DIR + f.name, f.name)
    ensures f.OnDisk? ==> r == (f.path, Extract.Basename(f.path))
  {
    match f
    case Uploaded(name) => (TMP_DIR + name, name)
    case OnDisk(path) => (path, Extract.Basename(path))
  }

  /** One turn of the file loop: the stores after a file, and its result. */
  type Step = (World, Upload) -> (World, IngestionResult)

  /** The file loop: each file in turn, against the stores the previous
      files left. */
  function Loop(w: World, files: seq<Upload>, step: Step): (r: (World, seq<IngestionResult>))
    ensures |r.1| == |files|
    decreases |files|
  {
    if |files| == 0 then (w, [])
    else
      var (w1, first) := step(w, files[0]);
      var (w2, rest) := Loop(w1, files[1..], step);
      (w2, [first] + rest)
  }

  /** `ingest_single_file` as the loop's step: every file gets the same
      syllabus, owner, deck and topics. */
  function FileStep(syllabus: string, userId: string, deckId: string, topics: seq<string>, s: Services): Step {
    (w: World, f: Upload) => IngestSingleFile(w, FileTarget(f).0, FileTarget(f).1, syllabus, userId, deckId, topics, s)
  }

  function SumCreated(rs: seq<IngestionResult>): int
    decreases |rs|
  {
    if |rs| == 0 then 0 else rs[0].chunksCreated + SumCreated(rs[1..])
  }

  function SumFiltered(rs: seq<IngestionResult>): int
    decreases |rs|
  {
    if |rs| == 0 then 0 else rs[0].chunksFiltered + SumFiltered(rs[1..])
  }

  /** Running the loop over `a + b` is running it over `a`, then over `b`
      from where `a` left the stores. */
  lemma {:induction false} LoopAppend(w: World, a: seq<Upload>, b: seq<Upload>, step: Step)
    ensures var (w1, ra) := Loop(w, a, step);
            var (w2, rb) := Loop(w1, b, step);
            Loop(w, a + b, step) == (w2, ra + rb)
    decreases |a|
  {
    if |a| == 0 {
      assert a + b == b;
      var (w2, rb) := Loop(w, b, step);
      assert [] + rb == rb;
    } else {
      assert (a + b)[0] == a[0] && (a + b)[1..] == a[1..] + b;
      var (w0, first) := step(w, a[0]);
      LoopAppend(w0, a[1..], b, step);
      var (w1, ra) := Loop(w0, a[1..], step);
      var (w2, rb) := Loop(w1, b, step);
      assert Loop(w, a, step) == (w1, [first] + ra);
      assert Loop(w, a + b, step) == (w2, [first] + (ra + rb));
      assert [first] + (ra + rb) == ([first] + ra) + rb;
    }
  }

  /** The i-th result is the step applied to the i-th file in the stores the
      earlier files left. */
  lemma LoopEach(w: World, files: seq<Upload>, step: Step, i: nat)
    requires i < |files|
    ensures Loop(w, files, step).1[i] == step(Loop(w, files[..i], step).0, files[i]).1
  {
    assert files == files[..i] + files[i..];
    LoopAppend(w, files[..i], files[i..], step);
    assert files[i..][0] == files[i];
  }

  /** A step that leaves the stores alone changes nothing for the files after
      it. */
  lemma LoopSkips(w: World, f: Upload, rest: seq<Upload>, step: Step)
    requires step(w, f).0 == w
    ensures Loop(w, [f] + rest, step).0 == Loop(w, rest, step).0
    ensures Loop(w, [f] + rest, step).1 == [step(w, f).1] + Loop(w, rest, step).1
  {
    assert ([f] + rest)[0] == f && ([f] + rest)[1..] == rest;
  }

  /** The i-th result of the pipeline's loop is for the i-th file. */
  lemma FileStepNames(w: World, files: seq<Upload>, syllabus: string, userId: string, deckId: string,
                      topics: seq<string>, s: Services)
    ensures var rs := Loop(w, files, FileStep(syllabus, userId, deckId, topics, s)).1;
            forall i :: 0 <= i < |files| ==> rs[i].filename == FileTarget(files[i]).1
  {
    var step := FileStep(syllabus, userId, deckId, topics, s);
    forall i | 0 <= i < |files|
      ensures Loop(w, files, step).1[i].filename == FileTarget(files[i]).1
    {
      LoopEach(w, files, step, i);
    }
  }

  /** A file that cannot be read changes nothing: the files after it fare
      exactly as if it had not been there. */
  lemma UnreadableFileSkipped(w: World, f: Upload, rest: seq<Upload>, syllabus: string,
                              userId: string, deckId: string, topics: seq<string>, s: Services)
    requires Extract.ExtractFile(FileTarget(f).0, s.readers).Err?
    ensures var step := FileStep(syllabus, userId, deckId, topics, s);
            && Loop(w, [f] + rest, step).0 == Loop(w, rest, step).0
            && Loop(w, [f] + rest, step).1[1..] == Loop(w, rest, step).1
  {
    LoopSkips(w, f, rest, FileStep(syllabus, userId, deckId, topics, s));
  }

  /** Any other failing file leaves the database as it was: the files after
      it run against the same deck records, and only the deck's own
      collection may differ from before it. */
  lemma FailedFileKeepsDb(w: World, f: Upload, rest: seq<Upload>, syllabus: string,
                          userId: string, deckId: string, topics: seq<string>, s: Services)
    ensures var step := FileStep(syllabus, userId, deckId, topics, s);
            var w1 := step(w, f).0;
            !IngestSingleFile(w, FileTarget(f).0, FileTarget(f).1, syllabus, userId, deckId, topics, s).1.success ==>
              && w1.db == w.db && w1.naming == w.naming
              && OnlyTouches(w.chroma, w1.chroma, Chroma.NameOf(w.naming, userId, deckId))
    ensures var step := FileStep(syllabus, userId, deckId, topics, s);
            var w1 := step(w, f).0;
            Loop(w, [f] + rest, step) == (Loop(w1, rest, step).0, [step(w, f).1] + Loop(w1, rest, step).1)
  {
    assert ([f] + rest)[0] == f && ([f] + rest)[1..] == rest;
  }

  /** The stores after the file loop: the topics saved on the deck, then each
      file in turn. */
  function AfterFiles(w: World, db1: Mongo.Db, files: seq<Upload>, syllabus: string, userId: string,
                      deckId: string, topics: seq<string>, s: Services): (World, seq<IngestionResult>)
  {
    Loop(w.(db := db1), files, FileStep(syllabus, userId, deckId, topics, s))
  }

  /** `ingest_files`: the syllabus is parsed once and saved on the deck (an
      invalid deck id fails here, before any file is read), every file is
      ingested with those topics, the collection's statistics are read
      (which creates the collection if no file did), and the totals add up
      the files' counts. */
  function IngestFiles(w: World, files: seq<Upload>, syllabus: string, userId: string, deckId: string,
                       s: Services): (r: Result<(World, PipelineResult), string>)
    ensures r.Err? <==> !Mongo.ValidObjectId(deckId)
    ensures r.Err? ==> r.error == Mongo.INVALID_ID
    ensures r.Ok? ==> var (w', pr) := r.value;
              && pr.deckId == deckId && pr.filesProcessed == |files| && pr.syllabusTopics == s.parse(syllabus)
              && |pr.results| == |files|
              && (forall i :: 0 <= i < |files| ==> pr.results[i].filename == FileTarget(files[i]).1)
              && pr.totalChunks == SumCreated(pr.results) && pr.totalFiltered == SumFiltered(pr.results)
              && w'.naming == w.naming
              && Chroma.NameOf(w.naming, userId, deckId) in w'.chroma
  {
    var topics := s.parse(syllabus);
    match Mongo.UpdateDeckSyllabusTopics(w.db, deckId, topics, s.now)
    case Err(e) => Err(e)
    case Ok((db1, _)) =>
      FileStepNames(w.(db := db1), files, syllabus, userId, deckId, topics, s);
      var (w2, results) := AfterFiles(w, db1, files, syllabus, userId, deckId, topics, s);
      LoopNaming(w.(db := db1), files, FileStep(syllabus, userId, deckId, topics, s));
      var (c, _, _) := Chroma.CollectionStats(w2.chroma, w.naming, userId, deckId);
      Ok((w2.(chroma := c), PipelineResult(deckId, |files|, SumCreated(results), SumFiltered(results), topics, results)))
  }

  /** The file loop keeps the naming of the stores. */
  lemma {:induction false} LoopNaming(w: World, files: seq<Upload>, step: Step)
    requires forall w': World, f: Upload :: step(w', f).0.naming == w'.naming
    ensures Loop(w, files, step).0.naming == w.naming
    decreases |files|
  {
    if |files| > 0 {
      LoopNaming(step(w, files[0]).0, files[1..], step);
    }
  }

  /** A loop whose every step fails and keeps the database fails every file,
      creates no chunks and leaves the database as it found it. */
  lemma {:induction false} LoopAllFail(w: World, files: seq<Upload>, step: Step)
    requires forall w': World, f: Upload ::
               !step(w', f).1.success && step(w', f).1.chunksCreated == 0 && step(w', f).0.db == w'.db
    ensures forall i :: 0 <= i < |files| ==> !Loop(w, files, step).1[i].success
    ensures SumCreated(Loop(w, files, step).1) == 0
    ensures Loop(w, files, step).0.db == w.db
    decreases |files|
  {
    if |files| > 0 {
      LoopAllFail(step(w, files[0]).0, files[1..], step);
    }
  }

  /** The pipeline as written: `map_to_syllabus` takes a chunk and the
      syllabus, but `filter_by_syllabus` passes it four arguments, so the
      mapper raises on every call. Then every file fails, no chunk is
      stored, and the only change to the deck records is the saved topics. */
  lemma MapperFailureFailsEveryFile(w: World, files: seq<Upload>, syllabus: string, userId: string,
                                    deckId: string, s: Services)
    requires forall cs, sy, src, ts :: s.mapper(cs, sy, src, ts).Err?
    ensures var r := IngestFiles(w, files, syllabus, userId, deckId, s);
            r.Ok? ==> && (forall i :: 0 <= i < |files| ==> !r.value.1.results[i].success)
                      && r.value.1.totalChunks == 0
                      && r.value.0.db == Mongo.UpdateDeckSyllabusTopics(w.db, deckId, s.parse(syllabus), s.now).value.0
  {
    var topics := s.parse(syllabus);
    match Mongo.UpdateDeckSyllabusTopics(w.db, deckId, topics, s.now)
    case Err(_) =>
    case Ok((db1, _)) =>
      var step := FileStep(syllabus, userId, deckId, topics, s);
      forall w': World, f: Upload
        ensures !step(w', f).1.success && step(w', f).1.chunksCreated == 0 && step(w', f).0.db == w'.db
      {
        var (path, name) := FileTarget(f);
        var ex := Extract.ExtractFile(path, s.readers);
        if ex.Ok? {
          var chunks := MergeStreams(ex.value.textChunks, ImageTexts(ex.value.images, s.engines), name);
          assert FilterBySyllabus(chunks, syllabus, name, topics, s.mapper).Err?;
        }
      }
      LoopAllFail(w.(db := db1), files, step);
  }

  /** Every file is ingested with the topics parsed from the syllabus, into
      the stores the earlier files left. */
  lemma SameTopicsForEveryFile(w: World, files: seq<Upload>, syllabus: string, userId: string, deckId: string,
                               s: Services, i: nat)
    requires i < |files|
    ensures var r := IngestFiles(w, files, syllabus, userId, deckId, s);
            var topics := s.parse(syllabus);
            r.Ok? ==>
              var db1 := Mongo.UpdateDeckSyllabusTopics(w.db, deckId, topics, s.now).value.0;
              var before := Loop(w.(db := db1), files[..i], FileStep(syllabus, userId, deckId, topics, s)).0;
              r.value.1.results[i]
                == IngestSingleFile(before, FileTarget(files[i]).0, FileTarget(files[i]).1,
                                    syllabus, userId, deckId, topics, s).1
  {
    var topics := s.parse(syllabus);
    if Mongo.ValidObjectId(deckId) {
      var db1 := Mongo.UpdateDeckSyllabusTopics(w.db, deckId, topics, s.now).value.0;
      LoopEach(w.(db := db1), files, FileStep(syllabus, userId, deckId, topics, s), i);
    }
  }

  // ---------------------------------------------------------------------------
  // the deck's running total
  // ---------------------------------------------------------------------------

  /** A step's effect on a deck whose totals are consistent: they stay
      consistent, the total grows by the step's stored chunks, and the topics
      are kept. */
  predicate KeepsCounts(w: World, r: (World, IngestionResult), deckId: string) {
    deckId in w.db.decks && Mongo.AllCountsAgree(w.db) ==>
      && deckId in r.0.db.decks && Mongo.AllCountsAgree(r.0.db)
      && r.0.db.decks[deckId].chunkCount == w.db.decks[deckId].chunkCount + r.1.chunksCreated
      && r.0.db.decks[deckId].syllabusTopics == w.db.decks[deckId].syllabusTopics
  }

  lemma {:induction false} LoopCounts(w: World, files: seq<Upload>, step: Step, deckId: string)
    requires forall w': World, f: Upload :: KeepsCounts(w', step(w', f), deckId)
    requires deckId in w.db.decks && Mongo.AllCountsAgree(w.db)
    ensures var (w', rs) := Loop(w, files, step);
            && Mongo.AllCountsAgree(w'.db) && deckId in w'.db.decks
            && w'.db.decks[deckId].chunkCount == w.db.decks[deckId].chunkCount + SumCreated(rs)
            && w'.db.decks[deckId].syllabusTopics == w.db.decks[deckId].syllabusTopics
    decreases |files|
  {
    if |files| > 0 {
      assert KeepsCounts(w, step(w, files[0]), deckId);
      LoopCounts(step(w, files[0]).0, files[1..], step, deckId);
    }
  }

  /** One file keeps the deck's totals consistent. */
  lemma IngestSingleFileCounts(w: World, f: Upload, syllabus: string, userId: string, deckId: string,
                               topics: seq<string>, s: Services)
    ensures KeepsCounts(w, IngestSingleFile(w, FileTarget(f).0, FileTarget(f).1, syllabus, userId, deckId, topics, s), deckId)
  {
    var r := IngestSingleFile(w, FileTarget(f).0, FileTarget(f).1, syllabus, userId, deckId, topics, s);
    if r.1.success && deckId in w.db.decks && Mongo.AllCountsAgree(w.db) {
      Mongo.AddIngestedFileKeepsCounts(w.db, deckId, FileTarget(f).1, r.1.chunksCreated, s.now);
    }
  }

  /** After `ingest_files` the deck holds the parsed topics and its chunk
      total has grown by the pipeline's total. */
  lemma IngestFilesCounts(w: World, files: seq<Upload>, syllabus: string, userId: string, deckId: string,
                          s: Services)
    requires deckId in w.db.decks && Mongo.AllCountsAgree(w.db)
    ensures var r := IngestFiles(w, files, syllabus, userId, deckId, s);
            r.Ok? ==> var (w', pr) := r.value;
              && Mongo.AllCountsAgree(w'.db) && deckId in w'.db.decks
              && w'.db.decks[deckId].chunkCount == w.db.decks[deckId].chunkCount + pr.totalChunks
              && w'.db.decks[deckId].syllabusTopics == pr.syllabusTopics
  {
    if Mongo.ValidObjectId(deckId) {
      var topics := s.parse(syllabus);
      var step := FileStep(syllabus, userId, deckId, topics, s);
      Mongo.UpdateTopicsKeepsCounts(w.db, deckId, topics, s.now);
      var db1 := Mongo.UpdateDeckSyllabusTopics(w.db, deckId, topics, s.now).value.0;
      forall w': World, f: Upload ensures KeepsCounts(w', step(w', f), deckId) {
        IngestSingleFileCounts(w', f, syllabus, userId, deckId, topics, s);
      }
      LoopCounts(w.(db := db1), files, step, deckId);
    }
  }

  // ---------------------------------------------------------------------------
  // legacy entry point
  // ---------------------------------------------------------------------------

  const LEGACY_DECK := "default"

  /** `ingest_files_legacy`: everything goes to the legacy user's "default"
      deck, and that deck's collection is returned; a failure of
      `ingest_files` propagates. */
  function IngestFilesLegacy(w: World, files: seq<Upload>, syllabus: string, s: Services)
    : (r: Result<(World, Chroma.Collection), string>)
    ensures r.Err? <==> IngestFiles(w, files, syllabus, Chroma.LEGACY_USER, LEGACY_DECK, s).Err?
    ensures r.Ok? ==> var name := Chroma.NameOf(w.naming, Chroma.LEGACY_USER, LEGACY_DECK);
                      name in r.value.0.chroma && r.value.0.chroma[name] == r.value.1
  {
    match IngestFiles(w, files, syllabus, Chroma.LEGACY_USER, LEGACY_DECK, s)
    case Err(e) => Err(e)
    case Ok((w1, _)) =>
      var (c, coll) := Chroma.GetChroma(w1.chroma, w.naming, LEGACY_DECK);
      Ok((w1.(chroma := c), coll))
  }

  /** "default" is not an ObjectId, so the legacy entry point always fails
      when it saves the topics, before any file is read. */
  lemma LegacyIngestFails(w: World, files: seq<Upload>, syllabus: string, s: Services)
    ensures IngestFilesLegacy(w, files, syllabus, s) == Err(Mongo.INVALID_ID)
  {
    Mongo.LegacyIdsInvalid();
  }
}

=== FILE: practice.dfy ===
/** Practice-set generation and formatting. The model calls and JSON
    decoding are outside the model: each generator's reply (or the exception
    it raised), keyed by question type and requested count, and a decoder
    are inputs. */
module Practice {
  import opened Wrappers
  import opened Text
  import opened Replies
  import Pace

  datatype QuestionType = Conceptual | Application | Numerical {
    /** The enum's value. */
    function Value(): string {
      match this
      case Conceptual => "conceptual"
      case Application => "application"
      case Numerical => "numerical"
    }

    /** `value.upper()`. */
    function Upper(): (u: string)
      ensures Lower(u) == Value()
    {
      match this
      case Conceptual => "CONCEPTUAL"
      case Application => "APPLICATION"
      case Numerical => "NUMERICAL"
    }

    function Emoji(): string {
      match this
      case Conceptual => "\U{1F4AD}"
      case Application => "\U{1F527}"
      case Numerical => "\U{1F522}"
    }

    /** Position in the generation order. */
    function Rank(): nat {
      match this
      case Conceptual => 0
      case Application => 1
      case Numerical => 2
    }
  }

  datatype PracticeQuestion = PracticeQuestion(
    qtype: QuestionType, question: string, answer: string,
    steps: seq<string>, difficulty: string, topic: string)

  datatype PracticeSet = PracticeSet(topic: string, questions: seq<PracticeQuestion>, theorySummary: string)

  /** One decoded question object; `question` and `answer` are required keys. */
  datatype RawQuestion = RawQuestion(
    question: Option<string>, answer: Option<string>, steps: Option<seq<string>>, difficulty: Option<string>)

  predicate Complete(raw: RawQuestion) {
    raw.question.Some? && raw.answer.Some?
  }

  /** The question built from a complete object, with the defaults for the optional keys. */
  function ToQuestion(qtype: QuestionType, topic: string, raw: RawQuestion): PracticeQuestion
    requires Complete(raw)
  {
    PracticeQuestion(qtype, raw.question.value, raw.answer.value,
      raw.steps.GetOr([]), raw.difficulty.GetOr("medium"), topic)
  }

  /** The list comprehension over the decoded objects; a missing required
      key raises, which is `None`. */
  function ToQuestions(qtype: QuestionType, topic: string, raws: seq<RawQuestion>): (r: Option<seq<PracticeQuestion>>)
    ensures r.Some? <==> forall k :: 0 <= k < |raws| ==> Complete(raws[k])
    ensures r.Some? ==>
      (&& |r.value| == |raws|
       && forall k :: 0 <= k < |raws| ==> r.value[k] == ToQuestion(qtype, topic, raws[k]))
    decreases |raws|
  {
    if |raws| == 0 then Some([])
    else if !Complete(raws[0]) then None
    else
      match ToQuestions(qtype, topic, raws[1..])
      case None => None
      case Some(rest) => Some([ToQuestion(qtype, topic, raws[0])] + rest)
  }

  /** Every question in `qs` has type `t` and is on `topic`. */
  predicate AllOf(qs: seq<PracticeQuestion>, t: QuestionType, topic: string) {
    forall k :: 0 <= k < |qs| ==> qs[k].qtype == t && qs[k].topic == topic
  }

  /** Questions of lower rank never follow questions of higher rank. */
  predicate RankOrdered(qs: seq<PracticeQuestion>) {
    forall i, j :: 0 <= i < j < |qs| ==> qs[i].qtype.Rank() <= qs[j].qtype.Rank()
  }

  /** generate_conceptual_questions, generate_application_questions and
      generate_numerical_questions after the model call: they differ only
      in the type they stamp. Any failure gives no questions. The requested
      count only reaches the prompt, so it does not bound the result. */
  function GenerateQuestions(qtype: QuestionType, topic: string, reply: Result<string, string>,
                             decode: string -> Option<seq<RawQuestion>>): (qs: seq<PracticeQuestion>)
    ensures AllOf(qs, qtype, topic)
    ensures reply.Err? ==> qs == []
  {
    match reply
    case Err(_) => []
    case Ok(text) =>
      match decode(StripFence(Strip(text)))
      case None => []
      case Some(raws) => ToQuestions(qtype, topic, raws).GetOr([])
  }

  /** A decoded list of complete objects gives one question per object, in
      order, with the defaults filled in; one incomplete object loses them all. */
  lemma GenerateQuestionsDecoded(qtype: QuestionType, topic: string, text: string,
                                 decode: string -> Option<seq<RawQuestion>>)
    requires decode(StripFence(Strip(text))).Some?
    ensures var raws := decode(StripFence(Strip(text))).value;
      var qs := GenerateQuestions(qtype, topic, Ok(text), decode);
      && ((forall k :: 0 <= k < |raws| ==> Complete(raws[k])) ==>
            (&& |qs| == |raws|
             && forall k :: 0 <= k < |raws| ==>
                  (&& qs[k].question == raws[k].question.value && qs[k].answer == raws[k].answer.value
                   && qs[k].steps == raws[k].steps.GetOr([]) && qs[k].difficulty == raws[k].difficulty.GetOr("medium"))))
      && ((exists k :: 0 <= k < |raws| && !Complete(raws[k])) ==> qs == [])
  {
  }

  /** The question counts generate_practice_set picks from the exact pace string. */
  function PracticeCounts(pace: string): Pace.QuestionCounts {
    if pace == "slow" then Pace.QuestionCounts(1, 1, 1)
    else if pace == "fast" then Pace.QuestionCounts(2, 3, 2)
    else Pace.QuestionCounts(2, 2, 1)
  }

  /** The counts agree with the pace module's table for every string, and
      any other text, "SLOW" included, gets the medium counts. */
  lemma PracticeCountsAgree(pace: string)
    ensures PracticeCounts(pace) == Pace.QuestionCount(pace)
    ensures !Pace.IsPace(pace) ==> PracticeCounts(pace) == PracticeCounts("medium")
  {
  }

  /** The max_tokens generate_theory_summary asks for. */
  function SummaryMaxTokens(pace: string): (n: nat)
    ensures n <= Pace.MaxTokens(pace)
  {
    if pace == "slow" then 1500 else if pace == "medium" then 800 else 400
  }

  /** generate_theory_summary after the model call: the stripped text, or "" on failure. */
  function TheorySummary(reply: Result<string, string>): (s: string)
    ensures reply.Err? ==> s == []
    ensures IsStripped(s)
  {
    match reply
    case Ok(text) => Strip(text)
    case Err(_) => []
  }

  /** generate_practice_set: `ask(t, n)` is the reply of the generator for
      type `t` asked for `n` questions. */
  function GeneratePracticeSet(topic: string, pace: string,
                               ask: (QuestionType, nat) -> Result<string, string>,
                               decode: string -> Option<seq<RawQuestion>>,
                               summaryReply: Result<string, string>): (ps: PracticeSet)
    ensures ps.topic == topic && ps.theorySummary == TheorySummary(summaryReply)
    ensures (forall t: QuestionType, n: nat :: ask(t, n).Err?) ==> ps.questions == []
  {
    var counts := PracticeCounts(pace);
    var questions :=
      GenerateQuestions(Conceptual, topic, ask(Conceptual, counts.conceptual), decode)
      + GenerateQuestions(Application, topic, ask(Application, counts.application), decode)
      + GenerateQuestions(Numerical, topic, ask(Numerical, counts.numerical), decode);
    PracticeSet(topic, questions, TheorySummary(summaryReply))
  }

  /** Three runs of conceptual, application and numerical questions on one
      topic, laid end to end, are in rank order and on that topic. */
  lemma RunsOrdered(a: seq<PracticeQuestion>, b: seq<PracticeQuestion>, c: seq<PracticeQuestion>, topic: string)
    requires AllOf(a, Conceptual, topic) && AllOf(b, Application, topic) && AllOf(c, Numerical, topic)
    ensures RankOrdered(a + b + c)
    ensures forall k :: 0 <= k < |a + b + c| ==> (a + b + c)[k].topic == topic
  {
    var qs := a + b + c;
    forall k | 0 <= k < |qs|
      ensures qs[k].qtype.Rank() == (if k < |a| then 0 else if k < |a| + |b| then 1 else 2)
      ensures qs[k].topic == topic
    {
      if k < |a| {
        assert qs[k] == a[k];
      } else if k < |a| + |b| {
        assert qs[k] == b[k - |a|];
      } else {
        assert qs[k] == c[k - |a| - |b|];
      }
    }
  }

  /** Questions come conceptual first, then application, then numerical, all
      on the requested topic. */
  lemma PracticeSetOrdered(topic: string, pace: string, ask: (QuestionType, nat) -> Result<string, string>,
                           decode: string -> Option<seq<RawQuestion>>, summaryReply: Result<string, string>)
    ensures var ps := GeneratePracticeSet(topic, pace, ask, decode, summaryReply);
      && ps.topic == topic
      && RankOrdered(ps.questions)
      && (forall k :: 0 <= k < |ps.questions| ==> ps.questions[k].topic == topic)
  {
    var counts := PracticeCounts(pace);
    var a := GenerateQuestions(Conceptual, topic, ask(Conceptual, counts.conceptual), decode);
    var b := GenerateQuestions(Application, topic, ask(Application, counts.application), decode);
    var c := GenerateQuestions(Numerical, topic, ask(Numerical, counts.numerical), decode);
    RunsOrdered(a, b, c, topic);
  }

  // ---------------------------------------------------------------------------
  // formatting
  // ---------------------------------------------------------------------------

  const TOPIC_LABEL: string := "\U{1F4DA} TOPIC: "
  const QUESTION_WORD: string := " Question "

  /** A solution step line, numbered `j`. */
  function StepLine(j: nat, step: string): string {
    "   " + NatToString(j) + ". " + step
  }

  /** The step lines of a question, numbered from `from`. */
  function StepLines(steps: seq<string>, from: nat): (r: seq<string>)
    ensures |r| == |steps|
    decreases |steps|
  {
    if |steps| == 0 then [] else [StepLine(from, steps[0])] + StepLines(steps[1..], from + 1)
  }

  /** The header line of question number `i`: a blank line, the type's
      emoji, the number, the type in capitals and the difficulty. */
  function QuestionHeader(i: nat, q: PracticeQuestion): string {
    HeaderLead(q) + NatToString(i) + " (" + q.qtype.Upper() + ") [" + q.difficulty + "]"
  }

  /** What precedes the number in a question header. */
  function HeaderLead(q: PracticeQuestion): (p: string)
    ensures |p| == 12
  {
    "\n" + q.qtype.Emoji() + QUESTION_WORD
  }

  /** The lines format_practice_set writes for question number `i`. */
  function QuestionBlock(i: nat, q: PracticeQuestion): seq<string> {
    [QuestionHeader(i, q), "Q: " + q.question, "", "✅ Answer: " + q.answer, "",
     "\U{1F4CB} Solution Steps:"]
      + StepLines(q.steps, 1) + [""]
  }

  /** The loop over the questions, numbering from `from`. */
  function QuestionBlocks(qs: seq<PracticeQuestion>, from: nat): seq<string>
    decreases |qs|
  {
    if |qs| == 0 then [] else QuestionBlock(from, qs[0]) + QuestionBlocks(qs[1..], from + 1)
  }

  /** The opening lines: the topic between two rules of 60 "=", then the theory. */
  function HeaderLines(ps: PracticeSet): seq<string> {
    [Repeat('=', 60), TOPIC_LABEL + ps.topic, Repeat('=', 60), "",
     "\U{1F4D6} THEORY", Repeat('-', 40), ps.theorySummary, "",
     "\U{1F4DD} PRACTICE QUESTIONS", Repeat('-', 40)]
  }

  /** format_practice_set. */
  function FormatPracticeSet(ps: PracticeSet): string {
    Join("\n", HeaderLines(ps) + QuestionBlocks(ps.questions, 1))
  }

  /** Step lines are numbered from `from` in order: line `k` is step `k` numbered `from + k`. */
  lemma {:induction false} StepLinesNumbered(steps: seq<string>, from: nat, k: nat)
    requires k < |steps|
    ensures StepLines(steps, from)[k] == StepLine(from + k, steps[k])
    decreases |steps|
  {
    if k > 0 {
      StepLinesNumbered(steps[1..], from + 1, k - 1);
    }
  }

  /** The blocks of the questions numbered by position from `from`. */
  function NumberedBlocks(qs: seq<PracticeQuestion>, from: nat): (r: seq<seq<string>>)
    ensures |r| == |qs|
  {
    seq(|qs|, k requires 0 <= k < |qs| => QuestionBlock(from + k, qs[k]))
  }

  lemma NumberedBlocksTail(qs: seq<PracticeQuestion>, from: nat)
    requires |qs| > 0
    ensures NumberedBlocks(qs, from) == [QuestionBlock(from, qs[0])] + NumberedBlocks(qs[1..], from + 1)
  {
    var r := NumberedBlocks(qs, from);
    var t := NumberedBlocks(qs[1..], from + 1);
    forall k | 1 <= k < |qs|
      ensures r[k] == t[k - 1]
    {
      assert qs[1..][k - 1] == qs[k];
    }
  }

  /** The question loop is the blocks of the questions numbered by position
      from `from`, laid end to end. */
  lemma {:induction false} QuestionBlocksNumbered(qs: seq<PracticeQuestion>, from: nat)
    ensures QuestionBlocks(qs, from) == Flatten(NumberedBlocks(qs, from))
    decreases |qs|
  {
    if |qs| > 0 {
      QuestionBlocksNumbered(qs[1..], from + 1);
      NumberedBlocksTail(qs, from);
      var r := NumberedBlocks(qs, from);
      assert r[1..] == NumberedBlocks(qs[1..], from + 1);
    }
  }

  /** A number written between `p` and `t` reads back from its place. */
  lemma NumberAt(p: string, i: nat, t: string)
    ensures var s := p + NatToString(i) + t; var n := |NatToString(i)|;
      |p| + n <= |s| && DigitsValue(s[|p|..|p| + n]) == i
  {
    var s := p + NatToString(i) + t;
    assert s[|p|..|p| + |NatToString(i)|] == NatToString(i);
    NatToStringRoundTrip(i);
  }

  /** The question number reads back from its header line. */
  lemma HeaderNumberReadsBack(i: nat, q: PracticeQuestion)
    ensures var h := QuestionHeader(i, q); var n := |NatToString(i)|;
      12 + n <= |h| && DigitsValue(h[12..12 + n]) == i
  {
    var p := HeaderLead(q);
    var t := " (" + q.qtype.Upper() + ") [" + q.difficulty + "]";
    assert QuestionHeader(i, q) == p + NatToString(i) + t;
    NumberAt(p, i, t);
  }

  /** The step number reads back from its step line. */
  lemma StepNumberReadsBack(j: nat, step: string)
    ensures var s := StepLine(j, step); var n := |NatToString(j)|;
      3 + n <= |s| && DigitsValue(s[3..3 + n]) == j
  {
    assert StepLine(j, step) == "   " + NatToString(j) + (". " + step);
    NumberAt("   ", j, ". " + step);
  }

  /** Joined lines that begin with `a`, `b`, `c` begin with those three lines
      each followed by a newline. */
  lemma JoinOpening(a: string, b: string, c: string, rest: seq<string>)
    requires |rest| > 0
    ensures StartsWith(Join("\n", [a, b, c] + rest), a + "\n" + b + "\n" + c + "\n")
  {
    JoinConcat("\n", [a, b, c], rest);
    JoinThree("\n", a, b, c);
    PrefixOfConcat(a + "\n" + b + "\n" + c + "\n", Join("\n", rest));
  }

  lemma JoinThree(sep: string, a: string, b: string, c: string)
    ensures Join(sep, [a, b, c]) == a + sep + b + sep + c
  {
    JoinCons(sep, a, [b, c]);
    JoinCons(sep, b, [c]);
  }

  lemma PrefixOfConcat(p: string, x: string)
    ensures StartsWith(p + x, p)
  {
    assert (p + x)[..|p|] == p;
  }

  /** The formatted set opens with a rule of 60 "=", the topic line and
      another rule. */
  lemma FormatOpening(ps: PracticeSet)
    ensures StartsWith(FormatPracticeSet(ps),
      Repeat('=', 60) + "\n" + (TOPIC_LABEL + ps.topic) + "\n" + Repeat('=', 60) + "\n")
  {
    var h := HeaderLines(ps);
    var rest := h[3..] + QuestionBlocks(ps.questions, 1);
    assert h + QuestionBlocks(ps.questions, 1) == [h[0], h[1], h[2]] + rest;
    JoinOpening(h[0], h[1], h[2], rest);
  }

  /** format_question: the type and difficulty line, the question, the
      answer, then the steps numbered from 1. */
  function FormatQuestion(q: PracticeQuestion): (r: string)
    ensures StartsWith(r, "**Question** (" + q.qtype.Value() + ", " + q.difficulty + ")" + "\n" + q.question + "\n" + "" + "\n")
  {
    var head := "**Question** (" + q.qtype.Value() + ", " + q.difficulty + ")";
    var rest := ["**Answer:** " + q.answer, "", "**Solution:**"]
      + seq(|q.steps|, k requires 0 <= k < |q.steps| => NatToString(k + 1) + ". " + q.steps[k]);
    JoinOpening(head, q.question, "", rest);
    Join("\n", [head, q.question, ""] + rest)
  }
}

=== FILE: replies.dfy ===
/** Post-processing shared by every place that reads a language-model reply
    as data: comma-separated lists and Markdown code fences. */
module Replies {
  import opened Text

  /** `[t.strip() for t in pieces]`. */
  function StripEach(pieces: seq<string>): (r: seq<string>)
    ensures |r| == |pieces| && forall k :: 0 <= k < |r| ==> r[k] == Strip(pieces[k])
  {
    seq(|pieces|, k requires 0 <= k < |pieces| => Strip(pieces[k]))
  }

  /** `[t.strip() for t in reply.strip().split(",")]`: one piece per comma plus
      one, never empty. */
  function CommaList(reply: string): (r: seq<string>)
    ensures |r| == CharCount(Strip(reply), ',') + 1
  {
    SplitCharPieces(Strip(reply), ',');
    StripEach(Split(Strip(reply), ","))
  }

  /** Every piece is stripped and free of commas; a blank piece becomes "". */
  lemma CommaListPieces(reply: string)
    ensures var r := CommaList(reply);
      forall k :: 0 <= k < |r| ==> IsStripped(r[k]) && Excludes(r[k], ',')
    ensures var pieces := Split(Strip(reply), ",");
      forall k :: 0 <= k < |pieces| ==> (CommaList(reply)[k] == [] <==> AllSpace(pieces[k]))
  {
    var pieces := Split(Strip(reply), ",");
    forall k | 0 <= k < |pieces| ensures Excludes(Strip(pieces[k]), ',') {
      var p := pieces[k];
      forall i | 0 <= i < |p| ensures p[i] != ',' {
        OccursCharAt(p, ',', i);
      }
      StripSpec(p);
      var a := StripStart(p);
      forall i | 0 <= i < |Strip(p)| ensures Strip(p)[i] != ',' {
        assert Strip(p)[i] == p[a + i];
      }
    }
  }

  /** Writing topics as a comma list and reading them back gives the topics,
      as long as they are stripped and hold no comma. */
  lemma CommaListRoundTrip(topics: seq<string>)
    requires |topics| >= 1
    requires forall k :: 0 <= k < |topics| ==> IsStripped(topics[k]) && Excludes(topics[k], ',')
    ensures CommaList(Join(",", topics)) == topics
  {
    JoinStripped(",", topics);
    StrippedIsFixed(Join(",", topics));
    SplitJoin(topics, ',');
    forall k | 0 <= k < |topics| ensures Strip(topics[k]) == topics[k] {
      StrippedIsFixed(topics[k]);
    }
  }

  /** The code-fence unwrapping done before `json.loads`: a reply that starts
      with ``` is replaced by the text between the first two fences, minus a
      leading "json" language tag. */
  function StripFence(response: string): string {
    if StartsWith(response, "```") then
      assert OccursAt(response, "```", 0);
      SplitAtFirst(response, "```", 0);
      var body := Split(response, "```")[1];
      if StartsWith(body, "json") then body[4..] else body
    else response
  }

  /** Text free of backticks is the first piece of a split on fences. */
  lemma FirstPieceBeforeFence(inner: string, tail: string)
    requires Excludes(inner, '`')
    ensures Split(inner + "```" + tail, "```")[0] == inner
  {
    var s := inner + "```" + tail;
    forall k | 0 <= k < |inner| ensures !OccursAt(s, "```", k) {
      assert s[k] == inner[k];
      if k + 3 <= |s| {
        assert s[k..k + 3][0] == s[k];
      }
    }
    assert s[|inner|..|inner| + 3] == "```";
    SplitAtFirst(s, "```", |inner|);
    assert s[..|inner|] == inner;
  }

  /** The text between the first two fences is the second piece of the split. */
  lemma FencedPiece(inner: string, tail: string)
    requires Excludes(inner, '`')
    ensures var pieces := Split("```" + inner + "```" + tail, "```");
      |pieces| >= 2 && pieces[1] == inner
  {
    var s := "```" + inner + "```" + tail;
    assert OccursAt(s, "```", 0);
    SplitAtFirst(s, "```", 0);
    assert s[3..] == inner + "```" + tail;
    FirstPieceBeforeFence(inner, tail);
  }

  /** What StripFence does to a reply that opens with a fence around `inner`. */
  lemma StripFenceOf(inner: string, tail: string)
    requires Excludes(inner, '`')
    ensures StripFence("```" + inner + "```" + tail)
      == if StartsWith(inner, "json") then inner[4..] else inner
  {
    var s := "```" + inner + "```" + tail;
    assert s[..3] == "```";
    FencedPiece(inner, tail);
  }

  /** A fenced reply gives back the fenced text, whether or not it carries
      the "json" tag, whatever follows the closing fence. */
  lemma StripFenceRoundTrip(tag: string, body: string, tail: string)
    requires tag == "json" || (tag == "" && !StartsWith(body, "json"))
    requires Excludes(body, '`')
    ensures StripFence("```" + tag + body + "```" + tail) == body
  {
    var inner := tag + body;
    assert "```" + tag + body + "```" + tail == "```" + inner + "```" + tail;
    assert Excludes(inner, '`') by {
      forall k | 0 <= k < |inner| ensures inner[k] != '`' {
        if k >= |tag| {
          assert inner[k] == body[k - |tag|];
        }
      }
    }
    StripFenceOf(inner, tail);
    if tag == "json" {
      assert inner[..4] == "json";
      assert inner[4..] == body;
    } else {
      assert inner == body;
    }
  }

  /** A reply that does not start with a fence is parsed as it stands. */
  lemma StripFenceUnfenced(response: string)
    requires !StartsWith(response, "```")
    ensures StripFence(response) == response
  {
  }
}

=== FILE: retrieve.dfy ===
/** retrieve: the documents handed to the answer generator. The vector store
    is a function `query(v, n)` standing for
    `collection.query(query_embeddings=[v], n_results=n)["documents"][0]`;
    the subtopic expansion is read from the model's reply. */
module Retrieve {
  import opened Text
  import Expand
  import Pace
  import opened Seqs

  /** retrieval_depth; its default differs from the pace table's. */
  function RetrievalDepth(pace: string): nat {
    if pace == "slow" then 20
    else if pace == "medium" then 12
    else if pace == "fast" then 6
    else 10
  }

  /** The documents the subtopic queries add, one batch of three per
      subtopic, each asked with the unchanged primary vector. */
  function SubtopicDocs<V>(query: (V, nat) -> seq<string>, queryVec: V, subtopics: seq<string>): seq<string>
    decreases |subtopics|
  {
    if |subtopics| == 0 then []
    else query(queryVec, 3) + SubtopicDocs(query, queryVec, subtopics[1..])
  }

  /** retrieve. */
  function Retrieve<V>(query: (V, nat) -> seq<string>, queryVec: V, pace: string, expandReply: string): (docs: seq<string>)
    ensures var primary := query(queryVec, RetrievalDepth(pace));
      |primary| <= |docs| && docs[..|primary|] == primary
  {
    query(queryVec, RetrievalDepth(pace))
      + SubtopicDocs(query, queryVec, Expand.ExpandTopics(expandReply))
  }

  /** The subtopic documents are the same three-document batch repeated once
      per subtopic. */
  lemma {:induction false} SubtopicDocsRepeat<V>(query: (V, nat) -> seq<string>, queryVec: V, subtopics: seq<string>)
    ensures SubtopicDocs(query, queryVec, subtopics) == Times(query(queryVec, 3), |subtopics|)
    decreases |subtopics|
  {
    if |subtopics| > 0 {
      SubtopicDocsRepeat(query, queryVec, subtopics[1..]);
    }
  }

  /** The result opens with the primary documents in store order, followed by
      at least one batch of subtopic results, with no deduplication. */
  lemma RetrieveShape<V>(query: (V, nat) -> seq<string>, queryVec: V, pace: string, expandReply: string)
    ensures var n := |Expand.ExpandTopics(expandReply)|;
      n >= 1
      && Retrieve(query, queryVec, pace, expandReply)
         == query(queryVec, RetrievalDepth(pace)) + Times(query(queryVec, 3), n)
  {
    SubtopicDocsRepeat(query, queryVec, Expand.ExpandTopics(expandReply));
  }

  /** Because the vector is reused, the subtopic texts never reach the store:
      two replies with as many subtopics retrieve the same documents. */
  lemma {:induction false} SubtopicTextIgnored<V>(query: (V, nat) -> seq<string>, queryVec: V, s1: seq<string>, s2: seq<string>)
    requires |s1| == |s2|
    ensures SubtopicDocs(query, queryVec, s1) == SubtopicDocs(query, queryVec, s2)
    decreases |s1|
  {
    if |s1| > 0 {
      SubtopicTextIgnored(query, queryVec, s1[1..], s2[1..]);
    }
  }

  lemma RetrieveIgnoresSubtopicText<V>(query: (V, nat) -> seq<string>, queryVec: V, pace: string, r1: string, r2: string)
    requires |Expand.ExpandTopics(r1)| == |Expand.ExpandTopics(r2)|
    ensures Retrieve(query, queryVec, pace, r1) == Retrieve(query, queryVec, pace, r2)
  {
    SubtopicTextIgnored(query, queryVec, Expand.ExpandTopics(r1), Expand.ExpandTopics(r2));
  }

  /** retrieval_depth and the pace table agree on the three paces and differ
      for any other text: 10 documents here, 12 there. */
  lemma DepthTablesAgreeOnPaces(pace: string)
    ensures Pace.IsPace(pace) ==> RetrievalDepth(pace) == Pace.RetrievalDepth(pace)
    ensures !Pace.IsPace(pace) ==> RetrievalDepth(pace) == 10 && Pace.RetrievalDepth(pace) == 12
  {
  }
}

=== FILE: seqs.dfy ===
/** Sequence helpers shared by several modules. */
module Seqs {
  import opened Wrappers

  /** The values of the `Some` entries of `s`, in order (Python's
      `[x for x in xs if x]` over optional results). */
  function Present<T>(s: seq<Option<T>>): (r: seq<T>)
    ensures |r| <= |s|
    decreases |s|
  {
    if |s| == 0 then []
    else if s[0].Some? then [s[0].value] + Present(s[1..])
    else Present(s[1..])
  }

  /** Every `Some` entry of `s` survives: entry `k` is element `j` of the result. */
  lemma {:induction false} PresentKeeps<T>(s: seq<Option<T>>, k: nat) returns (j: nat)
    requires k < |s| && s[k].Some?
    ensures j < |Present(s)| && Present(s)[j] == s[k].value
    decreases |s|
  {
    if k == 0 {
      j := 0;
    } else {
      var i := PresentKeeps(s[1..], k - 1);
      j := if s[0].Some? then i + 1 else i;
    }
  }

  /** Every element of the result comes from a `Some` entry of `s`, and the
      result keeps the order of `s`: elements `i < j` come from entries `ki < kj`. */
  lemma {:induction false} PresentOrigins<T>(s: seq<Option<T>>, i: nat, j: nat) returns (ki: nat, kj: nat)
    requires i <= j < |Present(s)|
    ensures ki <= kj < |s| && s[ki] == Some(Present(s)[i]) && s[kj] == Some(Present(s)[j])
    ensures i < j ==> ki < kj
    decreases |s|
  {
    var rest := Present(s[1..]);
    if s[0].Some? {
      assert Present(s) == [s[0].value] + rest;
      if j == 0 {
        ki, kj := 0, 0;
      } else if i == 0 {
        var _, kj' := PresentOrigins(s[1..], j - 1, j - 1);
        ki, kj := 0, kj' + 1;
      } else {
        var ki', kj' := PresentOrigins(s[1..], i - 1, j - 1);
        ki, kj := ki' + 1, kj' + 1;
      }
    } else {
      var ki', kj' := PresentOrigins(s[1..], i, j);
      ki, kj := ki' + 1, kj' + 1;
    }
  }

  /** A `Some` last entry is the last element of the result. */
  lemma {:induction false} PresentLast<T>(s: seq<Option<T>>)
    requires |s| > 0 && s[|s| - 1].Some?
    ensures |Present(s)| > 0 && Present(s)[|Present(s)| - 1] == s[|s| - 1].value
    decreases |s|
  {
    if |s| > 1 {
      PresentLast(s[1..]);
    }
  }

  /** The result is empty exactly when every entry is `None`. */
  lemma {:induction false} PresentEmpty<T>(s: seq<Option<T>>)
    ensures Present(s) == [] <==> forall k :: 0 <= k < |s| ==> s[k].None?
    decreases |s|
  {
    if |s| > 0 {
      PresentEmpty(s[1..]);
      assert forall k :: 1 <= k < |s| ==> s[k] == s[1..][k - 1];
    }
  }

  /** Filtering distributes over concatenation. */
  lemma {:induction false} PresentAppend<T>(a: seq<Option<T>>, b: seq<Option<T>>)
    ensures Present(a + b) == Present(a) + Present(b)
    decreases |a|
  {
    if |a| == 0 {
      assert a + b == b;
    } else {
      assert (a + b)[0] == a[0] && (a + b)[1..] == a[1..] + b;
      PresentAppend(a[1..], b);
    }
  }

  /** A `None` entry contributes nothing wherever it stands. */
  lemma PresentSkipsNone<T>(a: seq<Option<T>>, x: Option<T>, b: seq<Option<T>>)
    requires x.None?
    ensures Present(a + [x] + b) == Present(a + b)
  {
    PresentAppend(a + [x], b);
    PresentAppend(a, [x]);
    PresentAppend(a, b);
  }

  /** A sequence is its three slices at `i` and `j` put back together. */
  lemma Slices3<T>(s: seq<T>, i: nat, j: nat)
    requires i <= j <= |s|
    ensures s[..i] + s[i..j] + s[j..] == s
  {
  }

  /** `b` repeated `n` times (Python's `b * n` on lists). */
  function Times<T>(b: seq<T>, n: nat): seq<T>
    decreases n
  {
    if n == 0 then [] else b + Times(b, n - 1)
  }

  /** Two sequences that map `a` and `b` element by element concatenate to
      the one that maps `a + b`. */
  lemma PointwiseAppend<A, B>(a: seq<A>, b: seq<A>, pa: seq<B>, pb: seq<B>, pab: seq<B>, f: A -> B)
    requires |pa| == |a| && |pb| == |b| && |pab| == |a| + |b|
    requires forall i :: 0 <= i < |a| ==> pa[i] == f(a[i])
    requires forall i :: 0 <= i < |b| ==> pb[i] == f(b[i])
    requires forall i :: 0 <= i < |a| + |b| ==> pab[i] == f((a + b)[i])
    ensures pab == pa + pb
  {
    forall i | 0 <= i < |pab| ensures pab[i] == (pa + pb)[i] {
      if i < |a| {
        assert (a + b)[i] == a[i];
      } else {
        assert (a + b)[i] == b[i - |a|];
      }
    }
  }
}

=== FILE: session.dfy ===
/** Conversation memory and teaching state per (user, deck) session, the
    in-memory session store, and the parser for what a learner types while
    being taught. Timestamps, uuid generation and the store's TTL sweep are
    outside the model: a fresh session id is an input. */
module Session {
  import opened Wrappers
  import opened Text

  datatype TeachingMode = Idle | Teaching | AwaitingInput | PracticeMode | FreeChat {
    function Value(): string {
      match this
      case Idle => "idle"
      case Teaching => "teaching"
      case AwaitingInput => "awaiting"
      case PracticeMode => "practice"
      case FreeChat => "free_chat"
    }
  }

  datatype UserAction =
    | NextTopic | ExplainMore | ExplainSlower | Practice | Example
    | Question | Repeat | Skip | Exit

  datatype Message = Message(role: string, content: string, topic: Option<string>, messageType: string)

  /** Progress through a syllabus. The index is only ever set to 0, to a
      position in the syllabus, or incremented, so it is a `nat`. The review
      list can hold `None`: asking for a simpler explanation past the last
      topic appends the absent current topic. */
  datatype TeachingState = TeachingState(
    syllabusTopics: seq<string>,
    currentTopicIndex: nat,
    topicsCompleted: seq<string>,
    topicsNeedingReview: seq<Option<string>>,
    currentDepth: string,
    isActive: bool)
  {
    /** The topic at the index, if the index is inside the syllabus. */
    function CurrentTopic(): (t: Option<string>)
      ensures t.Some? <==> currentTopicIndex < |syllabusTopics|
      ensures t.Some? ==> t.value == syllabusTopics[currentTopicIndex]
    {
      if currentTopicIndex < |syllabusTopics| then Some(syllabusTopics[currentTopicIndex]) else None
    }

    /** The topics after the current one (`syllabus_topics[i + 1:]`). */
    function RemainingTopics(): (r: seq<string>)
      ensures currentTopicIndex < |syllabusTopics| ==>
        syllabusTopics == syllabusTopics[..currentTopicIndex] + [CurrentTopic().value] + r
      ensures currentTopicIndex >= |syllabusTopics| ==> r == []
    {
      if currentTopicIndex + 1 <= |syllabusTopics| then syllabusTopics[currentTopicIndex + 1..] else []
    }

    /** The share of the syllabus before the index, in percent. */
    function ProgressPercent(): (p: real)
      ensures |syllabusTopics| == 0 ==> p == 0.0
      ensures currentTopicIndex <= |syllabusTopics| ==> 0.0 <= p <= 100.0
      ensures |syllabusTopics| > 0 && currentTopicIndex == |syllabusTopics| ==> p == 100.0
    {
      if |syllabusTopics| == 0 then 0.0
      else (currentTopicIndex as real / |syllabusTopics| as real) * 100.0
    }
  }

  /** The state a session starts with. */
  function EmptyTeachingState(): TeachingState {
    TeachingState([], 0, [], [], "medium", false)
  }

  /** `count` topics before the end leave `count - 1` remaining. */
  lemma RemainingCount(st: TeachingState)
    ensures |st.RemainingTopics()| ==
      (if st.currentTopicIndex < |st.syllabusTopics| then |st.syllabusTopics| - st.currentTopicIndex - 1 else 0)
  {
  }

  const CONTEXT_WINDOW: nat := 10

  datatype Session = Session(
    sessionId: string, userId: string, deckId: string,
    messages: seq<Message>, teachingState: TeachingState, mode: TeachingMode, contextWindow: int)
  {
    /** add_message: the message is appended; an absent or empty topic
        defaults to the current topic. Returns the new session and the message. */
    function AddMessage(role: string, content: string, topic: Option<string>, messageType: string): (r: (Session, Message))
      ensures r.0.messages == messages + [r.1]
      ensures r.0 == this.(messages := r.0.messages)
      ensures r.1.role == role && r.1.content == content && r.1.messageType == messageType
      ensures r.1.topic == (if topic.Some? && topic.value != "" then topic else teachingState.CurrentTopic())
    {
      var t := if topic.Some? && topic.value != "" then topic else teachingState.CurrentTopic();
      var msg := Message(role, content, t, messageType);
      (this.(messages := messages + [msg]), msg)
    }

    /** get_recent_messages: `count or context_window` taken as a Python
        negative slice start. */
    function RecentMessages(count: Option<int>): (r: seq<Message>)
      ensures |r| <= |messages| && r == messages[|messages| - |r|..]
    {
      var n := if count.Some? && count.value != 0 then count.value else contextWindow;
      if |messages| == 0 then [] else messages[SliceStart(-n, |messages|)..]
    }
  }

  /** Python's clamping of a slice start `i` on a sequence of length `len`. */
  function SliceStart(i: int, len: nat): (r: nat)
    ensures r <= len
    ensures 0 <= i <= len ==> r == i
    ensures i < 0 && len + i >= 0 ==> r == len + i
  {
    if i < 0 then (if len + i < 0 then 0 else len + i)
    else if i > len then len else i
  }

  /** A new session: no messages, idle, the default context window. */
  function NewSession(id: string, userId: string, deckId: string): (r: Session)
    ensures r.sessionId == id && r.userId == userId && r.deckId == deckId
    ensures r.mode == Idle && !r.teachingState.isActive
    ensures r.messages == [] && r.RecentMessages(None) == []
    ensures r.teachingState.CurrentTopic().None? && r.teachingState.ProgressPercent() == 0.0
  {
    Session(id, userId, deckId, [], EmptyTeachingState(), Idle, CONTEXT_WINDOW)
  }

  /** For a positive count the recent messages are the last `count` ones,
      or all of them when there are fewer. */
  lemma RecentMessagesLast(s: Session, count: Option<int>)
    requires var n := if count.Some? && count.value != 0 then count.value else s.contextWindow; n > 0
    ensures var n := if count.Some? && count.value != 0 then count.value else s.contextWindow;
      var r := s.RecentMessages(count);
      && |r| == (if n < |s.messages| then n else |s.messages|)
      && r == s.messages[|s.messages| - |r|..]
  {
  }

  /** A zero window, with no count given, returns the whole history:
      `messages[-0:]` is every message. */
  lemma ZeroWindowIsEverything(s: Session)
    requires s.contextWindow == 0
    ensures s.RecentMessages(None) == s.messages
  {
  }

  /** A new session keeps the last ten messages. */
  lemma NewSessionWindow(id: string, userId: string, deckId: string, msgs: seq<Message>)
    ensures var s := NewSession(id, userId, deckId).(messages := msgs);
      |s.RecentMessages(None)| == (if |msgs| < 10 then |msgs| else 10)
  {
  }

  const CONTEXT_HEADER: string := "[Previous Conversation]"

  /** One line of the conversation context: the speaker and at most 500
      characters of the content. */
  function ContextLine(m: Message): string {
    (if m.role == "user" then "User" else "Assistant") + ": " + Prefix(m.content, 500) + "..."
  }

  /** get_conversation_context. */
  function ConversationContext(s: Session): (r: string)
    ensures s.RecentMessages(None) == [] <==> r == []
  {
    var recent := s.RecentMessages(None);
    if recent == [] then []
    else
      var lines := [CONTEXT_HEADER] + seq(|recent|, k requires 0 <= k < |recent| => ContextLine(recent[k]));
      JoinCons("\n", CONTEXT_HEADER, lines[1..]);
      assert lines == [CONTEXT_HEADER] + lines[1..];
      Join("\n", lines)
  }

  /** The context read as running text: each message's line after a line
      break, oldest first. */
  function ContextBody(ms: seq<Message>): string
    decreases |ms|
  {
    if |ms| == 0 then "" else "\n" + ContextLine(ms[0]) + ContextBody(ms[1..])
  }

  function ContextLines(ms: seq<Message>): (r: seq<string>)
    ensures |r| == |ms| && forall k :: 0 <= k < |ms| ==> r[k] == ContextLine(ms[k])
  {
    seq(|ms|, k requires 0 <= k < |ms| => ContextLine(ms[k]))
  }

  /** Each part after the separator, all run together. */
  function Prefixed(sep: string, parts: seq<string>): string
    decreases |parts|
  {
    if |parts| == 0 then "" else sep + parts[0] + Prefixed(sep, parts[1..])
  }

  lemma {:induction false} JoinAsPrefixed(sep: string, head: string, parts: seq<string>)
    ensures Join(sep, [head] + parts) == head + Prefixed(sep, parts)
    decreases |parts|
  {
    if |parts| == 0 {
      assert [head] + parts == [head];
    } else {
      JoinCons(sep, head, parts);
      assert parts == [parts[0]] + parts[1..];
      JoinAsPrefixed(sep, parts[0], parts[1..]);
      assert head + sep + (parts[0] + Prefixed(sep, parts[1..])) == head + (sep + parts[0] + Prefixed(sep, parts[1..]));
    }
  }

  lemma {:induction false} ContextBodyPrefixed(ms: seq<Message>)
    ensures ContextBody(ms) == Prefixed("\n", ContextLines(ms))
    decreases |ms|
  {
    if |ms| > 0 {
      assert ContextLines(ms)[1..] == ContextLines(ms[1..]);
      ContextBodyPrefixed(ms[1..]);
    }
  }

  lemma JoinLinesBody(head: string, ms: seq<Message>)
    ensures Join("\n", [head] + ContextLines(ms)) == head + ContextBody(ms)
  {
    JoinAsPrefixed("\n", head, ContextLines(ms));
    ContextBodyPrefixed(ms);
  }

  /** The context is the header followed by one line per recent message, in
      order, or nothing when there are no messages. */
  lemma ContextIsHeaderThenLines(s: Session)
    ensures var recent := s.RecentMessages(None);
            ConversationContext(s) == if recent == [] then "" else CONTEXT_HEADER + ContextBody(recent)
  {
    var recent := s.RecentMessages(None);
    if recent != [] {
      assert ContextLines(recent) == seq(|recent|, k requires 0 <= k < |recent| => ContextLine(recent[k]));
      JoinLinesBody(CONTEXT_HEADER, recent);
    }
  }

  // ---------------------------------------------------------------------------
  // the session store
  // ---------------------------------------------------------------------------

  /** The in-memory store: sessions by id, and an index from a (user, deck)
      key to a session id. The key function is a parameter so that the
      store can be instantiated with the string key the program builds
      (`MakeKey`) or with the pair itself (`PairKey`). */
  datatype Store<K> = Store(sessions: map<string, Session>, index: map<K, string>)

  function EmptyStore<K>(): Store<K> {
    Store(map[], map[])
  }

  /** The program's index key: user id, a colon, deck id. */
  function MakeKey(userId: string, deckId: string): string {
    userId + ":" + deckId
  }

  /** The (user, deck) pair as its own key. */
  function PairKey(userId: string, deckId: string): (string, string) {
    (userId, deckId)
  }

  ghost predicate Injective<K>(key: (string, string) -> K) {
    forall u1, d1, u2, d2 :: key(u1, d1) == key(u2, d2) ==> u1 == u2 && d1 == d2
  }

  /** Sessions are filed under their own ids; each session's key is indexed
      to it; every index entry names a stored session with that key. */
  predicate Consistent<K>(st: Store<K>, key: (string, string) -> K) {
    && (forall id :: id in st.sessions ==>
          && st.sessions[id].sessionId == id
          && key(st.sessions[id].userId, st.sessions[id].deckId) in st.index
          && st.index[key(st.sessions[id].userId, st.sessions[id].deckId)] == id)
    && (forall k :: k in st.index ==>
          && st.index[k] in st.sessions
          && key(st.sessions[st.index[k]].userId, st.sessions[st.index[k]].deckId) == k)
  }

  /** get_or_create_session: the indexed session for the key, or a new
      session under `freshId` registered in both maps. */
  function GetOrCreate<K>(st: Store<K>, key: (string, string) -> K, userId: string, deckId: string,
                          freshId: string): (r: (Store<K>, Session))
    ensures r.0.index.Keys == st.index.Keys + {key(userId, deckId)}
    ensures Consistent(st, key) ==>
      && key(r.1.userId, r.1.deckId) == key(userId, deckId)
      && r.1.sessionId in r.0.sessions && r.0.sessions[r.1.sessionId] == r.1
      && r.0.index[key(userId, deckId)] == r.1.sessionId
  {
    var k := key(userId, deckId);
    if k in st.index && st.index[k] in st.sessions then (st, st.sessions[st.index[k]])
    else
      var s := NewSession(freshId, userId, deckId);
      (Store(st.sessions[freshId := s], st.index[k := freshId]), s)
  }

  /** get_session. */
  function GetSession<K>(st: Store<K>, id: string): (r: Option<Session>)
    ensures r.Some? <==> id in st.sessions
    ensures r.Some? ==> r.value == st.sessions[id]
  {
    if id in st.sessions then Some(st.sessions[id]) else None
  }

  /** get_session_by_deck: an empty indexed id counts as absent. */
  function GetSessionByDeck<K>(st: Store<K>, key: (string, string) -> K, userId: string, deckId: string): (r: Option<Session>)
    ensures var k := key(userId, deckId);
      r.Some? <==> k in st.index && st.index[k] != "" && st.index[k] in st.sessions
    ensures var k := key(userId, deckId);
      r.Some? ==> r.value == st.sessions[st.index[k]]
  {
    var k := key(userId, deckId);
    if k in st.index && st.index[k] != "" then GetSession(st, st.index[k]) else None
  }

  /** delete_session: drops the session and the index entry under its key;
      an unknown id leaves the store as it is. */
  function DeleteSession<K>(st: Store<K>, key: (string, string) -> K, id: string): (r: Store<K>)
    ensures id !in r.sessions
    ensures id !in st.sessions ==> r == st
    ensures forall other :: other in st.sessions && other != id ==> other in r.sessions && r.sessions[other] == st.sessions[other]
    ensures r.sessions.Keys == st.sessions.Keys - {id}
  {
    if id in st.sessions then
      var s := st.sessions[id];
      var k := key(s.userId, s.deckId);
      Store(st.sessions - {id}, if k in st.index then st.index - {k} else st.index)
    else st
  }

  /** clear_deck_session: deletes the session indexed under the (user, deck) key. */
  function ClearDeckSession<K>(st: Store<K>, key: (string, string) -> K, userId: string, deckId: string): (r: Store<K>)
    ensures var k := key(userId, deckId); k !in st.index ==> r == st
    ensures var k := key(userId, deckId); k in st.index ==> st.index[k] !in r.sessions
    ensures var k := key(userId, deckId);
      r.sessions.Keys == st.sessions.Keys - (if k in st.index then {st.index[k]} else {})
    ensures forall id :: id in r.sessions ==> id in st.sessions && r.sessions[id] == st.sessions[id]
  {
    var k := key(userId, deckId);
    if k in st.index then DeleteSession(st, key, st.index[k]) else st
  }

  /** list_user_sessions, as a set: the dictionary's order is not modelled. */
  function ListUserSessions<K>(st: Store<K>, userId: string): (r: set<Session>)
    ensures forall s :: s in r <==> s in st.sessions.Values && s.userId == userId
  {
    set id | id in st.sessions && st.sessions[id].userId == userId :: st.sessions[id]
  }

  /** A new session under an unused id keeps the store consistent. */
  lemma GetOrCreateConsistent<K>(st: Store<K>, key: (string, string) -> K, userId: string, deckId: string, freshId: string)
    requires Consistent(st, key) && freshId !in st.sessions
    ensures Consistent(GetOrCreate(st, key, userId, deckId, freshId).0, key)
  {
  }

  /** Asking again for the same (user, deck) returns the same session and
      leaves the store alone. */
  lemma GetOrCreateStable<K>(st: Store<K>, key: (string, string) -> K, userId: string, deckId: string,
                             id1: string, id2: string)
    requires Consistent(st, key) && id1 !in st.sessions
    ensures var (st1, s1) := GetOrCreate(st, key, userId, deckId, id1);
      GetOrCreate(st1, key, userId, deckId, id2) == (st1, s1)
      && GetSessionByDeck(st1, key, userId, deckId) == (if s1.sessionId != "" then Some(s1) else None)
  {
  }

  /** With a key that tells pairs apart, the session handed out belongs to
      the user and deck that asked. */
  lemma GetOrCreateOwned<K>(st: Store<K>, key: (string, string) -> K, userId: string, deckId: string, freshId: string)
    requires Consistent(st, key) && Injective(key)
    ensures var s := GetOrCreate(st, key, userId, deckId, freshId).1;
      s.userId == userId && s.deckId == deckId
  {
  }

  /** Deleting keeps the store consistent, and the deleted session can no
      longer be found through its key. */
  lemma DeleteConsistent<K>(st: Store<K>, key: (string, string) -> K, id: string)
    requires Consistent(st, key)
    ensures Consistent(DeleteSession(st, key, id), key)
    ensures id in st.sessions ==>
      key(st.sessions[id].userId, st.sessions[id].deckId) !in DeleteSession(st, key, id).index
  {
    if id in st.sessions {
      var s := st.sessions[id];
      var r := DeleteSession(st, key, id);
      var k := key(s.userId, s.deckId);
      forall k' | k' in r.index
        ensures r.index[k'] in r.sessions
      {
        assert k' != k && r.index[k'] == st.index[k'];
        assert st.index[k'] != id;
      }
    }
  }

  /** Clearing a (user, deck) leaves no session for it and, with a key that
      tells pairs apart, every other pair's session in place. */
  lemma ClearDeckOnlyThatDeck<K>(st: Store<K>, key: (string, string) -> K, userId: string, deckId: string)
    requires Consistent(st, key) && Injective(key)
    ensures var r := ClearDeckSession(st, key, userId, deckId);
      && GetSessionByDeck(r, key, userId, deckId) == None
      && forall id :: id in st.sessions
           && (st.sessions[id].userId != userId || st.sessions[id].deckId != deckId)
           ==> id in r.sessions && r.sessions[id] == st.sessions[id]
  {
    var k := key(userId, deckId);
    if k in st.index {
      var gone := st.index[k];
      var g := st.sessions[gone];
      assert key(g.userId, g.deckId) == k;
      assert g.userId == userId && g.deckId == deckId;
      DeleteConsistent(st, key, gone);
    }
  }

  /** The pair key tells pairs apart. */
  lemma PairKeyInjective()
    ensures Injective(PairKey)
  {
    forall u1, d1, u2, d2 | PairKey(u1, d1) == PairKey(u2, d2)
      ensures u1 == u2 && d1 == d2
    {
      assert (u1, d1) == (u2, d2);
    }
  }

  /** The colon key does not: a user id or deck id containing ':' meets
      another pair's key, and the store hands that pair's session to a
      different user. */
  lemma MakeKeyCollides()
    ensures MakeKey("alice:x", "deck") == MakeKey("alice", "x:deck")
    ensures var (st1, a) := GetOrCreate(EmptyStore(), MakeKey, "alice:x", "deck", "id1");
      var (_, b) := GetOrCreate(st1, MakeKey, "alice", "x:deck", "id2");
      b == a && b.userId == "alice:x" && b.userId != "alice"
  {
    var k := MakeKey("alice:x", "deck");
    assert k == "alice:x:deck";
    assert MakeKey("alice", "x:deck") == k;
    var (st1, a) := GetOrCreate(EmptyStore(), MakeKey, "alice:x", "deck", "id1");
    assert st1.index == map[k := "id1"];
    assert st1.sessions == map["id1" := a];
  }

  // ---------------------------------------------------------------------------
  // parsing what the learner types
  // ---------------------------------------------------------------------------

  const NEXT_KEYWORDS: seq<string> := ["next", "continue", "move on", "next topic", "go ahead", "proceed"]
  const MORE_KEYWORDS: seq<string> := ["more detail", "explain more", "deeper", "elaborate", "tell me more", "in depth"]
  const SLOWER_KEYWORDS: seq<string> :=
    ["slower", "simpler", "simplify", "easier", "basic", "don't understand", "didn't understand",
     "confused", "not clear"]
  const PRACTICE_KEYWORDS: seq<string> := ["practice", "question", "quiz", "test me", "problems", "exercise"]
  const EXAMPLE_KEYWORDS: seq<string> := ["example", "show me", "demonstrate", "illustration"]
  const REPEAT_KEYWORDS: seq<string> := ["repeat", "again", "one more time", "say that again"]
  const EXIT_KEYWORDS: seq<string> := ["exit", "stop", "quit", "end", "done", "finish teaching"]
  const SKIP_PHRASES: seq<string> := ["skip to", "go to", "jump to"]

  /** Some keyword of `kws` occurs in `text`. */
  predicate AnyIn(text: string, kws: seq<string>) {
    exists k :: 0 <= k < |kws| && Contains(text, kws[k])
  }

  /** A keyword that is longer than `t`, or has one of its first four
      characters missing from `t`, cannot occur in `t`. */
  predicate Foreign(t: string, kw: string) {
    || |kw| > |t|
    || (|kw| > 0 && kw[0] !in t)
    || (|kw| > 1 && kw[1] !in t)
    || (|kw| > 2 && kw[2] !in t)
    || (|kw| > 3 && kw[3] !in t)
  }

  lemma NoneIn(t: string, kws: seq<string>)
    requires forall k :: 0 <= k < |kws| ==> Foreign(t, kws[k])
    ensures !AnyIn(t, kws)
  {
    forall k | 0 <= k < |kws|
      ensures !Contains(t, kws[k])
    {
      var kw := kws[k];
      if |kw| > |t| {
        ContainsIffOccurs(t, kw);
      } else if kw[0] !in t {
        MissingCharNotContained(t, kw, 0);
      } else if kw[1] !in t {
        MissingCharNotContained(t, kw, 1);
      } else if kw[2] !in t {
        MissingCharNotContained(t, kw, 2);
      } else {
        MissingCharNotContained(t, kw, 3);
      }
    }
  }

  lemma Hit(t: string, kws: seq<string>, k: nat)
    requires k < |kws| && Contains(t, kws[k])
    ensures AnyIn(t, kws)
  {
  }

  /** The lower-cased, stripped input the keywords are matched against. */
  function Normalize(input: string): string {
    Lower(Strip(input))
  }

  /** parse_user_action: the first keyword group, in priority order, with a
      keyword in the normalized input; a question when none matches. */
  function ParseUserAction(input: string): (a: UserAction)
    ensures a == FirstMatch(Normalize(input), ACTION_TABLE)
  {
    ParseTextIsFirstMatch(Normalize(input));
    ParseText(Normalize(input))
  }

  /** The keyword matching of parse_user_action on normalized text. */
  function ParseText(text: string): UserAction {
    if AnyIn(text, NEXT_KEYWORDS) then NextTopic
    else if AnyIn(text, MORE_KEYWORDS) then ExplainMore
    else if AnyIn(text, SLOWER_KEYWORDS) then ExplainSlower
    else if AnyIn(text, PRACTICE_KEYWORDS) then Practice
    else if AnyIn(text, EXAMPLE_KEYWORDS) then Example
    else if AnyIn(text, REPEAT_KEYWORDS) then Repeat
    else if AnyIn(text, EXIT_KEYWORDS) then Exit
    else if AnyIn(text, SKIP_PHRASES) then Skip
    else Question
  }

  /** The keyword groups with their actions, highest priority first. */
  const ACTION_TABLE: seq<(seq<string>, UserAction)> :=
    [(NEXT_KEYWORDS, NextTopic), (MORE_KEYWORDS, ExplainMore), (SLOWER_KEYWORDS, ExplainSlower),
     (PRACTICE_KEYWORDS, Practice), (EXAMPLE_KEYWORDS, Example), (REPEAT_KEYWORDS, Repeat),
     (EXIT_KEYWORDS, Exit), (SKIP_PHRASES, Skip)]

  /** The action of the first row of `table` with a keyword in `text`, or
      a question when no row has one. */
  function FirstMatch(text: string, table: seq<(seq<string>, UserAction)>): UserAction
    decreases |table|
  {
    if |table| == 0 then Question
    else if AnyIn(text, table[0].0) then table[0].1
    else FirstMatch(text, table[1..])
  }

  /** The first match is the action of a row that matches with no earlier
      row matching, or the question fallback when no row matches. */
  lemma {:induction false} FirstMatchPicks(text: string, table: seq<(seq<string>, UserAction)>) returns (i: nat)
    ensures i <= |table|
    ensures forall j :: 0 <= j < i ==> !AnyIn(text, table[j].0)
    ensures i < |table| ==> AnyIn(text, table[i].0) && FirstMatch(text, table) == table[i].1
    ensures i == |table| ==> FirstMatch(text, table) == Question
    decreases |table|
  {
    if |table| == 0 {
      i := 0;
    } else if AnyIn(text, table[0].0) {
      i := 0;
    } else {
      var i' := FirstMatchPicks(text, table[1..]);
      i := i' + 1;
      forall j | 0 <= j < i
        ensures !AnyIn(text, table[j].0)
      {
        if j > 0 {
          assert table[j] == table[1..][j - 1];
        }
      }
    }
  }

  /** The chain of tests in parse_user_action is the first match over the table. */
  lemma ParseTextIsFirstMatch(text: string)
    ensures ParseText(text) == FirstMatch(text, ACTION_TABLE)
  {
    var t := ACTION_TABLE;
    assert t[8..] == [];
    assert t[7..][1..] == t[8..];
    assert FirstMatch(text, t[7..]) == (if AnyIn(text, SKIP_PHRASES) then Skip else Question);
    assert t[6..][1..] == t[7..];
    assert FirstMatch(text, t[6..]) == (if AnyIn(text, EXIT_KEYWORDS) then Exit else FirstMatch(text, t[7..]));
    assert t[5..][1..] == t[6..];
    assert FirstMatch(text, t[5..]) == (if AnyIn(text, REPEAT_KEYWORDS) then Repeat else FirstMatch(text, t[6..]));
    assert t[4..][1..] == t[5..];
    assert FirstMatch(text, t[4..]) == (if AnyIn(text, EXAMPLE_KEYWORDS) then Example else FirstMatch(text, t[5..]));
    assert t[3..][1..] == t[4..];
    assert FirstMatch(text, t[3..]) == (if AnyIn(text, PRACTICE_KEYWORDS) then Practice else FirstMatch(text, t[4..]));
    assert t[2..][1..] == t[3..];
    assert FirstMatch(text, t[2..]) == (if AnyIn(text, SLOWER_KEYWORDS) then ExplainSlower else FirstMatch(text, t[3..]));
    assert t[1..][1..] == t[2..];
    assert FirstMatch(text, t[1..]) == (if AnyIn(text, MORE_KEYWORDS) then ExplainMore else FirstMatch(text, t[2..]));
    assert t[0..][1..] == t[1..];
    assert FirstMatch(text, t[0..]) == (if AnyIn(text, NEXT_KEYWORDS) then NextTopic else FirstMatch(text, t[1..]));
  }

  /** The "more" group read as its author meant it: the bare word "more",
      which the action prompt offers, also asks for more depth. */
  function ParseUserActionCorrected(input: string): (a: UserAction)
    ensures Normalize(input) != "more" ==> a == ParseUserAction(input)
  {
    var text := Normalize(input);
    if AnyIn(text, NEXT_KEYWORDS) then NextTopic
    else if text == "more" || AnyIn(text, MORE_KEYWORDS) then ExplainMore
    else ParseText(text)
  }

  /** A word already lower-case and without surrounding space normalizes to itself. */
  lemma NormalizeWord(w: string)
    requires IsStripped(w) && Lower(w) == w
    ensures Normalize(w) == w
  {
    StrippedIsFixed(w);
  }

  /** No keyword of the first four groups occurs in the bare word "more". */
  lemma MoreMissesFirstGroups()
    ensures !AnyIn("more", NEXT_KEYWORDS) && !AnyIn("more", MORE_KEYWORDS)
    ensures !AnyIn("more", SLOWER_KEYWORDS) && !AnyIn("more", PRACTICE_KEYWORDS)
  {
    NoneIn("more", NEXT_KEYWORDS);
    NoneIn("more", MORE_KEYWORDS);
    NoneIn("more", SLOWER_KEYWORDS);
    NoneIn("more", PRACTICE_KEYWORDS);
  }

  /** No keyword of the last four groups occurs in the bare word "more". */
  lemma MoreMissesLastGroups()
    ensures !AnyIn("more", EXAMPLE_KEYWORDS) && !AnyIn("more", REPEAT_KEYWORDS)
    ensures !AnyIn("more", EXIT_KEYWORDS) && !AnyIn("more", SKIP_PHRASES)
  {
    NoneIn("more", EXAMPLE_KEYWORDS);
    NoneIn("more", REPEAT_KEYWORDS);
    NoneIn("more", EXIT_KEYWORDS);
    NoneIn("more", SKIP_PHRASES);
  }

  /** The bare "more" the action prompt offers is taken for a question;
      the corrected parser takes it for a request for more depth. */
  lemma MoreIsAQuestion()
    ensures ParseUserAction("more") == Question
    ensures ParseUserActionCorrected("more") == ExplainMore
  {
    NormalizeWord("more");
    MoreMissesFirstGroups();
    MoreMissesLastGroups();
  }

  /** "next" from the action prompt moves on. */
  lemma NextCommand()
    ensures ParseUserAction("next") == NextTopic
  {
    NormalizeWord("next");
    Hit("next", NEXT_KEYWORDS, 0);
  }

  lemma QuestionMissesNext()
    ensures !AnyIn("question", NEXT_KEYWORDS)
  {
    NoneIn("question", NEXT_KEYWORDS);
  }

  lemma QuestionMissesMore()
    ensures !AnyIn("question", MORE_KEYWORDS)
  {
    NoneIn("question", MORE_KEYWORDS);
  }

  lemma QuestionMissesSlower()
    ensures !AnyIn("question", SLOWER_KEYWORDS)
  {
    NoneIn("question", SLOWER_KEYWORDS);
  }

  lemma QuestionHitsPractice()
    ensures AnyIn("question", PRACTICE_KEYWORDS)
  {
    assert StartsWith("question", PRACTICE_KEYWORDS[1]);
    Hit("question", PRACTICE_KEYWORDS, 1);
  }

  /** Typing "question" asks for practice questions, not for an answer. */
  lemma QuestionWordMeansPractice()
    ensures ParseUserAction("question") == Practice
  {
    NormalizeWord("question");
    QuestionMissesNext();
    QuestionMissesMore();
    QuestionMissesSlower();
    QuestionHitsPractice();
  }
}

=== FILE: syllabus_map.dfy ===
/** The reading of the language model's answer in map_to_syllabus: which
    syllabus topics a chunk belongs to. Building the prompt and calling the
    model are outside the model; the reply text is the input. */
module SyllabusMap {
  import opened Text
  import opened Replies

  /** The reply that means "no topic". */
  const NONE_REPLY: string := "NONE"

  /** map_to_syllabus after the model call: "NONE" (after strip) means no
      topic, anything else is read as a comma list. */
  function ParseTopics(reply: string): (topics: seq<string>)
    ensures Strip(reply) == NONE_REPLY <==> topics == []
    ensures topics != [] ==> |topics| == CharCount(Strip(reply), ',') + 1
  {
    if Strip(reply) == NONE_REPLY then [] else CommaList(reply)
  }

  /** The reply a model following the prompt gives for a list of topics. */
  function EncodeTopics(topics: seq<string>): string {
    if topics == [] then NONE_REPLY else Join(",", topics)
  }

  /** The reply "NONE" holds no comma, so as a comma list it is one topic. */
  lemma SplitNoneReply()
    ensures Split(NONE_REPLY, ",") == [NONE_REPLY]
  {
    forall i ensures !OccursAt(NONE_REPLY, ",", i) {
      OccursCharAt(NONE_REPLY, ',', i);
    }
  }

  /** Reading a well-formed reply gives back the topics it lists, in order and
      unchecked against the syllabus; the one list that cannot be sent is the
      single topic "NONE". */
  lemma ParseTopicsRoundTrip(topics: seq<string>)
    requires forall k :: 0 <= k < |topics| ==> IsStripped(topics[k]) && Excludes(topics[k], ',')
    requires topics != [NONE_REPLY]
    ensures ParseTopics(EncodeTopics(topics)) == topics
  {
    if topics != [] {
      var reply := Join(",", topics);
      JoinStripped(",", topics);
      StrippedIsFixed(reply);
      SplitJoin(topics, ',');
      SplitNoneReply();
      assert reply != NONE_REPLY;
      CommaListRoundTrip(topics);
    }
  }

  /** The "NONE" test is exact: other spellings are returned as topics. */
  lemma NoneIsCaseSensitive()
    ensures ParseTopics("None") == ["None"]
  {
    assert Join(",", ["None"]) == "None";
    ParseTopicsRoundTrip(["None"]);
  }

  lemma NoneWithPeriodIsATopic()
    ensures ParseTopics("NONE.") == ["NONE."]
  {
    assert Join(",", ["NONE."]) == "NONE.";
    ParseTopicsRoundTrip(["NONE."]);
  }

  /** Whitespace around "NONE" does not matter. */
  lemma PaddedNoneIsNoTopic()
    ensures ParseTopics(" NONE\n") == []
  {
    StripIsUniqueTrim(" NONE\n", 1, 5);
    assert " NONE\n"[1..5] == NONE_REPLY;
  }
}

=== FILE: teach.dfy ===
/** The teaching flow: walking a learner through the syllabus topic by
    topic, reacting to what they type. Lesson, example, practice and answer
    texts come from a language model, and the deck material from retrieval;
    both are the function fields of `Services`. Every step takes a session
    and returns the updated session with the response. */
module Teach {
  import opened Wrappers
  import opened Text
  import S = Session

  /** The outside calls the flow makes. */
  datatype Services = Services(
    /** retrieve_for_topic(user, deck, topic): imported from the retrieval
        module, which does not define it, so this is the context it is meant
        to return */
    retrieve: (string, string, Option<string>) -> string,
    /** generate_lesson(topic, context, depth, previous, request type) */
    lesson: (string, string, string, Option<string>, string) -> string,
    /** generate_topic_example(topic, context) */
    examples: (Option<string>, string) -> string,
    /** format_practice_set(generate_practice_set(context, topic, depth)) */
    practice: (string, Option<string>, string) -> string,
    /** the model's answer to (topic, conversation, material, question) */
    answer: (Option<string>, string, string, string) -> string)

  /** TeachingResponse; `progress` is the teaching state the dictionary is built from. */
  datatype TeachingResponse = TeachingResponse(
    message: string, topic: Option<string>, actionTaken: string, mode: string,
    progress: S.TeachingState, awaitingInput: bool, prompt: Option<string>)

  type Step = (S.Session, TeachingResponse)

  const RULE: string := Repeat('━', 40)

  /** get_action_prompt. */
  const ACTION_PROMPT: string :=
    "\n" + RULE + "\n\U{1F4DA} What would you like to do?\n" + RULE + "\n"
    + "• \"next\" → Move to next topic\n"
    + "• \"more\" → Explain in more depth  \n"
    + "• \"slower\" → Explain in simpler terms\n"
    + "• \"practice\" → Get practice questions\n"
    + "• \"example\" → Show me an example\n"
    + "• \"repeat\" → Explain this topic again\n"
    + "• Or ask any specific question about this topic\n" + RULE + "\n"

  const PRACTICE_PROMPT: string :=
    "\n" + RULE + "\nTry to solve these! When ready:\n"
    + "• \"next\" → Continue to next topic\n"
    + "• \"more practice\" → Get more questions\n"
    + "• \"explain\" → Go back to explanation\n"
    + "• Or ask for help with a specific question\n" + RULE + "\n"

  const ALL_DONE: string := "\U{1F389} Congratulations! You've completed all topics in the syllabus!"
  const NO_SESSION: string := "No teaching session to resume. Use 'start teaching' to begin."

  /** Python's `str()` of an optional string. */
  function Show(t: Option<string>): string {
    if t.Some? then t.value else "None"
  }

  /** Python's truth value of an optional string. */
  predicate Truthy(t: Option<string>) {
    t.Some? && t.value != ""
  }

  /** The index of the first occurrence of `t` in `topics` (`list.index`). */
  function IndexOf(topics: seq<string>, t: string): (r: Option<nat>)
    ensures r.Some? ==> (&& r.value < |topics| && topics[r.value] == t
                         && forall j :: 0 <= j < r.value ==> topics[j] != t)
    ensures r.None? <==> t !in topics
    decreases |topics|
  {
    if |topics| == 0 then None
    else if topics[0] == t then Some(0)
    else match IndexOf(topics[1..], t)
      case None => None
      case Some(i) => Some(i + 1)
  }

  predicate IsLessonOn(m: S.Message, topic: string) {
    m.messageType == "lesson" && m.topic == Some(topic)
  }

  /** The content of the latest lesson on `topic`, searching from the end. */
  function LastLesson(msgs: seq<S.Message>, topic: string): (r: Option<string>)
    ensures r.None? <==> forall k :: 0 <= k < |msgs| ==> !IsLessonOn(msgs[k], topic)
    decreases |msgs|
  {
    if |msgs| == 0 then None
    else if IsLessonOn(msgs[|msgs| - 1], topic) then Some(msgs[|msgs| - 1].content)
    else LastLesson(msgs[..|msgs| - 1], topic)
  }

  /** The lesson found is the content of a lesson on the topic after which
      no other lesson on it follows. */
  lemma {:induction false} LastLessonIsLatest(msgs: seq<S.Message>, topic: string) returns (k: nat)
    requires LastLesson(msgs, topic).Some?
    ensures k < |msgs| && IsLessonOn(msgs[k], topic) && msgs[k].content == LastLesson(msgs, topic).value
    ensures forall j :: k < j < |msgs| ==> !IsLessonOn(msgs[j], topic)
    decreases |msgs|
  {
    if IsLessonOn(msgs[|msgs| - 1], topic) {
      k := |msgs| - 1;
    } else {
      var init := msgs[..|msgs| - 1];
      k := LastLessonIsLatest(init, topic);
      assert msgs[k] == init[k];
      forall j | k < j < |msgs|
        ensures !IsLessonOn(msgs[j], topic)
      {
        if j < |msgs| - 1 {
          assert msgs[j] == init[j];
        }
      }
    }
  }

  /** `a` is `b` with messages added at the end. */
  predicate Extends(a: seq<S.Message>, b: seq<S.Message>) {
    b <= a
  }

  /** Appends an assistant message of type `kind` and drops the message itself. */
  function Say(s: S.Session, content: string, topic: Option<string>, kind: string): (r: S.Session)
    ensures |r.messages| == |s.messages| + 1 && Extends(r.messages, s.messages)
    ensures r.messages[|s.messages|].role == "assistant" && r.messages[|s.messages|].messageType == kind
    ensures r.teachingState == s.teachingState && r.mode == s.mode
  {
    s.AddMessage("assistant", content, topic, kind).0
  }

  const LIMITED_NOTE: string := "\n(Limited material available for this topic)"

  /** The stand-in context when retrieval finds nothing. */
  function LimitedMaterial(topic: string): string {
    "Topic: " + topic + LIMITED_NOTE
  }

  /** teach_current_topic. */
  function TeachCurrentTopic(s: S.Session, requestType: string, svc: Services): (r: Step)
    ensures Extends(r.0.messages, s.messages)
    ensures !Truthy(s.teachingState.CurrentTopic()) ==>
      r.0 == s && r.1.actionTaken == "completed" && !r.1.awaitingInput && r.1.topic == Some("")
    ensures Truthy(s.teachingState.CurrentTopic()) ==>
      && r.0.teachingState == s.teachingState
      && r.0.mode == S.AwaitingInput
      && |r.0.messages| == |s.messages| + 1 && Extends(r.0.messages, s.messages)
      && IsLessonOn(r.0.messages[|s.messages|], s.teachingState.CurrentTopic().value)
      && r.1.topic == s.teachingState.CurrentTopic()
      && r.1.actionTaken == "taught_" + requestType && r.1.awaitingInput
  {
    var state := s.teachingState;
    var topic := state.CurrentTopic();
    if !Truthy(topic) then
      (s, TeachingResponse(ALL_DONE, Some(""), "completed", S.TeachingMode.Idle.Value(), state, false, None))
    else
      var t := topic.value;
      var found := svc.retrieve(s.userId, s.deckId, topic);
      var context := if found == "" then LimitedMaterial(t) else found;
      var previous := if requestType == "deeper" || requestType == "simpler" then LastLesson(s.messages, t) else None;
      var lesson := svc.lesson(t, context, state.currentDepth, previous, requestType);
      var s1 := Say(s, lesson, topic, "lesson").(mode := S.AwaitingInput);
      (s1, TeachingResponse(lesson, topic, "taught_" + requestType, s1.mode.Value(), state, true, Some(ACTION_PROMPT)))
  }

  /** start_teaching_session: a fresh state at the first topic, or at the
      first occurrence of the starting topic when one is given and found. */
  function StartState(topics: seq<string>, startingTopic: Option<string>, pace: string): (st: S.TeachingState)
    ensures st.syllabusTopics == topics && st.topicsCompleted == [] && st.topicsNeedingReview == []
    ensures st.currentDepth == pace && st.isActive
    ensures Truthy(startingTopic) && startingTopic.value in topics ==>
      && st.currentTopicIndex < |topics| && topics[st.currentTopicIndex] == startingTopic.value
      && forall j :: 0 <= j < st.currentTopicIndex ==> topics[j] != startingTopic.value
    ensures !(Truthy(startingTopic) && startingTopic.value in topics) ==> st.currentTopicIndex == 0
  {
    var idx := if Truthy(startingTopic) then IndexOf(topics, startingTopic.value).GetOr(0) else 0;
    S.TeachingState(topics, idx, [], [], pace, true)
  }

  const STARTING: string := "\U{1F4DA} Starting teaching session! We'll cover "

  function StartMessage(n: nat): string {
    STARTING + NatToString(n) + " topics."
  }

  /** start_teaching_session. */
  function StartTeachingSession(s: S.Session, topics: seq<string>, startingTopic: Option<string>,
                                pace: string, svc: Services): (r: Step)
    ensures Extends(r.0.messages, s.messages) && |r.0.messages| > |s.messages|
    ensures r.0.teachingState == StartState(topics, startingTopic, pace)
    ensures r.0.messages[|s.messages|].role == "assistant" && r.0.messages[|s.messages|].content == StartMessage(|topics|)
  {
    var s1 := s.(teachingState := StartState(topics, startingTopic, pace), mode := S.Teaching);
    var s2 := Say(s1, StartMessage(|topics|), None, "system");
    TeachCurrentTopic(s2, "initial", svc)
  }

  /** Starting leaves the learner at the chosen topic with a fresh, active
      state, waiting for input when there is a topic to teach and still
      teaching otherwise. */
  lemma StartTeaching(s: S.Session, topics: seq<string>, startingTopic: Option<string>, pace: string, svc: Services)
    ensures var st := StartTeachingSession(s, topics, startingTopic, pace, svc).0;
      && st.teachingState == StartState(topics, startingTopic, pace)
      && st.mode == (if Truthy(st.teachingState.CurrentTopic()) then S.AwaitingInput else S.Teaching)
      && |st.messages| == |s.messages| + (if Truthy(st.teachingState.CurrentTopic()) then 2 else 1)
  {
  }

  /** One bullet line per topic to review. */
  function ReviewLines(review: seq<Option<string>>): (r: seq<string>)
    ensures |r| == |review|
    decreases |review|
  {
    if |review| == 0 then [] else ["  • " + Show(review[0])] + ReviewLines(review[1..])
  }

  const SUMMARY_HEAD: string := "\n\U{1F389} CONGRATULATIONS! You've completed the entire syllabus!\n"
  const SUMMARY_COVERED: string := "\n\n\U{1F4CA} Session Summary:\n• Topics Covered: "
  const SUMMARY_REVIEW_COUNT: string := "\n• Topics Needing Review: "
  const SUMMARY_REVIEW_HEAD: string := "\U{1F504} Topics to Review:"
  const SUMMARY_TAIL: string :=
    "\n\nWhat would you like to do next?\n• \"start teaching\" - Go through syllabus again\n"
    + "• \"practice\" - Get practice questions\n• Or ask any question about the topics\n"

  /** The text shown once the last topic is passed: the counts of covered
      topics and topics to review, then the review list when there is one. */
  function CompletionSummary(st: S.TeachingState): string {
    var review := st.topicsNeedingReview;
    SUMMARY_HEAD + RULE + SUMMARY_COVERED + NatToString(|st.topicsCompleted|)
      + SUMMARY_REVIEW_COUNT + NatToString(|review|) + "\n\n"
      + (if review != [] then SUMMARY_REVIEW_HEAD else "") + "\n"
      + (if review != [] then Join("\n", ReviewLines(review)) else "")
      + SUMMARY_TAIL
  }

  /** The state after passing the current topic: a present, non-empty
      topic is marked completed and the index moves on by one. */
  function Advance(st: S.TeachingState): (r: S.TeachingState)
    ensures r.currentTopicIndex == st.currentTopicIndex + 1
    ensures r.topicsCompleted == st.topicsCompleted
      + (if Truthy(st.CurrentTopic()) then [st.CurrentTopic().value] else [])
    ensures r.syllabusTopics == st.syllabusTopics && r.topicsNeedingReview == st.topicsNeedingReview
    ensures r.currentDepth == st.currentDepth
  {
    var completed := if Truthy(st.CurrentTopic()) then st.topicsCompleted + [st.CurrentTopic().value] else st.topicsCompleted;
    st.(topicsCompleted := completed, currentTopicIndex := st.currentTopicIndex + 1)
  }

  const MOVING_ON: string := "\n✅ Great! Moving on to: **"

  function TransitionMessage(topic: Option<string>): string {
    MOVING_ON + Show(topic) + "**\n"
  }

  /** move_to_next_topic. */
  function MoveToNextTopic(s: S.Session, svc: Services): (r: Step)
    ensures Extends(r.0.messages, s.messages)
    ensures var adv := Advance(s.teachingState);
      adv.currentTopicIndex >= |adv.syllabusTopics| ==>
        && r.0.teachingState == adv.(isActive := false)
        && r.0.mode == S.Idle
        && r.1.actionTaken == "completed_syllabus" && !r.1.awaitingInput
  {
    var st := Advance(s.teachingState);
    if st.currentTopicIndex >= |st.syllabusTopics| then
      var st1 := st.(isActive := false);
      var summary := CompletionSummary(st1);
      var s1 := Say(s.(teachingState := st1, mode := S.Idle), summary, None, "system");
      (s1, TeachingResponse(summary, Some(""), "completed_syllabus", S.TeachingMode.Idle.Value(), st1, false, None))
    else
      var s1 := Say(s.(teachingState := st), TransitionMessage(st.CurrentTopic()), None, "system");
      TeachCurrentTopic(s1, "initial", svc)
  }

  /** Before the last topic, moving on teaches the next topic. */
  lemma MoveToNextTeachesNext(s: S.Session, svc: Services)
    requires s.teachingState.currentTopicIndex + 1 < |s.teachingState.syllabusTopics|
    requires s.teachingState.syllabusTopics[s.teachingState.currentTopicIndex + 1] != ""
    ensures var r := MoveToNextTopic(s, svc);
      && r.0.teachingState == Advance(s.teachingState)
      && r.0.mode == S.AwaitingInput
      && r.1.topic == Some(s.teachingState.syllabusTopics[s.teachingState.currentTopicIndex + 1])
      && r.1.actionTaken == "taught_initial"
  {
  }

  /** Completed topics are exactly the syllabus before the index, as long
      as no topic is empty. */
  ghost predicate Walked(st: S.TeachingState) {
    st.topicsCompleted == st.syllabusTopics[..Min(st.currentTopicIndex, |st.syllabusTopics|)]
  }

  function Min(a: nat, b: nat): nat {
    if a <= b then a else b
  }

  predicate NoEmptyTopic(topics: seq<string>) {
    forall k :: 0 <= k < |topics| ==> topics[k] != ""
  }

  /** Moving on keeps the completed list equal to the topics passed. */
  lemma AdvanceWalks(st: S.TeachingState)
    requires Walked(st) && NoEmptyTopic(st.syllabusTopics)
    ensures Walked(Advance(st))
  {
    var n := |st.syllabusTopics|;
    if st.currentTopicIndex < n {
      assert st.syllabusTopics[..st.currentTopicIndex + 1]
        == st.syllabusTopics[..st.currentTopicIndex] + [st.syllabusTopics[st.currentTopicIndex]];
    }
  }

  /** Starting at the first topic and saying "next" `k` times. */
  function AdvanceTimes(st: S.TeachingState, k: nat): S.TeachingState
    decreases k
  {
    if k == 0 then st else AdvanceTimes(Advance(st), k - 1)
  }

  /** Going through a syllabus of non-empty topics from the start completes
      every topic, once each and in order. */
  lemma {:induction false} WalkCompletesSyllabus(st: S.TeachingState, k: nat)
    requires Walked(st) && NoEmptyTopic(st.syllabusTopics)
    ensures Walked(AdvanceTimes(st, k))
    ensures AdvanceTimes(st, k).currentTopicIndex == st.currentTopicIndex + k
    ensures AdvanceTimes(st, k).syllabusTopics == st.syllabusTopics
    decreases k
  {
    if k > 0 {
      AdvanceWalks(st);
      WalkCompletesSyllabus(Advance(st), k - 1);
    }
  }

  /** From a fresh start, going through all `n` topics completes exactly the syllabus. */
  lemma FullWalk(topics: seq<string>, pace: string)
    requires NoEmptyTopic(topics)
    ensures AdvanceTimes(StartState(topics, None, pace), |topics|).topicsCompleted == topics
  {
    var st := StartState(topics, None, pace);
    assert Walked(st);
    WalkCompletesSyllabus(st, |topics|);
    assert topics[..|topics|] == topics;
  }

  /** provide_examples. */
  function ProvideExamples(s: S.Session, svc: Services): (r: Step)
    ensures Extends(r.0.messages, s.messages)
    ensures r.0.teachingState == s.teachingState && r.0.mode == S.AwaitingInput
    ensures |r.0.messages| == |s.messages| + 1 && r.1.actionTaken == "provided_examples" && r.1.awaitingInput
  {
    var topic := s.teachingState.CurrentTopic();
    var examples := svc.examples(topic, svc.retrieve(s.userId, s.deckId, topic));
    var s1 := Say(s, examples, topic, "lesson").(mode := S.AwaitingInput);
    (s1, TeachingResponse(examples, topic, "provided_examples", s1.mode.Value(), s.teachingState, true, Some(ACTION_PROMPT)))
  }

  /** provide_practice. */
  function ProvidePractice(s: S.Session, svc: Services): (r: Step)
    ensures Extends(r.0.messages, s.messages)
    ensures r.0.teachingState == s.teachingState && r.0.mode == S.AwaitingInput
    ensures |r.0.messages| == |s.messages| + 1 && r.0.messages[|s.messages|].messageType == "practice"
    ensures r.1.actionTaken == "provided_practice" && r.1.awaitingInput && r.1.prompt == Some(PRACTICE_PROMPT)
  {
    var topic := s.teachingState.CurrentTopic();
    var text := svc.practice(svc.retrieve(s.userId, s.deckId, topic), topic, s.teachingState.currentDepth);
    var s1 := Say(s, text, topic, "practice").(mode := S.AwaitingInput);
    (s1, TeachingResponse(text, topic, "provided_practice", s1.mode.Value(), s.teachingState, true, Some(PRACTICE_PROMPT)))
  }

  /** answer_question_in_context: the conversation context is read after
      the question was logged, so it includes the question. */
  function AnswerQuestion(s: S.Session, question: string, svc: Services): (r: Step)
    ensures Extends(r.0.messages, s.messages)
    ensures r.0.teachingState == s.teachingState && r.0.mode == S.AwaitingInput
    ensures |r.0.messages| == |s.messages| + 1 && r.1.actionTaken == "answered_question" && r.1.awaitingInput
  {
    var topic := s.teachingState.CurrentTopic();
    var answer := svc.answer(topic, S.ConversationContext(s), svc.retrieve(s.userId, s.deckId, topic), question);
    var s1 := Say(s, answer, topic, "chat").(mode := S.AwaitingInput);
    (s1, TeachingResponse(answer, topic, "answered_question", s1.mode.Value(), s.teachingState, true, Some(ACTION_PROMPT)))
  }

  /** The first topic, in syllabus order, whose lower-case form occurs in
      the lower-cased input. */
  function FindTopicIn(topics: seq<string>, inputLower: string, from: nat): (r: Option<nat>)
    requires from <= |topics|
    ensures r.Some? ==> (&& from <= r.value < |topics|
                         && Contains(inputLower, Lower(topics[r.value]))
                         && forall j :: from <= j < r.value ==> !Contains(inputLower, Lower(topics[j])))
    ensures r.None? ==> forall j :: from <= j < |topics| ==> !Contains(inputLower, Lower(topics[j]))
    decreases |topics| - from
  {
    if from == |topics| then None
    else if Contains(inputLower, Lower(topics[from])) then Some(from)
    else FindTopicIn(topics, inputLower, from + 1)
  }

  /** The list of topics numbered from 1, shown when no topic matched. */
  function TopicList(topics: seq<string>): string {
    Join("\n", TopicLines(topics, 1))
  }

  /** The topics as lines numbered from `from`. */
  function TopicLines(topics: seq<string>, from: nat): (r: seq<string>)
    ensures |r| == |topics|
    decreases |topics|
  {
    if |topics| == 0 then [] else ["  " + NatToString(from) + ". " + topics[0]] + TopicLines(topics[1..], from + 1)
  }

  const JUMPING_TO: string := "⏭️ Jumping to: **"

  function JumpMessage(topic: string): string {
    JUMPING_TO + topic + "**\n"
  }

  /** The text shown when no topic matched. */
  const NOT_FOUND_HEAD: string := "I couldn't find that topic. Available topics:\n\n"
  const NOT_FOUND_TAIL: string :=
    "\n\nSay \"skip to [topic name]\" or \"go to [topic name]\" to jump to a specific topic.\n"

  function NotFoundMessage(topics: seq<string>): string {
    NOT_FOUND_HEAD + TopicList(topics) + NOT_FOUND_TAIL
  }

  /** skip_to_topic. */
  function SkipToTopic(s: S.Session, input: string, svc: Services): (r: Step)
    ensures Extends(r.0.messages, s.messages)
    ensures var topics := s.teachingState.syllabusTopics;
      match FindTopicIn(topics, Lower(input), 0)
      case Some(i) => r.0.teachingState == s.teachingState.(currentTopicIndex := i)
      case None =>
        && r.0.teachingState == s.teachingState && r.0.mode == s.mode
        && r.1.actionTaken == "topic_not_found" && r.1.prompt.None?
        && r.1.topic == Some(s.teachingState.CurrentTopic().GetOr(""))
        && r.1.message == NotFoundMessage(topics)
  {
    var st := s.teachingState;
    match FindTopicIn(st.syllabusTopics, Lower(input), 0)
    case Some(i) =>
      var s1 := Say(s.(teachingState := st.(currentTopicIndex := i)), JumpMessage(st.syllabusTopics[i]), None, "system");
      TeachCurrentTopic(s1, "initial", svc)
    case None =>
      var msg := NotFoundMessage(st.syllabusTopics);
      var s1 := Say(s, msg, None, "system");
      (s1, TeachingResponse(msg, Some(st.CurrentTopic().GetOr("")), "topic_not_found", s.mode.Value(), st, true, None))
  }

  /** The text shown when teaching is paused. */
  const PAUSED_HEAD: string := "\n\U{1F4DA} Teaching session paused.\n"
  const PAUSED_TOPICS: string := " topics\nCurrent topic: "
  const PAUSED_COMPLETED: string := "\nTopics completed: "
  const PAUSED_OPTIONS: string :=
    "\n\nYou can:\n• \"continue teaching\" - Resume from where you left off\n"
    + "• \"start over\" - Start from the beginning\n• Ask any question about the material\n"

  /** The text shown when teaching is paused: the position, the current
      topic and the number of topics completed. */
  function PausedMessage(st: S.TeachingState): string {
    PAUSED_HEAD + RULE + "\n\nProgress: "
      + NatToString(st.currentTopicIndex) + "/" + NatToString(|st.syllabusTopics|) + PAUSED_TOPICS
      + Show(st.CurrentTopic()) + PAUSED_COMPLETED + NatToString(|st.topicsCompleted|)
      + PAUSED_OPTIONS + RULE + "\n"
  }

  /** exit_teaching_mode. */
  function ExitTeachingMode(s: S.Session): (r: Step)
    ensures Extends(r.0.messages, s.messages)
    ensures r.0.teachingState == s.teachingState.(isActive := false)
    ensures r.0.mode == S.FreeChat && r.1.actionTaken == "exited_teaching" && !r.1.awaitingInput
  {
    var st := s.teachingState.(isActive := false);
    var msg := PausedMessage(st);
    var s1 := Say(s.(teachingState := st, mode := S.FreeChat), msg, None, "system");
    (s1, TeachingResponse(msg, Some(st.CurrentTopic().GetOr("")),
                          "exited_teaching", S.TeachingMode.FreeChat.Value(), st, false, None))
  }

  const RESUMING_FROM: string := "\U{1F4DA} Resuming teaching from: **"

  function ResumeMessage(topic: Option<string>): string {
    RESUMING_FROM + Show(topic) + "**\n"
  }

  /** resume_teaching. */
  function ResumeTeaching(s: S.Session, svc: Services): (r: Step)
    ensures Extends(r.0.messages, s.messages)
    ensures s.teachingState.syllabusTopics == [] ==> r.0 == s && r.1.actionTaken == "no_session"
    ensures s.teachingState.syllabusTopics != [] ==>
      r.0.teachingState == s.teachingState.(isActive := true)
  {
    var st := s.teachingState;
    if st.syllabusTopics == [] then
      (s, TeachingResponse(NO_SESSION, Some(""), "no_session", s.mode.Value(), st, false, None))
    else
      var s1 := Say(s.(teachingState := st.(isActive := true), mode := S.Teaching),
                    ResumeMessage(st.CurrentTopic()), None, "system");
      TeachCurrentTopic(s1, "initial", svc)
  }

  /** Pausing and resuming returns to the same topic with the same progress. */
  lemma ExitThenResume(s: S.Session, svc: Services)
    requires s.teachingState.syllabusTopics != []
    ensures var paused := ExitTeachingMode(s).0;
      ResumeTeaching(paused, svc).0.teachingState == s.teachingState.(isActive := true)
  {
  }

  /** The action handlers of handle_teaching_input, after the learner's
      message has been logged in `s`; `topic` is the current topic read
      before logging. */
  function Dispatch(s: S.Session, input: string, action: S.UserAction, topic: Option<string>,
                    svc: Services): (r: Step)
    ensures Extends(r.0.messages, s.messages)
  {
    var st := s.teachingState;
    match action
    case NextTopic => MoveToNextTopic(s, svc)
    case ExplainMore => TeachCurrentTopic(s, "deeper", svc)
    case ExplainSlower =>
      TeachCurrentTopic(s.(teachingState := st.(topicsNeedingReview := st.topicsNeedingReview + [topic])), "simpler", svc)
    case Example => ProvideExamples(s, svc)
    case Practice => ProvidePractice(s, svc)
    case Repeat => TeachCurrentTopic(s, "initial", svc)
    case Exit => ExitTeachingMode(s)
    case Skip => SkipToTopic(s, input, svc)
    case Question => AnswerQuestion(s, input, svc)
  }

  /** handle_teaching_input: whatever the action, the first message added
      is the learner's own. */
  function HandleTeachingInput(s: S.Session, input: string, svc: Services): (r: Step)
    ensures |r.0.messages| > |s.messages| && Extends(r.0.messages, s.messages)
    ensures r.0.messages[|s.messages|].role == "user" && r.0.messages[|s.messages|].content == input
  {
    var topic := s.teachingState.CurrentTopic();
    var (s1, m) := s.AddMessage("user", input, topic, "chat");
    var r := Dispatch(s1, input, S.ParseUserAction(input), topic, svc);
    assert r.0.messages[|s.messages|] == s1.messages[|s.messages|] == m;
    r
  }

  /** The learner's message is logged with the current topic, and the
      parsed action picks the handler that answers it. */
  lemma HandleRoutesByAction(s: S.Session, input: string, svc: Services)
    ensures var topic := s.teachingState.CurrentTopic();
            var s1 := s.AddMessage("user", input, topic, "chat").0;
            var st := s1.teachingState;
            var r := HandleTeachingInput(s, input, svc);
            match S.ParseUserAction(input)
            case NextTopic => r == MoveToNextTopic(s1, svc)
            case ExplainMore => r == TeachCurrentTopic(s1, "deeper", svc)
            case ExplainSlower =>
              r == TeachCurrentTopic(s1.(teachingState := st.(topicsNeedingReview := st.topicsNeedingReview + [topic])),
                                     "simpler", svc)
            case Example => r == ProvideExamples(s1, svc)
            case Practice => r == ProvidePractice(s1, svc)
            case Repeat => r == TeachCurrentTopic(s1, "initial", svc)
            case Exit => r == ExitTeachingMode(s1)
            case Skip => r == SkipToTopic(s1, input, svc)
            case Question => r == AnswerQuestion(s1, input, svc)
  {
  }

  /** "Next" moves the lesson on by one topic and marks the topic just
      taught as completed, whether or not the syllabus is finished. */
  lemma NextCommandAdvances(s: S.Session, input: string, svc: Services)
    requires S.ParseUserAction(input) == S.NextTopic
    ensures var st := s.teachingState;
            var r := HandleTeachingInput(s, input, svc).0.teachingState;
            && r.currentTopicIndex == st.currentTopicIndex + 1
            && r.topicsCompleted == Advance(st).topicsCompleted
  {
    HandleRoutesByAction(s, input, svc);
  }

  /** Asking for a simpler explanation puts the current topic on the review list. */
  lemma SlowerMarksReview(s: S.Session, input: string, svc: Services)
    requires S.ParseUserAction(input) == S.ExplainSlower
    ensures HandleTeachingInput(s, input, svc).0.teachingState.topicsNeedingReview
      == s.teachingState.topicsNeedingReview + [s.teachingState.CurrentTopic()]
  {
  }
}

=== FILE: text.dfy ===
/** Python `str` operations the application relies on, over `seq<char>`.
    Each function states the Python behaviour it stands for; the lemmas at the end
    connect the operations to independent characterisations. */
module Text {

  /** One byte of a Python `bytes` value. */
  newtype byte = x: int | 0 <= x < 256

  /** Python's `str.isspace()`; the same set is what `\s` matches in a `re`
      pattern over `str`, and what argument-less `strip()`/`split()` remove. */
  predicate IsSpace(c: char) {
    var n := c as int;
    || n == 0x20 || (0x09 <= n <= 0x0D) || (0x1C <= n <= 0x1F) || n == 0x85 || n == 0xA0
    || n == 0x1680 || (0x2000 <= n <= 0x200A) || n == 0x2028 || n == 0x2029
    || n == 0x202F || n == 0x205F || n == 0x3000
  }

  predicate AllSpace(s: string) {
    forall k :: 0 <= k < |s| ==> IsSpace(s[k])
  }

  /** A slice holding a non-whitespace character is not blank. */
  lemma SliceNotAllSpace(s: string, a: int, b: int, i: int)
    requires 0 <= a <= i < b <= |s| && !IsSpace(s[i])
    ensures !AllSpace(s[a..b])
  {
    assert s[a..b][i - a] == s[i];
  }

  // ---------------------------------------------------------------------------
  // strip
  // ---------------------------------------------------------------------------

  /** Index of the first non-whitespace character, or |s| when there is none. */
  function StripStart(s: string): (i: nat)
    ensures i <= |s|
    ensures i < |s| ==> !IsSpace(s[i])
  {
    if |s| == 0 || !IsSpace(s[0]) then 0 else 1 + StripStart(s[1..])
  }

  /** Everything StripStart skips is whitespace. */
  lemma {:induction false} StripStartSkipsSpace(s: string)
    ensures forall k :: 0 <= k < StripStart(s) ==> IsSpace(s[k])
    decreases |s|
  {
    if |s| > 0 && IsSpace(s[0]) {
      StripStartSkipsSpace(s[1..]);
      assert forall k :: 1 <= k < |s| ==> s[1..][k - 1] == s[k];
    }
  }

  /** One past the last non-whitespace character, or 0 when there is none. */
  function StripEnd(s: string): (j: nat)
    ensures j <= |s|
    ensures 0 < j ==> !IsSpace(s[j - 1])
  {
    if |s| == 0 || !IsSpace(s[|s| - 1]) then |s| else StripEnd(s[..|s| - 1])
  }

  /** Everything StripEnd cuts off is whitespace. */
  lemma {:induction false} StripEndSkipsSpace(s: string)
    ensures forall k :: StripEnd(s) <= k < |s| ==> IsSpace(s[k])
    decreases |s|
  {
    if |s| > 0 && IsSpace(s[|s| - 1]) {
      StripEndSkipsSpace(s[..|s| - 1]);
    }
  }

  /** No whitespace at either end: `strip()` leaves such a string unchanged. */
  predicate IsStripped(s: string) {
    s == [] || (!IsSpace(s[0]) && !IsSpace(s[|s| - 1]))
  }

  /** Python's `s.strip()`: the slice left after removing leading and trailing whitespace. */
  function Strip(s: string): (r: string)
    ensures IsStripped(r)
    ensures r == [] <==> AllSpace(s)
  {
    StripStartSkipsSpace(s);
    StripEndSkipsSpace(s);
    var i := StripStart(s);
    if i == |s| then [] else s[i..StripEnd(s)]
  }

  /** Strip keeps the slice between the leading and the trailing whitespace. */
  lemma StripSpec(s: string)
    ensures StripStart(s) + |Strip(s)| <= |s|
    ensures Strip(s) == s[StripStart(s)..StripStart(s) + |Strip(s)|]
    ensures AllSpace(s[..StripStart(s)]) && AllSpace(s[StripStart(s) + |Strip(s)|..])
  {
    StripStartSkipsSpace(s);
    StripEndSkipsSpace(s);
  }

  /** StripStart is the first position that is not whitespace. */
  lemma {:induction false} StripStartAt(s: string, i: nat)
    requires i <= |s| && (forall k :: 0 <= k < i ==> IsSpace(s[k]))
    requires i < |s| ==> !IsSpace(s[i])
    ensures StripStart(s) == i
    decreases i
  {
    if i > 0 {
      assert IsSpace(s[0]);
      StripStartAt(s[1..], i - 1);
    }
  }

  /** StripEnd is one past the last position that is not whitespace. */
  lemma {:induction false} StripEndAt(s: string, j: nat)
    requires j <= |s| && (forall k :: j <= k < |s| ==> IsSpace(s[k]))
    requires 0 < j ==> !IsSpace(s[j - 1])
    ensures StripEnd(s) == j
    decreases |s| - j
  {
    if j < |s| {
      assert IsSpace(s[|s| - 1]);
      StripEndAt(s[..|s| - 1], j);
    }
  }

  /** Any slice whose cut-off ends are whitespace and whose own ends are not is the strip. */
  lemma StripIsUniqueTrim(s: string, i: nat, j: nat)
    requires i <= j <= |s|
    requires AllSpace(s[..i]) && AllSpace(s[j..])
    requires i < j ==> !IsSpace(s[i]) && !IsSpace(s[j - 1])
    ensures Strip(s) == s[i..j]
  {
    assert forall k :: 0 <= k < i ==> IsSpace(s[k]) by {
      forall k | 0 <= k < i ensures IsSpace(s[k]) { assert s[..i][k] == s[k]; }
    }
    assert forall k :: j <= k < |s| ==> IsSpace(s[k]) by {
      forall k | j <= k < |s| ensures IsSpace(s[k]) { assert s[j..][k - j] == s[k]; }
    }
    if i < j {
      StripStartAt(s, i);
      StripEndAt(s, j);
    } else {
      assert AllSpace(s);
    }
  }

  lemma StripIdempotent(s: string)
    ensures Strip(Strip(s)) == Strip(s)
  {
    var r := Strip(s);
    StripIsUniqueTrim(r, 0, |r|);
    assert r[0..|r|] == r;
  }

  // ---------------------------------------------------------------------------
  // lower / prefix / substring
  // ---------------------------------------------------------------------------

  /** Lower-casing of one character; only the ASCII letters are mapped. */
  function LowerChar(c: char): char {
    if 'A' <= c <= 'Z' then (c as int + 32) as char else c
  }

  function Lower(s: string): (r: string)
    ensures |r| == |s|
  {
    seq(|s|, k requires 0 <= k < |s| => LowerChar(s[k]))
  }

  lemma LowerIdempotent(s: string)
    ensures Lower(Lower(s)) == Lower(s)
  {
  }

  predicate StartsWith(s: string, p: string) {
    |p| <= |s| && s[..|p|] == p
  }

  predicate OccursAt(s: string, pat: string, i: int) {
    0 <= i && i + |pat| <= |s| && s[i..i + |pat|] == pat
  }

  /** Python's `pat in s`. */
  predicate Contains(s: string, pat: string)
    decreases |s|
  {
    StartsWith(s, pat) || (|s| > 0 && Contains(s[1..], pat))
  }

  lemma {:induction false} ContainsIffOccurs(s: string, pat: string)
    ensures Contains(s, pat) <==> exists i :: OccursAt(s, pat, i)
    decreases |s|
  {
    if StartsWith(s, pat) {
      assert OccursAt(s, pat, 0);
    } else if |s| > 0 {
      ContainsIffOccurs(s[1..], pat);
      if Contains(s[1..], pat) {
        var i :| OccursAt(s[1..], pat, i);
        assert s[1..][i..i + |pat|] == s[i + 1..i + 1 + |pat|];
        assert OccursAt(s, pat, i + 1);
      }
      if i :| OccursAt(s, pat, i) {
        assert i != 0;
        assert s[1..][i - 1..i - 1 + |pat|] == s[i..i + |pat|];
        assert OccursAt(s[1..], pat, i - 1);
      }
    }
  }

  /** A pattern with a character that `s` lacks does not occur in `s`. */
  lemma MissingCharNotContained(s: string, pat: string, j: nat)
    requires j < |pat| && pat[j] !in s
    ensures !Contains(s, pat)
  {
    ContainsIffOccurs(s, pat);
    forall i | 0 <= i && i + |pat| <= |s|
      ensures !OccursAt(s, pat, i)
    {
      assert s[i..i + |pat|][j] == s[i + j];
    }
  }

  /** Python's `s.find(pat, start)`: the first occurrence at or after `start`, or -1. */
  function Find(s: string, pat: string, start: nat): (r: int)
    requires |pat| > 0
    ensures r == -1 || (start <= r && OccursAt(s, pat, r))
    ensures r == -1 ==> forall k :: start <= k ==> !OccursAt(s, pat, k)
    ensures r != -1 ==> forall k :: start <= k < r ==> !OccursAt(s, pat, k)
    decreases |s| - start
  {
    if start + |pat| > |s| then -1
    else if OccursAt(s, pat, start) then start
    else Find(s, pat, start + 1)
  }

  /** Python's `s.rfind(pat, 0, end)`: the last occurrence inside `s[:end]`, or -1. */
  function RFind(s: string, pat: string, end: nat): (r: int)
    requires |pat| > 0 && end <= |s|
    ensures r == -1 || (OccursAt(s, pat, r) && r + |pat| <= end)
    ensures r == -1 ==> forall k :: 0 <= k && k + |pat| <= end ==> !OccursAt(s, pat, k)
    ensures r != -1 ==> forall k :: r < k && k + |pat| <= end ==> !OccursAt(s, pat, k)
    decreases end
  {
    if end < |pat| then -1
    else if OccursAt(s, pat, end - |pat|) then end - |pat|
    else RFind(s, pat, end - 1)
  }

  // ---------------------------------------------------------------------------
  // split / join
  // ---------------------------------------------------------------------------

  /** Python's `sep.join(parts)`. */
  function Join(sep: string, parts: seq<string>): string
    decreases |parts|
  {
    if |parts| == 0 then []
    else if |parts| == 1 then parts[0]
    else parts[0] + sep + Join(sep, parts[1..])
  }

  lemma JoinAppend(sep: string, parts: seq<string>, x: string)
    requires |parts| > 0
    ensures Join(sep, parts + [x]) == Join(sep, parts) + sep + x
    decreases |parts|
  {
    if |parts| > 1 {
      assert (parts + [x])[1..] == parts[1..] + [x];
      JoinAppend(sep, parts[1..], x);
    }
  }

  /** Python's `s.split(sep)`: the pieces between non-overlapping left-to-right occurrences. */
  function Split(s: string, sep: string): (r: seq<string>)
    requires |sep| > 0
    ensures |r| >= 1
    ensures Join(sep, r) == s
    ensures forall k :: 0 <= k < |r| ==> forall i :: !OccursAt(r[k], sep, i)
    decreases |s|
  {
    var i := Find(s, sep, 0);
    if i < 0 then [s]
    else
      var head := s[..i];
      var rest := Split(s[i + |sep|..], sep);
      assert s == head + sep + s[i + |sep|..];
      forall j | 0 <= j && j + |sep| <= |head| ensures OccursAt(head, sep, j) == OccursAt(s, sep, j) {
        assert head[j..j + |sep|] == s[j..j + |sep|];
      }
      [head] + rest
  }

  /** Number of occurrences of one character. */
  function CharCount(s: string, c: char): nat
    decreases |s|
  {
    if |s| == 0 then 0 else (if s[0] == c then 1 else 0) + CharCount(s[1..], c)
  }

  /** Splitting on a single character gives one more piece than there are occurrences. */
  lemma {:induction false} SplitCharPieces(s: string, c: char)
    ensures |Split(s, [c])| == CharCount(s, c) + 1
    decreases |s|
  {
    var i := Find(s, [c], 0);
    if i < 0 {
      forall k | 0 <= k < |s| ensures s[k] != c { assert !OccursAt(s, [c], k); assert s[k..k + 1] == [s[k]]; }
      NoCharNoCount(s, c);
    } else {
      var rest := s[i + 1..];
      assert Split(s, [c]) == [s[..i]] + Split(rest, [c]);
      SplitCharPieces(rest, c);
      forall k | 0 <= k < i ensures s[..i][k] != c { assert !OccursAt(s, [c], k); assert s[k..k + 1] == [s[k]]; }
      NoCharNoCount(s[..i], c);
      assert s[i..i + 1] == [c];
      assert s == s[..i] + ([c] + rest);
      CharCountConcat(s[..i], [c] + rest, c);
      assert CharCount([c] + rest, c) == 1 + CharCount(rest, c) by { assert ([c] + rest)[1..] == rest; }
    }
  }

  lemma NoCharNoCount(s: string, c: char)
    requires forall k :: 0 <= k < |s| ==> s[k] != c
    ensures CharCount(s, c) == 0
    decreases |s|
  {
    if |s| > 0 {
      NoCharNoCount(s[1..], c);
    }
  }

  lemma CharCountConcat(a: string, b: string, c: char)
    ensures CharCount(a + b, c) == CharCount(a, c) + CharCount(b, c)
    decreases |a|
  {
    if |a| == 0 {
      assert a + b == b;
    } else {
      assert (a + b)[0] == a[0];
      assert (a + b)[1..] == a[1..] + b;
      CharCountConcat(a[1..], b, c);
    }
  }

  /** Python's `s.count(pat)`: non-overlapping occurrences, left to right. */
  function Count(s: string, pat: string): nat
    requires |pat| > 0
  {
    |Split(s, pat)| - 1
  }

  // ---------------------------------------------------------------------------
  // decimal rendering (Python's `str(n)` for n >= 0)
  // ---------------------------------------------------------------------------

  predicate IsDigit(c: char) {
    '0' <= c <= '9'
  }

  function DigitChar(d: nat): (c: char)
    requires d < 10
    ensures IsDigit(c) && c as int - '0' as int == d
  {
    ('0' as int + d) as char
  }

  function NatToString(n: nat): (r: string)
    ensures |r| >= 1
    ensures forall k :: 0 <= k < |r| ==> IsDigit(r[k])
    decreases n
  {
    if n < 10 then [DigitChar(n)] else NatToString(n / 10) + [DigitChar(n % 10)]
  }

  /** Reads a string of decimal digits back as a number. */
  function DigitsValue(s: string): nat
    requires forall k :: 0 <= k < |s| ==> IsDigit(s[k])
    decreases |s|
  {
    if |s| == 0 then 0
    else
      assert IsDigit(s[|s| - 1]);
      DigitsValue(s[..|s| - 1]) * 10 + (s[|s| - 1] as int - '0' as int)
  }

  lemma {:induction false} NatToStringRoundTrip(n: nat)
    ensures DigitsValue(NatToString(n)) == n
    decreases n
  {
    if n >= 10 {
      var r := NatToString(n);
      NatToStringRoundTrip(n / 10);
      assert r[..|r| - 1] == NatToString(n / 10);
    }
  }

  /** Python's `c * n` for a one-character string. */
  function Repeat(c: char, n: nat): (r: string)
    ensures |r| == n && forall k :: 0 <= k < n ==> r[k] == c
  {
    seq(n, _ => c)
  }

  // ---------------------------------------------------------------------------
  // list idioms
  // ---------------------------------------------------------------------------

  /** The concatenation of a list of lists. */
  function Flatten<T>(xss: seq<seq<T>>): seq<T>
    decreases |xss|
  {
    if |xss| == 0 then [] else xss[0] + Flatten(xss[1..])
  }

  lemma FlattenAppend<T>(a: seq<seq<T>>, b: seq<seq<T>>)
    ensures Flatten(a + b) == Flatten(a) + Flatten(b)
    decreases |a|
  {
    if |a| == 0 {
      assert a + b == b;
    } else {
      assert (a + b)[1..] == a[1..] + b;
      FlattenAppend(a[1..], b);
    }
  }

  lemma StrippedIsFixed(s: string)
    requires IsStripped(s)
    ensures Strip(s) == s
  {
    StripIsUniqueTrim(s, 0, |s|);
    assert s[0..|s|] == s;
  }

  /** Python's `[p.strip() for p in pieces if p.strip()]`. */
  function NonBlankStripped(pieces: seq<string>): (r: seq<string>)
    ensures |r| <= |pieces|
    ensures forall k :: 0 <= k < |r| ==> r[k] != [] && IsStripped(r[k])
    decreases |pieces|
  {
    if |pieces| == 0 then []
    else
      var p := Strip(pieces[0]);
      var rest := NonBlankStripped(pieces[1..]);
      if p == [] then rest else [p] + rest
  }

  // ---------------------------------------------------------------------------
  // split / join round trip
  // ---------------------------------------------------------------------------

  /** `c not in s`. */
  predicate Excludes(s: string, c: char) {
    forall k :: 0 <= k < |s| ==> s[k] != c
  }

  /** A one-character pattern occurs exactly where that character stands. */
  lemma OccursCharAt(s: string, c: char, i: int)
    ensures OccursAt(s, [c], i) <==> 0 <= i < |s| && s[i] == c
  {
    if 0 <= i < |s| {
      assert s[i..i + 1] == [s[i]];
    }
  }

  /** Splitting a join on a character that no part contains gives the parts back. */
  lemma {:induction false} SplitJoin(parts: seq<string>, c: char)
    requires |parts| >= 1 && forall k :: 0 <= k < |parts| ==> Excludes(parts[k], c)
    ensures Split(Join([c], parts), [c]) == parts
    decreases |parts|
  {
    var s := Join([c], parts);
    var i := Find(s, [c], 0);
    if |parts| == 1 {
      if i >= 0 {
        OccursCharAt(s, c, i);
      }
    } else {
      var first := parts[0];
      var rest := Join([c], parts[1..]);
      assert s == first + [c] + rest;
      OccursCharAt(s, c, |first|);
      if i >= 0 {
        OccursCharAt(s, c, i);
      }
      assert i == |first|;
      assert s[..i] == first;
      assert s[i + 1..] == rest;
      SplitJoin(parts[1..], c);
    }
  }

  /** Joining stripped parts with a separator that neither starts nor ends
      with whitespace gives a stripped string. */
  lemma {:induction false} JoinStripped(sep: string, parts: seq<string>)
    requires |sep| > 0 && !IsSpace(sep[0]) && !IsSpace(sep[|sep| - 1])
    requires forall k :: 0 <= k < |parts| ==> IsStripped(parts[k])
    ensures IsStripped(Join(sep, parts))
    decreases |parts|
  {
    if |parts| > 1 {
      var rest := Join(sep, parts[1..]);
      JoinStripped(sep, parts[1..]);
      var s := parts[0] + sep + rest;
      assert s[0] == if parts[0] != [] then parts[0][0] else sep[0];
      assert s[|s| - 1] == if rest != [] then rest[|rest| - 1] else sep[|sep| - 1];
    }
  }

  /** Python's `s[:n]` for `n >= 0`. */
  function Prefix(s: string, n: nat): (r: string)
    ensures |r| == if n < |s| then n else |s|
    ensures r == s[..|r|]
  {
    if n < |s| then s[..n] else s
  }

  /** Splitting at the first occurrence: the piece before it, then the split of the rest. */
  lemma SplitAtFirst(s: string, pat: string, i: nat)
    requires |pat| > 0 && OccursAt(s, pat, i)
    requires forall k :: 0 <= k < i ==> !OccursAt(s, pat, k)
    ensures Find(s, pat, 0) == i
    ensures Split(s, pat) == [s[..i]] + Split(s[i + |pat|..], pat)
  {
  }

  /** Stripping removes exactly the whitespace padding around a stripped text. */
  lemma StripPadded(pre: string, v: string, post: string)
    requires AllSpace(pre) && AllSpace(post) && IsStripped(v)
    ensures Strip(pre + v + post) == v
  {
    var s := pre + v + post;
    assert s[..|pre|] == pre && s[|pre| + |v|..] == post;
    if v != [] {
      assert s[|pre|] == v[0] && s[|pre| + |v| - 1] == v[|v| - 1];
    }
    StripIsUniqueTrim(s, |pre|, |pre| + |v|);
    assert s[|pre|..|pre| + |v|] == v;
  }

  /** Joining two non-empty lists puts one separator between their joins. */
  lemma {:induction false} JoinConcat(sep: string, a: seq<string>, b: seq<string>)
    requires |a| > 0 && |b| > 0
    ensures Join(sep, a + b) == Join(sep, a) + sep + Join(sep, b)
    decreases |a|
  {
    if |a| == 1 {
      assert (a + b)[1..] == b;
    } else {
      assert (a + b)[1..] == a[1..] + b;
      JoinConcat(sep, a[1..], b);
    }
  }

  /** Joining a list is joining its head to the join of its tail. */
  lemma JoinCons(sep: string, x: string, rest: seq<string>)
    requires |rest| > 0
    ensures Join(sep, [x] + rest) == x + sep + Join(sep, rest)
  {
    assert ([x] + rest)[1..] == rest;
  }
}

=== FILE: wrappers.dfy ===
/** Failure-carrying values used wherever the Python code returns `None`
    or raises an exception that a caller catches. */
module Wrappers {

  datatype Option<+T> = None | Some(value: T) {
    function GetOr(default: T): T {
      match this
      case Some(v) => v
      case None => default
    }
  }

  /** `Err` stands for a raised exception; its payload is the exception's message. */
  datatype Result<+T, +E> = Ok(value: T) | Err(error: E)
}
